=== FILE: README.md ===
# A verified model of a Linux/arm64 performance-experiment toolkit

The repository is a set of small experiments and helper scripts for measuring kernel and CPU
behaviour on Linux, mostly on arm64. This project models the pieces that carry logic:

- **LSE atomics** (`LSE/`): a per-CPU counter incremented with an LL/SC
  (`LDXR`/`STXR`) retry loop or with the Large System Extension instructions `STADD`/`LDADD`.
  It covers the per-CPU latency benchmark (warm-up, timed batches, sort, percentiles) and
  the parallel variant, in which threads meet at shared barriers.
- **sbench** and **ctx_bench**: a thread-spawning scheduler benchmark, and a `getpid`
  round-trip timer on the arm64 virtual counter.
- **maps/**: `/proc/<pid>/smaps` and `/proc/<pid>/maps` readers that total anonymous
  against file-backed memory, group memory by `VmFlags`, sort mappings by size, and sum
  mapped ranges.
- **Decoders**: the binary bit-field printer (`bin/decode_bin.py`), the `VmFlags`
  page-fault flag decoder, and the IA32_APIC_BASE (MSR 0x1b) APIC-mode reader.
- **Result scrapers**: sysbench fileio output to CSV, vDSO benchmark logs to a table, and
  the `perf list`/`perf stat` driver.
- **arm/page_uncharge**: the cgroup-v2 hierarchy test, covering paths, setup, moves, cleanup
  and the page-touching allocator. **likely/**: the branch-hint demonstration.

Most source files are one Dafny module with the same structure. The exceptions: `maps/sort_smaps.py` is spread over `SmapsBlocks`, `SmapsParse`, `StableSort` and `SortSmaps`; `maps/anonymous_vs_file.py` shares its entry reader `SmapsEntries` with `maps/memory_type.py`; and `Ps` holds the `find_pid` of all four `maps/` scripts. Hardware readings, clocks,
`malloc`, `pthread_create`, system-call results and the text of files and command outputs
are parameters. Every operation is a function or a method whose contract relates its result
to its inputs. Lemmas tie each operation to a partner: an inverse (rendering and parsing a
row), an invariant, or an independent reference definition. Shared pieces are in `Wrappers`
(`Option`, `Result`), `Text` (Python-like string operations on ASCII), `Bits`, `Seqs`,
`Dict`, `Collect`, `StableSort`, `Getopt` and `Machine`.

Where the code has a defect, the module models it as written, and a corrected member
carries the intended property (see "## Findings"). The uninitialised `result` in the
vDSO benchmark's timing loop (`vdso_bench/vdso_bench.c:99-110`) is not modelled. Only the
line format that benchmark prints (`vdso_bench/vdso_bench.c:162`) is used, as the input of
the parser.

## Model

| member | source | states |
|---|---|---|
| Atomics.LlscAdd | LSE/percpu_bench.c:18-29 | a value is stored only by the first STXR that succeeds, after every earlier attempt failed, and it is that attempt's load plus `val` modulo 2^64; with no successful STXR nothing is stored |
| Atomics.VariantsAgree | LSE/percpu_bench.c:18-51 | LL/SC (however many STXRs fail first), STADD and LDADD all leave `old + val` modulo 2^64 in the counter; LDADD also returns the old value |
| Atomics.TimeNs | LSE/percpu_bench_lib.c:18-23 | the reading is tv_sec·10^9 + tv_nsec exactly as long as that stays below 2^64 |
| Atomics.BatchLatency | LSE/percpu_bench.c:67 | the latency is non-negative and, times the batch size, gives the elapsed nanoseconds, taken modulo 2^64 when the end reading is below the start |
| Atomics.TimeNsOrdered | LSE/percpu_bench_lib.c:18-23 | until the count overflows, a later timespec gives a later reading, and latency times batch size is the true elapsed time |
| Atomics.AddLoop | LSE/percpu_bench_lib.c:77-80 | a warmup loop of `size` adds of 1 leaves the counter `size` higher, modulo 2^64 |
| Atomics.MeasurePhase | LSE/percpu_bench.c:62-68 | each batch's latency comes from its own pair of clock readings, and the counter advances by batches × size modulo 2^64 |
| PercpuBench.IterationConstants | LSE/percpu_bench_lib.h:11-14 | the 100 measured batches of 1,000,000 adds cover ITERATIONS exactly, and warmup is 100,000 adds |
| PercpuBench.RunCoreBenchmark | LSE/percpu_bench.c:54-87 | the six-argument version: LL/SC, then STADD, then LDADD, each with 100 latencies from its own clock readings and each counter advanced by ITERATIONS |
| PercpuBench.RunBenchmarkOnCpu | LSE/percpu_bench_lib.c:61-196 | a failed pin returns before any add; otherwise all five counters are warmed up by WARMUP_ITERATIONS and reset to 0; any failed allocation frees all five arrays and prints nothing; otherwise each variant's row is the p50/p95/p99 of its sorted latencies, in order |
| PercpuBench.RowFromSamples | LSE/percpu_bench_lib.c:149-158 | a printed row's p50, p95 and p99 are samples of that benchmark, elements 49, 94 and 98 of any ascending arrangement of its latencies |
| PercpuBench.RunAllCpus | LSE/percpu_bench.c:89-115 | a CPU count of 0 or less exits with status 1 and benchmarks nothing; otherwise CPUs 0 to n-1 are run in ascending order and the status is 0 |
| Stats.Compare | LSE/percpu_bench_lib.c:25-34 | the answer is -1, 0 or 1 exactly when the first value is below, equal to or above the second |
| Stats.CompareIsOrder | LSE/percpu_bench_lib.c:25-34 | the comparator is antisymmetric, reflexive and transitive |
| Stats.AscendingMeansLeq | LSE/percpu_bench_lib.c:137-146 | ascending by the comparator is the same as every earlier element being at most every later one |
| Stats.SortAscending | LSE/percpu_bench_lib.c:137-146 | the sorted array is ascending and a permutation of the input |
| Stats.AscendingPermutationUnique | LSE/percpu_bench_lib.c:137-146 | two ascending permutations of the same values are equal, so any correct `qsort` run gives `SortAscending` |
| Stats.PercentileIndex | LSE/percpu_bench_lib.c:39 | the index is the floor of p·(count−1)/100, and it is below count whenever count ≥ 1 and p ≤ 100; with count 0, `count - 1` wraps and the index is the floor of p·(2^64−1)/100 |
| Stats.Percentile | LSE/percpu_bench_lib.c:36-41 | the read is in bounds exactly when the index is below count, always for count ≥ 1 and p ≤ 100 and never for count 0; a value read is an element of the array |
| Stats.PercentileIndexMonotone | LSE/percpu_bench_lib.c:39 | a larger percentile never gives an earlier index |
| Stats.PercentileMonotone | LSE/percpu_bench_lib.c:36-41 | on an ascending array the selected value grows with the percentile |
| Stats.PercentileExtremes | LSE/percpu_bench_lib.c:36-41 | p = 0 selects the minimum and p = 100 the maximum |
| Stats.PercentileOfNothing | LSE/percpu_bench_lib.c:39-40 | with count 0, `count - 1` wraps to 2^64−1 and every percentile reads out of bounds |
| Stats.ReportTripleOf100 | LSE/percpu_bench_lib.c:152-157 | with 100 ascending samples the printed p50, p95 and p99 are elements 49, 94 and 98, in ascending order |
| ParallelBench.IterationConstants | LSE/parallel_atomic_bench.c:20-24 | warmup is 1,000 adds, a batch 10,000, and each thread adds 1,001,000 times per counter |
| ParallelBench.Waits | LSE/parallel_atomic_bench.c:115-179 | counted from the thread's actions: as written, a thread that fails to pin reaches no barrier, and a pinned one reaches the first three, and the fourth only when both allocations succeed; the repaired thread reaches all four |
| ParallelBench.TraceCounts | LSE/parallel_atomic_bench.c:115-179 | the thread's actions, case by case: its number of barrier waits, the adds it makes to each counter, and its work without the waits |
| ParallelBench.TraceAdds | LSE/parallel_atomic_bench.c:115-179 | as written or repaired, the thread's actions add `ThreadAdds` to each counter |
| ParallelBench.RepairKeepsWork | LSE/parallel_atomic_bench.c:115-179 | the repaired thread does the same adds, in the same order, as the thread as written; only waits are added |
| ParallelBench.ThreadAdds | LSE/parallel_atomic_bench.c:115-179 | a thread adds 1,001,000 times to each counter exactly when it measures, and nothing when it fails to pin |
| ParallelBench.ThreadBenchmark | LSE/parallel_atomic_bench.c:115-179 | each latency array is kept exactly when the thread pinned and that allocation succeeded; a measuring thread's latencies come from its own clock readings |
| ParallelBench.ArrivalsAll | LSE/parallel_atomic_bench.c:129-167 | all threads reach barrier k exactly when each waits at least k times, and none do exactly when each waits fewer |
| ParallelBench.RunBarriers | LSE/parallel_atomic_bench.c:129-167 | the run completes exactly when every barrier is reached by all threads or by none; otherwise it hangs at the first barrier reached by some but not all |
| ParallelBench.InStepPinning | LSE/parallel_atomic_bench.c:122-145 | as written, each of the first three barriers is all-or-none exactly when the threads agree on pinning |
| ParallelBench.InStepMeasuring | LSE/parallel_atomic_bench.c:148-167 | as written, the fourth barrier is all-or-none exactly when the threads agree on reaching the measurements |
| ParallelBench.CompletesIff | LSE/parallel_atomic_bench.c:122-155 | the barriers all complete exactly when the threads agree on pinning and agree on reaching the measurements |
| ParallelBench.OneFailedPinHangs | LSE/parallel_atomic_bench.c:122-129 | two threads where one fails to pin leave the other waiting at the first barrier forever |
| ParallelBench.FixedNeverHangs | LSE/parallel_atomic_bench.c:122-167 | with the repaired thread function, each of the four barriers is reached by all threads, whatever pinning and `malloc` did |
| ParallelBench.ApplySchedule | LSE/parallel_atomic_bench.c:131-175 | any interleaving of atomic adds of 1 leaves the shared counter higher by the number of adds, modulo 2^64 |
| ParallelBench.ScheduleReachesTotal | LSE/parallel_atomic_bench.c:130-176 | however the threads' adds interleave, their number is the sum of every thread's adds |
| ParallelBench.TotalIsExpectedIff | LSE/parallel_atomic_bench.c:279-283 | the sum of adds equals threads × 1,001,000 exactly when every thread measured |
| ParallelBench.Expected | LSE/parallel_atomic_bench.c:282-283 | the printed expectation is CPUs × 1,001,000 for every CPU count an `int` holds |
| ParallelBench.Report | LSE/parallel_atomic_bench.c:236-277 | a row is printed for thread i exactly when both its arrays exist, rows are in thread order, and each row's triples are its sorted latencies' percentiles |
| ParallelBench.ReportOrdered | LSE/parallel_atomic_bench.c:254-273 | in every printed row p50 ≤ p95 ≤ p99 for both variants |
| ParallelBench.RunThreads | LSE/parallel_atomic_bench.c:218-234 | one result per thread, complete exactly when that thread measured |
| ParallelBench.CountersAtEnd | LSE/parallel_atomic_bench.c:279-283 | the final counter is the total of all adds and equals the printed expectation exactly when every thread measured |
| ParallelBench.RunParallel | LSE/parallel_atomic_bench.c:181-292 | no CPUs or a failed allocation exits 1; a failed `pthread_create` stops at the first failing thread; an inconsistent barrier count hangs; otherwise both counters equal the sum of all adds, which equals the printed expectation exactly when every thread measured, and a row is printed for exactly the threads that measured |
| ParallelBench.Start | LSE/parallel_atomic_bench.c:195-229 | exit 1 for no CPUs or a NULL array; otherwise threads are created in order, stopping at the first failing `pthread_create`; all threads run exactly when nothing failed |
| ParallelBench.Finish | LSE/parallel_atomic_bench.c:232-291 | once the threads are joined, both counters hold the total adds, the expectation is CPUs × 1,001,000, they agree exactly when every thread measured, and a row is printed for exactly those threads |
| ParallelBench.RunParallelRepaired | LSE/parallel_atomic_bench.c:181-292 | `main` with the repaired thread function, checking the barriers as `RunParallel` does, never hangs: it finishes exactly when the arrays and every thread are created, and a thread that gave up only loses its row |
| Sbench.GetPid | sbench/sbench.c:23-41 | the count returned is the number of `getpid` results that were not 0; a failed allocation returns NULL |
| Sbench.CreateThreads | sbench/sbench.c:43-79 | any failed `pthread_create` gives -1; otherwise the result, in millions, is the total of the counts the threads returned, skipping threads that returned NULL, and it is never negative |
| Sbench.SumMillionsIsTotal | sbench/sbench.c:63-74 | adding each thread's count divided by a million is dividing the total by a million |
| Sbench.TimesliceMs | sbench/sbench.c:131 | the timeslice is defined exactly when `1000*secs` fits an `int`, and it is then 10 ms per second of run time |
| Sbench.Throughput | sbench/sbench.c:135 | the throughput exists exactly when threads × timeslice is not 0, and times that product it gives 1000 × calls |
| Sbench.Latency | sbench/sbench.c:137 | the latency exists exactly when the throughput is not 0, and latency × throughput = 1000 |
| Sbench.RoundsFinite | sbench/sbench.c:131-137 | with positive threads and seconds and any calls made, both figures exist and multiply to 1000 |
| Sbench.Summarise | sbench/sbench.c:94-121 | min ≤ p50 ≤ p95, all three are taken from the data, and min is at most every sample |
| Sbench.SummaryIndices | sbench/sbench.c:102-120 | the printed triple is elements 0, 50 and 95 of any ascending arrangement of the rounds, so the order `qsort` leaves equal values in does not matter |
| Sbench.SummaryIgnoresOrder | sbench/sbench.c:94-103 | the order the rounds came in does not change what is printed |
| Sbench.FixedIndexVsNearestRank | sbench/sbench.c:114-119 | for p from 1 to 100 the slot read is one above the index LSE's percentile uses on 100 samples, and it is in range exactly for p below 100 |
| Sbench.RunForSecs | sbench/sbench.c:122-147 | round i's throughput and latency are computed from its own calls and timeslice; a timeslice that overflows produces nothing; the report exists exactly when every figure is finite and is the summary of each array |
| Sbench.ParseOptions | sbench/sbench.c:165-202 | `-h` stops the program; otherwise threads and timeout are the last `-p`/`-t` arguments through `atoi` (default 1), and verbose/raw are set exactly when `-v`/`-r` appear |
| CtxBench.CounterFrequency | ctx_bench/ctx_bench_arm.c:23-27 | the frequency is below 2^32, agrees with the register in its low 32 bits, and equals it when the register already fits |
| CtxBench.ElapsedNs | ctx_bench/ctx_bench_arm.c:29-48 | a zero frequency divides by zero; above 1 GHz the result is 0; without overflow it is the ticks times the truncated factor, so a multiple of that factor |
| CtxBench.ElapsedNsExact | ctx_bench/ctx_bench_arm.c:45 | the reference conversion ⌊ticks·10^9/freq⌋, bracketed by its defining inequalities |
| CtxBench.ElapsedAtOneGhz | ctx_bench/ctx_bench_arm.c:45 | at 1 GHz one tick is one nanosecond |
| CtxBench.ElapsedNeverAbove | ctx_bench/ctx_bench_arm.c:45 | the early truncation never reports more than the exact conversion, and reports exactly it when the frequency divides 10^9 |
| CtxBench.TruncatedFactorAt24Mhz | ctx_bench/ctx_bench_arm.c:45 | at 24 MHz, one second of ticks is reported as 984,000,000 ns against the exact 1,000,000,000 |
| CtxBench.WrapSumIsSumMod | ctx_bench/ctx_bench_arm.c:54-60 | the `uint64_t` accumulator holds the true sum modulo 2^64 |
| CtxBench.CollectGetpid | ctx_bench/ctx_bench_arm.c:52-65 | `count` averages, each being its own round's wrapped sum of a million samples divided by a million (the accumulator is reset between rounds) |
| CtxBench.AverageBounds | ctx_bench/ctx_bench_arm.c:57-62 | without overflow a round's average is the floor of the true mean and at most the largest sample |
| CtxBench.RoundCount | ctx_bench/ctx_bench_arm.c:67-81 | 5 rounds without `-c`; otherwise `atoi` of the last `-c` argument as a `size_t`, so a negative value wraps to 2^64 plus that value |
| Ps.Candidates | maps/sort_smaps.py:20-26 | only stripped `ps` lines that mention the name and neither excluded word are kept, in order |
| Ps.CandidatesExact | maps/sort_smaps.py:20-26 | every candidate line of the input is kept, and every kept line comes from the input |
| Ps.NoCandidatesIff | maps/sort_smaps.py:20-35 | there is no candidate exactly when no line qualifies, the case where `pids[0]` raises |
| Ps.CandidatePids | maps/sort_smaps.py:24-26 | PIDs are read exactly when every candidate has a second field, and each PID is that field; otherwise the failing line is reported |
| Ps.FindUniquePid | maps/sort_smaps.py:14-35 | no result exactly when there is no candidate; found exactly when there is one candidate with a second field, which is the PID; ambiguous (the script exits -1) exactly when there are several candidates and every one has a second field |
| Ps.UniqueIffOneCandidate | maps/anonymous_vs_file.py:10-27 | when every line has two fields, a PID is found exactly when there is one candidate, and it is ambiguous exactly when there are more |
| Ps.FindFirstPid | maps/parse_procmaps.py:10-19 | nothing found exactly when no line qualifies; otherwise the first qualifying line gives its second field, or raises when it has none |
| SmapsEntries.FindEntrySize | maps/anonymous_vs_file.py:29-34 | the entry size is one past the first line containing "VmFlags:", and it is missing exactly when no line contains it |
| SmapsEntries.ConcatChunks | maps/anonymous_vs_file.py:48-50 | the slices `lines[i:i+n]` put back together give the lines |
| SmapsEntries.ChunksOfMultiple | maps/anonymous_vs_file.py:44-50 | when the line count is a multiple of the entry size, every slice has exactly that size |
| SmapsEntries.FieldLine | maps/anonymous_vs_file.py:63-75 | a body line is stored only when it has exactly one ':'; its key is the stripped text before it, and only "VmFlags" keeps a text value |
| SmapsEntries.EntryName | maps/anonymous_vs_file.py:56-61 | the name is the sixth whitespace field of the header when there is one, otherwise the script's default |
| SmapsEntries.ReadEntries | maps/anonymous_vs_file.py:36-52 | failure when no line contains "VmFlags:"; on success the line count is a multiple of the entry size and there is one entry per slice |
| SmapsEntries.EntriesNamed | maps/anonymous_vs_file.py:55-77 | every entry read has a "name" key and no key twice |
| SmapsEntries.KbFieldLine | maps/anonymous_vs_file.py:70-75 | a "<key>: <n> kB" line stores n·1024 under the key |
| SmapsEntries.FlagsFieldLine | maps/anonymous_vs_file.py:67-69 | a "VmFlags:" line stores its stripped flag text |
| SmapsEntries.UniformEntries | maps/anonymous_vs_file.py:29-52 | kernel output made of entries of one size, ending in their "VmFlags:" line, reads back entry by entry |
| SmapsEntries.IntField | maps/anonymous_vs_file.py:103-104 | reading a size succeeds exactly when the key holds a number |
| AnonVsFile.Step | maps/anonymous_vs_file.py:98-104 | one entry is added exactly when it has numeric "Size" and "Rss" |
| AnonVsFile.TallySucceeds | maps/anonymous_vs_file.py:98-104 | the loop completes exactly when every entry is countable |
| AnonVsFile.TallyTotals | maps/anonymous_vs_file.py:98-104 | each bucket ends as its start plus the sizes of the entries of its kind |
| AnonVsFile.ParseMemorySums | maps/anonymous_vs_file.py:83-106 | `parse_memory` fails exactly on an entry it cannot count; otherwise "anon" and "file" hold the sums over their entries, starting from 0 |
| AnonVsFile.KindsPartition | maps/anonymous_vs_file.py:99-101 | every entry is counted in exactly one of the two buckets |
| AnonVsFile.CeilDiv | maps/anonymous_vs_file.py:134 | the result is the ceiling of a/b, characterised by its bracketing inequalities for either sign of b |
| AnonVsFile.Ratio | maps/anonymous_vs_file.py:132-134 | -1 when nothing is resident, otherwise the smallest integer at least mapped ÷ resident |
| AnonVsFile.RunWith | maps/anonymous_vs_file.py:10-136 | for any list of anonymous names: exits -1 exactly when the name is ambiguous or the found process's line count is not a multiple of the entry size; crashes when no candidate or a short candidate line is found; prints exactly when the process is found and every entry read can be counted, and then the lines are "file" then "anon", each the per-kind sums over the entries |
| AnonVsFile.Run | maps/anonymous_vs_file.py:10-136 | the script as written, testing names against `["Anonymous", "stack", "heap", "vvar"]`: exits -1 exactly when the name is ambiguous or the entries are misaligned, crashes on no candidate or a short line, prints exactly when the process is found and every entry is countable, and the report holds the per-kind sums under that list |
| AnonVsFile.RunIntended | maps/anonymous_vs_file.py:10-136 | corrected: the same flow with the same exit, crash and print conditions, the report's per-kind sums taken under the bracketed names the kernel prints |
| AnonVsFile.TallySameKinds | maps/anonymous_vs_file.py:98-104 | two name lists that classify every entry alike run the loop to the same result |
| AnonVsFile.RunsAgreeWithoutSpecialMappings | maps/anonymous_vs_file.py:86-136 | the script as written and the corrected flow end alike whenever no entry read is classified differently by the two lists |
| AnonVsFile.StackHeaderName | maps/anonymous_vs_file.py:57-61 | the header line of the stack mapping names its entry "[stack]" |
| AnonVsFile.StackCountedAsFile | maps/anonymous_vs_file.py:86-100 | with the names as written, the stack mapping is counted as file-backed |
| AnonVsFile.StackCountedAsAnon | maps/anonymous_vs_file.py:86-100 | with the bracketed names the kernel prints, the stack mapping is counted as anonymous |
| MemoryType.Filters | maps/memory_type.py:104 | the filters are "rd", "wr", "ex", "sh" followed by every `--filters` value in order |
| MemoryType.InitFromGet | maps/memory_type.py:85-90 | after initialisation every listed filter holds zero usage, and other keys are unchanged |
| MemoryType.FlagsOf | maps/memory_type.py:94 | the test is possible exactly when "VmFlags" holds text |
| MemoryType.Occurrences | maps/memory_type.py:93 | a filter listed at least once has a positive count, at most the list length |
| MemoryType.ApplyGet | maps/memory_type.py:94-96 | one pass adds the entry's share only to the filter it handles |
| MemoryType.ApplyNotMatching | maps/memory_type.py:94 | an entry whose flags lack the filter changes nothing |
| MemoryType.ScanAdds | maps/memory_type.py:92-96 | each filter ends with its start plus its number of listings times the sums over the matching entries |
| MemoryType.ScanKeys | maps/memory_type.py:92-96 | the loops add no key |
| MemoryType.ParseFiltersTotals | maps/memory_type.py:84-98 | the result holds exactly the listed filters, each with listings × the resident and mapped sums of the entries whose flags contain it |
| MemoryType.ParseFiltersSucceeds | maps/memory_type.py:84-98 | `parse_filters` completes exactly when every entry is acceptable for every filter |
| MemoryType.Line | maps/memory_type.py:124-130 | the ratio is printed exactly when rss > 0, and it is the floor of vsize ÷ rss |
| MemoryType.Report | maps/memory_type.py:124-130 | one line per result key, in key order |
| MemoryType.Run | maps/memory_type.py:38-130 | exits -1 exactly on an ambiguous name or, for the process found, a line count that is not a multiple of the entry size; crashes when no candidate or a short candidate line is found; prints exactly when the process is found and every entry can be read and tested, one line per filter from the filter sums |
| MemoryType.RepeatedFilterDoubles | maps/memory_type.py:93-104 | `--filters rd` lists "rd" twice and doubles its totals |
| SmapsBlocks.SplitBlocksJoin | maps/sort_smaps.py:39 | the blocks joined with newlines give back the text |
| SmapsBlocks.SplitBlocksCut | maps/sort_smaps.py:39 | no block contains a cut point, and every block after the first opens with an address range |
| SmapsBlocks.SplitBlocksOfJoin | maps/sort_smaps.py:39 | splitting blocks that were joined at such cut points gives back the blocks |
| SmapsParse.Fields | maps/sort_smaps.py:47 | the `(\S+)\s+` groups are non-empty and space-free, and what follows does not start with whitespace |
| SmapsParse.FieldsOfLay | maps/sort_smaps.py:47 | tokens separated by whitespace read back as those tokens |
| SmapsParse.MatchHeader | maps/sort_smaps.py:47-55 | a matched header has hexadecimal addresses, a "major:minor" device and a decimal inode |
| SmapsParse.MatchKernelHeader | maps/sort_smaps.py:47-55 | the header line the kernel prints for a mapping matches, and every group reads back |
| SmapsParse.ConvertValue | maps/sort_smaps.py:63-67 | a value stays text unless it ends in " kB" or is all digits, and only a " kB" value can fail |
| SmapsParse.ParseKbLine | maps/sort_smaps.py:59-69 | a "<key>: <n> kB" line stores n (in kB) under the key |
| SmapsParse.ParseCountLine | maps/sort_smaps.py:59-69 | a "<key>: <n>" line stores n |
| SmapsParse.ParseTextLine | maps/sort_smaps.py:59-69 | any other value is stored as its stripped text |
| SmapsParse.HeaderBlock | maps/sort_smaps.py:47-55 | the header contributes no key when it does not match, and no key twice |
| SmapsParse.BlockContents | maps/sort_smaps.py:42-71 | a block parses exactly when every body line has a ':'; each key then holds its last body value, or else the header's |
| SmapsParse.ParseBlocks | maps/sort_smaps.py:38-73 | one parsed block per block, in order, and failure exactly when some block fails |
| SortSmaps.SizeKey | maps/sort_smaps.py:81 | a missing "Size" sorts as 0, and only a text "Size" has no integer key |
| SortSmaps.SmapsSorted | maps/sort_smaps.py:76-82 | the result is sorted by "Size", largest first, is a permutation of the parsed blocks, and keeps equal sizes in input order |
| SortSmaps.Run | maps/sort_smaps.py:128-140 | exits -1 exactly on an ambiguous name, and prints the sorted blocks exactly when one process is found and its smaps parse |
| StableSort.SortDescCorrect | maps/sort_smaps.py:81 | `sorted(..., reverse=True)` gives a descending permutation that keeps equal keys in input order |
| ProcMaps.MemSizeOfRange | maps/parse_procmaps.py:21-30 | a line starting with the range `start-end` in hexadecimal contributes end − start |
| ProcMaps.KernelLineArea | maps/parse_procmaps.py:23 | the area is the stripped last space-separated field of the line |
| ProcMaps.RangeOfHex | maps/parse_procmaps.py:24-25 | the range text the kernel prints reads back as end − start |
| ProcMaps.ReadProcMaps | maps/parse_procmaps.py:36-39 | the total grows by the sum of the line sizes and the count by the number of lines; the first line that does not parse raises |
| ProcMaps.RunMain | maps/parse_procmaps.py:41-54 | "Pid not found" exactly when no process qualifies; with `--sum` the total in GiB and the line count, otherwise one listed row per line; a short `ps` line or a bad maps line crashes |
| DecodeBin.FindMsb | bin/decode_bin.py:5-11 | -1 exactly for 0; otherwise the index of the highest set bit of \|n\|, i.e. 2^r ≤ \|n\| < 2^(r+1) |
| DecodeBin.IsSet | bin/decode_bin.py:13-15 | the answer is bit i of the two's-complement value |
| DecodeBin.Name | bin/decode_bin.py:17-21 | the description entry when the index is in range, otherwise the index itself in decimal |
| DecodeBin.Pad | bin/decode_bin.py:26-35 | `{: >6}`: spaces on the left up to six characters, and the text is kept whole when longer |
| DecodeBin.PyHex | bin/decode_bin.py:38 | Python's `hex`: "0x" and lower-case digits, with a leading '-' for a negative number |
| DecodeBin.Header | bin/decode_bin.py:23-30 | the header is two lines, the rule being 8·msb '=' characters |
| DecodeBin.Max | bin/decode_bin.py:53 | the widest number is one of the arguments and at least each of them |
| DecodeBin.ParseAllSucceeds | bin/decode_bin.py:47 | the arguments parse exactly when each does, and the numbers are in argument order |
| DecodeBin.Run | bin/decode_bin.py:42-57 | no number is a usage error; a bad number is reported; otherwise two header lines and one row per number |
| DecodeBin.BitColsValue | bin/decode_bin.py:32-37 | the columns of a row, read as binary, give the number modulo 2^(msb+1) |
| DecodeBin.RowReadsBack | bin/decode_bin.py:32-38 | a row for a number between 0 and the maximum lists its bits, which read back as the number, followed by it in decimal |
| DecodeBin.RowsReadBack | bin/decode_bin.py:53-57 | every printed row of a non-negative argument reads back as that argument |
| DecodeBin.ColumnsAlign | bin/decode_bin.py:23-37 | with names of at most six characters, every header column starts at the same offset as the matching bit column |
| VmFlags.TableMasks | page_Fault/decode.py:5-10 | every mask of the table is one power of two, except VM_NONE, which is 0 |
| VmFlags.Pass | page_Fault/decode.py:20-23 | a pass prints entry i exactly when its bit is set in the word, and clearing it changes no other bit |
| VmFlags.DecodeFromResidual | page_Fault/decode.py:20-23 | what the loop leaves has exactly the word's bits that no later table entry names |
| VmFlags.DecodeCorrect | page_Fault/decode.py:20-23 | the flags printed are, in table order, exactly those whose bit the input has; VM_NONE is never printed; the bits left are exactly the input's bits no flag names |
| VmFlags.WarnIffUndecoded | page_Fault/decode.py:25-26 | the warning appears exactly when the input has a bit no flag names |
| VmFlags.Run | page_Fault/decode.py:14-26 | fewer than two arguments gives the usage message; a hexadecimal argument gives the decoded names and a warning exactly when bits are left |
| X2Apic.ClassifyFollowsTable | examples/x2apic/read_msr.py:19-38 | the message is the table's entry for the EN bit (bit 11) and the EXTD bit (bit 10) |
| X2Apic.MessageNamesMode | examples/x2apic/read_msr.py:25-38 | the four modes have four different messages |
| X2Apic.OtherBitsIgnored | examples/x2apic/read_msr.py:19-20 | registers that agree on bits 10 and 11 give the same message |
| X2Apic.Run | examples/x2apic/read_msr.py:6-40 | any error output prints the hint and exits 1; unparsable output crashes; otherwise the message for the register's two bits |
| X2Apic.RdmsrLine | examples/x2apic/read_msr.py:17-40 | a hexadecimal line as `rdmsr` prints it is classified by its value |
| Bits.BitLength | bin/decode_bin.py:11 | `bit_length`: 0 exactly for 0, otherwise 2^(r−1) ≤ n < 2^r |
| SysbenchCsv.RunEnd | sysbench/to_csv/sysbench_to_csv.py:21 | `\s*` and `[\d\.]+` consume the longest run of their characters from the given position |
| SysbenchCsv.MatchAtGreedy | sysbench/to_csv/sysbench_to_csv.py:21-55 | on the script's pattern shape, the greedy match at a start exists whenever any match there does, has the same gap and group start, and captures at least as much |
| SysbenchCsv.SearchIsLeftmostLongest | sysbench/to_csv/sysbench_to_csv.py:21-55 | `re.search` finds a match exactly when one exists, and the one it finds starts leftmost and is longest there |
| SysbenchCsv.Capture | sysbench/to_csv/sysbench_to_csv.py:21-22 | a captured value is empty or made only of digits and dots |
| SysbenchCsv.CaptureIsMatch | sysbench/to_csv/sysbench_to_csv.py:21-55 | the field is left empty exactly when the pattern occurs nowhere; otherwise it is the group of the leftmost-longest match |
| SysbenchCsv.FieldsForced | sysbench/to_csv/sysbench_to_csv.py:21-55 | all eleven patterns have the shape on which greedy matching has no choice to make |
| SysbenchCsv.HeaderIsKeys | sysbench/to_csv/sysbench_to_csv.py:63-68 | `header` lists the eleven keys of `data` in the same order, each once |
| SysbenchCsv.ParseFileio | sysbench/to_csv/sysbench_to_csv.py:5-57 | eleven entries, keyed in the order of `data` |
| SysbenchCsv.FieldValues | sysbench/to_csv/sysbench_to_csv.py:5-57 | each value is empty exactly when its pattern does not occur, and otherwise is the leftmost-longest match's group |
| SysbenchCsv.Row | sysbench/to_csv/sysbench_to_csv.py:70-72 | the row ends in the csv module's "\r\n" terminator |
| SysbenchCsv.RowReadsBack | sysbench/to_csv/sysbench_to_csv.py:59-72 | cut at commas, the row gives back the eleven values in header order |
| VdsoParser.Field | vdso_bench/parser.py:23-25 | `line.split(' ')[n]` exists exactly when the line has more than n space-separated pieces, and holds no space |
| VdsoParser.Store | vdso_bench/parser.py:26-29 | storing a cell adds the row key if new and no other |
| VdsoParser.StoreCell | vdso_bench/parser.py:26-29 | after storing, that cell holds the value and every other cell is unchanged |
| VdsoParser.StoreTwice | vdso_bench/parser.py:26-29 | storing the same cell twice is storing it once |
| VdsoParser.ScanLineEffect | vdso_bench/parser.py:19-29 | a line without a clock name changes nothing; a line with one fails exactly when it has fewer than seven pieces, and otherwise stores its seventh piece under its fifth |
| VdsoParser.ScanLinesStores | vdso_bench/parser.py:19-29 | a file is read through exactly when every matching line is well formed, and then stores its entries in order |
| VdsoParser.LastLineWins | vdso_bench/parser.py:19-29 | a row's cell for a file holds that row's value from the file's last matching line |
| VdsoParser.OtherColumnsKept | vdso_bench/parser.py:19-29 | reading one file leaves the other files' columns alone |
| VdsoParser.ScanFilesCell | vdso_bench/parser.py:15-29 | with distinct file names, each file's column holds exactly what its own lines stored |
| VdsoParser.ReportLineStored | vdso_bench/vdso_bench.c:162 | the line `run_for_secs` prints for a clock is stored as that clock's rate in the file's column |
| VdsoParser.AlarmClockMatches | vdso_bench/parser.py:7-21 | "CLOCK_REALTIME_ALARM" is not listed but still matches, through the substring "CLOCK_REALTIME" |
| VdsoParser.AarchLineSkipped | vdso_bench/parser.py:20-21 | the line for the aarch64-specific code path names no clock and is skipped |
| VdsoParser.ColumnLabelOf | vdso_bench/parser.py:36 | a column's label is the part of the file name after its first '_' |
| VdsoParser.Labels | vdso_bench/parser.py:34-39 | the header is printed exactly when every file name has a '_', with one label per file in order |
| VdsoParser.RowValues | vdso_bench/parser.py:43-44 | a row is printed exactly when it has a value for every file, in file order |
| VdsoParser.RowReadsBack | vdso_bench/parser.py:41-46 | cut at commas, a printed row gives back each file's value |
| VdsoParser.Report | vdso_bench/parser.py:15-46 | the table is printed exactly when every file is read through, every file name has a label, and every row has a value for every file |
| PerfEvents.Command | perf/perf_them_all.py:13-19 | the command is "perf stat", then "-e" and the event for every event in order, then "sleep" and the time |
| PerfEvents.CommandReadsBack | perf/perf_them_all.py:13-19 | the events and the time can be read back from the command |
| PerfEvents.RunPerfStat | perf/perf_them_all.py:12-31 | the command is shown exactly when verbose and a dot printed exactly when not; a failure report appears exactly for a non-zero return code and names that command, code and output |
| PerfEvents.SplitLinesJoin | perf/perf_them_all.py:39 | `splitlines` gives back lines joined with newlines, with or without a final newline |
| PerfEvents.AfterMarker | perf/perf_them_all.py:41 | the text after `EventName":` exists exactly when the line contains that marker |
| PerfEvents.CleanRemovesJunk | perf/perf_them_all.py:42 | the three `replace` calls remove every space, double quote and comma |
| PerfEvents.EventOfLine | perf/perf_them_all.py:40-42 | a line mentioning "EventName" without `EventName":` raises; a line with the marker gives a cleaned name; any other line gives none |
| PerfEvents.Contribution | perf/perf_them_all.py:40-44 | a line adds at most one event, which is cleaned and not one of the three templates |
| PerfEvents.EventsListable | perf/perf_them_all.py:38-46 | every listed event is cleaned and not a template |
| PerfEvents.EventsAppend | perf/perf_them_all.py:39-44 | reading two runs of lines one after the other lists the events of the first, then those of the second |
| PerfEvents.OneJsonLine | perf/perf_them_all.py:39-46 | a `"EventName": "<name>",` line of `perf list --json` lists that name unless it is a template |
| PerfEvents.SingleRuns | perf/perf_them_all.py:62-63 | one run per event, each with that event alone, in order |
| PerfEvents.Picked | perf/perf_them_all.py:70-71 | the handful holds the events at the drawn indices, in draw order |
| PerfEvents.ParallelRuns | perf/perf_them_all.py:66-75 | one run per remaining iteration, each at most ten listed events; with no events the first draw raises |
| PerfEvents.Main | perf/perf_them_all.py:49-77 | the corrected main flow: a listing that raises stops everything; otherwise one run per event, then the parallel runs, and a non-integer iteration count raises |
| PerfEvents.MainRuns | perf/perf_them_all.py:59-77 | with events and a valid count, the runs are the single runs followed by one handful per iteration |
| PerfEvents.MainAsWritten | perf/perf_them_all.py:59-63 | the main flow as written agrees with the corrected one when there is no event to run |
| PerfEvents.MissingVerboseStops | perf/perf_them_all.py:63 | as written, the first single run raises TypeError before any `perf stat`, while the corrected flow runs every event |
| Getopt.LastArg | sbench/sbench.c:176-196 | the value of a `getopt` loop's variable after the loop: the last argument given for the option, or none when it never appears |
| Getopt.ScanStep | ctx_bench/ctx_bench_arm.c:72-79 | one more loop pass replaces the value exactly when its option is the one seen |
| CgroupHierarchy.AllocationCount | arm/page_uncharge/page_counter_test.c:26-28 | 1 GiB in 4 KiB allocations is 262,144 allocations, covering the gigabyte exactly |
| CgroupHierarchy.Truncate | arm/page_uncharge/page_counter_test.c:92-96 | `snprintf` into a buffer keeps a prefix shorter than the buffer, and the whole text when it fits |
| CgroupHierarchy.Level | arm/page_uncharge/page_counter_test.c:91-96 | every level path fits the 256-byte buffer |
| CgroupHierarchy.FullPathGrows | arm/page_uncharge/page_counter_test.c:95-96 | without truncation each level's path extends its parent's by '/' and more |
| CgroupHierarchy.LevelIsFullPath | arm/page_uncharge/page_counter_test.c:91-96 | while the untruncated path fits the buffer, `snprintf` truncates nothing at any level |
| CgroupHierarchy.FullPathLength | arm/page_uncharge/page_counter_test.c:92-96 | level i is the base plus "/page_counter_test" plus i segments "/level_<i>" of 8 characters |
| CgroupHierarchy.LevelsFit | arm/page_uncharge/page_counter_test.c:91-96 | under a base short enough for eight levels, every level path is exact and of the expected length |
| CgroupHierarchy.MountFitsDepth | arm/page_uncharge/page_counter_test.c:435-438 | "/sys/fs/cgroup" is such a base |
| CgroupHierarchy.LevelAncestor | arm/page_uncharge/page_counter_test.c:95-96 | every level is a proper ancestor directory of each deeper level |
| CgroupHierarchy.ControlPathFits | arm/page_uncharge/page_counter_test.c:108-110 | when it fits, the control file path is the level path plus "/cgroup.subtree_control" |
| CgroupHierarchy.MountControlPathsFit | arm/page_uncharge/page_counter_test.c:108-110 | under "/sys/fs/cgroup" no control file path is truncated |
| CgroupHierarchy.FirstFatalMkdir | arm/page_uncharge/page_counter_test.c:100 | the first `mkdir` that fails with an error other than EEXIST, or the end |
| CgroupHierarchy.Setup | arm/page_uncharge/page_counter_test.c:84-118 | the status is 0 or -1, and it is 0 exactly when no `mkdir` fails fatally |
| CgroupHierarchy.SetupFromStatus | arm/page_uncharge/page_counter_test.c:90-117 | from any level on, -1 exactly when a later `mkdir` fails fatally |
| CgroupHierarchy.SetupMkdirs | arm/page_uncharge/page_counter_test.c:90-104 | the directories created are the levels in order, up to and including the first fatal one |
| CgroupHierarchy.SetupWrites | arm/page_uncharge/page_counter_test.c:106-112 | "+memory" is written to every level but the last, stopping before a fatal `mkdir`, whatever the write returns |
| CgroupHierarchy.SetupCreatesOnly | arm/page_uncharge/page_counter_test.c:84-118 | setup only creates directories and writes control files |
| CgroupHierarchy.ParentsCreatedFirst | arm/page_uncharge/page_counter_test.c:90-104 | each parent directory is created before its children |
| CgroupHierarchy.MoveTo | arm/page_uncharge/page_counter_test.c:148-157 | the PID is written in decimal to the group's "cgroup.procs", and the status is 0 exactly when the write succeeds |
| CgroupHierarchy.MoveOutIsMoveToRoot | arm/page_uncharge/page_counter_test.c:120-130 | moving out is moving to the root group |
| CgroupHierarchy.LevelProcsPath | arm/page_uncharge/page_counter_test.c:150-153 | the 512-byte buffer never truncates a level's "cgroup.procs" path |
| CgroupHierarchy.DeepestFatalRmdir | arm/page_uncharge/page_counter_test.c:139-140 | the deepest level whose `rmdir` fails with an error other than ENOENT, or -1 |
| CgroupHierarchy.Cleanup | arm/page_uncharge/page_counter_test.c:132-146 | the process first moves to the root; then only removals follow, and the last step is `exit(-1)` exactly when some removal fails fatally |
| CgroupHierarchy.CleanupTrace | arm/page_uncharge/page_counter_test.c:139-145 | levels are removed deepest first down to the first fatal failure, followed by one exit when there is one |
| CgroupHierarchy.RemoveLevelsRmdirs | arm/page_uncharge/page_counter_test.c:139-145 | the loop removes levels from the deepest down, stopping at the first fatal failure |
| CgroupHierarchy.DeepestFatalFound | arm/page_uncharge/page_counter_test.c:139-145 | the loop meets a fatal failure exactly when some level has one |
| CgroupHierarchy.ChildrenRemovedFirst | arm/page_uncharge/page_counter_test.c:138-145 | every child directory is removed before its parent |
| CgroupHierarchy.FillByte | arm/page_uncharge/page_counter_test.c:185 | the fill byte is `i % 256`, i itself below 256 |
| CgroupHierarchy.AllocateChunks | arm/page_uncharge/page_counter_test.c:163-189 | succeeds exactly when the array and every chunk allocate, filling chunk i with its byte; a failure frees what was allocated, leaving the heap empty |
| CgroupHierarchy.FreeMemoryChunks | arm/page_uncharge/page_counter_test.c:191-206 | NULL frees nothing; otherwise the array is freed last |
| CgroupHierarchy.FreeAfterAllocate | arm/page_uncharge/page_counter_test.c:163-206 | freeing what a successful allocation returned leaves the heap empty, with no double free |
| CgroupHierarchy.FreeNullIsNothing | arm/page_uncharge/page_counter_test.c:195-197 | freeing NULL leaves the heap unchanged |
| Likely.Bar | likely/likely.c:7-16 | `bar` answers 0 or 1 |
| Likely.BarIsThreshold | likely/likely.c:9-15 | `bar` answers 1 exactly above 9999 and 0 otherwise |
| Likely.LikelyTestNeverTaken | likely/likely.c:9-13 | the hinted test for 10000 is reached only with values other than 10000, so it is never true |
| Likely.OneHitPerSweep | likely/likely.c:22-24 | of 0..10000 exactly one value makes `bar` answer 1 |
| Likely.Total | likely/likely.c:17-28 | the total is 10000 sweeps times one hit per sweep, 10000 |

## Left out

- Threads, barriers and timing are not run. A parallel run is modelled as which threads pass each barrier, plus a chosen interleaving (schedule) of counter increments.
- Inline assembly is modelled by its architectural effect on the counter. Whether an `STXR` succeeds is a parameter, because the exclusive monitor cannot be observed.
- `sysconf`, `sched_setaffinity`, `malloc`, `pthread_create`, `getpid`, `mkdir`/`rmdir`/`fopen` results, and clock and counter readings are parameters.
- The output of `ps`, `perf list`, `perf stat`, `rdmsr` and `sysbench` is a parameter. So are the text of `/proc` files and directory listings.
- Formatted printing (`%.2f`, `%06.2f`, `pprint`, `json.dumps`, the `repr` of printed lists) is not modelled. A report is a sequence of values, except where the printed line is itself the input of another tool (vDSO lines, CSV rows, decode_bin rows).
- `double` and `float` are modelled as exact reals. Rounding and NaN are not modelled, except that a division by zero in sbench gives `None` (see Sbench.RunForSecs below).
- Stats.PercentileIndex: the C code computes `p * (count - 1) / 100` in `double`; the model uses the exact integer floor. The two can differ (p = 29, count = 101), but they agree for count = 100 and p in {50, 95, 99}, the only values the benchmarks use.
- PercpuBench.RunBenchmarkOnCpu: `LSE/percpu_bench_lib.c` calls a ten-argument `run_core_benchmark` that `LSE/percpu_bench.c` does not define. Each file is modelled as written, and the measured latencies are a parameter.
- CtxBench.CollectGetpid: the average is an integer quotient. Its conversion to `float` for printing, which rounds above 2^24, is not modelled.
- Sbench.RunForSecs: with `-p 0` or `-t 0` the divisor `thread_count * timeslice_ms` is zero. The C throughput is then NaN for a round with no calls (always so with `-p 0`, where `create_threads` starts no thread and returns 0) and ±inf otherwise. The latency `1000/throughput_s` is NaN, 0.0 or inf accordingly, and inf when a round's throughput is 0. `print_data` still prints. The model gives `None` for the affected slots and no report.
- Text.Atoi: the result is an unbounded integer, while C's `atoi` returns `int` and is undefined outside its range (glibc gives `(int)strtol`, so `-c 4294967301` reads as 5). So CtxBench.RoundCount and Sbench.ParseOptions are exact only for option values within `INT_MIN..INT_MAX`.
- Sbench.ParseOptions: the text of `print_help` and the verbose per-thread lines are not modelled.
- AnonVsFile.CeilDiv: `math.ceil(a / b)` in Python goes through a float. The model is the exact ceiling, which differs only above 2^53.
- MemoryType.Line: `math.floor(vsize / rss)` goes through a float. The model is the exact floor.
- ProcMaps.RunMain: the GiB total is an exact real, not a Python float. Without `--sum`, the rows printed before a malformed maps line raises are not kept; the exception alone is the outcome.
- SortSmaps.SmapsSorted: with two or more blocks, any text `Size` makes the model fail with the TypeError. Python raises only when it actually compares text with a number, and sizes that are all text would sort as strings. The kernel always writes `Size` in kB.
- `read_rss_from_smaps` and `get_from_maps` in `maps/sort_smaps.py` are not modelled, because `main` never calls them.
- Text: whitespace is the six ASCII characters, and digits are `0`-`9`. Python's Unicode `\s`, `\d` and `str.split()`, and the underscores and non-ASCII digits that `int()` accepts, are not modelled. `splitlines` is modelled with its full set of line breaks.
- DecodeBin.Run: `argparse` is modelled by its parsed values and a usage failure; its messages are not modelled.
- DecodeBin.ColumnsAlign: alignment is proved only for names of at most 6 characters and bit numbers below 1,000,000.
- X2Apic.Run: the error output is modelled as its byte count, not the printed `bytes` repr. Decoding `rdmsr` output as UTF-8 is not modelled.
- SysbenchCsv.Row: CSV quoting is not modelled, because every value is digits and dots.
- VdsoParser.Report: lines printed before an exception escapes are not kept; the exception alone is the outcome. The order of `os.listdir` is a parameter.
- PerfEvents.Main: `--forever` (an endless loop) is not modelled, and the random draws are parameters.
- CgroupHierarchy: the stress workers, `timespec_to_ms`, the timed `test_*` drivers and `main` of `arm/page_uncharge/page_counter_test.c` are not modelled. Beyond the calls that are modelled (setup, moving the process, allocating, freeing and cleanup, each with its own row), all they add is timing and printing. `errno` is reduced to EEXIST, ENOENT or other.
- Likely.Total: the `likely`/`unlikely` hints affect code layout only, so they do not appear.

## Findings

| source | as written | input that shows it | evidently intended | confidence | as-written member | corrected member |
|---|---|---|---|---|---|---|
| LSE/parallel_atomic_bench.c:122-155 | a thread whose pinning or `malloc` fails returns before the barriers it has not reached, so the others wait at `pthread_barrier_wait` forever | two threads, one failing `set_cpu_affinity` | every thread still passes all four barriers, and a failed one just skips its measurements | high, not executed | ParallelBench.OneFailedPinHangs | ParallelBench.RunParallelRepaired |
| ctx_bench/ctx_bench_arm.c:45 | ticks are converted with the truncated factor `10^9 / frequency` | a 24 MHz counter: one second of ticks gives 984,000,000 ns | ticks · 10^9 / frequency, never above the true elapsed time | high, not executed | CtxBench.TruncatedFactorAt24Mhz | CtxBench.ElapsedNsExact |
| maps/anonymous_vs_file.py:86-100 | the names `stack`, `heap` and `vvar` never match, because the kernel prints `[stack]`, `[heap]` and `[vvar]` | a `[stack]` mapping is counted as file-backed | those mappings count as anonymous | medium, not executed | AnonVsFile.StackCountedAsFile | AnonVsFile.RunIntended |
| perf/perf_them_all.py:63 | `run_perf_stat([event], args.time)` omits the required `verbose` argument, so the one-at-a-time phase stops with a TypeError at its first event | any non-empty event list | each event is measured alone | high, not executed | PerfEvents.MissingVerboseStops | PerfEvents.Main |

=== FILE: anon_vs_file.dfy ===
/**
 * maps/anonymous_vs_file.py: read a process's smaps entries, add up the mapped size
 * ("Size", as VmSize) and the resident size ("Rss") of the anonymous mappings and of the
 * file-backed ones, and print one line per kind with the rounded-up ratio of mapped to
 * resident memory. The `ps` output and the smaps text are parameters.
 */
module AnonVsFile {
  import opened Wrappers
  import opened Text
  import opened Dict
  import opened SmapsEntries
  import Ps

  /** The list the script tests names against, as written. */
  const ANON_AS_WRITTEN: seq<string> := ["Anonymous", "stack", "heap", "vvar"]

  /**
   * The list as intended: the kernel names the special anonymous mappings "[stack]",
   * "[heap]" and "[vvar]", with the brackets, and a path-less mapping gets "Anonymous".
   */
  const ANON_NAMES: seq<string> := ["Anonymous", "[stack]", "[heap]", "[vvar]"]

  /** Resident and mapped bytes of one kind of mapping. */
  datatype Bucket = Bucket(rss: int, vmSize: int)

  /** The two buckets of `parse_memory`'s result. */
  datatype Totals = Totals(file: Bucket, anon: Bucket)

  const ZERO: Totals := Totals(Bucket(0, 0), Bucket(0, 0))

  /** `entry["name"] in anonymous`: only a text name can be in the list. */
  predicate IsAnon(entry: Dict<Value>, names: seq<string>) {
    var v := Get(entry, "name");
    v.Some? && v.value.Str? && v.value.s in names
  }

  /** An entry the loop can count: it has a name, and numbers under "Size" and "Rss". */
  predicate Countable(entry: Dict<Value>) {
    HasKey(entry, "name") && IntField(entry, "Size").Success? && IntField(entry, "Rss").Success?
  }

  /** One pass of the loop: `ret[k]["VmSize"] += entry["Size"]`, then `ret[k]["Rss"] += entry["Rss"]`. */
  function Step(acc: Totals, entry: Dict<Value>, names: seq<string>): (r: Result<Totals, string>)
    ensures r.Success? <==> Countable(entry)
  {
    if !HasKey(entry, "name") then Failure("KeyError: name")
    else
      match IntField(entry, "Size")
      case Failure(e) => Failure(e)
      case Success(size) =>
        match IntField(entry, "Rss")
        case Failure(e) => Failure(e)
        case Success(rss) =>
          if IsAnon(entry, names) then Success(acc.(anon := Bucket(acc.anon.rss + rss, acc.anon.vmSize + size)))
          else Success(acc.(file := Bucket(acc.file.rss + rss, acc.file.vmSize + size)))
  }

  /** The loop over the entries from the given running totals. */
  function Tally(acc: Totals, entries: seq<Dict<Value>>, names: seq<string>): Result<Totals, string>
    decreases |entries|
  {
    if |entries| == 0 then Success(acc)
    else
      match Step(acc, entries[0], names)
      case Failure(e) => Failure(e)
      case Success(a) => Tally(a, entries[1..], names)
  }

  /** `parse_memory(entries)` with the given list of anonymous names. */
  function ParseMemory(entries: seq<Dict<Value>>, names: seq<string>): Result<Totals, string> {
    Tally(ZERO, entries, names)
  }

  /** The sum of `key` over the entries of one kind, counted independently of the loop. */
  function KindTotal(entries: seq<Dict<Value>>, key: string, names: seq<string>, anon: bool): int
    decreases |entries|
  {
    if |entries| == 0 then 0
    else
      var here := if IsAnon(entries[0], names) == anon && IntField(entries[0], key).Success?
        then IntField(entries[0], key).value else 0;
      here + KindTotal(entries[1..], key, names, anon)
  }

  /** The loop runs through exactly when every entry is countable. */
  lemma {:induction false} TallySucceeds(acc: Totals, entries: seq<Dict<Value>>, names: seq<string>)
    ensures Tally(acc, entries, names).Success? <==> forall k :: 0 <= k < |entries| ==> Countable(entries[k])
    decreases |entries|
  {
    if |entries| > 0 {
      assert forall k :: 1 <= k < |entries| ==> entries[k] == entries[1..][k - 1];
      if Step(acc, entries[0], names).Success? {
        TallySucceeds(Step(acc, entries[0], names).value, entries[1..], names);
      }
    }
  }

  /** Each bucket ends as its start plus the sizes of the entries of its kind. */
  lemma {:induction false} TallyTotals(acc: Totals, entries: seq<Dict<Value>>, names: seq<string>)
    requires Tally(acc, entries, names).Success?
    ensures var t := Tally(acc, entries, names).value;
      && t.anon.vmSize == acc.anon.vmSize + KindTotal(entries, "Size", names, true)
      && t.anon.rss == acc.anon.rss + KindTotal(entries, "Rss", names, true)
      && t.file.vmSize == acc.file.vmSize + KindTotal(entries, "Size", names, false)
      && t.file.rss == acc.file.rss + KindTotal(entries, "Rss", names, false)
    decreases |entries|
  {
    if |entries| > 0 {
      TallyTotals(Step(acc, entries[0], names).value, entries[1..], names);
    }
  }

  /**
   * `parse_memory` fails exactly on an entry it cannot count; otherwise each bucket holds
   * the sums over the entries of its kind.
   */
  lemma ParseMemorySums(entries: seq<Dict<Value>>, names: seq<string>)
    ensures ParseMemory(entries, names).Success? <==> forall k :: 0 <= k < |entries| ==> Countable(entries[k])
    ensures ParseMemory(entries, names).Success? ==>
      var t := ParseMemory(entries, names).value;
      && t.anon == Bucket(KindTotal(entries, "Rss", names, true), KindTotal(entries, "Size", names, true))
      && t.file == Bucket(KindTotal(entries, "Rss", names, false), KindTotal(entries, "Size", names, false))
  {
    TallySucceeds(ZERO, entries, names);
    if ParseMemory(entries, names).Success? {
      TallyTotals(ZERO, entries, names);
    }
  }

  /** Both kinds together account for every entry once. */
  lemma {:induction false} KindsPartition(entries: seq<Dict<Value>>, key: string, names: seq<string>)
    ensures KindTotal(entries, key, names, true) + KindTotal(entries, key, names, false) == FieldTotal(entries, key)
    decreases |entries|
  {
    if |entries| > 0 {
      KindsPartition(entries[1..], key, names);
    }
  }

  /** The sum of `key` over all entries that hold a number there. */
  function FieldTotal(entries: seq<Dict<Value>>, key: string): int
    decreases |entries|
  {
    if |entries| == 0 then 0
    else (if IntField(entries[0], key).Success? then IntField(entries[0], key).value else 0) + FieldTotal(entries[1..], key)
  }

  /** `math.ceil(a / b)`, exactly. */
  function CeilDiv(a: int, b: int): (r: int)
    requires b != 0
    ensures b > 0 ==> b * (r - 1) < a <= b * r
    ensures b < 0 ==> b * r <= a < b * (r - 1)
  {
    if b > 0 then -((-a) / b) else -(a / (-b))
  }

  /** The printed ratio: -1 when nothing is resident, else mapped over resident rounded up. */
  function Ratio(b: Bucket): (r: int)
    ensures b.rss == 0 ==> r == -1
    ensures b.rss > 0 ==> b.rss * (r - 1) < b.vmSize <= b.rss * r
    ensures b.rss < 0 ==> b.rss * r <= b.vmSize < b.rss * (r - 1)
  {
    if b.rss != 0 then CeilDiv(b.vmSize, b.rss) else -1
  }

  /** One printed line `kind, Rss, VmSize, ratio`. */
  datatype ReportLine = ReportLine(kind: string, rss: int, vmSize: int, ratio: int)

  function Line(kind: string, b: Bucket): ReportLine {
    ReportLine(kind, b.rss, b.vmSize, Ratio(b))
  }

  /** How the script ends. */
  datatype Outcome =
    | Exit(status: int)              // `sys.exit(-1)`
    | Crash(reason: string)          // an uncaught exception
    | Printed(lines: seq<ReportLine>) // the report, file-backed first

  /** The entries whose names are tested against the list, as `main` reads them. */
  function EntriesOf(content: string): Result<seq<Dict<Value>>, EntryError> {
    ReadEntries(ReadLines(content), ANONYMOUS)
  }

  /** The two printed lines for the totals of each kind, as sums over the entries. */
  function TotalsLines(entries: seq<Dict<Value>>, names: seq<string>): seq<ReportLine> {
    [Line("file", Bucket(KindTotal(entries, "Rss", names, false), KindTotal(entries, "Size", names, false))),
     Line("anon", Bucket(KindTotal(entries, "Rss", names, true), KindTotal(entries, "Size", names, true)))]
  }

  /**
   * The main flow, with the list of anonymous names as a parameter: the process is "self"
   * unless a non-empty `--name` is given, the entries are read from its smaps text, and
   * the totals are printed.
   */
  function RunWith(psLines: seq<string>, name: Option<string>, content: string, names: seq<string>): (r: Outcome)
    ensures r.Exit? ==> r.status == -1
    ensures r.Exit? <==>
      || Ps.ProcessOf(psLines, name).Ambiguous?
      || (Ps.ProcessOf(psLines, name).Found? && EntriesOf(content).Failure? && EntriesOf(content).error.Misaligned?)
    ensures Ps.ProcessOf(psLines, name).NoCandidate? || Ps.ProcessOf(psLines, name).ShortLine? ==> r.Crash?
    ensures r.Printed? <==>
      && Ps.ProcessOf(psLines, name).Found?
      && EntriesOf(content).Success?
      && forall k :: 0 <= k < |EntriesOf(content).value| ==> Countable(EntriesOf(content).value[k])
    ensures r.Printed? ==> r.lines == TotalsLines(EntriesOf(content).value, names)
  {
    match Ps.ProcessOf(psLines, name)
    case Ambiguous(_) => Exit(-1)
    case NoCandidate => Crash("IndexError: list index out of range")
    case ShortLine(_) => Crash("IndexError: list index out of range")
    case Found(_) =>
      match EntriesOf(content)
      case Failure(Misaligned(_, _)) => Exit(-1)
      case Failure(NoVmFlags) => Crash("Exception: Could not find VmFlags")
      case Failure(BadLine(line)) => Crash("ValueError: " + line)
      case Success(entries) =>
        ParseMemorySums(entries, names);
        match ParseMemory(entries, names)
        case Failure(e) => Crash(e)
        case Success(t) => Printed([Line("file", t.file), Line("anon", t.anon)])
  }

  /**
   * The script's main flow as written, testing names against `["Anonymous", "stack",
   * "heap", "vvar"]`: a "[stack]", "[heap]" or "[vvar]" mapping is totalled as file-backed.
   */
  function Run(psLines: seq<string>, name: Option<string>, content: string): (r: Outcome)
    ensures r.Exit? ==> r.status == -1
    ensures r.Exit? <==>
      || Ps.ProcessOf(psLines, name).Ambiguous?
      || (Ps.ProcessOf(psLines, name).Found? && EntriesOf(content).Failure? && EntriesOf(content).error.Misaligned?)
    ensures Ps.ProcessOf(psLines, name).NoCandidate? || Ps.ProcessOf(psLines, name).ShortLine? ==> r.Crash?
    ensures r.Printed? <==>
      && Ps.ProcessOf(psLines, name).Found?
      && EntriesOf(content).Success?
      && forall k :: 0 <= k < |EntriesOf(content).value| ==> Countable(EntriesOf(content).value[k])
    ensures r.Printed? ==> r.lines == TotalsLines(EntriesOf(content).value, ANON_AS_WRITTEN)
  {
    RunWith(psLines, name, content, ANON_AS_WRITTEN)
  }

  /** The main flow with the bracketed names the kernel prints. */
  function RunIntended(psLines: seq<string>, name: Option<string>, content: string): (r: Outcome)
    ensures r.Exit? ==> r.status == -1
    ensures r.Exit? <==>
      || Ps.ProcessOf(psLines, name).Ambiguous?
      || (Ps.ProcessOf(psLines, name).Found? && EntriesOf(content).Failure? && EntriesOf(content).error.Misaligned?)
    ensures Ps.ProcessOf(psLines, name).NoCandidate? || Ps.ProcessOf(psLines, name).ShortLine? ==> r.Crash?
    ensures r.Printed? <==>
      && Ps.ProcessOf(psLines, name).Found?
      && EntriesOf(content).Success?
      && forall k :: 0 <= k < |EntriesOf(content).value| ==> Countable(EntriesOf(content).value[k])
    ensures r.Printed? ==> r.lines == TotalsLines(EntriesOf(content).value, ANON_NAMES)
  {
    RunWith(psLines, name, content, ANON_NAMES)
  }

  /** Two lists that classify every entry alike run the loop alike. */
  lemma {:induction false} TallySameKinds(acc: Totals, entries: seq<Dict<Value>>, n1: seq<string>, n2: seq<string>)
    requires forall k :: 0 <= k < |entries| ==> IsAnon(entries[k], n1) == IsAnon(entries[k], n2)
    ensures Tally(acc, entries, n1) == Tally(acc, entries, n2)
    decreases |entries|
  {
    if |entries| > 0 {
      assert IsAnon(entries[0], n1) == IsAnon(entries[0], n2);
      assert Step(acc, entries[0], n1) == Step(acc, entries[0], n2);
      assert forall k :: 0 <= k < |entries| - 1 ==> entries[1..][k] == entries[k + 1];
      if Step(acc, entries[0], n1).Success? {
        TallySameKinds(Step(acc, entries[0], n1).value, entries[1..], n1, n2);
      }
    }
  }

  /**
   * The flow as written and the intended one end alike unless some entry is one of the
   * mappings the two lists classify differently.
   */
  lemma RunsAgreeWithoutSpecialMappings(psLines: seq<string>, name: Option<string>, content: string)
    requires EntriesOf(content).Success? ==>
      forall k :: 0 <= k < |EntriesOf(content).value| ==>
        IsAnon(EntriesOf(content).value[k], ANON_AS_WRITTEN) == IsAnon(EntriesOf(content).value[k], ANON_NAMES)
    ensures Run(psLines, name, content) == RunIntended(psLines, name, content)
  {
    if EntriesOf(content).Success? {
      TallySameKinds(ZERO, EntriesOf(content).value, ANON_AS_WRITTEN, ANON_NAMES);
    }
    assert Run(psLines, name, content) == RunWith(psLines, name, content, ANON_AS_WRITTEN);
    assert RunIntended(psLines, name, content) == RunWith(psLines, name, content, ANON_NAMES);
  }

  // ---------------------------------------------------------------------------
  // The bracketed names
  // ---------------------------------------------------------------------------

  /** A stack entry as read from the file: its name and its two sizes. */
  function StackEntry(size: int, rss: int): Dict<Value> {
    [("name", Str("[stack]")), ("Size", Int(size)), ("Rss", Int(rss))]
  }

  /** The stack entry reads back its name and both sizes. */
  lemma StackEntryFields(size: int, rss: int)
    ensures var e := StackEntry(size, rss);
      Get(e, "name") == Some(Str("[stack]")) && Get(e, "Size") == Some(Int(size)) && Get(e, "Rss") == Some(Int(rss))
  {
    var e := StackEntry(size, rss);
    assert "name"[0] != "Size"[0] && "name"[0] != "Rss"[0] && "Size"[0] != "Rss"[0];
    assert e[1..] == [("Size", Int(size)), ("Rss", Int(rss))];
    assert e[1..][1..] == [("Rss", Int(rss))];
    assert Get(e, "name") == Some(Str("[stack]"));
    assert Get(e[1..], "Size") == Some(Int(size));
    assert Get(e, "Size") == Some(Int(size));
    assert Get(e[1..][1..], "Rss") == Some(Int(rss));
    assert Get(e[1..], "Rss") == Some(Int(rss));
  }

  /** The header line of the stack mapping names the entry "[stack]". */
  lemma StackHeaderName(toks: seq<string>)
    requires |toks| == 5 && forall k :: 0 <= k < 5 ==> |toks[k]| > 0 && NoSpace(toks[k])
    ensures EntryName(Join(toks + ["[stack]"], " "), ANONYMOUS) == "[stack]"
  {
    var ws := toks + ["[stack]"];
    assert forall k :: 0 <= k < 5 ==> ws[k] == toks[k];
    assert NoSpace("[stack]");
    WordsOfJoin(ws, " ");
  }

  /** As written, the stack is counted as file-backed memory. */
  lemma StackCountedAsFile(size: int, rss: int)
    ensures ParseMemory([StackEntry(size, rss)], ANON_AS_WRITTEN) == Success(Totals(Bucket(rss, size), Bucket(0, 0)))
  {
    StackEntryFields(size, rss);
    assert forall k :: 0 <= k < |ANON_AS_WRITTEN| ==> ANON_AS_WRITTEN[k][0] != '[';
    assert "[stack]" !in ANON_AS_WRITTEN;
    var e := StackEntry(size, rss);
    assert !IsAnon(e, ANON_AS_WRITTEN);
    assert Step(ZERO, e, ANON_AS_WRITTEN) == Success(Totals(Bucket(rss, size), Bucket(0, 0)));
    assert Tally(ZERO, [e], ANON_AS_WRITTEN) == Tally(Totals(Bucket(rss, size), Bucket(0, 0)), [], ANON_AS_WRITTEN);
  }

  /** With the bracketed names, the stack is counted as anonymous memory. */
  lemma StackCountedAsAnon(size: int, rss: int)
    ensures ParseMemory([StackEntry(size, rss)], ANON_NAMES) == Success(Totals(Bucket(0, 0), Bucket(rss, size)))
  {
    StackEntryFields(size, rss);
    assert ANON_NAMES[1] == "[stack]";
    var e := StackEntry(size, rss);
    assert IsAnon(e, ANON_NAMES);
    assert Step(ZERO, e, ANON_NAMES) == Success(Totals(Bucket(0, 0), Bucket(rss, size)));
    assert Tally(ZERO, [e], ANON_NAMES) == Tally(Totals(Bucket(0, 0), Bucket(rss, size)), [], ANON_NAMES);
  }
}

=== FILE: atomics.dfy ===
/**
 * What LSE/percpu_bench.c and LSE/parallel_atomic_bench.c share: the 64-bit atomic add
 * primitives written in inline assembly, the monotonic clock reading `get_time_ns`, and
 * the timed batch loop that turns a pair of readings into a per-add latency.
 */
module Atomics {
  import opened Wrappers
  import opened Machine

  const NS_PER_SEC: nat := 1_000_000_000

  /** The add primitives the benchmarks time. */
  datatype AddVariant = LlSc | Stadd | Ldadd | PrfmKeepStadd | PrfmStrmStadd

  /** What one LL/SC attempt sequence did: the value stored, if any, and how many tries. */
  datatype Exclusive = Exclusive(stored: Option<U64>, attempts: nat)

  /**
   * `__percpu_add_case_64_llsc`: LDXR loads `loads[k]`, ADD adds `val`, STXR succeeds
   * iff `succeeds[k]`, and CBNZ retries on failure. Only a successful STXR writes
   * memory; with no success among the given attempts the loop is still spinning.
   */
  function LlscAdd(loads: seq<U64>, val: U64, succeeds: seq<bool>): (r: Exclusive)
    requires |loads| == |succeeds|
    ensures r.stored.Some? <==> true in succeeds
    ensures r.stored.Some? ==>
      && 1 <= r.attempts <= |succeeds|
      && succeeds[r.attempts - 1]
      && (forall k :: 0 <= k < r.attempts - 1 ==> !succeeds[k])
      && r.stored.value == WrapAdd(loads[r.attempts - 1], val)
    ensures r.stored.None? ==> r.attempts == |succeeds|
  {
    if |succeeds| == 0 then Exclusive(None, 0)
    else if succeeds[0] then Exclusive(Some(WrapAdd(loads[0], val)), 1)
    else
      var rest := LlscAdd(loads[1..], val, succeeds[1..]);
      assert succeeds == [succeeds[0]] + succeeds[1..];
      Exclusive(rest.stored, rest.attempts + 1)
  }

  /** `__percpu_add_case_64_lse`: one STADD. */
  function StaddAdd(mem: U64, val: U64): U64 {
    WrapAdd(mem, val)
  }

  /** `__percpu_add_case_64_ldadd`: one LDADD, which also loads the old value into `tmp`. */
  function LdaddAdd(mem: U64, val: U64): (r: (U64, U64)) {
    (WrapAdd(mem, val), mem)
  }

  /**
   * The effect on the counter of one completed add of any variant. The PRFM variants
   * precede STADD with a prefetch hint, which leaves memory alone.
   */
  function AddEffect(op: AddVariant, mem: U64, val: U64): U64 {
    match op
    case LlSc => LlscAdd([mem], val, [true]).stored.value
    case Ldadd => LdaddAdd(mem, val).0
    case _ => StaddAdd(mem, val)
  }

  /**
   * The variants agree: each completed add leaves `old + val mod 2^64`, LL/SC whatever
   * the number of failed STXRs before the one that succeeds, and LDADD also returns the
   * old value.
   */
  lemma VariantsAgree(op: AddVariant, mem: U64, val: U64, succeeds: seq<bool>)
    requires true in succeeds
    ensures AddEffect(op, mem, val) == (mem + val) % U64_MOD
    ensures LlscAdd(seq(|succeeds|, _ => mem), val, succeeds).stored == Some(AddEffect(op, mem, val))
    ensures LdaddAdd(mem, val) == (AddEffect(op, mem, val), mem)
  {
  }

  /** `get_time_ns`: a CLOCK_MONOTONIC reading as `tv_sec * 1000000000 + tv_nsec` on `uint64_t`. */
  function TimeNs(sec: nat, nsec: nat): (r: U64)
    ensures sec * NS_PER_SEC + nsec < U64_MOD ==> r == sec * NS_PER_SEC + nsec
  {
    WrapAdd(WrapMul(sec, NS_PER_SEC), nsec)
  }

  /** `(double)(end - start) / batch`, the unsigned difference taken first. */
  function BatchLatency(start: U64, end: U64, batch: nat): (r: real)
    requires batch > 0
    ensures r >= 0.0
    ensures start <= end ==> r * batch as real == (end - start) as real
    ensures end < start ==> r * batch as real == (U64_MOD - (start - end)) as real
  {
    WrapSub(end, start) as real / batch as real
  }

  /**
   * Until the nanosecond count overflows, a later timespec gives a later reading, and a
   * batch's latency is the elapsed nanoseconds divided by the batch size.
   */
  lemma TimeNsOrdered(s1: nat, n1: nat, s2: nat, n2: nat, batch: nat)
    requires n1 < NS_PER_SEC && n2 < NS_PER_SEC && batch > 0
    requires s1 < s2 || (s1 == s2 && n1 <= n2)
    requires s2 * NS_PER_SEC + n2 < U64_MOD
    ensures TimeNs(s1, n1) <= TimeNs(s2, n2)
    ensures BatchLatency(TimeNs(s1, n1), TimeNs(s2, n2), batch) * batch as real
      == ((s2 * NS_PER_SEC + n2) - (s1 * NS_PER_SEC + n1)) as real
  {
    assert s1 * NS_PER_SEC + n1 <= s2 * NS_PER_SEC + n2 by {
      if s1 < s2 {
        assert s1 * NS_PER_SEC + NS_PER_SEC <= s2 * NS_PER_SEC;
      }
    }
  }

  /** `for (z = 0; z < size; z++) add(counter, 1)`: one untimed run of `size` adds of 1. */
  method AddLoop(op: AddVariant, counter: U64, size: nat) returns (after: U64)
    ensures after == WrapAdd(counter, size)
  {
    after := counter;
    var z := 0;
    while z < size
      invariant 0 <= z <= size
      invariant after == WrapAdd(counter, z)
    {
      WrapAddTwice(counter, z, 1);
      after := AddEffect(op, after, 1);
      z := z + 1;
    }
  }

  /**
   * One measurement phase: `batches` batches, each timed by a pair of clock readings
   * around `size` adds of `op` with increment 1. `clock[2i]` and `clock[2i + 1]` are the
   * readings around batch `i`; batch `i`'s latency lands in slot `i`.
   */
  method MeasurePhase(op: AddVariant, counter: U64, clock: seq<U64>, batches: nat, size: nat)
    returns (latencies: seq<real>, after: U64)
    requires |clock| == 2 * batches && size > 0
    ensures |latencies| == batches
    ensures forall i :: 0 <= i < batches ==>
      latencies[i] == BatchLatency(clock[2 * i], clock[2 * i + 1], size)
    ensures after == WrapAdd(counter, batches * size)
  {
    latencies := [];
    after := counter;
    var i := 0;
    var done := 0;
    while i < batches
      invariant 0 <= i <= batches
      invariant |latencies| == i
      invariant forall k :: 0 <= k < i ==> latencies[k] == BatchLatency(clock[2 * k], clock[2 * k + 1], size)
      invariant done == i * size
      invariant after == WrapAdd(counter, done)
    {
      var start := clock[2 * i];
      WrapAddTwice(counter, done, size);
      after := AddLoop(op, after, size);
      done := done + size;
      var end := clock[2 * i + 1];
      latencies := latencies + [BatchLatency(start, end, size)];
      i := i + 1;
    }
  }
}

=== FILE: bits.dfy ===
/**
 * Python's arbitrary-precision bit operations as the decoders use them: `1 << k`,
 * `n.bit_length()`, the bit test `bool(n & (1 << i))`, and `v & x` for a non-negative
 * mask `v` against any integer `x`. Negative integers behave as two's complement with
 * infinitely many sign bits; halving with Dafny's floor division on a positive divisor is
 * exactly Python's arithmetic shift, so the definitions cover them.
 */
module Bits {

  /** `1 << n`. */
  function Pow2(n: nat): (r: nat)
    ensures r >= 1
  {
    if n == 0 then 1 else 2 * Pow2(n - 1)
  }

  /** `bool(n & (1 << i))`. */
  predicate Bit(n: int, i: nat)
    decreases i
  {
    if i == 0 then n % 2 == 1 else Bit(n / 2, i - 1)
  }

  /** `v & x` for a non-negative mask `v`: taken one binary digit at a time. */
  function MaskOf(v: nat, x: int): nat
    decreases v
  {
    if v == 0 then 0
    else 2 * MaskOf(v / 2, x / 2) + (if v % 2 == 1 && x % 2 == 1 then 1 else 0)
  }

  /** `n.bit_length()` for a natural number. */
  function BitLength(n: nat): (r: nat)
    ensures r == 0 <==> n == 0
    ensures n > 0 ==> Pow2(r - 1) <= n < Pow2(r)
    decreases n
  {
    if n == 0 then 0 else 1 + BitLength(n / 2)
  }

  /** Powers of two grow. */
  lemma {:induction false} Pow2Monotone(a: nat, b: nat)
    requires a <= b
    ensures Pow2(a) <= Pow2(b)
    decreases b
  {
    if a < b {
      Pow2Monotone(a, b - 1);
    }
  }

  /** A single-bit mask keeps exactly that bit: `x & (1 << k)` is `1 << k` or 0. */
  lemma {:induction false} MaskOfPow2(k: nat, x: int)
    ensures MaskOf(Pow2(k), x) == if Bit(x, k) then Pow2(k) else 0
    decreases k
  {
    if k > 0 {
      assert Pow2(k) / 2 == Pow2(k - 1) && Pow2(k) % 2 == 0;
      MaskOfPow2(k - 1, x / 2);
    }
  }

  /**
   * Clearing a set bit, `x & ~(1 << k)`, subtracts `1 << k` and changes no other bit;
   * the result is `x - (x & (1 << k))`.
   */
  lemma {:induction false} ClearSetBit(x: int, k: nat, j: nat)
    requires Bit(x, k)
    ensures Bit(x - Pow2(k), j) <==> Bit(x, j) && j != k
    decreases k
  {
    if k == 0 {
      if j > 0 {
        assert (x - 1) / 2 == x / 2;
      }
    } else {
      assert Pow2(k) == 2 * Pow2(k - 1);
      assert (x - Pow2(k)) / 2 == x / 2 - Pow2(k - 1) && (x - Pow2(k)) % 2 == x % 2;
      if j > 0 {
        ClearSetBit(x / 2, k - 1, j - 1);
      }
    }
  }

  /** A natural number below `2^m` has no bit at or above `m`. */
  lemma {:induction false} NoHighBit(n: int, m: nat, j: nat)
    requires 0 <= n < Pow2(m) && j >= m
    ensures !Bit(n, j)
    decreases m
  {
    if m == 0 {
      assert n == 0;
      ZeroHasNoBit(j);
    } else if j > 0 {
      NoHighBit(n / 2, m - 1, j - 1);
    }
  }

  lemma {:induction false} ZeroHasNoBit(j: nat)
    ensures !Bit(0, j)
    decreases j
  {
    if j > 0 {
      ZeroHasNoBit(j - 1);
    }
  }

  /** A positive multiple of `n` is at least `n`. */
  lemma {:induction false} AtLeastOnce(a: int, n: nat)
    requires a >= 1
    ensures a * n >= n
    decreases a
  {
    if a > 1 {
      AtLeastOnce(a - 1, n);
      assert a * n == (a - 1) * n + n;
    }
  }

  /** Euclidean division is unique: a quotient and a remainder in range are what `/` and `%` give. */
  lemma DivUnique(n: int, d: int, q: int, r: int)
    requires d > 0 && 0 <= r < d && n == q * d + r
    ensures n / d == q && n % d == r
  {
    var k := q - n / d;
    assert k * d == n % d - r;
    if k >= 1 {
      AtLeastOnce(k, d);
    }
  }

  /** `n % (2p)` from the halved number: the low bit, then `(n // 2) % p` one place up. */
  lemma ModDouble(n: int, p: nat)
    requires p > 0
    ensures n % (2 * p) == 2 * ((n / 2) % p) + n % 2
  {
    var q, r := (n / 2) / p, (n / 2) % p;
    assert n == q * (2 * p) + (2 * r + n % 2);
    DivUnique(n, 2 * p, q, 2 * r + n % 2);
  }

  /** The low `t + 1` bits of `n` are bit `t` above the low `t` bits (two's complement for negatives). */
  lemma {:induction false} LowBits(n: int, t: nat)
    ensures n % Pow2(t + 1) == (if Bit(n, t) then Pow2(t) else 0) + n % Pow2(t)
    decreases t
  {
    if t > 0 {
      ModDouble(n, Pow2(t));
      ModDouble(n, Pow2(t - 1));
      LowBits(n / 2, t - 1);
    }
  }
}

=== FILE: cgroup_hierarchy.dfy ===
/**
 * arm/page_uncharge/page_counter_test.c: the cgroup v2 hierarchy the page-uncharge test
 * builds and tears down, and the way it allocates and frees its memory chunks.
 *
 * The file system is not modelled: every `mkdir`, `rmdir` and file write becomes an
 * `Effect` in a trace, and what each call answers is a parameter. `malloc` becomes a
 * parameter saying whether each allocation succeeds, and the heap a set of live blocks.
 */
module CgroupHierarchy {
  import opened Wrappers
  import opened Text

  const MAX_HIERARCHY_DEPTH: nat := 8
  const MAX_PATH_LEN: nat := 256
  const MEMORY_SIZE: nat := 1 * 1024 * 1024 * 1024
  const ALLOCATION_SIZE: nat := 4096
  const NUM_ALLOCATIONS: nat := MEMORY_SIZE / ALLOCATION_SIZE
  const NUM_THREADS: nat := 4
  const STRESS_ITERATIONS: nat := 1000

  const CGROUP_V2_MOUNT: string := "/sys/fs/cgroup"
  const TEST_CGROUP_BASE: string := "page_counter_test"

  /** What `setup_cgroup_hierarchy` writes to each parent's `cgroup.subtree_control`. */
  const MEMORY_CONTROLLER: string := "+memory"

  /** The process list of the mount's root cgroup, where `move_out_cgroup` writes. */
  const ROOT_PROCS: string := "/sys/fs/cgroup/cgroup.procs"

  /** One test allocates a gibibyte in 262144 chunks of one page each. */
  lemma AllocationCount()
    ensures NUM_ALLOCATIONS == 262144
    ensures NUM_ALLOCATIONS * ALLOCATION_SIZE == MEMORY_SIZE
  {
  }

  // ---------------------------------------------------------------------------------
  // Paths
  // ---------------------------------------------------------------------------------

  /** `snprintf(buf, size, ...)`: the text, cut to `size - 1` characters. */
  function Truncate(s: string, size: nat): (r: string)
    requires size >= 1
    ensures |r| < size
    ensures r <= s
    ensures |s| < size ==> r == s
  {
    if |s| < size then s else s[..size - 1]
  }

  /** `paths[i]` as `setup_cgroup_hierarchy` formats it into its 256-byte buffer. */
  function Level(base: string, i: nat): (p: string)
    ensures |p| < MAX_PATH_LEN
  {
    if i == 0 then Truncate(base + "/" + TEST_CGROUP_BASE, MAX_PATH_LEN)
    else Truncate(Level(base, i - 1) + "/level_" + NatToDec(i), MAX_PATH_LEN)
  }

  /** The path of level `i` with no length limit: `base/page_counter_test/level_1/.../level_i`. */
  function FullPath(base: string, i: nat): string {
    if i == 0 then base + "/" + TEST_CGROUP_BASE
    else FullPath(base, i - 1) + "/level_" + NatToDec(i)
  }

  /** Each level's full path extends the one above it. */
  lemma {:induction false} FullPathGrows(base: string, i: nat, k: nat)
    requires i <= k
    ensures FullPath(base, i) <= FullPath(base, k)
    ensures i < k ==> |FullPath(base, i)| < |FullPath(base, k)| && FullPath(base, k)[|FullPath(base, i)|] == '/'
    decreases k
  {
    if i < k {
      FullPathGrows(base, i, k - 1);
      var parent := FullPath(base, k - 1);
      var step := "/level_" + NatToDec(k);
      assert FullPath(base, k) == parent + step;
      assert (parent + step)[|parent|] == '/';
      if i < k - 1 {
        assert FullPath(base, k)[|FullPath(base, i)|] == parent[|FullPath(base, i)|];
      }
    }
  }

  /** While the full path fits in the buffer, no level is truncated. */
  lemma {:induction false} LevelIsFullPath(base: string, i: nat)
    requires |FullPath(base, i)| < MAX_PATH_LEN
    ensures Level(base, i) == FullPath(base, i)
    decreases i
  {
    if i > 0 {
      FullPathGrows(base, i - 1, i);
      LevelIsFullPath(base, i - 1);
    }
  }

  /** Below level 10 each step adds the eight characters of `/level_N`. */
  lemma {:induction false} FullPathLength(base: string, i: nat)
    requires i < 10
    ensures |FullPath(base, i)| == |base| + 1 + |TEST_CGROUP_BASE| + 8 * i
    decreases i
  {
    if i > 0 {
      FullPathLength(base, i - 1);
      assert |NatToDec(i)| == 1;
    }
  }

  /** Whether every level the test can ask for, down to MAX_HIERARCHY_DEPTH - 1, fits under `base` untruncated. */
  predicate FitsDepth(base: string) {
    |base| + 1 + |TEST_CGROUP_BASE| + 8 * (MAX_HIERARCHY_DEPTH - 1) < MAX_PATH_LEN
  }

  /** `/sys/fs/cgroup` leaves room for the whole hierarchy. */
  lemma MountFitsDepth()
    ensures FitsDepth(CGROUP_V2_MOUNT)
  {
  }

  /** Under a base that fits, every level the test creates is its full path, 8 characters longer per level. */
  lemma LevelsFit(base: string, i: nat)
    requires FitsDepth(base) && i < MAX_HIERARCHY_DEPTH
    ensures Level(base, i) == FullPath(base, i)
    ensures |Level(base, i)| == |base| + 1 + |TEST_CGROUP_BASE| + 8 * i
  {
    FullPathLength(base, i);
    LevelIsFullPath(base, i);
  }

  /** Under a base that fits, a shallower level is a proper ancestor directory of a deeper one. */
  lemma LevelAncestor(base: string, i: nat, k: nat)
    requires FitsDepth(base) && i < k < MAX_HIERARCHY_DEPTH
    ensures Level(base, i) < Level(base, k)
    ensures Level(base, k)[|Level(base, i)|] == '/'
  {
    LevelsFit(base, i);
    LevelsFit(base, k);
    FullPathGrows(base, i, k);
  }

  /** The `cgroup.subtree_control` file of a level, in its own 256-byte buffer. */
  function ControlPath(p: string): string {
    Truncate(p + CONTROL_FILE, MAX_PATH_LEN)
  }

  const CONTROL_FILE: string := "/cgroup.subtree_control"

  /** While the control file's full path fits in the buffer, it is not truncated. */
  lemma ControlPathFits(base: string, i: nat)
    requires |FullPath(base, i)| + |CONTROL_FILE| < MAX_PATH_LEN
    ensures ControlPath(Level(base, i)) == FullPath(base, i) + CONTROL_FILE
  {
    LevelIsFullPath(base, i);
  }

  /** Under `/sys/fs/cgroup`, no control file the test writes is truncated. */
  lemma MountControlPathsFit(i: nat)
    requires i < MAX_HIERARCHY_DEPTH
    ensures ControlPath(Level(CGROUP_V2_MOUNT, i)) == FullPath(CGROUP_V2_MOUNT, i) + CONTROL_FILE
  {
    FullPathLength(CGROUP_V2_MOUNT, i);
    ControlPathFits(CGROUP_V2_MOUNT, i);
  }

  // ---------------------------------------------------------------------------------
  // Effects on the cgroup file system
  // ---------------------------------------------------------------------------------

  datatype Errno = EEXIST | ENOENT | OtherErrno(code: int)

  /** What a `mkdir` or `rmdir` call answered. */
  datatype Outcome = Done | Failed(errno: Errno)

  datatype Effect =
    | Mkdir(path: string)
    | WriteFile(path: string, content: string)
    | Rmdir(path: string)
    | Exit(status: int)

  datatype EffectKind = MkdirKind | WriteKind | RmdirKind | ExitKind

  function KindOf(e: Effect): EffectKind {
    match e
    case Mkdir(_) => MkdirKind
    case WriteFile(_, _) => WriteKind
    case Rmdir(_) => RmdirKind
    case Exit(_) => ExitKind
  }

  /** The effects of one kind, in trace order. */
  function Keep(t: seq<Effect>, k: EffectKind): (r: seq<Effect>)
    ensures |r| <= |t|
  {
    if t == [] then [] else (if KindOf(t[0]) == k then [t[0]] else []) + Keep(t[1..], k)
  }

  lemma KeepOne(e: Effect, k: EffectKind)
    ensures Keep([e], k) == if KindOf(e) == k then [e] else []
  {
    assert [e][1..] == [];
  }

  lemma {:induction false} KeepAppend(a: seq<Effect>, b: seq<Effect>, k: EffectKind)
    ensures Keep(a + b, k) == Keep(a, k) + Keep(b, k)
    decreases |a|
  {
    if a == [] {
      assert a + b == b;
    } else {
      assert (a + b)[1..] == a[1..] + b;
      assert (a + b)[0] == a[0];
      KeepAppend(a[1..], b, k);
    }
  }

  /** A clamped loop bound: `for (i = 0; i < depth; i++)` runs `max(depth, 0)` times. */
  function Count(depth: int): nat {
    if depth < 0 then 0 else depth
  }

  // ---------------------------------------------------------------------------------
  // setup_cgroup_hierarchy
  // ---------------------------------------------------------------------------------

  /** An `mkdir` failure other than EEXIST aborts the setup. */
  predicate FatalMkdir(o: Outcome) {
    o.Failed? && o.errno != EEXIST
  }

  /** The first level in `i..n-1` whose `mkdir` is fatal, or `n` when there is none. */
  function FirstFatalMkdir(res: seq<Outcome>, i: nat, n: nat): (k: nat)
    requires i <= n <= |res|
    ensures i <= k <= n
    ensures forall j :: i <= j < k ==> !FatalMkdir(res[j])
    ensures k < n ==> FatalMkdir(res[k])
    decreases n - i
  {
    if i == n then n else if FatalMkdir(res[i]) then i else FirstFatalMkdir(res, i + 1, n)
  }

  datatype SetupResult = SetupResult(status: int, trace: seq<Effect>)

  /** The loop of `setup_cgroup_hierarchy` from level `i` on. */
  function SetupFrom(paths: seq<string>, depth: nat, res: seq<Outcome>, i: nat): SetupResult
    requires i <= depth <= |res| && depth <= |paths|
    decreases depth - i
  {
    if i == depth then SetupResult(0, [])
    else
      var p := paths[i];
      if FatalMkdir(res[i]) then SetupResult(-1, [Mkdir(p)])
      else
        var control := if i < depth - 1 then [WriteFile(ControlPath(p), MEMORY_CONTROLLER)] else [];
        var rest := SetupFrom(paths, depth, res, i + 1);
        SetupResult(rest.status, [Mkdir(p)] + (control + rest.trace))
  }

  /** The `mkdir` calls for levels `i..n-1`, shallowest first. */
  function MkdirLevels(paths: seq<string>, i: nat, n: nat): seq<Effect>
    requires n <= |paths|
    decreases n - i
  {
    if i >= n then [] else [Mkdir(paths[i])] + MkdirLevels(paths, i + 1, n)
  }

  /** The `+memory` writes for levels `i..n-1`. */
  function ControlWrites(paths: seq<string>, i: nat, n: int): seq<Effect>
    requires n <= |paths|
    decreases n - i
  {
    if i >= n then [] else [WriteFile(ControlPath(paths[i]), MEMORY_CONTROLLER)] + ControlWrites(paths, i + 1, n)
  }

  /** From level `i`, the setup answers -1 exactly when some `mkdir` fails with an error other than EEXIST. */
  lemma {:induction false} SetupFromStatus(paths: seq<string>, depth: nat, res: seq<Outcome>, i: nat)
    requires i <= depth <= |res| && depth <= |paths|
    ensures var r := SetupFrom(paths, depth, res, i);
      (r.status == 0 <==> FirstFatalMkdir(res, i, depth) == depth)
      && (r.status == -1 <==> FirstFatalMkdir(res, i, depth) < depth)
    decreases depth - i
  {
    if i < depth && !FatalMkdir(res[i]) {
      SetupFromStatus(paths, depth, res, i + 1);
    }
  }

  /** The setup only creates directories and writes files. */
  lemma {:induction false} SetupFromCreatesOnly(paths: seq<string>, depth: nat, res: seq<Outcome>, i: nat)
    requires i <= depth <= |res| && depth <= |paths|
    ensures forall e :: e in SetupFrom(paths, depth, res, i).trace ==> e.Mkdir? || e.WriteFile?
    decreases depth - i
  {
    if i < depth && !FatalMkdir(res[i]) {
      SetupFromCreatesOnly(paths, depth, res, i + 1);
    }
  }

  /** From level `i`, the setup creates every level up to and including the first fatal one, in order. */
  lemma {:induction false} SetupFromMkdirs(paths: seq<string>, depth: nat, res: seq<Outcome>, i: nat)
    requires i <= depth <= |res| && depth <= |paths|
    ensures var k := FirstFatalMkdir(res, i, depth);
      Keep(SetupFrom(paths, depth, res, i).trace, MkdirKind) == MkdirLevels(paths, i, if k < depth then k + 1 else depth)
    decreases depth - i
  {
    if i < depth && !FatalMkdir(res[i]) {
      var p := paths[i];
      var control := if i < depth - 1 then [WriteFile(ControlPath(p), MEMORY_CONTROLLER)] else [];
      var rest := SetupFrom(paths, depth, res, i + 1);
      SetupFromMkdirs(paths, depth, res, i + 1);
      KeepAppend([Mkdir(p)], control + rest.trace, MkdirKind);
      KeepAppend(control, rest.trace, MkdirKind);
      assert Keep([Mkdir(p)], MkdirKind) == [Mkdir(p)];
      assert Keep(control, MkdirKind) == [];
    }
  }

  /**
   * From level `i`, `+memory` is written for every created level except the deepest one
   * and the one whose `mkdir` failed.
   */
  lemma {:induction false} SetupFromWrites(paths: seq<string>, depth: nat, res: seq<Outcome>, i: nat)
    requires i <= depth <= |res| && depth <= |paths|
    ensures var k := FirstFatalMkdir(res, i, depth);
      Keep(SetupFrom(paths, depth, res, i).trace, WriteKind) == ControlWrites(paths, i, if k < depth then k else depth - 1)
    decreases depth - i
  {
    if i < depth && !FatalMkdir(res[i]) {
      var p := paths[i];
      var control := if i < depth - 1 then [WriteFile(ControlPath(p), MEMORY_CONTROLLER)] else [];
      var rest := SetupFrom(paths, depth, res, i + 1);
      SetupFromWrites(paths, depth, res, i + 1);
      KeepAppend([Mkdir(p)], control + rest.trace, WriteKind);
      KeepAppend(control, rest.trace, WriteKind);
    }
  }

  /** The `paths` array `setup_cgroup_hierarchy` fills: levels `0..n-1` under `base`. */
  function Paths(base: string, n: nat): (paths: seq<string>)
    ensures |paths| == n
  {
    seq(n, i requires 0 <= i => Level(base, i))
  }

  /**
   * `setup_cgroup_hierarchy(depth, paths)`: 0 when every `mkdir` succeeded or found the
   * directory already there, -1 as soon as one failed otherwise. `res[i]` is what the
   * `mkdir` of level `i` answers.
   */
  function Setup(base: string, depth: int, res: seq<Outcome>): (r: SetupResult)
    requires depth <= |res|
    ensures r.status == 0 || r.status == -1
    ensures r.status == 0 <==> forall j :: 0 <= j < depth ==> !FatalMkdir(res[j])
  {
    if depth <= 0 then SetupResult(0, [])
    else
      SetupFromStatus(Paths(base, depth), depth, res, 0);
      SetupFrom(Paths(base, depth), depth, res, 0)
  }

  /** A setup creates levels 0 up to and including the first one whose `mkdir` is fatal, in order. */
  lemma SetupMkdirs(base: string, depth: int, res: seq<Outcome>)
    requires depth <= |res|
    ensures var n := Count(depth);
      var k := FirstFatalMkdir(res, 0, n);
      Keep(Setup(base, depth, res).trace, MkdirKind) == MkdirLevels(Paths(base, n), 0, if k < n then k + 1 else n)
  {
    if depth > 0 {
      SetupFromMkdirs(Paths(base, depth), depth, res, 0);
    }
  }

  /** A setup writes `+memory` for every created level except the deepest one and the failing one. */
  lemma SetupWrites(base: string, depth: int, res: seq<Outcome>)
    requires depth <= |res|
    ensures var n := Count(depth);
      var k := FirstFatalMkdir(res, 0, n);
      Keep(Setup(base, depth, res).trace, WriteKind) == ControlWrites(Paths(base, n), 0, if k < n then k else n - 1)
  {
    if depth > 0 {
      SetupFromWrites(Paths(base, depth), depth, res, 0);
    }
  }

  /** A setup removes nothing and never exits the process. */
  lemma SetupCreatesOnly(base: string, depth: int, res: seq<Outcome>)
    requires depth <= |res|
    ensures forall e :: e in Setup(base, depth, res).trace ==> e.Mkdir? || e.WriteFile?
  {
    if depth > 0 {
      SetupFromCreatesOnly(Paths(base, depth), depth, res, 0);
    }
  }

  lemma {:induction false} MkdirLevelsAt(paths: seq<string>, i: nat, n: nat, j: nat)
    requires i + j < n <= |paths|
    ensures |MkdirLevels(paths, i, n)| == n - i
    ensures MkdirLevels(paths, i, n)[j] == Mkdir(paths[i + j])
    decreases j
  {
    if j > 0 {
      MkdirLevelsAt(paths, i + 1, n, j - 1);
    } else {
      MkdirLevelsLength(paths, i, n);
    }
  }

  lemma {:induction false} MkdirLevelsLength(paths: seq<string>, i: nat, n: nat)
    requires n <= |paths|
    ensures |MkdirLevels(paths, i, n)| == if i >= n then 0 else n - i
    decreases n - i
  {
    if i < n {
      MkdirLevelsLength(paths, i + 1, n);
    }
  }

  /** Under a base that fits, every directory the setup creates has its ancestors created before it. */
  lemma ParentsCreatedFirst(base: string, n: nat, j: nat, j': nat)
    requires FitsDepth(base) && n <= MAX_HIERARCHY_DEPTH && j < j' < n
    ensures var m := MkdirLevels(Paths(base, n), 0, n);
      |m| == n && m[j].Mkdir? && m[j'].Mkdir? && m[j].path < m[j'].path
  {
    var paths := Paths(base, n);
    var m := MkdirLevels(paths, 0, n);
    MkdirLevelsAt(paths, 0, n, j);
    MkdirLevelsAt(paths, 0, n, j');
    assert m[j].path == Level(base, j);
    assert m[j'].path == Level(base, j');
    LevelAncestor(base, j, j');
  }

  // ---------------------------------------------------------------------------------
  // move_out_cgroup, move_to_cgroup
  // ---------------------------------------------------------------------------------

  /** `move_out_cgroup`: the process id written to the root cgroup's process list. */
  function MoveOut(pid: int): Effect {
    WriteFile(ROOT_PROCS, IntToDec(pid))
  }

  /** `move_to_cgroup`'s 512-byte `cgroup.procs` path. */
  function ProcsPath(cgroupPath: string): string {
    Truncate(cgroupPath + "/cgroup.procs", 2 * MAX_PATH_LEN)
  }

  /**
   * `move_to_cgroup(path)`: writes the process id to the cgroup's process list and answers
   * -1 when the write fails. `writeOk` is whether `write_to_file` succeeds.
   */
  function MoveTo(cgroupPath: string, pid: int, writeOk: bool): (r: (int, Effect))
    ensures r.0 == 0 <==> writeOk
    ensures r.0 == -1 <==> !writeOk
    ensures r.1.WriteFile? && r.1.content == IntToDec(pid)
    ensures |cgroupPath| < MAX_PATH_LEN ==> r.1.path == cgroupPath + "/cgroup.procs"
  {
    (if writeOk then 0 else -1, WriteFile(ProcsPath(cgroupPath), IntToDec(pid)))
  }

  /** Moving out is moving into the mount's root cgroup. */
  lemma MoveOutIsMoveToRoot(pid: int, writeOk: bool)
    ensures MoveOut(pid) == MoveTo(CGROUP_V2_MOUNT, pid, writeOk).1
  {
  }

  /** Every level's process list path is complete: the 512-byte buffer always holds it. */
  lemma LevelProcsPath(base: string, i: nat, pid: int, writeOk: bool)
    ensures MoveTo(Level(base, i), pid, writeOk).1.path == Level(base, i) + "/cgroup.procs"
  {
  }

  // ---------------------------------------------------------------------------------
  // cleanup_cgroup_hierarchy
  // ---------------------------------------------------------------------------------

  /** An `rmdir` failure other than ENOENT makes the cleanup exit the process. */
  predicate FatalRmdir(o: Outcome) {
    o.Failed? && o.errno != ENOENT
  }

  /** The deepest level below `n` whose `rmdir` is fatal, or -1 when there is none. */
  function DeepestFatalRmdir(res: seq<Outcome>, n: nat): (k: int)
    requires n <= |res|
    ensures -1 <= k < n
    ensures forall j :: k < j < n ==> !FatalRmdir(res[j])
    ensures k >= 0 ==> FatalRmdir(res[k])
  {
    if n == 0 then -1 else if FatalRmdir(res[n - 1]) then n - 1 else DeepestFatalRmdir(res, n - 1)
  }

  /** The removal loop, from level `n - 1` down to 0. */
  function RemoveLevels(paths: seq<string>, res: seq<Outcome>, n: nat): seq<Effect>
    requires n <= |res| && n <= |paths|
  {
    if n == 0 then []
    else
      var p := paths[n - 1];
      if FatalRmdir(res[n - 1]) then [Rmdir(p), Exit(-1)] else [Rmdir(p)] + RemoveLevels(paths, res, n - 1)
  }

  /** The `rmdir` calls for levels `hi - 1` down to `lo`, deepest first. */
  function RmdirLevels(paths: seq<string>, hi: int, lo: nat): seq<Effect>
    requires hi <= |paths|
    decreases hi - lo
  {
    if hi <= lo then [] else [Rmdir(paths[hi - 1])] + RmdirLevels(paths, hi - 1, lo)
  }

  /**
   * From level `n - 1` down, the removal ends with `exit(-1)` exactly when some level's
   * `rmdir` is fatal; otherwise it only removes directories.
   */
  lemma {:induction false} RemoveLevelsEnd(paths: seq<string>, res: seq<Outcome>, n: nat)
    requires n <= |res| && n <= |paths|
    ensures var t := RemoveLevels(paths, res, n);
      var k := DeepestFatalRmdir(res, n);
      (forall e :: e in t ==> e.Rmdir? || e == Exit(-1))
      && (k >= 0 ==> |t| >= 1 && t[|t| - 1] == Exit(-1))
      && (k < 0 ==> forall e :: e in t ==> e.Rmdir?)
  {
    if n > 0 && !FatalRmdir(res[n - 1]) {
      var rest := RemoveLevels(paths, res, n - 1);
      RemoveLevelsEnd(paths, res, n - 1);
      assert ([Rmdir(paths[n - 1])] + rest)[|rest|] == if rest == [] then Rmdir(paths[n - 1]) else rest[|rest| - 1];
    }
  }

  /** From level `n - 1` down, every level is removed until the deepest fatal one, ENOENT being passed over. */
  lemma {:induction false} RemoveLevelsRmdirs(paths: seq<string>, res: seq<Outcome>, n: nat)
    requires n <= |res| && n <= |paths|
    ensures var k := DeepestFatalRmdir(res, n);
      Keep(RemoveLevels(paths, res, n), RmdirKind) == RmdirLevels(paths, n, if k >= 0 then k else 0)
  {
    if n > 0 {
      var p := paths[n - 1];
      KeepOne(Rmdir(p), RmdirKind);
      if FatalRmdir(res[n - 1]) {
        assert RemoveLevels(paths, res, n) == [Rmdir(p)] + [Exit(-1)];
        KeepOne(Exit(-1), RmdirKind);
        KeepAppend([Rmdir(p)], [Exit(-1)], RmdirKind);
      } else {
        assert RemoveLevels(paths, res, n) == [Rmdir(p)] + RemoveLevels(paths, res, n - 1);
        RemoveLevelsRmdirs(paths, res, n - 1);
        KeepAppend([Rmdir(p)], RemoveLevels(paths, res, n - 1), RmdirKind);
      }
    }
  }

  /** The removal exits at most once. */
  lemma {:induction false} RemoveLevelsExits(paths: seq<string>, res: seq<Outcome>, n: nat)
    requires n <= |res| && n <= |paths|
    ensures Keep(RemoveLevels(paths, res, n), ExitKind) == if DeepestFatalRmdir(res, n) >= 0 then [Exit(-1)] else []
  {
    if n > 0 {
      var p := paths[n - 1];
      KeepOne(Rmdir(p), ExitKind);
      if FatalRmdir(res[n - 1]) {
        assert RemoveLevels(paths, res, n) == [Rmdir(p)] + [Exit(-1)];
        KeepOne(Exit(-1), ExitKind);
        KeepAppend([Rmdir(p)], [Exit(-1)], ExitKind);
      } else {
        assert RemoveLevels(paths, res, n) == [Rmdir(p)] + RemoveLevels(paths, res, n - 1);
        RemoveLevelsExits(paths, res, n - 1);
        KeepAppend([Rmdir(p)], RemoveLevels(paths, res, n - 1), ExitKind);
      }
    }
  }

  /** Whether some level below `n` fails to be removed with an error other than ENOENT. */
  predicate AnyFatalRmdir(res: seq<Outcome>, n: int)
    requires n <= |res|
  {
    exists j :: 0 <= j < n && FatalRmdir(res[j])
  }

  lemma DeepestFatalFound(res: seq<Outcome>, depth: int)
    requires depth <= |res|
    ensures AnyFatalRmdir(res, depth) <==> DeepestFatalRmdir(res, Count(depth)) >= 0
  {
    var k := DeepestFatalRmdir(res, Count(depth));
    if k >= 0 {
      assert FatalRmdir(res[k]);
    }
  }

  /**
   * `cleanup_cgroup_hierarchy(depth, paths)`: the process first moves to the root cgroup;
   * the trace ends in `exit(-1)` exactly when some `rmdir` fails with an error other than
   * ENOENT. `res[i]` is what the `rmdir` of level `i` answers.
   */
  function Cleanup(paths: seq<string>, depth: int, pid: int, res: seq<Outcome>): (t: seq<Effect>)
    requires depth <= |res| && depth <= |paths|
    ensures |t| >= 1 && t[0] == MoveOut(pid)
    ensures t[|t| - 1] == Exit(-1) <==> AnyFatalRmdir(res, depth)
    ensures forall e :: e in t[1..] ==> e.Rmdir? || e == Exit(-1)
  {
    var rest := RemoveLevels(paths, res, Count(depth));
    RemovalEnds(paths, res, Count(depth));
    DeepestFatalFound(res, depth);
    var t := [MoveOut(pid)] + rest;
    assert t[1..] == rest;
    assert t[|t| - 1] == if rest == [] then MoveOut(pid) else rest[|rest| - 1];
    t
  }

  /** The last removal effect is `exit(-1)` exactly when some level's `rmdir` is fatal. */
  lemma RemovalEnds(paths: seq<string>, res: seq<Outcome>, n: nat)
    requires n <= |res| && n <= |paths|
    ensures var t := RemoveLevels(paths, res, n);
      (forall e :: e in t ==> e.Rmdir? || e == Exit(-1))
      && (|t| >= 1 && t[|t| - 1] == Exit(-1) <==> DeepestFatalRmdir(res, n) >= 0)
  {
    var t := RemoveLevels(paths, res, n);
    RemoveLevelsEnd(paths, res, n);
    if |t| >= 1 {
      assert t[|t| - 1] in t;
    }
  }

  /**
   * The removals of a cleanup: levels `depth - 1` down to the deepest fatal one, or down
   * to 0 when every `rmdir` succeeds or finds the level already gone, and at most one exit.
   */
  lemma CleanupTrace(paths: seq<string>, depth: int, pid: int, res: seq<Outcome>)
    requires depth <= |res| && depth <= |paths|
    ensures var t := Cleanup(paths, depth, pid, res);
      var k := DeepestFatalRmdir(res, Count(depth));
      Keep(t, RmdirKind) == RmdirLevels(paths, Count(depth), if k >= 0 then k else 0)
      && Keep(t, ExitKind) == (if k >= 0 then [Exit(-1)] else [])
  {
    var rest := RemoveLevels(paths, res, Count(depth));
    RemoveLevelsRmdirs(paths, res, Count(depth));
    RemoveLevelsExits(paths, res, Count(depth));
    KeepAppend([MoveOut(pid)], rest, RmdirKind);
    KeepAppend([MoveOut(pid)], rest, ExitKind);
  }

  lemma {:induction false} RmdirLevelsAt(paths: seq<string>, hi: nat, lo: nat, j: nat)
    requires lo + j < hi <= |paths|
    ensures |RmdirLevels(paths, hi, lo)| == hi - lo
    ensures RmdirLevels(paths, hi, lo)[j] == Rmdir(paths[hi - 1 - j])
    decreases j
  {
    if j > 0 {
      RmdirLevelsAt(paths, hi - 1, lo, j - 1);
    } else {
      RmdirLevelsLength(paths, hi, lo);
    }
  }

  lemma {:induction false} RmdirLevelsLength(paths: seq<string>, hi: nat, lo: nat)
    requires hi <= |paths|
    ensures |RmdirLevels(paths, hi, lo)| == if hi <= lo then 0 else hi - lo
    decreases hi - lo
  {
    if hi > lo {
      RmdirLevelsLength(paths, hi - 1, lo);
    }
  }

  /** Under a base that fits, every directory is removed only after all of its descendants. */
  lemma ChildrenRemovedFirst(base: string, n: nat, j: nat, j': nat)
    requires FitsDepth(base) && n <= MAX_HIERARCHY_DEPTH && j < j' < n
    ensures var m := RmdirLevels(Paths(base, n), n, 0);
      |m| == n && m[j].Rmdir? && m[j'].Rmdir? && m[j'].path < m[j].path
  {
    var paths := Paths(base, n);
    var m := RmdirLevels(paths, n, 0);
    var deeper, shallower := n - 1 - j, n - 1 - j';
    RmdirLevelsAt(paths, n, 0, j);
    RmdirLevelsAt(paths, n, 0, j');
    assert m[j].path == Level(base, deeper);
    assert m[j'].path == Level(base, shallower);
    LevelAncestor(base, shallower, deeper);
  }

  // ---------------------------------------------------------------------------------
  // allocate_memory_chunks, free_memory_chunks
  // ---------------------------------------------------------------------------------

  /** What the two functions do to the heap: the pointer array and chunk `i`. */
  datatype HeapOp =
    | AllocArray
    | AllocChunk(i: nat)
    | Fill(i: nat, byte: nat)
    | FreeChunk(i: nat)
    | FreeArray

  /** The live blocks: whether the pointer array is allocated, and which chunks are. */
  datatype Heap = Heap(pointers: bool, chunks: set<nat>)

  const EMPTY_HEAP: Heap := Heap(false, {})

  /** One operation on the heap; `None` for a double allocation, a double free or a write to a freed chunk. */
  function Step(h: Heap, op: HeapOp): Option<Heap> {
    match op
    case AllocArray => if h.pointers then None else Some(h.(pointers := true))
    case AllocChunk(i) => if i in h.chunks then None else Some(h.(chunks := h.chunks + {i}))
    case Fill(i, b) => if i in h.chunks && b < 256 then Some(h) else None
    case FreeChunk(i) => if i in h.chunks then Some(h.(chunks := h.chunks - {i})) else None
    case FreeArray => if h.pointers then Some(h.(pointers := false)) else None
  }

  /** The heap after a sequence of operations, if none of them misuses it. */
  function Run(h: Heap, ops: seq<HeapOp>): Option<Heap>
    decreases |ops|
  {
    if ops == [] then Some(h)
    else match Step(h, ops[0])
      case None => None
      case Some(h') => Run(h', ops[1..])
  }

  lemma {:induction false} RunAppend(h: Heap, a: seq<HeapOp>, b: seq<HeapOp>)
    ensures Run(h, a + b) == match Run(h, a) case None => None case Some(h') => Run(h', b)
    decreases |a|
  {
    if a == [] {
      assert a + b == b;
    } else {
      assert (a + b)[0] == a[0];
      assert (a + b)[1..] == a[1..] + b;
      match Step(h, a[0])
      case None =>
      case Some(h') => RunAppend(h', a[1..], b);
    }
  }

  /** Chunks `0..n-1`. */
  function Chunks(n: int): set<nat>
    decreases n
  {
    if n <= 0 then {} else Chunks(n - 1) + {n - 1}
  }

  lemma {:induction false} InChunks(n: int, k: nat)
    ensures k in Chunks(n) <==> k < n
    decreases n
  {
    if n > 0 {
      InChunks(n - 1, k);
    }
  }

  /** `memset(chunks[i], i % 256, chunk_size)`: the byte chunk `i` is filled with. */
  function FillByte(i: nat): (b: nat)
    ensures b < 256
    ensures i < 256 ==> b == i
  {
    i % 256
  }

  /** Allocating and filling chunk `i` after chunks `0..i-1` is sound and adds exactly chunk `i`. */
  lemma AllocChunkRun(i: nat)
    ensures Run(Heap(true, Chunks(i)), [AllocChunk(i), Fill(i, FillByte(i))]) == Some(Heap(true, Chunks(i + 1)))
  {
    InChunks(i, i);
    var h := Heap(true, Chunks(i + 1));
    assert Step(Heap(true, Chunks(i)), AllocChunk(i)) == Some(h);
    assert [AllocChunk(i), Fill(i, FillByte(i))][1..] == [Fill(i, FillByte(i))];
    assert Run(h, [Fill(i, FillByte(i))]) == Some(h);
  }

  /** Freeing the highest live chunk `j` leaves chunks `0..j-1`. */
  lemma FreeChunkRun(j: nat)
    ensures Run(Heap(true, Chunks(j + 1)), [FreeChunk(j)]) == Some(Heap(true, Chunks(j)))
  {
    InChunks(j, j);
    assert Chunks(j + 1) - {j} == Chunks(j);
  }

  /** The allocation loop's state after `i` chunks. */
  predicate Allocated(ops: seq<HeapOp>, i: nat) {
    Run(EMPTY_HEAP, ops) == Some(Heap(true, Chunks(i)))
    && forall k :: 0 <= k < i ==> Fill(k, FillByte(k)) in ops
  }

  /** The rollback loop's state with chunks `0..j` still to free. */
  predicate RollingBack(ops: seq<HeapOp>, j: int) {
    Run(EMPTY_HEAP, ops) == Some(Heap(true, Chunks(j + 1)))
  }

  /**
   * `allocate_memory_chunks(n, size)`. `arrayOk` is whether the pointer array's `malloc`
   * succeeds and `chunkOk[i]` whether chunk `i`'s does. The result is non-NULL exactly when
   * every allocation succeeds; then the array and all `n` chunks are live and chunk `i` is
   * filled with `i % 256`. On NULL nothing it allocated is left live.
   */
  method AllocateChunks(n: int, arrayOk: bool, chunkOk: seq<bool>) returns (ok: bool, ops: seq<HeapOp>)
    requires n <= |chunkOk|
    ensures ok <==> arrayOk && forall k :: 0 <= k < n ==> chunkOk[k]
    ensures Run(EMPTY_HEAP, ops).Some?
    ensures !ok ==> Run(EMPTY_HEAP, ops) == Some(EMPTY_HEAP)
    ensures ok ==> Run(EMPTY_HEAP, ops) == Some(Heap(true, Chunks(n)))
    ensures ok ==> forall k :: 0 <= k < n ==> Fill(k, FillByte(k)) in ops
  {
    if !arrayOk {
      return false, [];
    }
    ops := [AllocArray];
    assert Run(EMPTY_HEAP, ops) == Run(Heap(true, {}), []);
    var i: nat := 0;
    while i < n
      invariant i <= Count(n)
      invariant forall k :: 0 <= k < i ==> chunkOk[k]
      invariant Allocated(ops, i)
    {
      if !chunkOk[i] {
        var j: int := i - 1;
        while j >= 0
          invariant -1 <= j < i
          invariant RollingBack(ops, j)
        {
          RunAppend(EMPTY_HEAP, ops, [FreeChunk(j)]);
          FreeChunkRun(j);
          ops := ops + [FreeChunk(j)];
          j := j - 1;
        }
        RunAppend(EMPTY_HEAP, ops, [FreeArray]);
        assert Run(Heap(true, {}), [FreeArray]) == Some(EMPTY_HEAP);
        ops := ops + [FreeArray];
        return false, ops;
      }
      RunAppend(EMPTY_HEAP, ops, [AllocChunk(i), Fill(i, FillByte(i))]);
      AllocChunkRun(i);
      ops := ops + [AllocChunk(i), Fill(i, FillByte(i))];
      i := i + 1;
    }
    ok := true;
  }

  /** The frees of chunks `i..n-1` that are non-NULL; `present[k]` is whether chunk `k` is. */
  function FreeChunkOps(present: seq<bool>, i: nat, n: int): seq<HeapOp>
    requires n <= |present|
    decreases n - i
  {
    if i >= n then []
    else (if present[i] then [FreeChunk(i)] else []) + FreeChunkOps(present, i + 1, n)
  }

  /**
   * `free_memory_chunks(chunks, n)`: nothing for a NULL array, otherwise every non-NULL
   * chunk in index order and then the array. `chunks` is `None` for NULL and otherwise
   * says which slots are non-NULL.
   */
  function FreeMemoryChunks(chunks: Option<seq<bool>>, n: int): (ops: seq<HeapOp>)
    requires chunks.Some? ==> n <= |chunks.value|
    ensures chunks.None? <==> ops == []
    ensures chunks.Some? ==> ops[|ops| - 1] == FreeArray
  {
    match chunks
    case None => []
    case Some(present) => FreeChunkOps(present, 0, n) + [FreeArray]
  }

  /** Chunks `i..n-1`. */
  function ChunkRange(i: nat, n: int): set<nat>
    decreases n - i
  {
    if i >= n then {} else {i} + ChunkRange(i + 1, n)
  }

  lemma {:induction false} InChunkRange(i: nat, n: int, k: nat)
    ensures k in ChunkRange(i, n) <==> i <= k < n
    decreases n - i
  {
    if i < n {
      InChunkRange(i + 1, n, k);
    }
  }

  lemma {:induction false} FreeChunkOpsEmpties(present: seq<bool>, i: nat, n: int)
    requires n <= |present|
    requires forall k :: i <= k < n ==> present[k]
    ensures Run(Heap(true, ChunkRange(i, n)), FreeChunkOps(present, i, n)) == Some(Heap(true, {}))
    decreases n - i
  {
    if i < n {
      InChunkRange(i + 1, n, i);
      assert ChunkRange(i, n) - {i} == ChunkRange(i + 1, n);
      RunAppend(Heap(true, ChunkRange(i, n)), [FreeChunk(i)], FreeChunkOps(present, i + 1, n));
      FreeChunkOpsEmpties(present, i + 1, n);
    }
  }

  lemma ChunksAreRange(n: nat)
    ensures Chunks(n) == ChunkRange(0, n)
  {
    forall k: nat
      ensures k in Chunks(n) <==> k in ChunkRange(0, n)
    {
      InChunks(n, k);
      InChunkRange(0, n, k);
    }
  }

  /**
   * Freeing what a successful allocation returned releases every block it allocated, and
   * each exactly once.
   */
  lemma FreeAfterAllocate(n: nat, ops: seq<HeapOp>)
    requires Run(EMPTY_HEAP, ops) == Some(Heap(true, Chunks(n)))
    ensures Run(EMPTY_HEAP, ops + FreeMemoryChunks(Some(seq(n, _ => true)), n)) == Some(EMPTY_HEAP)
  {
    var present := seq(n, _ => true);
    RunAppend(EMPTY_HEAP, ops, FreeMemoryChunks(Some(present), n));
    ChunksAreRange(n);
    FreeChunkOpsEmpties(present, 0, n);
    RunAppend(Heap(true, Chunks(n)), FreeChunkOps(present, 0, n), [FreeArray]);
    assert Run(Heap(true, {}), [FreeArray]) == Some(EMPTY_HEAP);
  }

  /** `free_memory_chunks(NULL, n)` does nothing, so callers may pass a failed allocation. */
  lemma FreeNullIsNothing(h: Heap, n: int)
    ensures Run(h, FreeMemoryChunks(None, n)) == Some(h)
  {
  }
}

=== FILE: collect.dfy ===
/**
 * Applying a fallible step to every element in order, stopping at the first failure: the
 * shape of a Python loop whose body may raise.
 */
module Collect {
  import opened Wrappers

  /** `[f(x) for x in xs]` where the first `f(x)` that fails ends the loop with its error. */
  function MapAll<A, B, E>(xs: seq<A>, f: A -> Result<B, E>): (r: Result<seq<B>, E>)
    ensures r.Success? <==> forall k :: 0 <= k < |xs| ==> f(xs[k]).Success?
    ensures r.Success? ==> |r.value| == |xs| && forall k :: 0 <= k < |xs| ==> r.value[k] == f(xs[k]).value
    ensures r.Failure? ==> exists k :: 0 <= k < |xs| && f(xs[k]).Failure? && f(xs[k]).error == r.error && forall i :: 0 <= i < k ==> f(xs[i]).Success?
  {
    if |xs| == 0 then Success([])
    else
      match f(xs[0])
      case Failure(e) => Failure(e)
      case Success(y) =>
        var rest := MapAll(xs[1..], f);
        assert forall k :: 1 <= k < |xs| ==> xs[k] == xs[1..][k - 1];
        if rest.Success? then Success([y] + rest.value)
        else Failure(rest.error)
  }

  /** Extending the input by one element extends a successful result by that element's value. */
  lemma {:induction false} MapAllSnoc<A, B, E>(xs: seq<A>, x: A, f: A -> Result<B, E>)
    requires MapAll(xs, f).Success? && f(x).Success?
    ensures MapAll(xs + [x], f).Success?
    ensures MapAll(xs + [x], f).value == MapAll(xs, f).value + [f(x).value]
  {
    var ys := xs + [x];
    assert forall k :: 0 <= k < |xs| ==> ys[k] == xs[k];
    assert ys[|xs|] == x;
  }

  /** The loop step: one more element of `xs` processed successfully. */
  lemma MapAllPrefix<A, B, E>(xs: seq<A>, i: nat, f: A -> Result<B, E>)
    requires i < |xs| && MapAll(xs[..i], f).Success? && f(xs[i]).Success?
    ensures MapAll(xs[..i + 1], f).Success?
    ensures MapAll(xs[..i + 1], f).value == MapAll(xs[..i], f).value + [f(xs[i]).value]
  {
    assert xs[..i + 1] == xs[..i] + [xs[i]];
    MapAllSnoc(xs[..i], xs[i], f);
  }

  /** Mapping everything after the first element succeeds exactly when each of those elements does. */
  lemma MapAllAfterFirst<A, B, E>(xs: seq<A>, f: A -> Result<B, E>)
    requires |xs| > 0
    ensures MapAll(xs[1..], f).Success? <==> forall j :: 1 <= j < |xs| ==> f(xs[j]).Success?
  {
    var tail := xs[1..];
    if MapAll(tail, f).Success? {
      forall j | 1 <= j < |xs| ensures f(xs[j]).Success? {
        assert xs[j] == tail[j - 1];
      }
    } else {
      var k :| 0 <= k < |tail| && f(tail[k]).Failure?;
      assert xs[k + 1] == tail[k];
    }
  }
}

=== FILE: ctx_bench.dfy ===
/**
 * ctx_bench/ctx_bench_arm.c: the cost of `getpid` timed with the ARM generic timer.
 * Each sample is the tick difference around one call converted to nanoseconds with an
 * integer factor; each round averages MEGA samples with integer division.
 *
 * The timer registers CNTVCT_EL0 and CNTFRQ_EL0 are parameters.
 */
module CtxBench {
  import opened Wrappers
  import opened Machine
  import Text
  import opened Getopt

  const NS_PER_SEC: nat := 1000 * 1000 * 1000
  const MEGA: nat := 1000 * 1000
  const DEFAULT_ROUNDS: nat := 5

  /** `get_cpu_frequency`: CNTFRQ_EL0 masked with `0xffffffff`, its low 32 bits. */
  function CounterFrequency(reg: U64): (r: U64)
    ensures r < U32_MOD
    ensures reg < U32_MOD ==> r == reg
    ensures (reg - r) % U32_MOD == 0
  {
    reg % U32_MOD
  }

  /**
   * `measure_getpid`: `(t1 - t0) * (1000*1000*1000 / frequency)` on `uint64_t`. The
   * factor is truncated before the multiplication. A zero frequency divides by zero
   * (`None`).
   */
  function ElapsedNs(t0: U64, t1: U64, freq: U64): (r: Option<U64>)
    ensures r.Some? <==> freq != 0
    ensures freq > NS_PER_SEC ==> r == Some(0)
    ensures r.Some? && WrapSub(t1, t0) * (NS_PER_SEC / freq) < U64_MOD ==>
      r.value == WrapSub(t1, t0) * (NS_PER_SEC / freq)
    ensures r.Some? && 0 < freq <= NS_PER_SEC && WrapSub(t1, t0) * (NS_PER_SEC / freq) < U64_MOD ==>
      r.value % (NS_PER_SEC / freq) == 0
  {
    if freq == 0 then None
    else
      var ticks := WrapSub(t1, t0);
      var q := NS_PER_SEC / freq;
      assert q > 0 ==> (ticks * q) % q == 0 by {
        if q > 0 { MultipleMod(ticks, q); }
      }
      Some(WrapMul(ticks, q))
  }

  /** At the 1 GHz the source comments assume, one tick is one nanosecond. */
  lemma ElapsedAtOneGhz(t0: U64, t1: U64)
    requires t0 <= t1
    ensures ElapsedNs(t0, t1, NS_PER_SEC) == Some(t1 - t0)
  {
  }

  /** The conversion the tick count calls for: ⌊ticks · 10^9 / freq⌋, without the early truncation. */
  function ElapsedNsExact(t0: U64, t1: U64, freq: U64): (r: Option<nat>)
    ensures r.Some? <==> freq != 0
    ensures r.Some? ==> r.value * freq <= WrapSub(t1, t0) * NS_PER_SEC < (r.value + 1) * freq
  {
    if freq == 0 then None else Some(WrapSub(t1, t0) * NS_PER_SEC / freq)
  }

  /**
   * Truncating the factor first never overestimates, and it is exact when the frequency
   * divides 10^9.
   */
  lemma ElapsedNeverAbove(t0: U64, t1: U64, freq: U64)
    requires freq != 0 && WrapSub(t1, t0) * (NS_PER_SEC / freq) < U64_MOD
    ensures ElapsedNs(t0, t1, freq).value <= ElapsedNsExact(t0, t1, freq).value
    ensures NS_PER_SEC % freq == 0 ==> ElapsedNs(t0, t1, freq).value == ElapsedNsExact(t0, t1, freq).value
  {
    var ticks := WrapSub(t1, t0);
    assert ElapsedNs(t0, t1, freq).value == ticks * (NS_PER_SEC / freq);
    assert ElapsedNsExact(t0, t1, freq).value == ticks * NS_PER_SEC / freq;
    TruncatedFactorBelow(ticks, freq);
    if NS_PER_SEC % freq == 0 {
      TruncatedFactorExact(ticks, freq);
    }
  }

  /** ticks · ⌊10^9 / freq⌋ ≤ ⌊ticks · 10^9 / freq⌋. */
  lemma TruncatedFactorBelow(ticks: nat, freq: nat)
    requires freq > 0
    ensures ticks * (NS_PER_SEC / freq) <= ticks * NS_PER_SEC / freq
  {
    var q := NS_PER_SEC / freq;
    assert q * freq <= NS_PER_SEC;
    assert (ticks * q) * freq <= ticks * NS_PER_SEC by {
      MulLe(ticks, q * freq, NS_PER_SEC);
      assert (ticks * q) * freq == ticks * (q * freq);
    }
    DivLowerBound(ticks * q, ticks * NS_PER_SEC, freq);
  }

  /** When freq divides 10^9 the two orders of operation agree. */
  lemma TruncatedFactorExact(ticks: nat, freq: nat)
    requires freq > 0 && NS_PER_SEC % freq == 0
    ensures ticks * (NS_PER_SEC / freq) == ticks * NS_PER_SEC / freq
  {
    var q := NS_PER_SEC / freq;
    assert q * freq == NS_PER_SEC;
    assert ticks * NS_PER_SEC == (ticks * q) * freq;
    DivExact(ticks * q, freq);
  }

  lemma DivExact(a: nat, d: nat)
    requires d > 0
    ensures a * d / d == a
  {
    MultipleMod(a, d);
    var p := a * d;
    assert p == (p / d) * d;
    if p / d < a {
      MulLe(d, p / d + 1, a);
    } else if p / d > a {
      assert false;
    }
  }

  lemma MulLe(a: nat, b: nat, c: nat)
    requires b <= c
    ensures a * b <= a * c
  {
  }

  lemma DivLowerBound(x: nat, y: nat, d: nat)
    requires d > 0 && x * d <= y
    ensures x <= y / d
  {
    var q := y / d;
    assert y == q * d + y % d;
    if x > q {
      MulLe(d, q + 1, x);
    }
  }

  lemma MultipleMod(a: nat, q: nat)
    requires q > 0
    ensures (a * q) % q == 0
  {
    var p := a * q;
    assert p == (p / q) * q + p % q;
    assert p % q == (a - p / q) * q;
    if p / q < a {
      MulLe(q, 1, a - p / q);
      assert false;
    } else if p / q > a {
      MulLe(q, 1, p / q - a);
      assert false;
    }
  }

  /**
   * A 24 MHz timer (a common CNTFRQ_EL0 value) gives a factor of 41 instead of 41.67,
   * so one second of ticks is reported as 984,000,000 ns.
   */
  lemma TruncatedFactorAt24Mhz()
    ensures ElapsedNs(0, 24_000_000, 24_000_000) == Some(984_000_000)
    ensures ElapsedNsExact(0, 24_000_000, 24_000_000) == Some(NS_PER_SEC)
  {
    assert NS_PER_SEC / 24_000_000 == 41;
  }

  // ---------------------------------------------------------------------------
  // collect_getpid
  // ---------------------------------------------------------------------------

  /** `acc += sample` over a round, on `uint64_t`. */
  function WrapSum(samples: seq<U64>): (r: U64) {
    if |samples| == 0 then 0 else WrapAdd(WrapSum(samples[..|samples| - 1]), samples[|samples| - 1])
  }

  /** The mathematical sum. */
  function Sum(samples: seq<U64>): nat {
    if |samples| == 0 then 0 else Sum(samples[..|samples| - 1]) + samples[|samples| - 1]
  }

  /** The wrapping accumulator holds the true sum modulo 2^64. */
  lemma {:induction false} WrapSumIsSumMod(samples: seq<U64>)
    ensures WrapSum(samples) == Sum(samples) % U64_MOD
    decreases |samples|
  {
    if |samples| > 0 {
      var init := samples[..|samples| - 1];
      WrapSumIsSumMod(init);
      var x := Sum(init);
      assert x == (x / U64_MOD) * U64_MOD + x % U64_MOD;
    }
  }

  /** No sample above `m` keeps the sum at most `|samples|·m`. */
  lemma {:induction false} SumBound(samples: seq<U64>, m: nat)
    requires forall k :: 0 <= k < |samples| ==> samples[k] <= m
    ensures Sum(samples) <= |samples| * m
    decreases |samples|
  {
    if |samples| > 0 {
      SumBound(samples[..|samples| - 1], m);
    }
  }

  /**
   * `collect_getpid(count)`: `count` rounds; round `i` sums the MEGA samples of
   * `rounds[i]` into the accumulator, which then is reset, and yields `acc / MEGA`.
   */
  method CollectGetpid(count: nat, rounds: seq<seq<U64>>) returns (averages: seq<nat>)
    requires |rounds| == count
    requires forall i :: 0 <= i < count ==> |rounds[i]| == MEGA
    ensures |averages| == count
    ensures forall i :: 0 <= i < count ==> averages[i] == WrapSum(rounds[i]) / MEGA
  {
    averages := [];
    var i := 0;
    while i < count
      invariant 0 <= i <= count
      invariant |averages| == i
      invariant forall j :: 0 <= j < i ==> averages[j] == WrapSum(rounds[j]) / MEGA
    {
      var acc: U64 := 0;
      var x := 0;
      while x < MEGA
        invariant 0 <= x <= MEGA
        invariant acc == WrapSum(rounds[i][..x])
      {
        assert rounds[i][..x + 1][..x] == rounds[i][..x];
        acc := WrapAdd(acc, rounds[i][x]);
        x := x + 1;
      }
      assert rounds[i][..MEGA] == rounds[i];
      averages := averages + [acc / MEGA];
      i := i + 1;
    }
  }

  /**
   * Without overflow, a round's printed average lies between the integer mean rounded
   * down and the largest sample.
   */
  lemma AverageBounds(samples: seq<U64>, m: nat)
    requires |samples| == MEGA
    requires forall k :: 0 <= k < |samples| ==> samples[k] <= m
    requires MEGA * m < U64_MOD
    ensures WrapSum(samples) == Sum(samples)
    ensures WrapSum(samples) / MEGA <= m
    ensures (WrapSum(samples) / MEGA) * MEGA <= Sum(samples) < (WrapSum(samples) / MEGA + 1) * MEGA
  {
    SumBound(samples, m);
    WrapSumIsSumMod(samples);
  }

  // ---------------------------------------------------------------------------
  // main
  // ---------------------------------------------------------------------------

  /** The round count for the last `-c` argument seen, if any. */
  function RoundsFor(arg: Option<string>): (r: U64)
    ensures arg.None? ==> r == DEFAULT_ROUNDS
    ensures arg.Some? ==> r == ToU64(Text.Atoi(arg.value))
  {
    if arg.None? then DEFAULT_ROUNDS else ToU64(Text.Atoi(arg.value))
  }

  /**
   * The round count: 5 unless `-c` is given, then `atoi` of its last argument converted
   * to `size_t`, so a negative value wraps around to a huge count.
   */
  method RoundCount(opts: seq<(char, string)>) returns (count: U64)
    ensures LastArg(opts, 'c').None? ==> count == DEFAULT_ROUNDS
    ensures LastArg(opts, 'c').Some? ==> count == ToU64(Text.Atoi(LastArg(opts, 'c').value))
    ensures LastArg(opts, 'c').Some? && 0 <= Text.Atoi(LastArg(opts, 'c').value) < U64_MOD ==>
      count == Text.Atoi(LastArg(opts, 'c').value)
    ensures LastArg(opts, 'c').Some? && -(U64_MOD as int) <= Text.Atoi(LastArg(opts, 'c').value) < 0 ==>
      count == Text.Atoi(LastArg(opts, 'c').value) + U64_MOD
  {
    count := DEFAULT_ROUNDS;
    var i := 0;
    while i < |opts|
      invariant 0 <= i <= |opts|
      invariant count == RoundsFor(LastArg(opts[..i], 'c'))
    {
      ScanStep(opts, i, 'c');
      if opts[i].0 == 'c' {
        count := ToU64(Text.Atoi(opts[i].1));
      }
      i := i + 1;
    }
    assert opts[..|opts|] == opts;
  }
}

=== FILE: decode_bin.dfy ===
/**
 * bin/decode_bin.py: print integers as rows of binary digits under a header that names
 * each bit position. The widest number fixes the most significant bit shown; every
 * column is six characters wide, right-aligned, and a space follows each bit position
 * that is a multiple of four.
 */
module DecodeBin {
  import opened Wrappers
  import opened Text
  import opened Bits
  import opened Seqs

  /**
   * `find_msb(n)`: the position of the highest set bit, -1 for zero. Python's
   * `bit_length()` ignores the sign, so a negative number gets the position of its
   * magnitude's highest bit.
   */
  function FindMsb(n: int): (r: int)
    ensures r >= -1
    ensures r == -1 <==> n == 0
    ensures n > 0 ==> Pow2(r as nat) <= n < Pow2(r as nat + 1)
    ensures n < 0 ==> Pow2(r as nat) <= -n < Pow2(r as nat + 1)
  {
    if n == 0 then -1 else BitLength(if n < 0 then -n else n) - 1
  }

  /** `isset(num, i)`: `bool(num & (1 << i))`, which is bit `i` of two's complement `num`. */
  function IsSet(num: int, i: nat): (r: bool)
    ensures r <==> Bit(num, i)
  {
    MaskOfPow2(i, num);
    MaskOf(Pow2(i), num) != 0
  }

  /** `name(idx, description)`: the description's entry when there is one, else the index itself. */
  function Name(idx: nat, description: seq<string>): (r: string)
    ensures idx < |description| ==> r == description[idx]
    ensures idx >= |description| ==> r == IntToDec(idx)
  {
    if idx < |description| then description[idx] else IntToDec(idx)
  }

  /** `"{: >6}".format(s)`: right-aligned in six characters, never cut. */
  function Pad(s: string): (r: string)
    ensures |r| == if |s| < 6 then 6 else |s|
    ensures r[|r| - |s|..] == s
    ensures forall k :: 0 <= k < |r| - |s| ==> r[k] == ' '
  {
    Repeat(' ', 6 - |s|) + s
  }

  /** The extra space printed after bit position `i` when `not i % 4`. */
  function Gap(i: int): string {
    if i % 4 == 0 then " " else ""
  }

  /** One printed row: column `k` of `cols` belongs to bit position `i - k`. */
  function LayOut(cols: seq<string>, i: int): string
    requires |cols| <= i + 1
    decreases |cols|
  {
    if |cols| == 0 then "" else Pad(cols[0]) + Gap(i) + LayOut(cols[1..], i - 1)
  }

  /** The header's columns: the names of positions `top` down to 0. */
  function NameCols(top: int, description: seq<string>): (r: seq<string>)
    ensures |r| == if top < 0 then 0 else top + 1
    decreases top + 1
  {
    if top < 0 then [] else [Name(top, description)] + NameCols(top - 1, description)
  }

  /** A number's columns: `"{: >6}".format(isset(num, i))` prints a bool as 1 or 0. */
  function BitCols(num: int, top: int): (r: seq<string>)
    ensures |r| == if top < 0 then 0 else top + 1
    decreases top + 1
  {
    if top < 0 then [] else [if IsSet(num, top) then "1" else "0"] + BitCols(num, top - 1)
  }

  /** The binary number a row of "1"/"0" columns shows, most significant first. */
  function BinValue(cols: seq<string>): nat {
    if |cols| == 0 then 0
    else (if cols[0] == "1" then Pow2(|cols| - 1) else 0) + BinValue(cols[1..])
  }

  /** `hex(num)`: lower-case digits after `0x`, with the sign in front. */
  function PyHex(num: int): (r: string)
    ensures num >= 0 ==> r == "0x" + NatToHex(num)
    ensures num < 0 ==> r == "-0x" + NatToHex(-num)
  {
    if num < 0 then "-0x" + NatToHex(-num) else "0x" + NatToHex(num)
  }

  /** `print_header`: the name row, then `"=" * msb * 8` (empty when `msb` is -1). */
  function Header(msb: int, description: seq<string>): (r: seq<string>)
    requires msb >= -1
    ensures |r| == 2
    ensures |r[1]| == if msb < 0 then 0 else 8 * msb
  {
    [LayOut(NameCols(msb, description), msb), Repeat('=', msb * 8)]
  }

  /** `print_num`: the bit row, then the number in decimal and in hexadecimal. */
  function Row(num: int, msb: int): string
    requires msb >= -1
  {
    LayOut(BitCols(num, msb), msb) + RowTail(num)
  }

  /** Python's `max` of a non-empty list. */
  function Max(nums: seq<int>): (r: int)
    requires |nums| > 0
    ensures r in nums
    ensures forall k :: 0 <= k < |nums| ==> nums[k] <= r
  {
    if |nums| == 1 then nums[0]
    else
      var m := Max(nums[1..]);
      if nums[0] >= m then nums[0] else m
  }

  /**
   * `[int(i) for i in args.number]` with `parse` for `int`: the first argument it rejects
   * stops the script.
   */
  function ParseAll(args: seq<string>, parse: string -> Option<int>): (r: Result<seq<int>, string>)
    ensures r.Success? ==> |r.value| == |args|
    ensures r.Failure? ==> r.error in args && parse(r.error).None?
  {
    if |args| == 0 then Success([])
    else
      match parse(args[0])
      case None => Failure(args[0])
      case Some(n) =>
        var rest := ParseAll(args[1..], parse);
        if rest.Failure? then Failure(rest.error) else Success([n] + rest.value)
  }

  /** The list is built exactly when every argument parses, and holds their values in order. */
  lemma {:induction false} ParseAllSucceeds(args: seq<string>, parse: string -> Option<int>)
    ensures ParseAll(args, parse).Success? <==> forall k :: 0 <= k < |args| ==> parse(args[k]).Some?
    ensures ParseAll(args, parse).Success? ==>
      forall k :: 0 <= k < |args| ==> ParseAll(args, parse).value[k] == parse(args[k]).value
  {
    if |args| > 0 {
      var tail := args[1..];
      ParseAllSucceeds(tail, parse);
      assert forall j :: 1 <= j < |args| ==> tail[j - 1] == args[j];
    }
  }

  /** How the script ends. */
  datatype Outcome =
    | Usage                        // argparse: `number` needs at least one value, exit status 2
    | BadNumber(arg: string)       // `int()` raises ValueError
    | Printed(lines: seq<string>)  // header, separator, one row per number

  /** The description list: `--desc` split on commas when it is given and non-empty. */
  function Description(desc: Option<string>): seq<string> {
    if desc.Some? && |desc.value| > 0 then Split(desc.value, ',') else []
  }

  /** The script on its positional numbers and its optional `--desc`. */
  function Run(numbers: seq<string>, desc: Option<string>): (r: Outcome)
    ensures r == Usage <==> |numbers| == 0
    ensures r.Printed? <==> |numbers| > 0 && forall k :: 0 <= k < |numbers| ==> ParseInt(numbers[k]).Some?
    ensures r.BadNumber? ==> r.arg in numbers && ParseInt(r.arg).None?
    ensures r.Printed? ==> |r.lines| == 2 + |numbers|
  {
    ParseAllSucceeds(numbers, ParseInt);
    if |numbers| == 0 then Usage
    else
      match ParseAll(numbers, ParseInt)
      case Failure(arg) => BadNumber(arg)
      case Success(nums) =>
        var msb := FindMsb(Max(nums));
        Printed(Header(msb, Description(desc)) + seq(|nums|, k requires 0 <= k < |nums| => Row(nums[k], msb)))
  }

  // ---------------------------------------------------------------------------
  // The bit columns read back as the number
  // ---------------------------------------------------------------------------

  /** The columns show `num` modulo `2^(top+1)`: the number itself when it fits, two's complement otherwise. */
  lemma {:induction false} BitColsValue(num: int, top: nat)
    ensures BinValue(BitCols(num, top)) == num % Pow2(top + 1)
    decreases top
  {
    var cols := BitCols(num, top);
    assert cols[1..] == BitCols(num, top - 1);
    LowBits(num, top);
    if top > 0 {
      BitColsValue(num, top - 1);
    } else {
      assert cols[1..] == [];
    }
  }

  /** A number between 0 and the widest number printed shows exactly its own value. */
  lemma FitsInMsb(num: int, max: int)
    requires 0 <= num <= max
    ensures BinValue(BitCols(num, FindMsb(max))) == num
  {
    var msb := FindMsb(max);
    if max == 0 {
      assert num == 0;
    } else {
      var top: nat := msb as nat;
      BitColsValue(num, top);
      assert num < Pow2(top + 1);
      DivUnique(num, Pow2(top + 1), 0, num);
    }
  }

  // ---------------------------------------------------------------------------
  // A row splits into its columns
  // ---------------------------------------------------------------------------

  /** Columns that are words of fewer than six characters. */
  predicate ShortWords(cols: seq<string>) {
    forall k :: 0 <= k < |cols| ==> 0 < |cols[k]| < 6 && NoSpace(cols[k])
  }

  /**
   * Columns narrower than six characters always get padding, so `split()` recovers
   * them from a row, whatever follows after a space.
   */
  lemma {:induction false} WordsOfLayOut(cols: seq<string>, i: int, tail: string)
    requires |cols| <= i + 1
    requires ShortWords(cols)
    requires |tail| == 0 || IsSpace(tail[0])
    ensures Words(LayOut(cols, i) + tail) == cols + Words(tail)
    decreases |cols|, 1
  {
    if |cols| == 0 {
      WordsOfEmptyLayOut(cols, i, tail);
    } else {
      WordsOfLayOutCons(cols, i, tail);
    }
  }

  /** The step: the first column comes off, the rest splits by induction. */
  lemma {:induction false} WordsOfLayOutCons(cols: seq<string>, i: int, tail: string)
    requires 0 < |cols| <= i + 1
    requires ShortWords(cols)
    requires |tail| == 0 || IsSpace(tail[0])
    ensures Words(LayOut(cols, i) + tail) == cols + Words(tail)
    decreases |cols|, 0
  {
    ShortWordsTail(cols);
    WordsOfLayOut(cols[1..], i - 1, tail);
    WordsOfLayOutHead(cols, i, tail);
  }

  lemma ShortWordsTail(cols: seq<string>)
    requires |cols| > 0 && ShortWords(cols)
    ensures ShortWords(cols[1..])
  {
    assert forall k :: 0 <= k < |cols| - 1 ==> cols[1..][k] == cols[k + 1];
  }

  lemma WordsOfEmptyLayOut(cols: seq<string>, i: int, tail: string)
    requires |cols| == 0 <= i + 1
    ensures Words(LayOut(cols, i) + tail) == cols + Words(tail)
  {
    assert LayOut(cols, i) + tail == tail;
    assert cols + Words(tail) == Words(tail);
  }

  /** The first column of a row comes off as the first word; the others follow as they would alone. */
  lemma WordsOfLayOutHead(cols: seq<string>, i: int, tail: string)
    requires 0 < |cols| <= i + 1
    requires ShortWords(cols)
    requires |tail| == 0 || IsSpace(tail[0])
    requires Words(LayOut(cols[1..], i - 1) + tail) == cols[1..] + Words(tail)
    ensures Words(LayOut(cols, i) + tail) == cols + Words(tail)
  {
    WordsOfLayOutFirst(cols, i, tail);
    ConsAppend(cols, Words(tail));
  }

  lemma WordsOfLayOutFirst(cols: seq<string>, i: int, tail: string)
    requires 0 < |cols| <= i + 1
    requires ShortWords(cols)
    requires |tail| == 0 || IsSpace(tail[0])
    ensures Words(LayOut(cols, i) + tail) == [cols[0]] + Words(LayOut(cols[1..], i - 1) + tail)
  {
    var first, gap, others := Pad(cols[0]), Gap(i), LayOut(cols[1..], i - 1);
    var later := others + tail;
    assert LayOut(cols, i) == first + gap + others;
    Regroup(first, gap, others, tail);
    StartsWithSpace(cols[1..], i - 1, tail);
    WordsOfPadded(cols[0], gap + later);
    assert forall k :: 0 <= k < |gap| ==> IsSpace(gap[k]);
    WordsSkipSpace(gap, later);
  }

  /** A row of padded columns, then a tail starting with a space, starts with a space or is empty. */
  lemma StartsWithSpace(cols: seq<string>, i: int, tail: string)
    requires |cols| <= i + 1
    requires forall k :: 0 <= k < |cols| ==> |cols[k]| < 6
    requires |tail| == 0 || IsSpace(tail[0])
    ensures var s := Gap(i + 1) + (LayOut(cols, i) + tail); |s| == 0 || IsSpace(s[0])
  {
    if |cols| > 0 {
      assert LayOut(cols, i)[0] == Pad(cols[0])[0] == ' ';
    }
  }

  /** A padded short word, then something starting with a space, splits into that word and the rest. */
  lemma WordsOfPadded(c: string, rest: string)
    requires 0 < |c| < 6 && NoSpace(c)
    requires |rest| == 0 || IsSpace(rest[0])
    ensures Words(Pad(c) + rest) == [c] + Words(rest)
  {
    var pad := Repeat(' ', 6 - |c|);
    assert Pad(c) == pad + c;
    WordsOfSpacedWord(pad, c, rest);
  }

  /** The "1"/"0" columns are single non-space characters. */
  lemma BitColsShape(num: int, top: int)
    ensures ShortWords(BitCols(num, top))
    decreases top + 1
  {
    if top >= 0 {
      BitColsShape(num, top - 1);
      var cols := BitCols(num, top);
      assert NoSpace(cols[0]) by {
        assert cols[0] == "1" || cols[0] == "0";
      }
      assert forall k :: 1 <= k < |cols| ==> cols[k] == BitCols(num, top - 1)[k - 1];
    }
  }

  lemma DecNoSpace(i: int)
    ensures NoSpace(IntToDec(i))
  {
    var d := NatToDec(if i < 0 then -i else i);
    assert forall k :: 0 <= k < |d| ==> IsDigit(d[k]);
    if i < 0 {
      assert forall k :: 1 <= k < |IntToDec(i)| ==> IntToDec(i)[k] == d[k - 1];
    }
  }

  lemma HexNoSpace(num: int)
    ensures NoSpace(PyHex(num))
  {
    var h := NatToHex(if num < 0 then -num else num);
    assert NoSpace(h) by {
      assert forall k :: 0 <= k < |h| ==> IsDigit(h[k]) || 'a' <= h[k] <= 'f';
    }
    NoSpaceAfter(if num < 0 then "-0x" else "0x", h);
  }

  /** Space-free text behind a space-free prefix stays space-free. */
  lemma NoSpaceAfter(pre: string, s: string)
    requires NoSpace(pre) && NoSpace(s)
    ensures NoSpace(pre + s)
  {
    assert forall k :: |pre| <= k < |pre + s| ==> (pre + s)[k] == s[k - |pre|];
  }

  /**
   * A printed row splits into its bit columns, then the decimal and the hexadecimal
   * rendering in parentheses.
   */
  lemma RowWords(num: int, msb: int)
    requires msb >= -1
    ensures Words(Row(num, msb)) == BitCols(num, msb) + [Paren(IntToDec(num)), Paren(PyHex(num))]
  {
    RowTailWords(num);
    BitColsShape(num, msb);
    WordsOfLayOut(BitCols(num, msb), msb, RowTail(num));
  }

  /** `"(" + s + ")"`. */
  function Paren(s: string): string {
    "(" + s + ")"
  }

  /** What follows the bit columns: two spaces, the decimal, a space, the hexadecimal. */
  function RowTail(num: int): string {
    "  " + Paren(IntToDec(num)) + " " + Paren(PyHex(num))
  }

  lemma RowTailWords(num: int)
    ensures Words(RowTail(num)) == [Paren(IntToDec(num)), Paren(PyHex(num))]
    ensures IsSpace(RowTail(num)[0])
  {
    var w1, w2 := Paren(IntToDec(num)), Paren(PyHex(num));
    DecNoSpace(num);
    HexNoSpace(num);
    ParenWord(IntToDec(num));
    ParenWord(PyHex(num));
    Regroup3("  ", w1, " ", w2);
    WordsOfSpacedWord("  ", w1, " " + w2);
    assert " " + w2 == " " + w2 + "";
    WordsOfSpacedWord(" ", w2, "");
    assert Words("") == [];
    ConsAppend([w1, w2], []);
  }

  lemma ParenWord(s: string)
    requires NoSpace(s)
    ensures |Paren(s)| > 0 && NoSpace(Paren(s))
  {
    var w := Paren(s);
    forall k | 0 <= k < |w| ensures !IsSpace(w[k]) {
      if k == 0 {
        assert w[k] == '(';
      } else if k == |w| - 1 {
        assert w[k] == ')';
      } else {
        assert w[k] == s[k - 1];
      }
    }
  }

  /** A number between 0 and the widest number splits into columns that read back as itself. */
  lemma RowReadsBack(num: int, max: int)
    requires 0 <= num <= max
    ensures var ws := Words(Row(num, FindMsb(max)));
      |ws| >= 2 && BinValue(ws[..|ws| - 2]) == num && ws[|ws| - 2] == Paren(IntToDec(num))
  {
    var msb := FindMsb(max);
    RowWords(num, msb);
    var ws := Words(Row(num, msb));
    PrefixOfAppend(BitCols(num, msb), [Paren(IntToDec(num)), Paren(PyHex(num))]);
    FitsInMsb(num, max);
  }

  /** Line `2 + k` of the output is the row of the `k`-th number. */
  lemma RunRow(numbers: seq<string>, desc: Option<string>, k: nat)
    requires Run(numbers, desc).Printed? && k < |numbers|
    ensures var nums := ParseAll(numbers, ParseInt).value;
      |nums| == |numbers| && nums[k] == ParseInt(numbers[k]).value
      && Run(numbers, desc).lines[2 + k] == Row(nums[k], FindMsb(Max(nums)))
  {
    ParseAllSucceeds(numbers, ParseInt);
  }

  /**
   * Every row the script prints for a non-negative number reads back as that number:
   * its bit columns, taken as binary, give the value shown in parentheses.
   */
  lemma RowsReadBack(numbers: seq<string>, desc: Option<string>, k: nat)
    requires Run(numbers, desc).Printed? && k < |numbers|
    requires ParseInt(numbers[k]).value >= 0
    ensures var ws := Words(Run(numbers, desc).lines[2 + k]);
      |ws| >= 2 && BinValue(ws[..|ws| - 2]) == ParseInt(numbers[k]).value
      && ws[|ws| - 2] == Paren(IntToDec(ParseInt(numbers[k]).value))
  {
    RunRow(numbers, desc, k);
    var nums := ParseAll(numbers, ParseInt).value;
    RowReadsBack(nums[k], Max(nums));
  }

  // ---------------------------------------------------------------------------
  // Header and rows share their columns
  // ---------------------------------------------------------------------------

  /** How many of the positions `i`, `i - 1`, ... (`n` of them) get the extra space. */
  function GapCount(i: int, n: nat): nat
    decreases n
  {
    if n == 0 then 0 else |Gap(i)| + GapCount(i - 1, n - 1)
  }

  /** Columns of at most six characters take exactly six each, plus the quarter spaces. */
  lemma {:induction false} LayOutWidth(cols: seq<string>, i: int)
    requires |cols| <= i + 1
    requires forall k :: 0 <= k < |cols| ==> |cols[k]| <= 6
    ensures |LayOut(cols, i)| == 6 * |cols| + GapCount(i, |cols|)
    decreases |cols|
  {
    if |cols| > 0 {
      LayOutWidth(cols[1..], i - 1);
    }
  }

  /** A row is its first `k` columns followed by the rest, laid from position `i - k`. */
  lemma {:induction false} LayOutSplit(cols: seq<string>, i: int, k: nat)
    requires |cols| <= i + 1 && k <= |cols|
    ensures LayOut(cols, i) == LayOut(cols[..k], i) + LayOut(cols[k..], i - k)
    decreases k
  {
    if k > 0 {
      assert cols[..k][1..] == cols[1..][..k - 1];
      assert cols[k..] == cols[1..][k - 1..];
      LayOutSplit(cols[1..], i - 1, k - 1);
    } else {
      assert cols[..0] == [];
    }
  }

  /**
   * When every name fits in six characters, the column of each bit position starts at
   * the same offset in the header as in every number's row.
   */
  lemma ColumnsAlign(msb: int, description: seq<string>, num: int, k: nat)
    requires msb >= -1 && k <= msb + 1
    requires forall j :: 0 <= j < |description| ==> |description[j]| <= 6
    requires msb < 1_000_000
    ensures var names, bits := NameCols(msb, description), BitCols(num, msb);
      && LayOut(names, msb) == LayOut(names[..k], msb) + LayOut(names[k..], msb - k)
      && LayOut(bits, msb) == LayOut(bits[..k], msb) + LayOut(bits[k..], msb - k)
      && |LayOut(names[..k], msb)| == |LayOut(bits[..k], msb)|
  {
    var names, bits := NameCols(msb, description), BitCols(num, msb);
    LayOutSplit(names, msb, k);
    LayOutSplit(bits, msb, k);
    NamesFit(msb, description);
    BitColsShape(num, msb);
    LayOutWidth(names[..k], msb);
    LayOutWidth(bits[..k], msb);
  }

  /** Positions below a million print in at most six digits, and description entries are short. */
  lemma NamesFit(top: int, description: seq<string>)
    requires top < 1_000_000
    requires forall j :: 0 <= j < |description| ==> |description[j]| <= 6
    ensures forall k :: 0 <= k < |NameCols(top, description)| ==> |NameCols(top, description)[k]| <= 6
    decreases top + 1
  {
    if top >= 0 {
      NamesFit(top - 1, description);
      if top >= |description| {
        DecWidth(top);
      }
    }
  }

  /** A natural number below a million has at most six decimal digits. */
  lemma {:induction false} DecWidth(n: nat)
    requires n < 1_000_000
    ensures |IntToDec(n)| <= 6
  {
    DigitsBound(n, 6);
  }

  lemma {:induction false} DigitsBound(n: nat, w: nat)
    requires n < Pow10(w)
    ensures |NatToDec(n)| <= if w == 0 then 1 else w
    decreases w
  {
    if n >= 10 {
      DigitsBound(n / 10, w - 1);
    }
  }

  function Pow10(w: nat): nat {
    if w == 0 then 1 else 10 * Pow10(w - 1)
  }
}

=== FILE: dict.dfy ===
/**
 * Python's insertion-ordered `dict` with string keys, as the maps/ scripts use it: a
 * sequence of key/value pairs in which `d[key] = value` replaces the value of a key in
 * place and appends a new key at the end.
 */
module Dict {
  import opened Wrappers

  type Dict<V> = seq<(string, V)>

  /** The values the scripts store: an `int`, or a `str` they did not convert. */
  datatype Value = Int(i: int) | Str(s: string)

  /** Every key appears once. */
  predicate UniqueKeys<V>(d: Dict<V>) {
    forall i, j :: 0 <= i < j < |d| ==> d[i].0 != d[j].0
  }

  predicate HasKey<V>(d: Dict<V>, k: string) {
    exists i :: 0 <= i < |d| && d[i].0 == k
  }

  /** `d.get(k)`: the value of the first pair with key `k`. */
  function Get<V>(d: Dict<V>, k: string): (r: Option<V>)
    ensures r.Some? <==> HasKey(d, k)
    ensures r.Some? ==> exists i :: 0 <= i < |d| && d[i] == (k, r.value)
  {
    if |d| == 0 then None
    else if d[0].0 == k then Some(d[0].1)
    else
      var r := Get(d[1..], k);
      assert forall i :: 1 <= i < |d| ==> d[i] == d[1..][i - 1];
      r
  }

  /** `d[k] = v`. */
  function Put<V>(d: Dict<V>, k: string, v: V): (r: Dict<V>)
    decreases |d|
  {
    if |d| == 0 then [(k, v)]
    else if d[0].0 == k then [(k, v)] + d[1..]
    else [d[0]] + Put(d[1..], k, v)
  }

  /** After `d[k] = v` the key reads back `v` and every other key reads as before. */
  lemma {:induction false} GetPut<V>(d: Dict<V>, k: string, v: V, k': string)
    ensures Get(Put(d, k, v), k') == if k' == k then Some(v) else Get(d, k')
    decreases |d|
  {
    if |d| > 0 && d[0].0 != k {
      GetPut(d[1..], k, v, k');
    }
  }

  /** A second store to the same key overwrites the first and leaves the layout as one store would. */
  lemma {:induction false} PutPut<V>(d: Dict<V>, k: string, v: V, w: V)
    ensures Put(Put(d, k, v), k, w) == Put(d, k, w)
    decreases |d|
  {
    if |d| > 0 && d[0].0 != k {
      PutPut(d[1..], k, v, w);
      assert Put(d, k, v)[1..] == Put(d[1..], k, v);
    }
  }

  /** `d[k] = v` keeps a present key in its place and appends a new one; keys stay unique. */
  lemma PutShape<V>(d: Dict<V>, k: string, v: V)
    ensures HasKey(d, k) ==> |Put(d, k, v)| == |d|
    ensures !HasKey(d, k) ==> Put(d, k, v) == d + [(k, v)]
    ensures forall i :: 0 <= i < |d| ==> Put(d, k, v)[i].0 == d[i].0
    ensures UniqueKeys(d) ==> UniqueKeys(Put(d, k, v))
  {
    PutLayout(d, k, v);
    if UniqueKeys(d) {
      PutUnique(d, k, v);
    }
  }

  /** Where the pairs of `d[k] = v` sit: the old keys in place, a new key at the end. */
  lemma {:induction false} PutLayout<V>(d: Dict<V>, k: string, v: V)
    ensures HasKey(d, k) ==> |Put(d, k, v)| == |d|
    ensures !HasKey(d, k) ==> Put(d, k, v) == d + [(k, v)]
    ensures forall i :: 0 <= i < |d| ==> Put(d, k, v)[i].0 == d[i].0
    decreases |d|
  {
    if |d| > 0 && d[0].0 != k {
      PutLayout(d[1..], k, v);
      assert Put(d, k, v) == [d[0]] + Put(d[1..], k, v);
      assert forall i :: 1 <= i < |d| ==> d[i] == d[1..][i - 1];
      if HasKey(d, k) {
        var i :| 0 <= i < |d| && d[i].0 == k;
        assert d[1..][i - 1].0 == k;
      }
    }
  }

  /** `d[k] = v` never stores a key twice. */
  lemma PutUnique<V>(d: Dict<V>, k: string, v: V)
    requires UniqueKeys(d)
    ensures UniqueKeys(Put(d, k, v))
  {
    PutLayout(d, k, v);
    var r := Put(d, k, v);
    if HasKey(d, k) {
      forall i, j | 0 <= i < j < |r| ensures r[i].0 != r[j].0 {
        assert r[i].0 == d[i].0 && r[j].0 == d[j].0;
      }
    } else {
      forall i, j | 0 <= i < j < |r| ensures r[i].0 != r[j].0 {
        assert r[i] == d[i];
        if j < |d| {
          assert r[j] == d[j];
        } else {
          assert r[j].0 == k;
        }
      }
    }
  }

  /** The pairs of `kvs` stored one after the other, as a loop of `d[key] = value`. */
  function PutAll<V>(d: Dict<V>, kvs: seq<(string, V)>): Dict<V>
    decreases |kvs|
  {
    if |kvs| == 0 then d else PutAll(Put(d, kvs[0].0, kvs[0].1), kvs[1..])
  }

  /** The value the last pair with key `k` carries. */
  function LastValue<V>(kvs: seq<(string, V)>, k: string): (r: Option<V>)
    ensures r.Some? ==> exists i :: 0 <= i < |kvs| && kvs[i] == (k, r.value)
    ensures r.None? ==> forall i :: 0 <= i < |kvs| ==> kvs[i].0 != k
  {
    if |kvs| == 0 then None
    else if kvs[|kvs| - 1].0 == k then Some(kvs[|kvs| - 1].1)
    else LastValue(kvs[..|kvs| - 1], k)
  }

  /** The last value of a key, seen from the front: the rest's last value, else the first pair's. */
  lemma {:induction false} LastValueCons<V>(kv: (string, V), kvs: seq<(string, V)>, k: string)
    ensures LastValue([kv] + kvs, k)
         == if LastValue(kvs, k).Some? then LastValue(kvs, k)
            else if kv.0 == k then Some(kv.1) else None
    decreases |kvs|
  {
    var all := [kv] + kvs;
    if |kvs| == 0 {
      assert all == [kv];
    } else {
      assert all[..|all| - 1] == [kv] + kvs[..|kvs| - 1];
      LastValueCons(kv, kvs[..|kvs| - 1], k);
    }
  }

  /** After storing a run of pairs, a key reads as its last store, or as before when never stored. */
  lemma {:induction false} GetPutAll<V>(d: Dict<V>, kvs: seq<(string, V)>, k: string)
    ensures Get(PutAll(d, kvs), k) == if LastValue(kvs, k).Some? then LastValue(kvs, k) else Get(d, k)
    decreases |kvs|
  {
    if |kvs| > 0 {
      var last := kvs[|kvs| - 1];
      var front := kvs[..|kvs| - 1];
      PutAllSnoc(d, front, last);
      assert kvs == front + [last];
      GetPut(PutAll(d, front), last.0, last.1, k);
      GetPutAll(d, front, k);
    }
  }

  /** Storing one more pair after a run. */
  lemma {:induction false} PutAllSnoc<V>(d: Dict<V>, kvs: seq<(string, V)>, kv: (string, V))
    ensures PutAll(d, kvs + [kv]) == Put(PutAll(d, kvs), kv.0, kv.1)
    decreases |kvs|
  {
    if |kvs| == 0 {
      assert kvs + [kv] == [kv];
    } else {
      assert (kvs + [kv])[1..] == kvs[1..] + [kv];
      PutAllSnoc(Put(d, kvs[0].0, kvs[0].1), kvs[1..], kv);
    }
  }

  /** Storing never loses keys, and unique keys stay unique. */
  lemma {:induction false} PutAllKeepsUnique<V>(d: Dict<V>, kvs: seq<(string, V)>)
    ensures UniqueKeys(d) ==> UniqueKeys(PutAll(d, kvs))
    decreases |kvs|
  {
    if |kvs| > 0 {
      PutShape(d, kvs[0].0, kvs[0].1);
      PutAllKeepsUnique(Put(d, kvs[0].0, kvs[0].1), kvs[1..]);
    }
  }
}

=== FILE: getopt.dfy ===
/**
 * The `(option, argument)` pairs `getopt` hands to a `while ((arg = getopt(...)) != -1)`
 * loop, and what a left-to-right scan over them has seen. `getopt` itself belongs to
 * the C library; a pair's argument is empty for an option that takes none.
 */
module Getopt {
  import opened Wrappers

  /** The argument of the last occurrence of option `c`, if any. */
  function LastArg(opts: seq<(char, string)>, c: char): (r: Option<string>)
    ensures r.Some? ==> exists k :: 0 <= k < |opts| && opts[k] == (c, r.value)
    ensures r.None? <==> forall k :: 0 <= k < |opts| ==> opts[k].0 != c
  {
    if |opts| == 0 then None
    else if opts[|opts| - 1].0 == c then Some(opts[|opts| - 1].1)
    else
      var r := LastArg(opts[..|opts| - 1], c);
      assert forall k :: 0 <= k < |opts| - 1 ==> opts[..|opts| - 1][k] == opts[k];
      r
  }

  /** The option letter `c` appears. */
  predicate HasOpt(opts: seq<(char, string)>, c: char) {
    exists k :: 0 <= k < |opts| && opts[k].0 == c
  }

  /** Appending one option updates `LastArg` and `HasOpt` as a left-to-right scan does. */
  lemma ScanStep(opts: seq<(char, string)>, i: nat, c: char)
    requires i < |opts|
    ensures LastArg(opts[..i + 1], c) == if opts[i].0 == c then Some(opts[i].1) else LastArg(opts[..i], c)
    ensures HasOpt(opts[..i + 1], c) <==> HasOpt(opts[..i], c) || opts[i].0 == c
  {
    assert opts[..i + 1][..i] == opts[..i];
    assert opts[..i + 1][i] == opts[i];
    if HasOpt(opts[..i], c) {
      var k :| 0 <= k < i && opts[..i][k].0 == c;
      assert opts[..i + 1][k].0 == c;
    }
  }
}

=== FILE: likely.dfy ===
/**
 * likely/likely.c: a branch-hint demonstration. `bar` answers 1 above 9999 and has a
 * second, hinted test for 10000 that can never be reached; `main` calls it for every
 * `i` in 0..10000, ten thousand times over, and counts the ones. The branch hints change
 * code layout only, so they do not appear here; `t` never comes near the `int` range.
 */
module Likely {

  /** The bound of the first test in `bar`. */
  const THRESHOLD: int := 9999

  /** The outer loop's count and the inner loop's last value in `main`. */
  const OUTER: nat := 10000
  const INNER_LAST: nat := 10000

  /** `bar(i)`, with both tests in their order. */
  function Bar(i: int): (r: int)
    ensures r == 0 || r == 1
  {
    if i > THRESHOLD then 1
    else if i == 10000 then 1
    else 0
  }

  /** Whether a call reaches the hinted `likely(i == 10000)` test: only when the first test fails. */
  predicate ReachesLikelyTest(i: int) {
    !(i > THRESHOLD)
  }

  /** The hinted test is dead: every call that reaches it has `i != 10000`. */
  lemma LikelyTestNeverTaken(i: int)
    requires ReachesLikelyTest(i)
    ensures i != 10000
  {
  }

  /** `bar` is a threshold: 1 exactly above 9999, for every `int`. */
  lemma BarIsThreshold(i: int)
    ensures Bar(i) == 1 <==> i > THRESHOLD
    ensures Bar(i) == 0 <==> i <= THRESHOLD
  {
  }

  /** How many `i` in `lo..hi-1` make `bar` return 1. */
  function Hits(lo: int, hi: int): (n: nat)
    decreases hi - lo
  {
    if hi <= lo then 0 else Hits(lo, hi - 1) + (if Bar(hi - 1) != 0 then 1 else 0)
  }

  /** Below 10000 nothing counts; 10000 itself counts once. */
  lemma {:induction false} HitsUpTo(n: int)
    requires 0 <= n <= INNER_LAST + 1
    ensures Hits(0, n) == if n == INNER_LAST + 1 then 1 else 0
    decreases n
  {
    if n > 0 {
      HitsUpTo(n - 1);
    }
  }

  /** Over 0..10000 inclusive exactly one value makes `bar` return 1. */
  lemma OneHitPerSweep()
    ensures Hits(0, INNER_LAST + 1) == 1
  {
    HitsUpTo(INNER_LAST + 1);
  }

  /** `main`'s two loops: the total it prints. */
  method Total() returns (t: int)
    ensures t == OUTER * Hits(0, INNER_LAST + 1)
    ensures t == 10000
  {
    OneHitPerSweep();
    t := 0;
    var j := 0;
    while j < OUTER
      invariant 0 <= j <= OUTER
      invariant t == j
    {
      var i := 0;
      while i <= INNER_LAST
        invariant 0 <= i <= INNER_LAST + 1
        invariant t == j + Hits(0, i)
      {
        HitsUpTo(i + 1);
        if Bar(i) != 0 {
          t := t + 1;
        }
        i := i + 1;
      }
      j := j + 1;
    }
  }
}

=== FILE: machine.dfy ===
/**
 * Fixed-width C integers written out explicitly: `uint64_t` arithmetic wraps modulo 2^64,
 * `int` is 32-bit two's complement, and C's `/` on signed operands truncates toward zero.
 */
module Machine {

  const U64_MOD: nat := 0x1_0000_0000_0000_0000
  const U32_MOD: nat := 0x1_0000_0000

  type U64 = x: nat | x < U64_MOD

  const I32_MIN: int := -0x8000_0000
  const I32_MAX: int := 0x7FFF_FFFF

  predicate InI32(x: int) { I32_MIN <= x <= I32_MAX }

  /** `a + b` on `uint64_t`. */
  function WrapAdd(a: nat, b: nat): (r: U64)
    ensures a + b < U64_MOD ==> r == a + b
  {
    (a + b) % U64_MOD
  }

  /** `a - b` on `uint64_t`: a later reading minus an earlier one, wrapping when it is smaller. */
  function WrapSub(a: U64, b: U64): (r: U64)
    ensures b <= a ==> r == a - b
    ensures a < b ==> r == U64_MOD - (b - a)
  {
    (a - b) % U64_MOD
  }

  /** `a * b` on `uint64_t`. */
  function WrapMul(a: nat, b: nat): (r: U64)
    ensures a * b < U64_MOD ==> r == a * b
  {
    (a * b) % U64_MOD
  }

  /** A signed value converted to `uint64_t` (or `size_t`): taken modulo 2^64. */
  function ToU64(x: int): (r: U64)
    ensures 0 <= x < U64_MOD ==> r == x
    ensures -(U64_MOD as int) <= x < 0 ==> r == x + U64_MOD
    ensures (x - r) % U64_MOD == 0
  {
    x % U64_MOD
  }

  /** C's `a / b` on signed integers: the quotient truncated toward zero. */
  function TruncDiv(a: int, b: int): (q: int)
    requires b != 0
    ensures b > 0 && a >= 0 ==> q == a / b
    ensures b > 0 && a < 0 ==> q == -((-a) / b)
  {
    if (a >= 0) == (b > 0) then
      (if a >= 0 then a else -a) / (if b > 0 then b else -b)
    else
      -((if a >= 0 then a else -a) / (if b > 0 then b else -b))
  }

  /** Adding in two steps on a wrapping counter is adding the sum. */
  lemma WrapAddTwice(a: nat, m: nat, n: nat)
    ensures WrapAdd(WrapAdd(a, m), n) == WrapAdd(a, m + n)
  {
    var x := a + m;
    assert x == (x / U64_MOD) * U64_MOD + x % U64_MOD;
  }
}

=== FILE: memory_type.dfy ===
/**
 * maps/memory_type.py: read a process's smaps entries and, for every flag filter (the
 * defaults "rd", "wr", "ex", "sh" followed by those given with `--filters`), add up the
 * resident and mapped sizes of the entries whose "VmFlags" text contains the filter.
 * The `ps` output and the smaps text are parameters.
 *
 * A filter given twice is one key of the result but is counted twice: its totals are
 * the number of times it is listed times the sums over the matching entries.
 */
module MemoryType {
  import opened Wrappers
  import opened Text
  import opened Dict
  import opened SmapsEntries
  import Ps

  /** The `--filters` default; `action='append'` adds to it rather than replacing it. */
  const DEFAULT_FILTERS: seq<string> := ["rd", "wr", "ex", "sh"]

  /** The filter list the script ends up with. */
  function Filters(given: seq<string>): (r: seq<string>)
    ensures |r| == 4 + |given| && r[..4] == DEFAULT_FILTERS && r[4..] == given
  {
    DEFAULT_FILTERS + given
  }

  /** Resident and mapped bytes of the entries one filter matches. */
  datatype Usage = Usage(rss: int, vsize: int)

  const EMPTY: Usage := Usage(0, 0)

  /** The first loop: `ret[f] = {"rss": 0, "vsize": 0}` for every filter, onto `d`. */
  function InitFrom(d: Dict<Usage>, fs: seq<string>): Dict<Usage>
    decreases |fs|
  {
    if |fs| == 0 then d else InitFrom(Put(d, fs[0], EMPTY), fs[1..])
  }

  /** After the first loop every filter reads as empty, and other keys as before. */
  lemma {:induction false} InitFromGet(d: Dict<Usage>, fs: seq<string>, f: string)
    ensures Get(InitFrom(d, fs), f) == if f in fs then Some(EMPTY) else Get(d, f)
    decreases |fs|
  {
    if |fs| > 0 {
      InitFromGet(Put(d, fs[0], EMPTY), fs[1..], f);
      GetPut(d, fs[0], EMPTY, f);
      assert fs == [fs[0]] + fs[1..];
    }
  }

  /** The flags text of an entry: `entry["VmFlags"]` raises when missing, and `in` on a number raises. */
  function FlagsOf(entry: Dict<Value>): (r: Result<string, string>)
    ensures r.Success? <==> Get(entry, "VmFlags").Some? && Get(entry, "VmFlags").value.Str?
  {
    match Get(entry, "VmFlags")
    case None => Failure("KeyError: VmFlags")
    case Some(v) => if v.Str? then Success(v.s) else Failure("TypeError: VmFlags")
  }

  /** The entry has text flags containing `f`. */
  predicate Matches(entry: Dict<Value>, f: string) {
    FlagsOf(entry).Success? && Contains(FlagsOf(entry).value, f)
  }

  /**
   * One pass of the inner loop: when `f` is in the entry's flags,
   * `ret[f]["rss"] += entry["Rss"]`, then `ret[f]["vsize"] += entry["Size"]`.
   */
  function Apply(ret: Dict<Usage>, entry: Dict<Value>, f: string): Result<Dict<Usage>, string> {
    match FlagsOf(entry)
    case Failure(e) => Failure(e)
    case Success(flags) =>
      if !Contains(flags, f) then Success(ret)
      else
        match Get(ret, f)
        case None => Failure("KeyError: " + f)
        case Some(u) =>
          match Accumulate(u, entry)
          case Failure(e) => Failure(e)
          case Success(v) => Success(Put(ret, f, v))
  }

  /** `["rss"] += entry["Rss"]`, then `["vsize"] += entry["Size"]`; a missing or textual size raises. */
  function Accumulate(u: Usage, entry: Dict<Value>): Result<Usage, string> {
    match IntField(entry, "Rss")
    case Failure(e) => Failure(e)
    case Success(rss) =>
      match IntField(entry, "Size")
      case Failure(e) => Failure(e)
      case Success(size) => Success(Usage(u.rss + rss, u.vsize + size))
  }

  /** The inner loop for one entry over the filters `fs`. */
  function EntryStep(ret: Dict<Usage>, entry: Dict<Value>, fs: seq<string>): Result<Dict<Usage>, string>
    decreases |fs|
  {
    if |fs| == 0 then Success(ret)
    else
      match Apply(ret, entry, fs[0])
      case Failure(e) => Failure(e)
      case Success(r) => EntryStep(r, entry, fs[1..])
  }

  /** The outer loop over the entries. */
  function Scan(ret: Dict<Usage>, entries: seq<Dict<Value>>, fs: seq<string>): Result<Dict<Usage>, string>
    decreases |entries|
  {
    if |entries| == 0 then Success(ret)
    else
      match EntryStep(ret, entries[0], fs)
      case Failure(e) => Failure(e)
      case Success(r) => Scan(r, entries[1..], fs)
  }

  /** `parse_filters(entries, filters)`. */
  function ParseFilters(entries: seq<Dict<Value>>, fs: seq<string>): Result<Dict<Usage>, string> {
    Scan(InitFrom([], fs), entries, fs)
  }

  // ---------------------------------------------------------------------------
  // What the totals are
  // ---------------------------------------------------------------------------

  /** How many times `f` is listed. */
  function Occurrences(fs: seq<string>, f: string): (n: nat)
    ensures n <= |fs|
    ensures n > 0 <==> f in fs
  {
    if |fs| == 0 then 0 else (if fs[0] == f then 1 else 0) + Occurrences(fs[1..], f)
  }

  /** What one entry adds to `key` for one listing of `f`. */
  function Share(entry: Dict<Value>, f: string, key: string): int {
    if Matches(entry, f) && IntField(entry, key).Success? then IntField(entry, key).value else 0
  }

  /** The sum of `key` over the entries whose flags contain `f`. */
  function MatchTotal(entries: seq<Dict<Value>>, f: string, key: string): int
    decreases |entries|
  {
    if |entries| == 0 then 0 else Share(entries[0], f, key) + MatchTotal(entries[1..], f, key)
  }

  /** Usage plus `n` listings' worth of one entry's shares. */
  function AddShares(u: Usage, n: int, entry: Dict<Value>, f: string): Usage {
    Usage(u.rss + n * Share(entry, f, "Rss"), u.vsize + n * Share(entry, f, "Size"))
  }

  lemma AddSharesTwice(u: Usage, m: int, n: int, entry: Dict<Value>, f: string)
    ensures AddShares(AddShares(u, m, entry, f), n, entry, f) == AddShares(u, m + n, entry, f)
  {
    var a, b := Share(entry, f, "Rss"), Share(entry, f, "Size");
    assert (m + n) * a == m * a + n * a && (m + n) * b == m * b + n * b;
  }

  /** Adding `n` shares of `a`, then `n` shares of `b`, adds `n` shares of `a + b`. */
  lemma AddsCompose(x: int, n: int, a: int, b: int)
    ensures (x + n * a) + n * b == x + n * (a + b)
  {
  }

  /** One pass adds the entry's share to the filter it handles and leaves every other key alone. */
  lemma ApplyGet(ret: Dict<Usage>, entry: Dict<Value>, f: string, g: string)
    requires Apply(ret, entry, f).Success?
    ensures Get(Apply(ret, entry, f).value, g) ==
      if g == f && Get(ret, g).Some? then Some(AddShares(Get(ret, g).value, 1, entry, f)) else Get(ret, g)
  {
    if Matches(entry, f) {
      ApplyMatching(ret, entry, f);
      GetPut(ret, f, AddShares(Get(ret, f).value, 1, entry, f), g);
    } else {
      ApplyNotMatching(ret, entry, f);
      if g == f && Get(ret, g).Some? {
        var u := Get(ret, g).value;
        assert AddShares(u, 1, entry, f) == u;
      }
    }
  }

  /** A matching entry stores the filter's usage plus one share. */
  lemma ApplyMatching(ret: Dict<Usage>, entry: Dict<Value>, f: string)
    requires Apply(ret, entry, f).Success? && Matches(entry, f)
    ensures Get(ret, f).Some?
    ensures Apply(ret, entry, f).value == Put(ret, f, AddShares(Get(ret, f).value, 1, entry, f))
  {
    AccumulateShares(Get(ret, f).value, entry, f);
  }

  /** For a matching entry, adding its sizes is adding one share. */
  lemma AccumulateShares(u: Usage, entry: Dict<Value>, f: string)
    requires Matches(entry, f) && Accumulate(u, entry).Success?
    ensures Accumulate(u, entry).value == AddShares(u, 1, entry, f)
  {
  }

  /** An entry that does not match changes nothing and has no share. */
  lemma ApplyNotMatching(ret: Dict<Usage>, entry: Dict<Value>, f: string)
    requires Apply(ret, entry, f).Success? && !Matches(entry, f)
    ensures Apply(ret, entry, f).value == ret
    ensures Share(entry, f, "Rss") == 0 && Share(entry, f, "Size") == 0
  {
  }

  /** The inner loop adds each listing of a filter once. */
  lemma {:induction false} EntryStepAdds(ret: Dict<Usage>, entry: Dict<Value>, fs: seq<string>, f: string)
    requires EntryStep(ret, entry, fs).Success? && Get(ret, f).Some?
    ensures Get(EntryStep(ret, entry, fs).value, f) == Some(AddShares(Get(ret, f).value, Occurrences(fs, f), entry, f))
    decreases |fs|
  {
    if |fs| > 0 {
      var next := Apply(ret, entry, fs[0]).value;
      ApplyGet(ret, entry, fs[0], f);
      EntryStepAdds(next, entry, fs[1..], f);
      var m := if fs[0] == f then 1 else 0;
      AddSharesTwice(Get(ret, f).value, m, Occurrences(fs[1..], f), entry, f);
    }
  }

  /** The outer loop adds, per filter, its listings times the sums over the matching entries. */
  lemma {:induction false} ScanAdds(ret: Dict<Usage>, entries: seq<Dict<Value>>, fs: seq<string>, f: string)
    requires Scan(ret, entries, fs).Success? && Get(ret, f).Some?
    ensures var n := Occurrences(fs, f);
      Get(Scan(ret, entries, fs).value, f) ==
        Some(Usage(Get(ret, f).value.rss + n * MatchTotal(entries, f, "Rss"),
                   Get(ret, f).value.vsize + n * MatchTotal(entries, f, "Size")))
    decreases |entries|
  {
    if |entries| > 0 {
      var next := EntryStep(ret, entries[0], fs).value;
      var n := Occurrences(fs, f);
      EntryStepAdds(ret, entries[0], fs, f);
      assert Scan(ret, entries, fs) == Scan(next, entries[1..], fs);
      ScanAdds(next, entries[1..], fs, f);
      var u, v := Get(ret, f).value, Get(next, f).value;
      var w := Get(Scan(next, entries[1..], fs).value, f).value;
      assert v == AddShares(u, n, entries[0], f);
      var rssHead, rssTail := Share(entries[0], f, "Rss"), MatchTotal(entries[1..], f, "Rss");
      var sizeHead, sizeTail := Share(entries[0], f, "Size"), MatchTotal(entries[1..], f, "Size");
      assert w.rss == (u.rss + n * rssHead) + n * rssTail;
      assert w.vsize == (u.vsize + n * sizeHead) + n * sizeTail;
      AddsCompose(u.rss, n, rssHead, rssTail);
      AddsCompose(u.vsize, n, sizeHead, sizeTail);
      assert MatchTotal(entries, f, "Rss") == rssHead + rssTail;
      assert MatchTotal(entries, f, "Size") == sizeHead + sizeTail;
      assert w == Usage(u.rss + n * MatchTotal(entries, f, "Rss"), u.vsize + n * MatchTotal(entries, f, "Size"));
      assert Get(Scan(ret, entries, fs).value, f) == Some(w);
    }
  }

  /** The keys never change: the loops only update filters already there. */
  lemma {:induction false} ScanKeys(ret: Dict<Usage>, entries: seq<Dict<Value>>, fs: seq<string>, f: string)
    requires Scan(ret, entries, fs).Success? && Get(ret, f).None?
    ensures Get(Scan(ret, entries, fs).value, f).None?
    decreases |entries|
  {
    if |entries| > 0 {
      EntryStepKeys(ret, entries[0], fs, f);
      ScanKeys(EntryStep(ret, entries[0], fs).value, entries[1..], fs, f);
    }
  }

  lemma {:induction false} EntryStepKeys(ret: Dict<Usage>, entry: Dict<Value>, fs: seq<string>, f: string)
    requires EntryStep(ret, entry, fs).Success? && Get(ret, f).None?
    ensures Get(EntryStep(ret, entry, fs).value, f).None?
    decreases |fs|
  {
    if |fs| > 0 {
      ApplyGet(ret, entry, fs[0], f);
      EntryStepKeys(Apply(ret, entry, fs[0]).value, entry, fs[1..], f);
    }
  }

  /**
   * A successful `parse_filters` holds exactly the listed filters, each with its number of
   * listings times the resident and mapped sums over the entries whose flags contain it.
   */
  lemma ParseFiltersTotals(entries: seq<Dict<Value>>, fs: seq<string>, f: string)
    requires ParseFilters(entries, fs).Success?
    ensures f !in fs ==> Get(ParseFilters(entries, fs).value, f).None?
    ensures f in fs ==> (Get(ParseFilters(entries, fs).value, f) ==
      Some(Usage(Occurrences(fs, f) * MatchTotal(entries, f, "Rss"), Occurrences(fs, f) * MatchTotal(entries, f, "Size"))))
  {
    InitFromGet([], fs, f);
    if f in fs {
      ScanAdds(InitFrom([], fs), entries, fs, f);
    } else {
      ScanKeys(InitFrom([], fs), entries, fs, f);
    }
  }

  // ---------------------------------------------------------------------------
  // When it fails
  // ---------------------------------------------------------------------------

  /** Every key the filters need is present. */
  predicate HasAll(ret: Dict<Usage>, fs: seq<string>) {
    forall k :: 0 <= k < |fs| ==> Get(ret, fs[k]).Some?
  }

  /** One filter gets through an entry: text flags, and numbers when the filter matches. */
  predicate FilterOk(entry: Dict<Value>, f: string) {
    FlagsOf(entry).Success? &&
      (Contains(FlagsOf(entry).value, f) ==> IntField(entry, "Rss").Success? && IntField(entry, "Size").Success?)
  }

  /** An entry the inner loop gets through. */
  predicate EntryOk(entry: Dict<Value>, fs: seq<string>) {
    forall k :: 0 <= k < |fs| ==> FilterOk(entry, fs[k])
  }

  /** With the key present, one pass succeeds exactly when the filter gets through, and keeps the keys. */
  lemma ApplySucceeds(ret: Dict<Usage>, entry: Dict<Value>, f: string, all: seq<string>)
    requires Get(ret, f).Some? && HasAll(ret, all)
    ensures Apply(ret, entry, f).Success? <==> FilterOk(entry, f)
    ensures Apply(ret, entry, f).Success? ==> HasAll(Apply(ret, entry, f).value, all)
  {
    if Apply(ret, entry, f).Success? {
      forall k | 0 <= k < |all| ensures Get(Apply(ret, entry, f).value, all[k]).Some? {
        ApplyGet(ret, entry, f, all[k]);
      }
    }
  }

  /** With every key present, the inner loop succeeds exactly on an acceptable entry, and keeps the keys. */
  lemma {:induction false} EntryStepSucceeds(ret: Dict<Usage>, entry: Dict<Value>, fs: seq<string>, all: seq<string>)
    requires HasAll(ret, all) && HasAll(ret, fs)
    ensures EntryStep(ret, entry, fs).Success? <==> EntryOk(entry, fs)
    ensures EntryStep(ret, entry, fs).Success? ==> HasAll(EntryStep(ret, entry, fs).value, all)
    decreases |fs|
  {
    if |fs| > 0 {
      var tail := fs[1..];
      assert forall k :: 1 <= k < |fs| ==> fs[k] == tail[k - 1];
      ApplySucceeds(ret, entry, fs[0], all + fs);
      if Apply(ret, entry, fs[0]).Success? {
        var next := Apply(ret, entry, fs[0]).value;
        assert HasAll(next, all) && HasAll(next, tail) by {
          assert forall k :: 0 <= k < |all| ==> (all + fs)[k] == all[k];
          assert forall k :: 0 <= k < |tail| ==> (all + fs)[|all| + 1 + k] == tail[k];
        }
        EntryStepSucceeds(next, entry, tail, all);
      }
    }
  }

  /** With every key present, the outer loop succeeds exactly when every entry is acceptable. */
  lemma {:induction false} ScanSucceeds(ret: Dict<Usage>, entries: seq<Dict<Value>>, fs: seq<string>)
    requires HasAll(ret, fs)
    ensures Scan(ret, entries, fs).Success? <==> forall i :: 0 <= i < |entries| ==> EntryOk(entries[i], fs)
    decreases |entries|
  {
    if |entries| > 0 {
      EntryStepSucceeds(ret, entries[0], fs, fs);
      assert forall i :: 1 <= i < |entries| ==> entries[i] == entries[1..][i - 1];
      if EntryStep(ret, entries[0], fs).Success? {
        ScanSucceeds(EntryStep(ret, entries[0], fs).value, entries[1..], fs);
      }
    }
  }

  /**
   * `parse_filters` fails exactly when some entry has no text flags (with at least one
   * filter), or some filter matches an entry without a numeric "Rss" or "Size".
   */
  lemma ParseFiltersSucceeds(entries: seq<Dict<Value>>, fs: seq<string>)
    ensures ParseFilters(entries, fs).Success? <==> forall i :: 0 <= i < |entries| ==> EntryOk(entries[i], fs)
  {
    forall k | 0 <= k < |fs| ensures Get(InitFrom([], fs), fs[k]).Some? {
      InitFromGet([], fs, fs[k]);
    }
    ScanSucceeds(InitFrom([], fs), entries, fs);
  }

  // ---------------------------------------------------------------------------
  // The report
  // ---------------------------------------------------------------------------

  /** One printed line: `f: vsize=.. rss=..`, with `(floor(vsize / rss))` when rss is positive. */
  datatype ReportLine = ReportLine(filter: string, vsize: int, rss: int, ratio: Option<int>)

  function Line(f: string, u: Usage): (r: ReportLine)
    ensures r.ratio.Some? <==> u.rss > 0
    ensures r.ratio.Some? ==> u.rss * r.ratio.value <= u.vsize < u.rss * (r.ratio.value + 1)
  {
    ReportLine(f, u.vsize, u.rss, if u.rss > 0 then Some(u.vsize / u.rss) else None)
  }

  /** One line per key of the result, in key order. */
  function Report(out: Dict<Usage>): (r: seq<ReportLine>)
    ensures |r| == |out|
    ensures forall k :: 0 <= k < |out| ==> r[k] == Line(out[k].0, out[k].1)
  {
    if |out| == 0 then [] else [Line(out[0].0, out[0].1)] + Report(out[1..])
  }

  /** How the script ends. */
  datatype Outcome =
    | Exit(status: int)               // `sys.exit(-1)`
    | Crash(reason: string)           // an uncaught exception
    | Printed(lines: seq<ReportLine>) // one line per filter

  /** The entries `get_from_smaps` reads from the smaps text. */
  function EntriesOf(content: string): Result<seq<Dict<Value>>, EntryError> {
    ReadEntries(ReadLines(content), ANONYMOUS_UNSURE)
  }

  /**
   * The main flow: the entries are read from the smaps text of the process found and
   * summed per filter. The script exits -1 on an ambiguous name and on a line count
   * that is not a multiple of the entry size, crashes when no candidate (or a short
   * candidate line) is found, and otherwise prints one line per filter when every entry
   * can be read and tested.
   */
  function Run(psLines: seq<string>, name: Option<string>, given: seq<string>, content: string): (r: Outcome)
    ensures r.Exit? ==> r.status == -1
    ensures r.Exit? <==>
      || Ps.ProcessOf(psLines, name).Ambiguous?
      || (Ps.ProcessOf(psLines, name).Found? && EntriesOf(content).Failure? && EntriesOf(content).error.Misaligned?)
    ensures Ps.ProcessOf(psLines, name).NoCandidate? || Ps.ProcessOf(psLines, name).ShortLine? ==> r.Crash?
    ensures r.Printed? <==>
      && Ps.ProcessOf(psLines, name).Found?
      && EntriesOf(content).Success?
      && ParseFilters(EntriesOf(content).value, Filters(given)).Success?
    ensures r.Printed? ==> r.lines == Report(ParseFilters(EntriesOf(content).value, Filters(given)).value)
  {
    match Ps.ProcessOf(psLines, name)
    case Ambiguous(_) => Exit(-1)
    case NoCandidate => Crash("IndexError: list index out of range")
    case ShortLine(_) => Crash("IndexError: list index out of range")
    case Found(_) =>
      match EntriesOf(content)
      case Failure(Misaligned(_, _)) => Exit(-1)
      case Failure(NoVmFlags) => Crash("Exception: Could not find VmFlags")
      case Failure(BadLine(line)) => Crash("ValueError: " + line)
      case Success(entries) =>
        match ParseFilters(entries, Filters(given))
        case Failure(e) => Crash(e)
        case Success(out) => Printed(Report(out))
  }

  /** A filter given again on the command line doubles its totals. */
  lemma RepeatedFilterDoubles(entries: seq<Dict<Value>>)
    requires ParseFilters(entries, Filters(["rd"])).Success?
    ensures Get(ParseFilters(entries, Filters(["rd"])).value, "rd") ==
      Some(Usage(2 * MatchTotal(entries, "rd", "Rss"), 2 * MatchTotal(entries, "rd", "Size")))
  {
    var fs := Filters(["rd"]);
    assert fs == ["rd", "wr", "ex", "sh", "rd"];
    assert "rd" in fs;
    assert Occurrences(fs, "rd") == 2 by {
      assert fs[1..] == ["wr", "ex", "sh", "rd"];
      assert fs[1..][1..] == ["ex", "sh", "rd"];
      assert fs[1..][1..][1..] == ["sh", "rd"];
      assert fs[1..][1..][1..][1..] == ["rd"];
      assert "rd"[0] != "wr"[0] && "rd"[0] != "ex"[0] && "rd"[0] != "sh"[0];
    }
    ParseFiltersTotals(entries, fs, "rd");
  }
}

=== FILE: parallel_bench.dfy ===
/**
 * LSE/parallel_atomic_bench.c: one thread per CPU, all adding to the same two shared
 * counters (one with LL/SC, one with STADD), four barrier waits to keep the phases in
 * step, and a report per thread followed by the final counters and their expected
 * value.
 *
 * Threads interleave; each add is atomic, so an execution is a schedule: the sequence
 * of thread ids in the order their adds take effect. Pinning, `malloc`, `pthread_create`
 * and the clock readings are parameters.
 */
module ParallelBench {
  import opened Wrappers
  import opened Machine
  import opened Atomics
  import Stats

  const ITERATIONS: nat := 1_000_000
  const WARMUP_ITERATIONS: nat := ITERATIONS / 1000
  const PERCENTILE_ITERATIONS: nat := 100
  const SUB_ITERATIONS: nat := ITERATIONS / PERCENTILE_ITERATIONS

  /** The adds one thread makes to each shared counter when it gets through every phase. */
  const PER_THREAD: nat := WARMUP_ITERATIONS + PERCENTILE_ITERATIONS * SUB_ITERATIONS

  lemma IterationConstants()
    ensures WARMUP_ITERATIONS == 1000 && SUB_ITERATIONS == 10_000
    ensures PER_THREAD == 1_001_000
  {
  }

  /** What happened to one thread outside the model: pinning and its two `malloc`s. */
  datatype ThreadEnv = ThreadEnv(pinned: bool, llscAlloc: bool, lseAlloc: bool)

  /** The thread runs the measurement phases (both arrays were allocated). */
  predicate Measures(e: ThreadEnv) {
    e.pinned && e.llscAlloc && e.lseAlloc
  }

  /** Which `thread_benchmark`: as written, or with its early returns repaired. */
  datatype Variant = AsWritten | Repaired

  /** What a thread does, in program order, leaving out the clock readings. */
  datatype Action = BarrierWait | AddLlsc(n: nat) | AddLse(n: nat)

  /**
   * The actions of `thread_benchmark`. As written, a failed pin returns before the first
   * `pthread_barrier_wait` and a failed `malloc` returns before the fourth. Repaired, a
   * thread that gives up still makes each wait it has not made, and does nothing else.
   */
  function Trace(v: Variant, e: ThreadEnv): seq<Action> {
    if !e.pinned then
      (match v
       case AsWritten => []
       case Repaired => GIVE_UP_TRACE)
    else if !Measures(e) then
      (match v
       case AsWritten => WARMUP_TRACE
       case Repaired => WARMUP_TRACE + [BarrierWait])
    else WARMUP_TRACE + MEASURE_TRACE
  }

  /** The three waits around the two warmup loops. */
  const WARMUP_TRACE: seq<Action> :=
    [BarrierWait] + [AddLlsc(WARMUP_ITERATIONS)] + [BarrierWait] + [AddLse(WARMUP_ITERATIONS)] + [BarrierWait]

  /** The two measurement loops and the wait between them. */
  const MEASURE_TRACE: seq<Action> :=
    [AddLlsc(PERCENTILE_ITERATIONS * SUB_ITERATIONS)] + [BarrierWait] + [AddLse(PERCENTILE_ITERATIONS * SUB_ITERATIONS)]

  /** The repaired thread that could not pin itself: the four waits and nothing else. */
  const GIVE_UP_TRACE: seq<Action> := [BarrierWait] + [BarrierWait] + [BarrierWait] + [BarrierWait]

  /** The number of barrier waits in a trace. */
  function WaitCount(t: seq<Action>): (r: nat)
    ensures r <= |t|
  {
    if |t| == 0 then 0 else (if t[0] == BarrierWait then 1 else 0) + WaitCount(t[1..])
  }

  /** A trace without its barrier waits: the work the thread does. */
  function Work(t: seq<Action>): (r: seq<Action>)
    ensures |r| + WaitCount(t) == |t|
    ensures BarrierWait !in r
  {
    if |t| == 0 then [] else (if t[0] == BarrierWait then [] else [t[0]]) + Work(t[1..])
  }

  /** The adds a trace makes to the LL/SC counter and to the LSE counter. */
  function LlscAdds(t: seq<Action>): nat {
    if |t| == 0 then 0 else (if t[0].AddLlsc? then t[0].n else 0) + LlscAdds(t[1..])
  }

  function LseAdds(t: seq<Action>): nat {
    if |t| == 0 then 0 else (if t[0].AddLse? then t[0].n else 0) + LseAdds(t[1..])
  }

  /** Every count of a trace splits over concatenation. */
  lemma {:induction false} CountsAppend(a: seq<Action>, b: seq<Action>)
    ensures WaitCount(a + b) == WaitCount(a) + WaitCount(b)
    ensures Work(a + b) == Work(a) + Work(b)
    ensures LlscAdds(a + b) == LlscAdds(a) + LlscAdds(b)
    ensures LseAdds(a + b) == LseAdds(a) + LseAdds(b)
    decreases |a|
  {
    if |a| > 0 {
      assert (a + b)[0] == a[0];
      assert (a + b)[1..] == a[1..] + b;
      CountsAppend(a[1..], b);
    } else {
      assert a + b == b;
    }
  }

  /** The counts of one action. */
  lemma CountsOne(x: Action)
    ensures WaitCount([x]) == (if x == BarrierWait then 1 else 0)
    ensures Work([x]) == (if x == BarrierWait then [] else [x])
    ensures LlscAdds([x]) == (if x.AddLlsc? then x.n else 0)
    ensures LseAdds([x]) == (if x.AddLse? then x.n else 0)
  {
    assert [x][1..] == [];
  }

  /** The counts of the warmup phase. */
  lemma WarmupCounts()
    ensures WaitCount(WARMUP_TRACE) == 3
    ensures LlscAdds(WARMUP_TRACE) == LseAdds(WARMUP_TRACE) == WARMUP_ITERATIONS
    ensures Work(WARMUP_TRACE) == [AddLlsc(WARMUP_ITERATIONS), AddLse(WARMUP_ITERATIONS)]
  {
    var w, a1, a2 := [BarrierWait], [AddLlsc(WARMUP_ITERATIONS)], [AddLse(WARMUP_ITERATIONS)];
    CountsOne(BarrierWait);
    CountsOne(AddLlsc(WARMUP_ITERATIONS));
    CountsOne(AddLse(WARMUP_ITERATIONS));
    CountsAppend(w, a1);
    CountsAppend(w + a1, w);
    CountsAppend(w + a1 + w, a2);
    CountsAppend(w + a1 + w + a2, w);
  }

  /** The counts of the measurement phase. */
  lemma MeasureCounts()
    ensures WaitCount(MEASURE_TRACE) == 1
    ensures LlscAdds(MEASURE_TRACE) == LseAdds(MEASURE_TRACE) == PERCENTILE_ITERATIONS * SUB_ITERATIONS
    ensures Work(MEASURE_TRACE) ==
      [AddLlsc(PERCENTILE_ITERATIONS * SUB_ITERATIONS), AddLse(PERCENTILE_ITERATIONS * SUB_ITERATIONS)]
  {
    var n := PERCENTILE_ITERATIONS * SUB_ITERATIONS;
    CountsOne(BarrierWait);
    CountsOne(AddLlsc(n));
    CountsOne(AddLse(n));
    CountsAppend([AddLlsc(n)], [BarrierWait]);
    CountsAppend([AddLlsc(n)] + [BarrierWait], [AddLse(n)]);
  }

  /** The counts of the repaired thread that gave up before pinning. */
  lemma GiveUpCounts()
    ensures WaitCount(GIVE_UP_TRACE) == 4
    ensures LlscAdds(GIVE_UP_TRACE) == LseAdds(GIVE_UP_TRACE) == 0
    ensures Work(GIVE_UP_TRACE) == []
  {
    var w := [BarrierWait];
    CountsOne(BarrierWait);
    CountsAppend(w, w);
    CountsAppend(w + w, w);
    CountsAppend(w + w + w, w);
  }

  /** The counts of `Trace`, case by case. */
  lemma TraceCounts(v: Variant, e: ThreadEnv)
    ensures WaitCount(Trace(v, e)) ==
      if v == Repaired then 4 else if !e.pinned then 0 else if !Measures(e) then 3 else 4
    ensures LlscAdds(Trace(v, e)) == LseAdds(Trace(v, e)) ==
      if !e.pinned then 0 else if !Measures(e) then WARMUP_ITERATIONS else PER_THREAD
    ensures Work(Trace(v, e)) ==
      if !e.pinned then []
      else if !Measures(e) then [AddLlsc(WARMUP_ITERATIONS), AddLse(WARMUP_ITERATIONS)]
      else [AddLlsc(WARMUP_ITERATIONS), AddLse(WARMUP_ITERATIONS),
            AddLlsc(PERCENTILE_ITERATIONS * SUB_ITERATIONS), AddLse(PERCENTILE_ITERATIONS * SUB_ITERATIONS)]
  {
    assert WaitCount([]) == 0 && Work([]) == [] && LlscAdds([]) == 0 && LseAdds([]) == 0;
    WarmupCounts();
    if !e.pinned {
      GiveUpCounts();
    } else if !Measures(e) {
      CountsOne(BarrierWait);
      CountsAppend(WARMUP_TRACE, [BarrierWait]);
    } else {
      MeasureCounts();
      CountsAppend(WARMUP_TRACE, MEASURE_TRACE);
    }
  }

  /**
   * How many of the four `pthread_barrier_wait` calls the thread makes. As written: none
   * when pinning fails, the three before allocation when a `malloc` fails, all four
   * otherwise. Repaired: all four, whatever happened.
   */
  function Waits(v: Variant, e: ThreadEnv): (r: nat)
    ensures v == AsWritten ==> (r >= 1 <==> e.pinned) && (r >= 2 <==> e.pinned) && (r >= 3 <==> e.pinned)
    ensures v == AsWritten ==> (r >= 4 <==> Measures(e))
    ensures v == Repaired ==> r == 4
    ensures r <= 4
  {
    TraceCounts(v, e);
    WaitCount(Trace(v, e))
  }

  /** The adds the thread makes to each shared counter (the two counts are equal). */
  function ThreadAdds(e: ThreadEnv): (r: nat)
    ensures r <= PER_THREAD
    ensures r == PER_THREAD <==> Measures(e)
    ensures r == 0 <==> !e.pinned
  {
    if !e.pinned then 0
    else if !Measures(e) then WARMUP_ITERATIONS
    else WARMUP_ITERATIONS + PERCENTILE_ITERATIONS * SUB_ITERATIONS
  }

  /** Either variant adds `ThreadAdds` to each counter: the repair only adds waits. */
  lemma TraceAdds(v: Variant, e: ThreadEnv)
    ensures LlscAdds(Trace(v, e)) == ThreadAdds(e) == LseAdds(Trace(v, e))
  {
    TraceCounts(v, e);
  }

  /** The repaired thread does the same work as the thread as written, in the same order. */
  lemma RepairKeepsWork(e: ThreadEnv)
    ensures Work(Trace(Repaired, e)) == Work(Trace(AsWritten, e))
  {
    TraceCounts(Repaired, e);
    TraceCounts(AsWritten, e);
  }

  /** What `thread_benchmark` leaves behind for one thread. */
  datatype ThreadResult = ThreadResult(
    addsLlsc: nat, addsLse: nat,                        // adds made to each shared counter
    llsc: Option<seq<real>>, lse: Option<seq<real>>)    // latency arrays; None is NULL

  /**
   * `thread_benchmark` for one thread, counting its own adds (the shared counters are
   * the subject of `ApplySchedule`). `clockLlsc` and `clockLse` are the thread's clock
   * readings around its batches.
   */
  method ThreadBenchmark(e: ThreadEnv, clockLlsc: seq<U64>, clockLse: seq<U64>) returns (r: ThreadResult)
    requires |clockLlsc| == 2 * PERCENTILE_ITERATIONS && |clockLse| == 2 * PERCENTILE_ITERATIONS
    ensures r.addsLlsc == r.addsLse == ThreadAdds(e)
    ensures r.llsc.Some? <==> e.pinned && e.llscAlloc
    ensures r.lse.Some? <==> e.pinned && e.lseAlloc
    ensures Measures(e) ==> r.llsc.Some? && r.lse.Some?
    ensures Measures(e) ==> |r.llsc.value| == |r.lse.value| == PERCENTILE_ITERATIONS
    ensures Measures(e) ==> forall i :: 0 <= i < PERCENTILE_ITERATIONS ==>
      && r.llsc.value[i] == BatchLatency(clockLlsc[2 * i], clockLlsc[2 * i + 1], SUB_ITERATIONS)
      && r.lse.value[i] == BatchLatency(clockLse[2 * i], clockLse[2 * i + 1], SUB_ITERATIONS)
  {
    if !e.pinned {
      return ThreadResult(0, 0, None, None);
    }
    // The thread's own share of each counter, counted from zero.
    var w1 := AddLoop(LlSc, 0, WARMUP_ITERATIONS);
    var w2 := AddLoop(Stadd, 0, WARMUP_ITERATIONS);
    var llsc: Option<seq<real>> := if e.llscAlloc then Some([]) else None;
    var lse: Option<seq<real>> := if e.lseAlloc then Some([]) else None;
    if !e.llscAlloc || !e.lseAlloc {
      // The arrays that were allocated stay allocated but unfilled.
      return ThreadResult(w1, w2, llsc, lse);
    }
    var l1, c1 := MeasurePhase(LlSc, w1, clockLlsc, PERCENTILE_ITERATIONS, SUB_ITERATIONS);
    var l2, c2 := MeasurePhase(Stadd, w2, clockLse, PERCENTILE_ITERATIONS, SUB_ITERATIONS);
    return ThreadResult(c1, c2, Some(l1), Some(l2));
  }

  // ---------------------------------------------------------------------------
  // Barriers
  // ---------------------------------------------------------------------------

  /** How many of the wait counts `ws` reach the `k`-th wait (counting from 1). */
  function Reaching(ws: seq<nat>, k: nat): (r: nat)
    ensures r <= |ws|
  {
    if |ws| == 0 then 0 else Reaching(ws[..|ws| - 1], k) + (if ws[|ws| - 1] >= k then 1 else 0)
  }

  /** All counts reach wait `k` exactly when the tally is full, and none exactly when it is 0. */
  lemma {:induction false} ReachingAll(ws: seq<nat>, k: nat)
    ensures Reaching(ws, k) == |ws| <==> forall i :: 0 <= i < |ws| ==> ws[i] >= k
    ensures Reaching(ws, k) == 0 <==> forall i :: 0 <= i < |ws| ==> ws[i] < k
    decreases |ws|
  {
    if |ws| > 0 {
      var init := ws[..|ws| - 1];
      ReachingAll(init, k);
      assert forall i :: 0 <= i < |init| ==> init[i] == ws[i];
    }
  }

  /** Each thread's number of barrier waits, in thread order. */
  function WaitCounts(v: Variant, envs: seq<ThreadEnv>): (r: seq<nat>)
    ensures |r| == |envs| && forall i :: 0 <= i < |envs| ==> r[i] == Waits(v, envs[i])
  {
    seq(|envs|, i requires 0 <= i < |envs| => Waits(v, envs[i]))
  }

  /** The number of threads that reach the `k`-th barrier wait (counting from 1). */
  function Arrivals(v: Variant, envs: seq<ThreadEnv>, k: nat): (r: nat)
    ensures r <= |envs|
  {
    Reaching(WaitCounts(v, envs), k)
  }

  /** Every thread reaches wait `k` exactly when the count is the number of threads. */
  lemma ArrivalsAll(v: Variant, envs: seq<ThreadEnv>, k: nat)
    ensures Arrivals(v, envs, k) == |envs| <==> forall i :: 0 <= i < |envs| ==> Waits(v, envs[i]) >= k
    ensures Arrivals(v, envs, k) == 0 <==> forall i :: 0 <= i < |envs| ==> Waits(v, envs[i]) < k
  {
    ReachingAll(WaitCounts(v, envs), k);
  }

  /** Wait `k` either releases all threads or is never reached: nobody blocks there. */
  predicate InStep(v: Variant, envs: seq<ThreadEnv>, k: nat) {
    Arrivals(v, envs, k) == 0 || Arrivals(v, envs, k) == |envs|
  }

  /**
   * The barrier is initialised for `num_cpus` threads, so a wait returns only once all
   * of them have arrived. Walking the four waits in order, the first one that some but
   * not all threads reach is where the arriving threads block for good.
   */
  method RunBarriers(v: Variant, envs: seq<ThreadEnv>) returns (stuck: Option<nat>)
    ensures stuck.None? <==> forall k :: 1 <= k <= 4 ==> InStep(v, envs, k)
    ensures stuck.Some? ==> 1 <= stuck.value <= 4 && 0 < Arrivals(v, envs, stuck.value) < |envs|
    ensures stuck.Some? ==> forall k :: 1 <= k < stuck.value ==> InStep(v, envs, k)
  {
    var k := 1;
    while k <= 4
      invariant 1 <= k <= 5
      invariant forall j :: 1 <= j < k ==> InStep(v, envs, j)
    {
      var arrived := Arrivals(v, envs, k);
      if 0 < arrived < |envs| {
        assert !InStep(v, envs, k);
        return Some(k);
      }
      k := k + 1;
    }
    return None;
  }

  /** As written, each of the first three waits is in step exactly when the threads agree on pinning. */
  lemma InStepPinning(envs: seq<ThreadEnv>, k: nat)
    requires 1 <= k <= 3
    ensures InStep(AsWritten, envs, k) <==>
      (forall i :: 0 <= i < |envs| ==> envs[i].pinned) || (forall i :: 0 <= i < |envs| ==> !envs[i].pinned)
  {
    var ws := WaitCounts(AsWritten, envs);
    assert forall i :: 0 <= i < |envs| ==> (ws[i] >= k <==> envs[i].pinned);
    ReachingAll(ws, k);
  }

  /** As written, the fourth wait is in step exactly when the threads agree on measuring. */
  lemma InStepMeasuring(envs: seq<ThreadEnv>)
    ensures InStep(AsWritten, envs, 4) <==>
      (forall i :: 0 <= i < |envs| ==> Measures(envs[i])) || (forall i :: 0 <= i < |envs| ==> !Measures(envs[i]))
  {
    var ws := WaitCounts(AsWritten, envs);
    assert forall i :: 0 <= i < |envs| ==> (ws[i] >= 4 <==> Measures(envs[i]));
    ReachingAll(ws, 4);
  }

  /**
   * As written, the run completes exactly when pinning succeeded for all threads or for
   * none, and likewise both allocations: one thread failing while another succeeds leaves
   * the others blocked at a barrier.
   */
  lemma CompletesIff(envs: seq<ThreadEnv>)
    ensures (forall k :: 1 <= k <= 4 ==> InStep(AsWritten, envs, k)) <==>
      && ((forall i :: 0 <= i < |envs| ==> envs[i].pinned) || (forall i :: 0 <= i < |envs| ==> !envs[i].pinned))
      && ((forall i :: 0 <= i < |envs| ==> Measures(envs[i])) || (forall i :: 0 <= i < |envs| ==> !Measures(envs[i])))
  {
    InStepPinning(envs, 1);
    InStepPinning(envs, 2);
    InStepPinning(envs, 3);
    InStepMeasuring(envs);
    assert (forall k :: 1 <= k <= 4 ==> InStep(AsWritten, envs, k)) <==>
      InStep(AsWritten, envs, 1) && InStep(AsWritten, envs, 2) && InStep(AsWritten, envs, 3) && InStep(AsWritten, envs, 4);
  }

  /**
   * As written, one thread whose pinning fails is enough to block all the others at the
   * first barrier, although `main` is prepared to skip threads that produced nothing.
   */
  lemma OneFailedPinHangs()
    ensures !InStep(AsWritten, [ThreadEnv(true, true, true), ThreadEnv(false, true, true)], 1)
  {
    var envs := [ThreadEnv(true, true, true), ThreadEnv(false, true, true)];
    var ws := WaitCounts(AsWritten, envs);
    assert ws[0] == 4 && ws[1] == 0;
    assert ws[..1] == [4];
    assert Reaching(ws[..1], 1) == 1 by {
      assert ws[..1][..0] == [];
    }
    assert Arrivals(AsWritten, envs, 1) == 1;
  }

  /** With the repaired thread function every one of the four waits releases all threads. */
  lemma FixedNeverHangs(envs: seq<ThreadEnv>)
    ensures forall k :: 1 <= k <= 4 ==> Arrivals(Repaired, envs, k) == |envs|
  {
    var ws := WaitCounts(Repaired, envs);
    assert forall i :: 0 <= i < |ws| ==> ws[i] == 4;
    forall k | 1 <= k <= 4
      ensures Reaching(ws, k) == |ws|
    {
      ReachingAll(ws, k);
    }
  }

  // ---------------------------------------------------------------------------
  // The shared counters
  // ---------------------------------------------------------------------------

  /** The number of adds thread `t` makes in `schedule`. */
  function Count(schedule: seq<nat>, t: nat): (r: nat)
    ensures r <= |schedule|
  {
    if |schedule| == 0 then 0
    else Count(schedule[..|schedule| - 1], t) + (if schedule[|schedule| - 1] == t then 1 else 0)
  }

  /** The adds threads `0 .. m-1` make in `schedule`. */
  function SumCounts(schedule: seq<nat>, m: nat): nat {
    if m == 0 then 0 else SumCounts(schedule, m - 1) + Count(schedule, m - 1)
  }

  /** The adds all threads make to one shared counter, by `ThreadAdds`. */
  function Total(envs: seq<ThreadEnv>): (r: nat)
    ensures r <= |envs| * PER_THREAD
  {
    if |envs| == 0 then 0 else Total(envs[..|envs| - 1]) + ThreadAdds(envs[|envs| - 1])
  }

  /** Each add of the schedule is atomic: whatever the interleaving, none is lost. */
  method ApplySchedule(schedule: seq<nat>, counter: U64) returns (after: U64)
    ensures after == WrapAdd(counter, |schedule|)
  {
    after := counter;
    var i := 0;
    while i < |schedule|
      invariant 0 <= i <= |schedule|
      invariant after == WrapAdd(counter, i)
    {
      WrapAddTwice(counter, i, 1);
      after := AddEffect(LlSc, after, 1);
      i := i + 1;
    }
  }

  lemma {:induction false} SumCountsStep(s: seq<nat>, x: nat, m: nat)
    ensures SumCounts(s + [x], m) == SumCounts(s, m) + (if x < m then 1 else 0)
  {
    assert (s + [x])[..|s + [x]| - 1] == s;
    if m > 0 {
      SumCountsStep(s, x, m - 1);
    }
  }

  /** Counting the adds thread by thread accounts for every add of the schedule. */
  lemma {:induction false} SumCountsIsLength(s: seq<nat>, m: nat)
    requires forall i :: 0 <= i < |s| ==> s[i] < m
    ensures SumCounts(s, m) == |s|
    decreases |s|
  {
    if |s| == 0 {
      assert forall k: nat :: SumCounts([], k) == 0 by {
        forall k: nat ensures SumCounts([], k) == 0 {
          ZeroCounts(k);
        }
      }
    } else {
      var init := s[..|s| - 1];
      SumCountsIsLength(init, m);
      assert s == init + [s[|s| - 1]];
      SumCountsStep(init, s[|s| - 1], m);
    }
  }

  lemma {:induction false} ZeroCounts(k: nat)
    ensures SumCounts([], k) == 0
  {
    if k > 0 {
      ZeroCounts(k - 1);
    }
  }

  lemma {:induction false} TotalIsSumCounts(envs: seq<ThreadEnv>, s: seq<nat>, m: nat)
    requires m <= |envs|
    requires forall t :: 0 <= t < |envs| ==> Count(s, t) == ThreadAdds(envs[t])
    ensures Total(envs[..m]) == SumCounts(s, m)
  {
    if m > 0 {
      TotalIsSumCounts(envs, s, m - 1);
      assert envs[..m][..m - 1] == envs[..m - 1];
    }
  }

  /**
   * A schedule in which every thread makes exactly its `ThreadAdds` brings a counter
   * that started at zero to `Total(envs)` (reduced modulo 2^64).
   */
  lemma ScheduleReachesTotal(envs: seq<ThreadEnv>, s: seq<nat>)
    requires forall i :: 0 <= i < |s| ==> s[i] < |envs|
    requires forall t :: 0 <= t < |envs| ==> Count(s, t) == ThreadAdds(envs[t])
    ensures |s| == Total(envs)
  {
    SumCountsIsLength(s, |envs|);
    TotalIsSumCounts(envs, s, |envs|);
    assert envs[..|envs|] == envs;
  }

  /** The sum reaches `n · PER_THREAD` exactly when every thread measured. */
  lemma {:induction false} TotalIsExpectedIff(envs: seq<ThreadEnv>)
    ensures Total(envs) == |envs| * PER_THREAD <==> forall i :: 0 <= i < |envs| ==> Measures(envs[i])
    decreases |envs|
  {
    if |envs| > 0 {
      var init := envs[..|envs| - 1];
      TotalIsExpectedIff(init);
      assert forall i :: 0 <= i < |init| ==> init[i] == envs[i];
      assert |envs| * PER_THREAD == |init| * PER_THREAD + PER_THREAD;
    }
  }

  /** `(uint64_t)(WARMUP_ITERATIONS + PERCENTILE_ITERATIONS * SUB_ITERATIONS) * num_cpus`. */
  function Expected(numCpus: nat): (r: U64)
    ensures numCpus <= I32_MAX ==> r == numCpus * PER_THREAD
  {
    WrapMul(PER_THREAD, numCpus)
  }

  // ---------------------------------------------------------------------------
  // Report and main
  // ---------------------------------------------------------------------------

  /** One printed block: thread id, CPU, and the LL/SC and LSE percentiles. */
  datatype ThreadRow = ThreadRow(thread: nat, cpu: nat, llsc: Stats.Triple, lse: Stats.Triple)

  /** Both latency arrays are non-NULL. */
  predicate Complete(r: ThreadResult) {
    r.llsc.Some? && r.lse.Some?
  }

  /** What is printed for thread `i`: its sorted arrays summarised. */
  function RowOf(results: seq<ThreadResult>, i: nat): ThreadRow
    requires i < |results| && Complete(results[i]) && Filled(results[i])
  {
    ThreadRow(i, i, Stats.ReportTriple(Stats.SortAscending(results[i].llsc.value)),
              Stats.ReportTriple(Stats.SortAscending(results[i].lse.value)))
  }

  /** The arrays of a thread that measured hold its PERCENTILE_ITERATIONS samples. */
  predicate Filled(r: ThreadResult) {
    Complete(r) ==> |r.llsc.value| == PERCENTILE_ITERATIONS && |r.lse.value| == PERCENTILE_ITERATIONS
  }

  /** `row` is what is printed for a thread that has both arrays. */
  predicate Printed(results: seq<ThreadResult>, row: ThreadRow) {
    row.thread < |results| && Complete(results[row.thread]) && Filled(results[row.thread])
    && row == RowOf(results, row.thread)
  }

  /** Some row of `rows` belongs to thread `t`. */
  predicate HasRow(rows: seq<ThreadRow>, t: nat) {
    exists j :: 0 <= j < |rows| && rows[j].thread == t
  }

  /**
   * The report loop of `main`: threads in id order, skipping any whose either array is
   * NULL, each array sorted and summarised.
   */
  method Report(results: seq<ThreadResult>) returns (rows: seq<ThreadRow>)
    requires forall i :: 0 <= i < |results| ==> Filled(results[i])
    ensures forall j :: 0 <= j < |rows| ==> Printed(results, rows[j])
    ensures forall i :: 0 <= i < |results| ==> (Complete(results[i]) <==> HasRow(rows, i))
    ensures forall j, k :: 0 <= j < k < |rows| ==> rows[j].thread < rows[k].thread
  {
    rows := [];
    var i := 0;
    while i < |results|
      invariant 0 <= i <= |results|
      invariant ReportedBelow(results, rows, i)
    {
      if Complete(results[i]) {
        var row := RowOf(results, i);
        ReportRow(results, rows, i);
        rows := rows + [row];
      } else {
        ReportSkip(results, rows, i);
      }
      i := i + 1;
    }
  }

  /** `rows` is the report of the threads below `i`. */
  predicate ReportedBelow(results: seq<ThreadResult>, rows: seq<ThreadRow>, i: nat) {
    && (forall j :: 0 <= j < |rows| ==> Printed(results, rows[j]) && rows[j].thread < i)
    && (forall t :: 0 <= t < |results| ==> (HasRow(rows, t) <==> t < i && Complete(results[t])))
    && (forall j, k :: 0 <= j < k < |rows| ==> rows[j].thread < rows[k].thread)
  }

  /** A thread with both arrays adds its row behind the earlier ones. */
  lemma ReportRow(results: seq<ThreadResult>, rows: seq<ThreadRow>, i: nat)
    requires i < |results| && Complete(results[i]) && Filled(results[i])
    requires ReportedBelow(results, rows, i)
    ensures ReportedBelow(results, rows + [RowOf(results, i)], i + 1)
  {
    var row := RowOf(results, i);
    assert Printed(results, row) && row.thread == i;
    AppendPrinted(results, rows, row, i);
    AppendThreads(results, rows, row, i);
  }

  /** Appending a printed row of thread `i` to rows of lower threads keeps every row printed and below `i + 1`. */
  lemma AppendPrinted(results: seq<ThreadResult>, rows: seq<ThreadRow>, row: ThreadRow, i: nat)
    requires Printed(results, row) && row.thread == i
    requires forall j :: 0 <= j < |rows| ==> Printed(results, rows[j]) && rows[j].thread < i
    ensures forall j :: 0 <= j < |rows + [row]| ==> Printed(results, (rows + [row])[j]) && (rows + [row])[j].thread < i + 1
  {
  }

  /** The threads with rows gain exactly thread `i`, which has both arrays. */
  lemma AppendThreads(results: seq<ThreadResult>, rows: seq<ThreadRow>, row: ThreadRow, i: nat)
    requires i < |results| && Complete(results[i]) && row.thread == i
    requires ReportedBelow(results, rows, i)
    ensures forall t :: 0 <= t < |results| ==> (HasRow(rows + [row], t) <==> t < i + 1 && Complete(results[t]))
    ensures forall j, k :: 0 <= j < k < |rows + [row]| ==> (rows + [row])[j].thread < (rows + [row])[k].thread
  {
    HasRowSnoc(rows, row);
    var next := rows + [row];
    forall j, k | 0 <= j < k < |next| ensures next[j].thread < next[k].thread {
      assert next[j] == rows[j];
      if k < |rows| {
        assert next[k] == rows[k];
      }
    }
  }

  /** A thread missing an array adds no row. */
  lemma ReportSkip(results: seq<ThreadResult>, rows: seq<ThreadRow>, i: nat)
    requires i < |results| && !Complete(results[i])
    requires ReportedBelow(results, rows, i)
    ensures ReportedBelow(results, rows, i + 1)
  {
  }

  /** Appending a row adds exactly its thread to the threads that have rows. */
  lemma HasRowSnoc(rows: seq<ThreadRow>, row: ThreadRow)
    ensures forall t: nat :: HasRow(rows + [row], t) <==> HasRow(rows, t) || t == row.thread
  {
    forall t: nat ensures HasRow(rows + [row], t) <==> HasRow(rows, t) || t == row.thread {
      if HasRow(rows, t) {
        var j :| 0 <= j < |rows| && rows[j].thread == t;
        assert (rows + [row])[j].thread == t;
      }
      if t == row.thread {
        assert (rows + [row])[|rows|].thread == t;
      }
    }
  }

  /** Every printed p50/p95/p99 of a report is in order. */
  lemma ReportOrdered(results: seq<ThreadResult>, row: ThreadRow)
    requires row.thread < |results| && Complete(results[row.thread]) && Filled(results[row.thread])
    requires row == RowOf(results, row.thread)
    ensures row.llsc.p50 <= row.llsc.p95 <= row.llsc.p99
    ensures row.lse.p50 <= row.lse.p95 <= row.lse.p99
  {
    Stats.ReportTripleOf100(Stats.SortAscending(results[row.thread].llsc.value));
    Stats.ReportTripleOf100(Stats.SortAscending(results[row.thread].lse.value));
  }

  /** Every thread runs `thread_benchmark` on its own environment and clock readings. */
  method RunThreads(envs: seq<ThreadEnv>, clocks: seq<(seq<U64>, seq<U64>)>) returns (results: seq<ThreadResult>)
    requires |clocks| == |envs|
    requires forall i :: 0 <= i < |clocks| ==>
      |clocks[i].0| == 2 * PERCENTILE_ITERATIONS && |clocks[i].1| == 2 * PERCENTILE_ITERATIONS
    ensures |results| == |envs|
    ensures forall j :: 0 <= j < |envs| ==> (Complete(results[j]) <==> Measures(envs[j])) && Filled(results[j])
  {
    results := [];
    var i := 0;
    while i < |envs|
      invariant 0 <= i <= |envs|
      invariant |results| == i
      invariant forall j :: 0 <= j < i ==> (Complete(results[j]) <==> Measures(envs[j])) && Filled(results[j])
    {
      var r := ThreadBenchmark(envs[i], clocks[i].0, clocks[i].1);
      results := results + [r];
      i := i + 1;
    }
  }

  /** How `main` ends. */
  datatype Outcome =
    | NoCpus                        // `get_num_cpus() <= 0`: exit status 1
    | ArraysFailed                  // the thread or thread-data array is NULL: exit status 1
    | CreateFailed(thread: nat)     // `pthread_create` failed: exit status 1
    | Hang(barrier: nat)            // threads blocked at this barrier wait: `main` never returns
    | Finished(rows: seq<ThreadRow>, llsc: U64, lse: U64, expected: U64)  // exit status 0

  /** The two shared counters at the end equal the total adds, and the expected value exactly when every thread measured. */
  lemma CountersAtEnd(envs: seq<ThreadEnv>, sched: seq<nat>)
    requires 0 < |envs| <= I32_MAX
    requires forall i :: 0 <= i < |sched| ==> sched[i] < |envs|
    requires forall t :: 0 <= t < |envs| ==> Count(sched, t) == ThreadAdds(envs[t])
    ensures WrapAdd(0, |sched|) == Total(envs)
    ensures WrapAdd(0, |sched|) == Expected(|envs|) <==> forall i :: 0 <= i < |envs| ==> Measures(envs[i])
  {
    assert |sched| == Total(envs) by {
      ScheduleReachesTotal(envs, sched);
    }
    assert Total(envs) < U64_MOD by {
      assert PER_THREAD == 1_001_000;
      assert Total(envs) <= |envs| * 1_001_000 < U64_MOD;
    }
    assert Expected(|envs|) == |envs| * PER_THREAD;
    TotalIsExpectedIff(envs);
  }

  /**
   * The start of `main`: the CPU count, the two arrays, and `pthread_create` for every
   * thread in order. `None` means every thread was created.
   */
  method Start(numCpus: int, arraysOk: bool, created: seq<bool>) returns (early: Option<Outcome>)
    requires numCpus > 0 ==> |created| == numCpus
    ensures numCpus <= 0 <==> early == Some(NoCpus)
    ensures numCpus > 0 && !arraysOk <==> early == Some(ArraysFailed)
    ensures early.Some? && early.value.CreateFailed? ==>
      var t := early.value.thread;
      t < |created| && !created[t] && forall i :: 0 <= i < t ==> created[i]
    ensures early.Some? ==> early.value.NoCpus? || early.value.ArraysFailed? || early.value.CreateFailed?
    ensures early.None? <==> numCpus > 0 && arraysOk && false !in created
  {
    if numCpus <= 0 {
      return Some(NoCpus);
    }
    if !arraysOk {
      return Some(ArraysFailed);
    }
    var i := 0;
    while i < numCpus
      invariant 0 <= i <= numCpus
      invariant forall j :: 0 <= j < i ==> created[j]
    {
      if !created[i] {
        return Some(CreateFailed(i));
      }
      i := i + 1;
    }
    return None;
  }

  /** The end of `main` once every barrier has released: the report and both counters. */
  method Finish(numCpus: int, envs: seq<ThreadEnv>, clocks: seq<(seq<U64>, seq<U64>)>,
                schedLlsc: seq<nat>, schedLse: seq<nat>)
    returns (out: Outcome)
    requires 0 < numCpus <= I32_MAX
    requires |envs| == |clocks| == numCpus
    requires forall i :: 0 <= i < |clocks| ==>
      |clocks[i].0| == 2 * PERCENTILE_ITERATIONS && |clocks[i].1| == 2 * PERCENTILE_ITERATIONS
    requires forall i :: 0 <= i < |schedLlsc| ==> schedLlsc[i] < |envs|
    requires forall i :: 0 <= i < |schedLse| ==> schedLse[i] < |envs|
    requires forall t :: 0 <= t < |envs| ==> Count(schedLlsc, t) == ThreadAdds(envs[t]) == Count(schedLse, t)
    ensures out.Finished?
    ensures out.llsc == out.lse == Total(envs)
    ensures out.expected == numCpus * PER_THREAD
    ensures out.llsc == out.expected <==> forall i :: 0 <= i < |envs| ==> Measures(envs[i])
    ensures forall i :: 0 <= i < numCpus ==> (HasRow(out.rows, i) <==> Measures(envs[i]))
  {
    var results := RunThreads(envs, clocks);
    var rows := Report(results);
    var llsc := ApplySchedule(schedLlsc, 0);
    var lse := ApplySchedule(schedLse, 0);
    CountersAtEnd(envs, schedLlsc);
    CountersAtEnd(envs, schedLse);
    out := Finished(rows, llsc, lse, Expected(numCpus));
  }

  /**
   * `main`. `envs[i]` is thread i's environment (thread i runs on CPU i), `created[i]`
   * whether its `pthread_create` succeeded, `schedLlsc`/`schedLse` the order in which the
   * threads' adds reached each shared counter, and `clocks[i]` thread i's readings.
   */
  method RunParallel(numCpus: int, arraysOk: bool, created: seq<bool>, envs: seq<ThreadEnv>,
                     clocks: seq<(seq<U64>, seq<U64>)>, schedLlsc: seq<nat>, schedLse: seq<nat>)
    returns (out: Outcome)
    requires numCpus <= I32_MAX
    requires numCpus > 0 ==> |created| == |envs| == |clocks| == numCpus
    requires forall i :: 0 <= i < |clocks| ==>
      |clocks[i].0| == 2 * PERCENTILE_ITERATIONS && |clocks[i].1| == 2 * PERCENTILE_ITERATIONS
    requires forall i :: 0 <= i < |schedLlsc| ==> schedLlsc[i] < |envs|
    requires forall i :: 0 <= i < |schedLse| ==> schedLse[i] < |envs|
    requires forall t :: 0 <= t < |envs| ==> Count(schedLlsc, t) == ThreadAdds(envs[t]) == Count(schedLse, t)
    ensures numCpus <= 0 <==> out == NoCpus
    ensures numCpus > 0 && !arraysOk <==> out == ArraysFailed
    ensures out.CreateFailed? ==>
      out.thread < |created| && !created[out.thread] && forall i :: 0 <= i < out.thread ==> created[i]
    ensures out.Hang? ==> 1 <= out.barrier <= 4 && 0 < Arrivals(AsWritten, envs, out.barrier) < |envs|
    ensures out.Finished? <==>
      numCpus > 0 && arraysOk && false !in created && forall k :: 1 <= k <= 4 ==> InStep(AsWritten, envs, k)
    ensures out.Finished? ==> out.llsc == out.lse == Total(envs)
    ensures out.Finished? ==> out.expected == numCpus * PER_THREAD
    ensures out.Finished? ==> (out.llsc == out.expected <==> forall i :: 0 <= i < |envs| ==> Measures(envs[i]))
    ensures out.Finished? ==> forall i :: 0 <= i < numCpus ==> (HasRow(out.rows, i) <==> Measures(envs[i]))
  {
    var early := Start(numCpus, arraysOk, created);
    if early.Some? {
      return early.value;
    }
    var stuck := RunBarriers(AsWritten, envs);
    if stuck.Some? {
      return Hang(stuck.value);
    }
    out := Finish(numCpus, envs, clocks, schedLlsc, schedLse);
  }

  /**
   * `main` with the repaired thread function: every created thread passes all four
   * barriers, so the run never hangs, and a thread that gave up only loses its row.
   */
  method RunParallelRepaired(numCpus: int, arraysOk: bool, created: seq<bool>, envs: seq<ThreadEnv>,
                             clocks: seq<(seq<U64>, seq<U64>)>, schedLlsc: seq<nat>, schedLse: seq<nat>)
    returns (out: Outcome)
    requires numCpus <= I32_MAX
    requires numCpus > 0 ==> |created| == |envs| == |clocks| == numCpus
    requires forall i :: 0 <= i < |clocks| ==>
      |clocks[i].0| == 2 * PERCENTILE_ITERATIONS && |clocks[i].1| == 2 * PERCENTILE_ITERATIONS
    requires forall i :: 0 <= i < |schedLlsc| ==> schedLlsc[i] < |envs|
    requires forall i :: 0 <= i < |schedLse| ==> schedLse[i] < |envs|
    requires forall t :: 0 <= t < |envs| ==> Count(schedLlsc, t) == ThreadAdds(envs[t]) == Count(schedLse, t)
    ensures !out.Hang?
    ensures out.Finished? <==> numCpus > 0 && arraysOk && false !in created
    ensures out.Finished? ==> out.llsc == out.lse == Total(envs)
    ensures out.Finished? ==> (out.llsc == out.expected <==> forall i :: 0 <= i < |envs| ==> Measures(envs[i]))
    ensures out.Finished? ==> forall i :: 0 <= i < numCpus ==> (HasRow(out.rows, i) <==> Measures(envs[i]))
  {
    var early := Start(numCpus, arraysOk, created);
    if early.Some? {
      return early.value;
    }
    var stuck := RunBarriers(Repaired, envs);
    // Where `RunParallel` stops with `Hang`, the repaired waits all release.
    FixedNeverHangs(envs);
    assert stuck.None?;
    out := Finish(numCpus, envs, clocks, schedLlsc, schedLse);
  }
}

=== FILE: percpu_bench.dfy ===
/**
 * The per-CPU atomic-add benchmark of LSE/: the iteration constants and benchmark
 * descriptor of percpu_bench_lib.h, the three add variants and the batch measurement
 * loop of percpu_bench.c, and the warmup / allocate / sort / report flow of
 * `run_benchmark_on_cpu` in percpu_bench_lib.c. The three files come from different
 * revisions (the library calls a ten-argument `run_core_benchmark`, percpu_bench.c
 * defines a six-argument one); each is modelled as written.
 *
 * Clock readings, the outcome of CPU pinning and of `malloc`, and the exclusive monitor
 * of the LL/SC loop are parameters.
 */
module PercpuBench {
  import opened Machine
  import opened Atomics
  import Stats

  // percpu_bench_lib.h
  const ITERATIONS: nat := 100_000_000
  const WARMUP_ITERATIONS: nat := ITERATIONS / 1000
  const PERCENTILE_ITERATIONS: nat := 100
  const SUB_ITERATIONS: nat := ITERATIONS / PERCENTILE_ITERATIONS

  /** The measured batches cover ITERATIONS exactly; warmup is a thousandth of it. */
  lemma IterationConstants()
    ensures SUB_ITERATIONS == 1_000_000 && SUB_ITERATIONS * PERCENTILE_ITERATIONS == ITERATIONS
    ensures WARMUP_ITERATIONS == 100_000 && WARMUP_ITERATIONS * 1000 == ITERATIONS
    ensures PERCENTILE_ITERATIONS == 100 && SUB_ITERATIONS > 0
  {
  }

  /** `struct benchmark`: one add operation paired with the name it is reported under. */
  datatype Benchmark = Benchmark(op: AddVariant, name: string)

  /** The five rows `run_benchmark_on_cpu` prints, in print order. */
  const BENCHMARKS: seq<Benchmark> := [
    Benchmark(LlSc, "LL/SC"),
    Benchmark(Stadd, "STADD"),
    Benchmark(Ldadd, "LDADD"),
    Benchmark(PrfmKeepStadd, "PRFM_KEEP+STADD"),
    Benchmark(PrfmStrmStadd, "PRFM_STRM+STADD")
  ]

  /** The three counters and latency arrays of percpu_bench.c's `run_core_benchmark`. */
  datatype CoreResult = CoreResult(
    llsc: seq<real>, lse: seq<real>, ldadd: seq<real>,
    counterLlsc: U64, counterLse: U64, counterLdadd: U64)

  /**
   * `run_core_benchmark`: LL/SC, then STADD, then LDADD, each phase with its own counter,
   * its own array and its own 2·PERCENTILE_ITERATIONS clock readings.
   */
  method RunCoreBenchmark(counterLlsc: U64, counterLse: U64, counterLdadd: U64, clock: seq<U64>)
    returns (r: CoreResult)
    requires |clock| == 6 * PERCENTILE_ITERATIONS
    ensures |r.llsc| == |r.lse| == |r.ldadd| == PERCENTILE_ITERATIONS
    ensures forall i :: 0 <= i < PERCENTILE_ITERATIONS ==>
      && r.llsc[i] == BatchLatency(clock[2 * i], clock[2 * i + 1], SUB_ITERATIONS)
      && r.lse[i] == BatchLatency(clock[200 + 2 * i], clock[200 + 2 * i + 1], SUB_ITERATIONS)
      && r.ldadd[i] == BatchLatency(clock[400 + 2 * i], clock[400 + 2 * i + 1], SUB_ITERATIONS)
    ensures r.counterLlsc == WrapAdd(counterLlsc, ITERATIONS)
    ensures r.counterLse == WrapAdd(counterLse, ITERATIONS)
    ensures r.counterLdadd == WrapAdd(counterLdadd, ITERATIONS)
  {
    var l1, c1 := MeasurePhase(LlSc, counterLlsc, clock[..200], PERCENTILE_ITERATIONS, SUB_ITERATIONS);
    var l2, c2 := MeasurePhase(Stadd, counterLse, clock[200..400], PERCENTILE_ITERATIONS, SUB_ITERATIONS);
    var l3, c3 := MeasurePhase(Ldadd, counterLdadd, clock[400..], PERCENTILE_ITERATIONS, SUB_ITERATIONS);
    r := CoreResult(l1, l2, l3, c1, c2, c3);
  }

  // ---------------------------------------------------------------------------
  // run_benchmark_on_cpu (percpu_bench_lib.c)
  // ---------------------------------------------------------------------------

  /** One printed row: the benchmark's name and its p50/p95/p99. */
  datatype Row = Row(name: string, triple: Stats.Triple)

  /** How `run_benchmark_on_cpu` ended. */
  datatype CpuRun =
    | PinFailed                         // affinity could not be set: nothing else happens
    | AllocFailed(freed: nat)           // some latency array is NULL: all five are freed
    | Report(cpu: int, rows: seq<Row>)  // the five rows printed under "CPU: <cpu>"

  /** Each printed value is one of the benchmark's own samples. */
  predicate Printed(t: Stats.Triple, samples: seq<real>) {
    t.p50 in samples && t.p95 in samples && t.p99 in samples
  }

  /**
   * A printed row's p50, p95 and p99 are samples of that benchmark: elements 49, 94 and
   * 98 of any ascending arrangement of them.
   */
  lemma RowFromSamples(samples: seq<real>, s: seq<real>)
    requires |samples| == PERCENTILE_ITERATIONS
    requires Stats.Ascending(s) && multiset(s) == multiset(samples)
    ensures var t := Stats.ReportTriple(Stats.SortAscending(samples));
      && Printed(t, samples)
      && |s| == 100 && t == Stats.Triple(s[49], s[94], s[98])
  {
    var sorted := Stats.SortAscending(samples);
    assert |s| == |multiset(s)| == |multiset(samples)| == |samples|;
    Stats.AscendingPermutationUnique(sorted, s);
    Stats.ReportTripleOf100(sorted);
    var t := Stats.ReportTriple(sorted);
    assert t.p50 in multiset(sorted) && t.p95 in multiset(sorted) && t.p99 in multiset(sorted);
  }

  /**
   * `run_benchmark_on_cpu(cpu)`. `pinned` is the outcome of `set_cpu_affinity`,
   * `allocOk[k]` whether the k-th latency `malloc` returned non-NULL, and `measured`
   * what the ten-argument `run_core_benchmark` (not part of this model) left in the five
   * arrays. `warmedUp[k]` is counter k just before its reset, `atMeasure[k]` the value
   * it enters the measurement with.
   */
  method RunBenchmarkOnCpu(cpu: int, pinned: bool, allocOk: seq<bool>, measured: seq<seq<real>>)
    returns (run: CpuRun, warmedUp: seq<U64>, atMeasure: seq<U64>)
    requires |allocOk| == |BENCHMARKS| && |measured| == |BENCHMARKS|
    requires forall k :: 0 <= k < |measured| ==> |measured[k]| == PERCENTILE_ITERATIONS
    ensures !pinned <==> run.PinFailed?
    ensures !pinned ==> warmedUp == [] && atMeasure == []
    ensures pinned ==> |warmedUp| == |BENCHMARKS| && forall k :: 0 <= k < |warmedUp| ==> warmedUp[k] == WARMUP_ITERATIONS
    ensures pinned ==> atMeasure == [0, 0, 0, 0, 0]
    ensures pinned && false in allocOk <==> run.AllocFailed?
    ensures run.AllocFailed? ==> run.freed == |BENCHMARKS|
    ensures run.Report? ==> run.cpu == cpu && |run.rows| == |BENCHMARKS|
    ensures run.Report? ==> forall k :: 0 <= k < |BENCHMARKS| ==>
      && run.rows[k].name == BENCHMARKS[k].name
      && run.rows[k].triple == Stats.ReportTriple(Stats.SortAscending(measured[k]))
      && run.rows[k].triple.p50 <= run.rows[k].triple.p95 <= run.rows[k].triple.p99
  {
    warmedUp := [];
    atMeasure := [];
    if !pinned {
      run := PinFailed;
      return;
    }
    warmedUp, atMeasure := WarmUpAll();
    if false in allocOk {
      run := AllocFailed(|BENCHMARKS|);
      return;
    }
    var rows := RowsOf(measured);
    run := Report(cpu, rows);
  }

  /** The five warmup loops, each on its counter from 0, then the resets to 0. */
  method WarmUpAll() returns (warmedUp: seq<U64>, atMeasure: seq<U64>)
    ensures |warmedUp| == |BENCHMARKS| && forall k :: 0 <= k < |warmedUp| ==> warmedUp[k] == WARMUP_ITERATIONS
    ensures atMeasure == [0, 0, 0, 0, 0]
  {
    warmedUp := [];
    atMeasure := [];
    var k := 0;
    while k < |BENCHMARKS|
      invariant 0 <= k <= |BENCHMARKS|
      invariant |warmedUp| == k && |atMeasure| == k
      invariant forall j :: 0 <= j < k ==> warmedUp[j] == WARMUP_ITERATIONS && atMeasure[j] == 0
    {
      var reached := AddLoop(BENCHMARKS[k].op, 0, WARMUP_ITERATIONS);
      warmedUp := warmedUp + [reached];
      atMeasure := atMeasure + [0];
      k := k + 1;
    }
  }

  /** The row printed for one benchmark, from its sorted latencies. */
  function RowOf(name: string, samples: seq<real>): (r: Row)
    requires |samples| == PERCENTILE_ITERATIONS
    ensures r.name == name && r.triple == Stats.ReportTriple(Stats.SortAscending(samples))
    ensures r.triple.p50 <= r.triple.p95 <= r.triple.p99
  {
    var sorted := Stats.SortAscending(samples);
    Stats.ReportTripleOf100(sorted);
    Row(name, Stats.ReportTriple(sorted))
  }

  /** The five printed rows, each from its own sorted latencies. */
  method RowsOf(measured: seq<seq<real>>) returns (rows: seq<Row>)
    requires |measured| == |BENCHMARKS|
    requires forall k :: 0 <= k < |measured| ==> |measured[k]| == PERCENTILE_ITERATIONS
    ensures |rows| == |BENCHMARKS|
    ensures forall k :: 0 <= k < |BENCHMARKS| ==> rows[k] == RowOf(BENCHMARKS[k].name, measured[k])
  {
    rows := [];
    var k := 0;
    while k < |BENCHMARKS|
      invariant 0 <= k <= |BENCHMARKS|
      invariant |rows| == k
      invariant forall j :: 0 <= j < k ==> rows[j] == RowOf(BENCHMARKS[j].name, measured[j])
    {
      rows := rows + [RowOf(BENCHMARKS[k].name, measured[k])];
      k := k + 1;
    }
  }

  // ---------------------------------------------------------------------------
  // main (percpu_bench.c)
  // ---------------------------------------------------------------------------

  /**
   * `main`: exit status 1 without benchmarking when the CPU count is not positive,
   * otherwise `run_benchmark_on_cpu` for CPUs 0 .. n-1 in ascending order and status 0.
   */
  method RunAllCpus(numCpus: int) returns (exit: int, visited: seq<int>)
    ensures numCpus <= 0 ==> exit == 1 && visited == []
    ensures numCpus > 0 ==> exit == 0 && |visited| == numCpus
    ensures numCpus > 0 ==> forall i :: 0 <= i < |visited| ==> visited[i] == i
  {
    visited := [];
    if numCpus <= 0 {
      return 1, [];
    }
    var i := 0;
    while i < numCpus
      invariant 0 <= i <= numCpus
      invariant |visited| == i
      invariant forall j :: 0 <= j < i ==> visited[j] == j
    {
      visited := visited + [i];
      i := i + 1;
    }
    exit := 0;
  }
}

=== FILE: perf_events.dfy ===
/**
 * perf/perf_them_all.py: lists every event `perf list --json` reports, drops three names
 * that are syntax templates rather than events, runs `perf stat` once per event, and then
 * runs it again and again on random handfuls of events at once.
 *
 * What `perf list` prints, what `perf stat` returns and the random draws are parameters;
 * a run of `perf stat` is represented by the command line it is given.
 */
module PerfEvents {
  import opened Wrappers
  import opened Text

  /** Names `perf list` shows that are templates, not events (perf/perf_them_all.py:10). */
  const BROKEN_EVENTS: seq<string> := ["rNNN", "mem:<addr>[/len][:access]", "cpu/t1=v1[t2=v2t3...]/modifier"]

  /** What a line must contain to be looked at. */
  const NAME_KEY: string := "EventName"

  /** What the line is split on: the key, its closing quote and the colon. */
  const MARKER: string := "EventName\":"

  /** The characters removed from a name: space, double quote and comma. */
  const JUNK: set<char> := {' ', '"', ','}

  const INDEX_ERROR: string := "IndexError: list index out of range"
  const VALUE_ERROR: string := "ValueError: invalid literal for int() with base 10"
  const EMPTY_RANGE: string := "ValueError: empty range for randrange()"
  const TYPE_ERROR: string := "TypeError: run_perf_stat() missing 1 required positional argument: 'verbose'"

  // ---------------------------------------------------------------------------
  // The perf stat command line
  // ---------------------------------------------------------------------------

  /** `-e <event>` for each event, in order. */
  function EventFlags(events: seq<string>): (r: seq<string>)
    ensures |r| == 2 * |events|
    decreases |events|
  {
    if |events| == 0 then [] else ["-e", events[0]] + EventFlags(events[1..])
  }

  /**
   * `run_perf_stat`'s command: `perf stat`, the event flags, and `sleep <time>`, where
   * `time` is the text `str(time)` gives (the script passes its `--time` argument, a string).
   */
  function Command(events: seq<string>, time: string): (cmd: seq<string>)
    ensures |cmd| == 4 + 2 * |events|
    ensures cmd[..2] == ["perf", "stat"] && cmd[2..|cmd| - 2] == EventFlags(events)
    ensures cmd[|cmd| - 2..] == ["sleep", time]
  {
    ["perf", "stat"] + EventFlags(events) + ["sleep", time]
  }

  /** Reading `-e <event>` pairs: the event of each pair whose flag is `-e`, in order. */
  function FlagValues(flags: seq<string>): seq<string>
    decreases |flags|
  {
    if |flags| < 2 then []
    else if flags[0] == "-e" then [flags[1]] + FlagValues(flags[2..])
    else FlagValues(flags[2..])
  }

  /** The events a `perf stat ... sleep t` command line names. */
  function NamedEvents(cmd: seq<string>): seq<string>
    requires |cmd| >= 4
  {
    FlagValues(cmd[2..|cmd| - 2])
  }

  /** The flags read back as the events they were built from. */
  lemma {:induction false} FlagValuesOfFlags(events: seq<string>)
    ensures FlagValues(EventFlags(events)) == events
    decreases |events|
  {
    if |events| > 0 {
      var flags := EventFlags(events);
      assert flags[2..] == EventFlags(events[1..]);
      FlagValuesOfFlags(events[1..]);
    }
  }

  /** The command names exactly the events it was built from, in order, and sleeps the given time. */
  lemma CommandReadsBack(events: seq<string>, time: string)
    ensures var cmd := Command(events, time);
      NamedEvents(cmd) == events && cmd[|cmd| - 1] == time
  {
    FlagValuesOfFlags(events);
  }

  /** What one call of `run_perf_stat` prints. */
  datatype Effect =
    | ShowCommand(cmd: seq<string>)                           // `print(cmd)` when verbose
    | ReportFailure(cmd: seq<string>, code: int, out: string) // the "==== Failure===" block
    | Dot                                                     // the progress dot when not verbose

  /** `run_perf_stat` given what `perf stat` returned: its exit status and output. */
  function RunPerfStat(events: seq<string>, time: string, verbose: bool, code: int, out: string): (r: seq<Effect>)
    ensures ShowCommand(Command(events, time)) in r <==> verbose
    ensures Dot in r <==> !verbose
    ensures ReportFailure(Command(events, time), code, out) in r <==> code != 0
    ensures |r| == if code != 0 then 2 else 1
    ensures forall e :: e in r && e.ReportFailure? ==> e == ReportFailure(Command(events, time), code, out)
  {
    var cmd := Command(events, time);
    (if verbose then [ShowCommand(cmd)] else [])
    + (if code != 0 then [ReportFailure(cmd, code, out)] else [])
    + (if verbose then [] else [Dot])
  }

  // ---------------------------------------------------------------------------
  // `str.splitlines()`
  // ---------------------------------------------------------------------------

  /** The characters `str.splitlines()` ends a line at; "\r\n" counts as one break. */
  predicate IsLineBreak(c: char) {
    c == '\n' || c == '\r' || c == '\U{000B}' || c == '\U{000C}' || c == '\U{001C}'
    || c == '\U{001D}' || c == '\U{001E}' || c == '\U{0085}' || c == '\U{2028}' || c == '\U{2029}'
  }

  /** The index of the first line break at or after `i`, or the length. */
  function BreakFrom(s: string, i: nat): (r: nat)
    requires i <= |s|
    ensures i <= r <= |s|
    ensures r < |s| ==> IsLineBreak(s[r])
    ensures forall k :: i <= k < r ==> !IsLineBreak(s[k])
    decreases |s| - i
  {
    if i == |s| || IsLineBreak(s[i]) then i else BreakFrom(s, i + 1)
  }

  /** `s.splitlines()`: the lines without their breaks; a final break adds no empty line. */
  function SplitLines(s: string): (r: seq<string>)
    ensures forall k, j :: 0 <= k < |r| && 0 <= j < |r[k]| ==> !IsLineBreak(r[k][j])
    decreases |s|
  {
    if |s| == 0 then []
    else
      var n := BreakFrom(s, 0);
      if n == |s| then [s]
      else
        var skip := if s[n] == '\r' && n + 1 < |s| && s[n + 1] == '\n' then 2 else 1;
        var rest := SplitLines(s[n + skip..]);
        assert forall j :: 0 <= j < n ==> s[..n][j] == s[j];
        [s[..n]] + rest
  }

  /** No character of the text is a line break. */
  predicate NoBreaks(s: string) {
    forall j :: 0 <= j < |s| ==> !IsLineBreak(s[j])
  }

  /**
   * Lines joined with "\n", with or without a final "\n", split back into the same lines,
   * when none holds a break and the last is not empty.
   */
  lemma {:induction false} SplitLinesJoin(lines: seq<string>)
    requires |lines| > 0 && |lines[|lines| - 1]| > 0
    requires forall k :: 0 <= k < |lines| ==> NoBreaks(lines[k])
    ensures SplitLines(Join(lines, "\n")) == lines
    ensures SplitLines(Join(lines, "\n") + "\n") == lines
    decreases |lines|, 1
  {
    if |lines| == 1 {
      SplitOneLine(lines);
    } else {
      SplitLinesCons(lines);
    }
  }

  lemma SplitOneLine(lines: seq<string>)
    requires |lines| == 1 && |lines[0]| > 0 && NoBreaks(lines[0])
    ensures SplitLines(Join(lines, "\n")) == lines
    ensures SplitLines(Join(lines, "\n") + "\n") == lines
  {
    assert Join(lines, "\n") == lines[0];
    FirstLineOnly(lines[0]);
    FirstLineThenRest(lines[0], "");
    assert lines == [lines[0]];
  }

  lemma {:induction false} SplitLinesCons(lines: seq<string>)
    requires |lines| > 1 && |lines[|lines| - 1]| > 0
    requires forall k :: 0 <= k < |lines| ==> NoBreaks(lines[k])
    ensures SplitLines(Join(lines, "\n")) == lines
    ensures SplitLines(Join(lines, "\n") + "\n") == lines
    decreases |lines|, 0
  {
    var first, rest := lines[0], lines[1..];
    assert forall k :: 1 <= k < |lines| ==> lines[k] == rest[k - 1];
    SplitLinesJoin(rest);
    var tail := Join(rest, "\n");
    JoinLast(rest, "\n");
    assert Join(lines, "\n") == first + "\n" + tail;
    FirstLineThenRest(first, tail);
    assert Join(lines, "\n") + "\n" == first + "\n" + (tail + "\n");
    FirstLineThenRest(first, tail + "\n");
    assert lines == [first] + rest;
  }

  /** A non-empty last part makes the join non-empty. */
  lemma {:induction false} JoinLast(parts: seq<string>, sep: string)
    requires |parts| > 0 && |parts[|parts| - 1]| > 0
    ensures |Join(parts, sep)| > 0
    decreases |parts|
  {
    if |parts| > 1 {
      assert parts[1..][|parts| - 2] == parts[|parts| - 1];
      JoinLast(parts[1..], sep);
    }
  }

  /** A non-empty text without breaks is one line. */
  lemma FirstLineOnly(first: string)
    requires |first| > 0 && NoBreaks(first)
    ensures SplitLines(first) == [first]
  {
    assert BreakFrom(first, 0) == |first|;
  }

  /** A line, "\n", then more text: the line, then the lines of the text. */
  lemma FirstLineThenRest(first: string, tail: string)
    requires NoBreaks(first)
    ensures |tail| > 0 ==> SplitLines(first + "\n" + tail) == [first] + SplitLines(tail)
    ensures tail == "" ==> SplitLines(first + "\n") == [first]
  {
    var s := first + "\n" + tail;
    var n := |first|;
    assert s[..n] == first && s[n] == '\n' && s[n + 1..] == tail;
    assert forall j :: 0 <= j < n ==> s[j] == first[j];
    BreakAfter(s, n);
    SplitLinesAtNewline(s, n);
    if tail == "" {
      assert first + "\n" == s;
    }
  }

  /** A "\n" at the first break ends the first line, and the lines of what follows come after it. */
  lemma SplitLinesAtNewline(s: string, n: nat)
    requires n < |s| && BreakFrom(s, 0) == n && s[n] == '\n'
    ensures SplitLines(s) == [s[..n]] + SplitLines(s[n + 1..])
  {
  }

  /** The first break is at `n` when nothing before `n` is one and `s[n]` is. */
  lemma BreakAfter(s: string, n: nat)
    requires n < |s| && IsLineBreak(s[n]) && forall j :: 0 <= j < n ==> !IsLineBreak(s[j])
    ensures BreakFrom(s, 0) == n
  {
    BreakFromSkips(s, 0, n);
  }

  /** From any index up to `n`, the search runs on to `n`. */
  lemma {:induction false} BreakFromSkips(s: string, i: nat, n: nat)
    requires i <= n < |s| && IsLineBreak(s[n]) && forall j :: i <= j < n ==> !IsLineBreak(s[j])
    ensures BreakFrom(s, i) == n
    decreases n - i
  {
    if i < n {
      BreakFromSkips(s, i + 1, n);
    }
  }

  // ---------------------------------------------------------------------------
  // `get_events`
  // ---------------------------------------------------------------------------

  /** `line.split('EventName":')[1]`: the text between the first marker and the next one. */
  function AfterMarker(line: string): (r: Option<string>)
    ensures r.Some? <==> Contains(line, MARKER)
  {
    FindIffContains(line, MARKER);
    match Find(line, MARKER)
    case None => None
    case Some(i) =>
      var rest := line[i + |MARKER|..];
      match Find(rest, MARKER)
      case None => Some(rest)
      case Some(j) => Some(rest[..j])
  }

  /** `.replace(" ", "").replace("\"", "").replace(",", "")`: three removals in turn. */
  function Clean(s: string): string {
    RemoveChars(RemoveChars(RemoveChars(s, {' '}), {'"'}), {','})
  }

  /** The three removals are one removal of all three characters, so a cleaned name has none of them. */
  lemma CleanRemovesJunk(s: string)
    ensures Clean(s) == RemoveChars(s, JUNK)
    ensures forall k :: 0 <= k < |Clean(s)| ==> Clean(s)[k] !in JUNK
  {
    RemoveCharsTwice(s, {' '}, {'"'});
    RemoveCharsTwice(RemoveChars(s, {' '}), {'"'}, {','});
    RemoveCharsTwice(s, {' '} + {'"'}, {','});
    assert {' '} + {'"'} + {','} == JUNK;
  }

  /** The name a line of `perf list --json` gives, if it mentions "EventName"; IndexError if the marker is missing. */
  function EventOfLine(line: string): (r: Result<Option<string>, string>)
    ensures r.Failure? <==> Contains(line, NAME_KEY) && !Contains(line, MARKER)
    ensures r.Success? && r.value.Some? <==> Contains(line, MARKER)
    ensures r.Success? && r.value.Some? ==> CleanName(r.value.value)
  {
    MarkerHasKey(line);
    if !Contains(line, NAME_KEY) then Success(None)
    else
      match AfterMarker(line)
      case None => Failure(INDEX_ERROR)
      case Some(piece) =>
        CleanRemovesJunk(piece);
        Success(Some(Clean(piece)))
  }

  /** The marker begins with the key, so a line holding the marker holds the key. */
  lemma MarkerHasKey(line: string)
    ensures Contains(line, MARKER) ==> Contains(line, NAME_KEY)
  {
    if Contains(line, MARKER) {
      var i :| 0 <= i <= |line| && OccursAt(line, MARKER, i);
      assert line[i..i + |NAME_KEY|] == line[i..i + |MARKER|][..|NAME_KEY|];
      assert OccursAt(line, NAME_KEY, i);
    }
  }

  /** No space, double quote or comma. */
  predicate CleanName(e: string) {
    forall k :: 0 <= k < |e| ==> e[k] !in JUNK
  }

  /** A name that may be listed: cleaned, and not a template. */
  predicate Listable(e: string) {
    CleanName(e) && e !in BROKEN_EVENTS
  }

  /** What one line adds to the list: its name, unless it has none or the name is a template. */
  function Contribution(line: string): (r: Result<seq<string>, string>)
    ensures r.Success? ==> |r.value| <= 1 && forall i :: 0 <= i < |r.value| ==> Listable(r.value[i])
  {
    match EventOfLine(line)
    case Failure(e) => Failure(e)
    case Success(None) => Success([])
    case Success(Some(n)) => if n in BROKEN_EVENTS then Success([]) else Success([n])
  }

  /** The names of all lines in order, without the templates, or the first line's exception. */
  function EventsOfLines(lines: seq<string>): (r: Result<seq<string>, string>)
    decreases |lines|
  {
    if |lines| == 0 then Success([])
    else
      match (Contribution(lines[0]), EventsOfLines(lines[1..]))
      case (Failure(e), _) => Failure(e)
      case (_, Failure(e)) => Failure(e)
      case (Success(mine), Success(rest)) => Success(mine + rest)
  }

  /** `get_events` on what `perf list --json` printed. */
  function GetEvents(out: string): Result<seq<string>, string> {
    EventsOfLines(SplitLines(out))
  }

  /** Every listed event is a cleaned name and not a template. */
  lemma {:induction false} EventsListable(lines: seq<string>)
    requires EventsOfLines(lines).Success?
    ensures forall i :: 0 <= i < |EventsOfLines(lines).value| ==> Listable(EventsOfLines(lines).value[i])
    decreases |lines|
  {
    if |lines| > 0 {
      EventsListable(lines[1..]);
      var mine, rest := Contribution(lines[0]).value, EventsOfLines(lines[1..]).value;
      assert EventsOfLines(lines).value == mine + rest;
      assert forall i :: |mine| <= i < |mine + rest| ==> (mine + rest)[i] == rest[i - |mine|];
    }
  }

  /** How two results of reading lines combine: the earlier exception, else both lists in order. */
  function Combine(x: Result<seq<string>, string>, y: Result<seq<string>, string>): Result<seq<string>, string> {
    match (x, y)
    case (Failure(e), _) => Failure(e)
    case (_, Failure(e)) => Failure(e)
    case (Success(a), Success(b)) => Success(a + b)
  }

  /** Lines are read one after the other: the events of two runs of lines are the events of each, in order. */
  lemma {:induction false} EventsAppend(a: seq<string>, b: seq<string>)
    ensures EventsOfLines(a + b) == Combine(EventsOfLines(a), EventsOfLines(b))
    decreases |a|
  {
    if |a| == 0 {
      assert a + b == b;
      if EventsOfLines(b).Success? {
        assert [] + EventsOfLines(b).value == EventsOfLines(b).value;
      }
    } else {
      assert (a + b)[1..] == a[1..] + b;
      assert (a + b)[0] == a[0];
      EventsAppend(a[1..], b);
      CombineAssociates(Contribution(a[0]), EventsOfLines(a[1..]), EventsOfLines(b));
    }
  }

  /** Combining is associative. */
  lemma CombineAssociates(x: Result<seq<string>, string>, y: Result<seq<string>, string>, z: Result<seq<string>, string>)
    ensures Combine(Combine(x, y), z) == Combine(x, Combine(y, z))
  {
    if x.Success? && y.Success? && z.Success? {
      assert x.value + y.value + z.value == x.value + (y.value + z.value);
    }
  }

  /** A line as `perf list --json` prints it: indentation, then `"EventName": "<name>",`. */
  function JsonLine(indent: nat, name: string): string {
    Repeat(' ', indent) + "\"" + MARKER + " \"" + name + "\","
  }

  /** The name of a JSON line is the name it quotes, when the name holds no space, quote or comma. */
  lemma JsonLineName(indent: nat, name: string)
    requires forall k :: 0 <= k < |name| ==> name[k] !in JUNK
    ensures EventOfLine(JsonLine(indent, name)) == Success(Some(name))
  {
    var line := JsonLine(indent, name);
    JsonLineAfterMarker(indent, name);
    CleanValue(name);
    MarkerHasKey(line);
  }

  /** The text behind the marker of a JSON line is the quoted value. */
  lemma JsonLineAfterMarker(indent: nat, name: string)
    requires forall k :: 0 <= k < |name| ==> name[k] !in JUNK
    ensures AfterMarker(JsonLine(indent, name)) == Some(" \"" + name + "\",")
  {
    var pre := Repeat(' ', indent) + "\"";
    var rest := " \"" + name + "\",";
    var line := JsonLine(indent, name);
    assert line == pre + MARKER + rest by {
      JsonLineParts(Repeat(' ', indent), name);
    }
    FirstMarkerAt(pre, rest);
    NoMarkerInValue(name);
    assert line[|pre| + |MARKER|..] == rest;
  }

  /** The JSON line as the three pieces the marker search sees. */
  lemma JsonLineParts(spaces: string, name: string)
    ensures spaces + "\"" + MARKER + " \"" + name + "\"," == (spaces + "\"") + MARKER + (" \"" + name + "\",")
  {
  }

  /** Cleaning the quoted value leaves the name. */
  lemma CleanValue(name: string)
    requires forall k :: 0 <= k < |name| ==> name[k] !in JUNK
    ensures Clean(" \"" + name + "\",") == name
  {
    var rest := " \"" + name + "\",";
    CleanRemovesJunk(rest);
    assert rest == " \"" + (name + "\",");
    RemoveCharsAppend(" \"", name + "\",", JUNK);
    RemoveCharsAppend(name, "\",", JUNK);
    RemoveCharsNone(name, JUNK);
    assert RemoveChars(" \"", JUNK) == [];
    assert RemoveChars("\",", JUNK) == [];
  }

  /** Behind spaces and a quote, the marker's first occurrence is where it is put. */
  lemma FirstMarkerAt(pre: string, rest: string)
    requires |pre| > 0 && pre[|pre| - 1] == '"' && forall k :: 0 <= k < |pre| - 1 ==> pre[k] == ' '
    ensures Find(pre + MARKER + rest, MARKER) == Some(|pre|)
  {
    var s := pre + MARKER + rest;
    assert OccursAt(s, MARKER, |pre|) by {
      assert s[|pre|..|pre| + |MARKER|] == MARKER;
    }
    forall j | 0 <= j < |pre| ensures !OccursAt(s, MARKER, j) {
      assert s[j] == pre[j];
    }
    FindIffContains(s, MARKER);
  }

  /** The quoted value `"<name>",` behind the marker never holds the marker again. */
  lemma NoMarkerInValue(name: string)
    requires forall k :: 0 <= k < |name| ==> name[k] !in JUNK
    ensures Find(" \"" + name + "\",", MARKER) == None
  {
    var rest := " \"" + name + "\",";
    assert MARKER[9] == '"' && MARKER[10] == ':';
    forall j: nat | j + |MARKER| <= |rest| ensures !OccursAt(rest, MARKER, j) {
      if rest[j + 9] == '"' {
        QuoteNotBeforeColon(name, j + 9);
      }
      assert rest[j..j + |MARKER|][9] == rest[j + 9] && rest[j..j + |MARKER|][10] == rest[j + 10];
    }
    FindIffContains(rest, MARKER);
  }

  /** Past the opening quote, the only quote of `"<name>",` is followed by the comma. */
  lemma QuoteNotBeforeColon(name: string, p: nat)
    requires forall k :: 0 <= k < |name| ==> name[k] !in JUNK
    requires 9 <= p && p + 1 < |" \"" + name + "\","| && (" \"" + name + "\",")[p] == '"'
    ensures (" \"" + name + "\",")[p + 1] == ','
  {
    var rest := " \"" + name + "\",";
    assert forall k :: 2 <= k < |name| + 2 ==> rest[k] == name[k - 2];
    assert rest[|name| + 2] == '"' && rest[|name| + 3] == ',';
  }

  /** A JSON line alone yields its name, unless the name is a template. */
  lemma OneJsonLine(indent: nat, name: string)
    requires forall k :: 0 <= k < |name| ==> name[k] !in JUNK
    ensures EventsOfLines([JsonLine(indent, name)]) == Success(if name in BROKEN_EVENTS then [] else [name])
  {
    JsonLineName(indent, name);
    OneLine(JsonLine(indent, name));
  }

  /** A single line reads as its contribution. */
  lemma OneLine(line: string)
    ensures EventsOfLines([line]) == Contribution(line)
  {
    assert [line][1..] == [];
    assert EventsOfLines([]) == Success([]);
    if Contribution(line).Success? {
      assert Contribution(line).value + [] == Contribution(line).value;
    }
  }

  // ---------------------------------------------------------------------------
  // `main`
  // ---------------------------------------------------------------------------

  /**
   * The calls of `run_perf_stat`, each given as the events it is passed (the call runs
   * `Command(events, time)`), and, if the script stopped with one, the exception.
   */
  datatype Run = Run(calls: seq<seq<string>>, error: Option<string>)

  /** One call per event, each passing that event alone. */
  function SingleRuns(events: seq<string>): (r: seq<seq<string>>)
    ensures |r| == |events| && forall i :: 0 <= i < |events| ==> r[i] == [events[i]]
  {
    seq(|events|, i requires 0 <= i < |events| => [events[i]])
  }

  /** The random draws are what `random.randint` can return: at most ten picks, each an index of the list. */
  predicate ValidDraws(events: seq<string>, draws: seq<seq<nat>>) {
    forall z :: 0 <= z < |draws| ==>
      |draws[z]| <= 10 && (|events| > 0 ==> forall i :: 0 <= i < |draws[z]| ==> draws[z][i] < |events|)
  }

  /** The events of one parallel run: `events[random.randint(0, len(events) - 1)]` for each pick. */
  function Picked(events: seq<string>, picks: seq<nat>): (r: seq<string>)
    requires forall i :: 0 <= i < |picks| ==> picks[i] < |events|
    ensures |r| == |picks| && forall i :: 0 <= i < |picks| ==> r[i] == events[picks[i]]
  {
    seq(|picks|, i requires 0 <= i < |picks| => events[picks[i]])
  }

  /** At most ten events, all from the list. */
  predicate Handful(run: seq<string>, events: seq<string>) {
    |run| <= 10 && forall e :: e in run ==> e in events
  }

  /** The `while z < int(args.iterations)` loop from iteration `z` on, without `--forever`. */
  function ParallelRuns(events: seq<string>, n: int, draws: seq<seq<nat>>, z: nat): (r: Run)
    requires ValidDraws(events, draws) && n <= |draws| && z <= |draws|
    ensures r.error.None? ==> |r.calls| == if z < n then n - z else 0
    ensures r.error.Some? ==> |events| == 0 && r.error == Some(EMPTY_RANGE)
    ensures forall k :: 0 <= k < |r.calls| ==> Handful(r.calls[k], events)
    decreases |draws| - z
  {
    if n <= z then Run([], None)
    else if |draws[z]| > 0 && |events| == 0 then Run([], Some(EMPTY_RANGE))
    else
      var later := ParallelRuns(events, n, draws, z + 1);
      var picked := Picked(events, draws[z]);
      assert Handful(picked, events);
      var calls := [picked] + later.calls;
      assert forall k :: 1 <= k < |calls| ==> calls[k] == later.calls[k - 1];
      Run(calls, later.error)
  }

  /**
   * `main` with `run_perf_stat([event], args.time, args.verbose)` in the first loop, and
   * without `--forever`: each event alone, then the parallel runs, stopping at the first
   * exception.
   */
  function Main(out: string, iterations: string, draws: seq<seq<nat>>): (r: Run)
    requires GetEvents(out).Success? ==> ValidDraws(GetEvents(out).value, draws)
    requires ParseInt(iterations).Some? ==> ParseInt(iterations).value <= |draws|
    ensures GetEvents(out).Failure? ==> r == Run([], Some(GetEvents(out).error))
    ensures GetEvents(out).Success? ==> |r.calls| >= |GetEvents(out).value|
    ensures GetEvents(out).Success? ==> r.calls[..|GetEvents(out).value|] == SingleRuns(GetEvents(out).value)
    ensures GetEvents(out).Success? && ParseInt(iterations).None? ==> r.error == Some(VALUE_ERROR)
  {
    match GetEvents(out)
    case Failure(e) => Run([], Some(e))
    case Success(events) =>
      var singles := SingleRuns(events);
      match ParseInt(iterations)
      case None => Run(singles, Some(VALUE_ERROR))
      case Some(n) =>
        var parallel := ParallelRuns(events, n, draws, 0);
        assert (singles + parallel.calls)[..|events|] == singles;
        Run(singles + parallel.calls, parallel.error)
  }

  /** `main` as written: the first loop's call leaves out `verbose`, which Python rejects at the first event. */
  function MainAsWritten(out: string, iterations: string, draws: seq<seq<nat>>): (r: Run)
    requires GetEvents(out).Success? ==> ValidDraws(GetEvents(out).value, draws)
    requires ParseInt(iterations).Some? ==> ParseInt(iterations).value <= |draws|
    ensures GetEvents(out).Success? && |GetEvents(out).value| == 0 ==> r == Main(out, iterations, draws)
    ensures GetEvents(out).Failure? ==> r == Main(out, iterations, draws)
  {
    match GetEvents(out)
    case Failure(e) => Run([], Some(e))
    case Success(events) =>
      if |events| > 0 then Run([], Some(TYPE_ERROR))
      else Main(out, iterations, draws)
  }

  /**
   * As written, any event list that is not empty stops the script before a single
   * `perf stat` runs, where the intended script runs every event.
   */
  lemma MissingVerboseStops(out: string, iterations: string, draws: seq<seq<nat>>)
    requires GetEvents(out).Success? && |GetEvents(out).value| > 0
    requires ValidDraws(GetEvents(out).value, draws)
    requires ParseInt(iterations).Some? ==> ParseInt(iterations).value <= |draws|
    ensures MainAsWritten(out, iterations, draws) == Run([], Some(TYPE_ERROR))
    ensures |Main(out, iterations, draws).calls| >= |GetEvents(out).value| > 0
  {
    var events := GetEvents(out).value;
    assert MainAsWritten(out, iterations, draws) == Run([], Some(TYPE_ERROR));
  }

  /**
   * With the argument passed, the calls are each event alone in list order and then one
   * call per iteration, each with at most ten events of the list, and nothing stops the script.
   */
  lemma MainRuns(out: string, iterations: string, draws: seq<seq<nat>>)
    requires GetEvents(out).Success? && ValidDraws(GetEvents(out).value, draws)
    requires ParseInt(iterations).Some? && ParseInt(iterations).value <= |draws|
    requires |GetEvents(out).value| > 0
    ensures var events, n, r := GetEvents(out).value, ParseInt(iterations).value, Main(out, iterations, draws);
      && r.error.None?
      && |r.calls| == |events| + (if n > 0 then n else 0)
      && (forall i :: 0 <= i < |events| ==> r.calls[i] == [events[i]])
      && (forall i :: |events| <= i < |r.calls| ==> Handful(r.calls[i], events))
  {
    var events, n := GetEvents(out).value, ParseInt(iterations).value;
    var parallel := ParallelRuns(events, n, draws, 0);
    var r := Main(out, iterations, draws);
    assert r.calls == SingleRuns(events) + parallel.calls;
    assert forall i :: |events| <= i < |r.calls| ==> r.calls[i] == parallel.calls[i - |events|];
  }
}

=== FILE: proc_maps.dfy ===
/**
 * maps/parse_procmaps.py: each line of `/proc/<pid>/maps` contributes the size of its
 * address range `start-end` (hexadecimal, end exclusive) to a running total and one to an
 * entry count; `main` looks the process up in `ps aux` output first. The `ps` lines and
 * the maps lines are parameters.
 */
module ProcMaps {
  import opened Wrappers
  import opened Text
  import Ps
  import opened Collect

  /** What `mem_size` reads from one line: the range size and the area name. */
  datatype MapsLine = MapsLine(size: int, area: string)

  /** The last element of a non-empty sequence. */
  function Last<T>(s: seq<T>): T
    requires |s| > 0
  {
    s[|s| - 1]
  }

  /** `line.split(" ")[0]`: the address range. */
  function FirstField(line: string): string {
    Split(line, ' ')[0]
  }

  /** `line.split(" ")[-1].strip()`: the mapped file or pseudo-area name. */
  function Area(line: string): string {
    Strip(Last(Split(line, ' ')))
  }

  /** `int(f"0x{piece}", 16)`. */
  function HexField(piece: string): Option<nat> {
    ParseHex("0x" + piece)
  }

  /**
   * `start, end = memrange.split("-")` and the difference of the two hexadecimal values;
   * None for the ValueError of a wrong piece count or a piece that is not hexadecimal.
   */
  function RangeSize(range: string): Option<int> {
    PiecesSize(Split(range, '-'))
  }

  /** The unpacking and the two `int(..., 16)` calls, on the pieces of the range. */
  function PiecesSize(pieces: seq<string>): Option<int> {
    if |pieces| != 2 then None else Difference(HexField(pieces[1]), HexField(pieces[0]))
  }

  /** `end - start` when both parsed. */
  function Difference(end: Option<nat>, start: Option<nat>): Option<int> {
    if end.Some? && start.Some? then Some(end.value as int - start.value) else None
  }

  /** `mem_size(line)`: the size and area of one maps line, or the ValueError that ends the script. */
  function MemSize(line: string): Result<MapsLine, string> {
    match RangeSize(FirstField(line))
    case Some(size) => Success(MapsLine(size, Area(line)))
    case None => Failure("ValueError")
  }

  /**
   * A line whose first field is a kernel-printed range `<start>-<end>` has size
   * `end - start`; `KernelLineRange` shows every kernel-written line has such a first field.
   */
  lemma MemSizeOfRange(line: string, start: nat, end: nat)
    requires FirstField(line) == NatToHex(start) + "-" + NatToHex(end)
    ensures MemSize(line) == Success(MapsLine(end - start, Area(line)))
  {
    assert RangeSize(FirstField(line)) == Some(end - start) by {
      RangeOfHex(start, end);
    }
  }

  /** The line the kernel prints for a mapping: the range `start-end`, a space, then the rest. */
  function KernelLine(start: nat, end: nat, rest: string): string {
    NatToHex(start) + "-" + NatToHex(end) + " " + rest
  }

  /** The first field of a kernel-written line is its range. */
  lemma KernelLineRange(start: nat, end: nat, rest: string)
    ensures FirstField(KernelLine(start, end, rest)) == NatToHex(start) + "-" + NatToHex(end)
  {
    HexHasNoSeparator(start);
    HexHasNoSeparator(end);
    FieldsOfLine(NatToHex(start) + "-" + NatToHex(end), rest);
  }

  /** The area of a kernel-written line is the last space-separated field of what follows the range, stripped. */
  lemma KernelLineArea(start: nat, end: nat, rest: string)
    ensures Area(KernelLine(start, end, rest)) == Strip(Last(Split(rest, ' ')))
  {
    HexHasNoSeparator(start);
    HexHasNoSeparator(end);
    FieldsOfLine(NatToHex(start) + "-" + NatToHex(end), rest);
  }

  /** Hexadecimal renderings hold neither a space nor a dash. */
  lemma HexHasNoSeparator(n: nat)
    ensures ' ' !in NatToHex(n) && '-' !in NatToHex(n)
  {
    var h := NatToHex(n);
    assert forall k :: 0 <= k < |h| ==> IsHexDigit(h[k]);
  }

  /** `int("0x" + end, 16) - int("0x" + start, 16)` for a range the kernel printed. */
  lemma RangeOfHex(start: nat, end: nat)
    ensures RangeSize(NatToHex(start) + "-" + NatToHex(end)) == Some(end - start)
  {
    var hs, he := NatToHex(start), NatToHex(end);
    var pieces := Split(hs + "-" + he, '-');
    assert pieces == [hs, he] by {
      RangePieces(start, end);
    }
    assert PiecesSize(pieces) == Some(end - start) by {
      PiecesOfHex(start, end);
    }
  }

  lemma RangePieces(start: nat, end: nat)
    ensures Split(NatToHex(start) + "-" + NatToHex(end), '-') == [NatToHex(start), NatToHex(end)]
  {
    var hs, he := NatToHex(start), NatToHex(end);
    HexHasNoSeparator(start);
    HexHasNoSeparator(end);
    SplitJoin([hs, he], '-');
    assert Join([hs, he], "-") == hs + "-" + he;
  }

  lemma PiecesOfHex(start: nat, end: nat)
    ensures PiecesSize([NatToHex(start), NatToHex(end)]) == Some(end - start)
  {
    HexFieldOfHex(start);
    HexFieldOfHex(end);
    PiecesOfFields(NatToHex(start), NatToHex(end), start, end);
  }

  /** Two pieces that parse give the difference of their values. */
  lemma PiecesOfFields(a: string, b: string, x: nat, y: nat)
    requires HexField(a) == Some(x) && HexField(b) == Some(y)
    ensures PiecesSize([a, b]) == Some(y - x)
  {
    assert [a, b][0] == a && [a, b][1] == b;
  }

  /** `int("0x" + h, 16)` reads back a kernel-printed hexadecimal number. */
  lemma HexFieldOfHex(n: nat)
    ensures HexField(NatToHex(n)) == Some(n)
  {
    ParseHexToHex(n);
  }

  /** A space-free first field is the range; the area comes from what follows it. */
  lemma FieldsOfLine(range: string, rest: string)
    requires ' ' !in range
    ensures FirstField(range + " " + rest) == range
    ensures Area(range + " " + rest) == Strip(Last(Split(rest, ' ')))
  {
    SplitAfterRange(range, rest);
    FirstAndLast(range, Split(rest, ' '));
  }

  /** Splitting at spaces cuts off a space-free first field. */
  lemma SplitAfterRange(range: string, rest: string)
    requires ' ' !in range
    ensures Split(range + " " + rest, ' ') == [range] + Split(rest, ' ')
  {
    assert range + " " + rest == range + [' '] + rest;
    SplitAtFirst(range, ' ', rest);
  }

  /** One element in front changes the first element but not the last. */
  lemma FirstAndLast<T>(a: T, xs: seq<T>)
    requires |xs| > 0
    ensures ([a] + xs)[0] == a && Last([a] + xs) == Last(xs)
  {
  }

  /** The parsed lines in order, or the first line's error. */
  function Rows(lines: seq<string>): Result<seq<MapsLine>, string> {
    MapAll(lines, MemSize)
  }

  /** The sum of the sizes of `rows`. */
  function SizeSum(rows: seq<MapsLine>): int {
    if |rows| == 0 then 0 else SizeSum(rows[..|rows| - 1]) + rows[|rows| - 1].size
  }

  /** The two module globals. */
  datatype Totals = Totals(totalSize: int, entries: nat)

  /**
   * `read_proc_maps`: `mem_size` on every line in order, adding to the globals. The first
   * line that does not parse raises and ends the script.
   */
  method ReadProcMaps(lines: seq<string>, start: Totals) returns (r: Result<Totals, string>)
    ensures r.Success? <==> Rows(lines).Success?
    ensures r.Failure? ==> exists k :: 0 <= k < |lines| && MemSize(lines[k]).Failure? && MemSize(lines[k]).error == r.error
    ensures r.Success? ==> r.value.totalSize == start.totalSize + SizeSum(Rows(lines).value)
    ensures r.Success? ==> r.value.entries == start.entries + |lines|
  {
    var acc := start;
    var i := 0;
    assert lines[..|lines|] == lines;
    ghost var rows: seq<MapsLine> := [];
    while i < |lines|
      invariant 0 <= i <= |lines|
      invariant Rows(lines[..i]) == Success(rows)
      invariant acc.totalSize == start.totalSize + SizeSum(rows)
      invariant acc.entries == start.entries + i
    {
      var m := MemSize(lines[i]);
      if m.Failure? {
        return Failure(m.error);
      }
      MapAllPrefix(lines, i, MemSize);
      assert (rows + [m.value])[..i] == rows;
      rows := rows + [m.value];
      acc := Totals(acc.totalSize + m.value.size, acc.entries + 1);
      i := i + 1;
    }
    r := Success(acc);
  }

  /** How parse_procmaps.py ends. */
  datatype Outcome =
    | PidNotFound                               // "Pid not found", nothing read
    | Crashed(reason: string)                   // an exception escaped
    | Listed(rows: seq<MapsLine>)               // without --sum: one `size : area` line each
    | Summary(gib: real, entries: nat)          // with --sum: total / 2^30 and the entry count

  const GIB: nat := 1024 * 1024 * 1024

  /**
   * `main(process, summary)`: no PID prints "Pid not found" and reads nothing; otherwise
   * the maps lines of that PID are read with the globals starting at zero.
   */
  method RunMain(psLines: seq<string>, name: string, summary: bool, mapsLines: seq<string>)
    returns (out: Outcome)
    ensures Ps.FindFirstPid(psLines, name).NoCandidate? <==> out.PidNotFound?
    ensures Ps.FindFirstPid(psLines, name).Found? && Rows(mapsLines).Success? && summary ==>
      out == Summary(SizeSum(Rows(mapsLines).value) as real / GIB as real, |mapsLines|)
    ensures Ps.FindFirstPid(psLines, name).Found? && Rows(mapsLines).Success? && !summary ==>
      out == Listed(Rows(mapsLines).value)
    ensures out.Crashed? <==> Ps.FindFirstPid(psLines, name).ShortLine? || (Ps.FindFirstPid(psLines, name).Found? && Rows(mapsLines).Failure?)
  {
    match Ps.FindFirstPid(psLines, name)
    case Ambiguous(_) =>
      assert false;
      return PidNotFound;
    case NoCandidate =>
      return PidNotFound;
    case ShortLine(_) =>
      return Crashed("IndexError: list index out of range");
    case Found(_) =>
      var totals := ReadProcMaps(mapsLines, Totals(0, 0));
      match totals {
        case Failure(e) =>
          return Crashed(e);
        case Success(t) =>
          if summary {
            return Summary(t.totalSize as real / GIB as real, t.entries);
          }
          return Listed(Rows(mapsLines).value);
      }
  }
}

=== FILE: ps.dfy ===
/**
 * The `find_pid` helpers of maps/: each scans the lines of `ps aux` output (given here
 * as a parameter) for a process name and reads the PID from the second whitespace field.
 * sort_smaps.py, anonymous_vs_file.py and memory_type.py collect every candidate and
 * insist on exactly one; parse_procmaps.py takes the first candidate.
 */
module Ps {
  import opened Wrappers
  import opened Text
  import opened Collect

  /** How a lookup ends. */
  datatype Lookup =
    | Found(pid: string)            // the PID text
    | Ambiguous(pids: seq<string>)  // several candidates: `sys.exit(-1)`
    | NoCandidate                   // none: `pids[0]` raises, or the function returns None
    | ShortLine(line: string)       // a candidate with fewer than two fields: `ret[1]` raises

  /** Text that holds the name and none of the excluded words. */
  predicate Names(text: string, name: string, exclude: seq<string>) {
    Contains(text, name) && !ContainsAny(text, exclude)
  }

  /** A `ps` line is a candidate when its stripped text names the process. */
  predicate IsCandidate(line: string, name: string, exclude: seq<string>) {
    Names(Strip(line), name, exclude)
  }

  /** The words sort_smaps.py, anonymous_vs_file.py and memory_type.py exclude. */
  const EXCLUDE_ALL: seq<string> := ["python", "procmaps"]

  /** The word parse_procmaps.py excludes. */
  const EXCLUDE_PYTHON: seq<string> := ["python"]

  /** The stripped candidate lines, in `ps` order. */
  function Candidates(lines: seq<string>, name: string, exclude: seq<string>): (r: seq<string>)
    ensures |r| <= |lines|
    ensures forall k :: 0 <= k < |r| ==> Names(r[k], name, exclude)
  {
    if |lines| == 0 then []
    else
      var rest := Candidates(lines[1..], name, exclude);
      if IsCandidate(lines[0], name, exclude) then [Strip(lines[0])] + rest else rest
  }

  /** Every candidate line is kept, and only stripped input lines are kept. */
  lemma {:induction false} CandidatesExact(lines: seq<string>, name: string, exclude: seq<string>)
    ensures forall j :: 0 <= j < |lines| && IsCandidate(lines[j], name, exclude) ==> Strip(lines[j]) in Candidates(lines, name, exclude)
    ensures forall t :: t in Candidates(lines, name, exclude) ==> exists j :: 0 <= j < |lines| && t == Strip(lines[j])
  {
    if |lines| > 0 {
      CandidatesExact(lines[1..], name, exclude);
      assert forall j :: 1 <= j < |lines| ==> lines[j] == lines[1..][j - 1];
    }
  }

  /** There are no candidates exactly when no line is one. */
  lemma NoCandidatesIff(lines: seq<string>, name: string, exclude: seq<string>)
    ensures |Candidates(lines, name, exclude)| == 0 <==> forall j :: 0 <= j < |lines| ==> !IsCandidate(lines[j], name, exclude)
  {
    CandidatesExact(lines, name, exclude);
    var r := Candidates(lines, name, exclude);
    if |r| > 0 {
      assert r[0] in r;
    }
  }

  /** Field 1 of `line.split()`, when the line has two fields. */
  function SecondField(line: string): (r: Option<string>)
    ensures r.Some? <==> |Words(line)| >= 2
    ensures r.Some? ==> r.value == Words(line)[1] && |r.value| > 0
  {
    var ws := Words(line);
    if |ws| >= 2 then Some(ws[1]) else None
  }

  /**
   * The loop's `pids.append(ret[1])` over the candidates: all second fields in order,
   * or the first candidate that has no second field.
   */
  function CandidatePids(cands: seq<string>): (r: Result<seq<string>, string>)
    ensures r.Success? <==> forall k :: 0 <= k < |cands| ==> |Words(cands[k])| >= 2
    ensures r.Success? ==> |r.value| == |cands| && forall k :: 0 <= k < |cands| ==> r.value[k] == Words(cands[k])[1]
    ensures r.Failure? ==> exists k :: 0 <= k < |cands| && r.error == cands[k] && |Words(cands[k])| < 2
  {
    MapAll(cands, PidOf)
  }

  /** `line.split()[1]`, the line itself being what the IndexError reports. */
  function PidOf(line: string): (r: Result<string, string>)
    ensures r.Success? <==> |Words(line)| >= 2
    ensures r.Success? ==> r.value == Words(line)[1]
    ensures r.Failure? ==> r.error == line
  {
    match SecondField(line)
    case None => Failure(line)
    case Some(p) => Success(p)
  }

  /**
   * `find_pid` of sort_smaps.py, anonymous_vs_file.py and memory_type.py: one candidate
   * gives its PID, more than one exits, none raises.
   */
  function FindUniquePid(lines: seq<string>, name: string): (r: Lookup)
    ensures var cs := Candidates(lines, name, EXCLUDE_ALL);
      && (r.NoCandidate? <==> |cs| == 0)
      && (r.Found? <==> |cs| == 1 && |Words(cs[0])| >= 2)
      && (r.Found? ==> r.pid == Words(cs[0])[1])
      && (r.Ambiguous? <==> |cs| > 1 && forall k :: 0 <= k < |cs| ==> |Words(cs[k])| >= 2)
      && (r.Ambiguous? ==> |r.pids| == |cs|)
  {
    var cs := Candidates(lines, name, EXCLUDE_ALL);
    match CandidatePids(cs)
    case Failure(line) => ShortLine(line)
    case Success(pids) =>
      if |pids| > 1 then Ambiguous(pids)
      else if |pids| == 0 then NoCandidate
      else Found(pids[0])
  }

  /**
   * The lookup of the main flows of anonymous_vs_file.py and memory_type.py: the process
   * is "self" unless a non-empty `--name` is given, and then `find_pid` decides.
   */
  function ProcessOf(lines: seq<string>, name: Option<string>): (r: Lookup)
    ensures name.None? || name.value == [] ==> r == Found("self")
    ensures name.Some? && name.value != [] ==> r == FindUniquePid(lines, name.value)
  {
    if name.Some? && name.value != [] then FindUniquePid(lines, name.value) else Found("self")
  }

  /** The PID the unique lookup returns is never empty, so `if not pid` never fires after it. */
  lemma UniquePidNonEmpty(lines: seq<string>, name: string)
    ensures FindUniquePid(lines, name).Found? ==> |FindUniquePid(lines, name).pid| > 0
  {
    var cs := Candidates(lines, name, EXCLUDE_ALL);
    if FindUniquePid(lines, name).Found? {
      assert |Words(cs[0])| >= 2;
      assert forall k :: 0 <= k < |Words(cs[0])| ==> |Words(cs[0])[k]| > 0;
    }
  }

  /** A single candidate line `... <pid> ...` is found; any second candidate makes it ambiguous. */
  lemma UniqueIffOneCandidate(lines: seq<string>, name: string)
    requires forall j :: 0 <= j < |lines| ==> |Words(Strip(lines[j]))| >= 2
    ensures FindUniquePid(lines, name).Found? <==> |Candidates(lines, name, EXCLUDE_ALL)| == 1
    ensures FindUniquePid(lines, name).Ambiguous? <==> |Candidates(lines, name, EXCLUDE_ALL)| > 1
  {
    var cs := Candidates(lines, name, EXCLUDE_ALL);
    CandidatesExact(lines, name, EXCLUDE_ALL);
    forall k | 0 <= k < |cs| ensures |Words(cs[k])| >= 2 {
      assert cs[k] in cs;
    }
  }

  /** Line `j` is the first line parse_procmaps.py accepts. */
  predicate FirstCandidateAt(lines: seq<string>, name: string, j: int) {
    && 0 <= j < |lines|
    && IsCandidate(lines[j], name, EXCLUDE_PYTHON)
    && (forall i :: 0 <= i < j ==> !IsCandidate(lines[i], name, EXCLUDE_PYTHON))
  }

  /** The index of the first accepted line at or after `from`, none when every line is refused. */
  function FirstCandidate(lines: seq<string>, name: string, from: nat): (r: Option<nat>)
    requires from <= |lines|
    requires forall i :: 0 <= i < from ==> !IsCandidate(lines[i], name, EXCLUDE_PYTHON)
    ensures r.None? <==> forall j :: 0 <= j < |lines| ==> !IsCandidate(lines[j], name, EXCLUDE_PYTHON)
    ensures r.Some? ==> FirstCandidateAt(lines, name, r.value)
    decreases |lines| - from
  {
    if from == |lines| then None
    else if IsCandidate(lines[from], name, EXCLUDE_PYTHON) then Some(from)
    else FirstCandidate(lines, name, from + 1)
  }

  /**
   * `find_pid` of parse_procmaps.py: the second field of the first candidate, None when
   * no line is a candidate.
   */
  function FindFirstPid(lines: seq<string>, name: string): (r: Lookup)
    ensures r.Found? || r.NoCandidate? || r.ShortLine?
    ensures r.NoCandidate? <==> forall j :: 0 <= j < |lines| ==> !IsCandidate(lines[j], name, EXCLUDE_PYTHON)
    ensures r.Found? ==> exists j :: FirstCandidateAt(lines, name, j) && Some(r.pid) == SecondField(Strip(lines[j]))
    ensures r.ShortLine? ==> exists j :: FirstCandidateAt(lines, name, j) && r.line == Strip(lines[j]) && |Words(r.line)| < 2
  {
    match FirstCandidate(lines, name, 0)
    case None => NoCandidate
    case Some(j) =>
      match SecondField(Strip(lines[j]))
      case Some(p) => Found(p)
      case None => ShortLine(Strip(lines[j]))
  }
}

=== FILE: sbench.dfy ===
/**
 * sbench/sbench.c: rounds of `getpid` throughput measured across threads, each round
 * one timeslice long, summarised by the minimum and the values at fixed indices 50 and
 * 95 of the sorted arrays.
 *
 * `double` and `float` are modelled as reals; a division the C code performs by zero
 * (giving an infinity or NaN) is `None`. Thread creation, `usleep`, the stop flag and
 * `getpid` are parameters.
 */
module Sbench {
  import opened Wrappers
  import opened Machine
  import Text
  import Stats
  import opened Getopt

  const DATAPOINTS: nat := 100

  // ---------------------------------------------------------------------------
  // print_data
  // ---------------------------------------------------------------------------

  /** `DATAPOINTS*p/100`: sbench's percentile index, without the `- 1` of LSE's. */
  function FixedIndex(p: nat): nat {
    DATAPOINTS * p / 100
  }

  /**
   * For every percentile from 1 to 100, sbench reads one slot above the nearest-rank
   * index LSE's `calculate_percentile` uses on 100 samples; at p = 100 it reads past
   * the end.
   */
  lemma FixedIndexVsNearestRank(p: nat)
    requires 1 <= p <= 100
    ensures FixedIndex(p) == Stats.PercentileIndex(DATAPOINTS, p) + 1
    ensures FixedIndex(p) < DATAPOINTS <==> p < 100
  {
    assert Stats.PercentileIndex(DATAPOINTS, p) == 99 * p / 100;
    assert 99 * p / 100 == p - 1 by {
      assert (p - 1) * 100 <= 99 * p < p * 100;
    }
  }

  /** One line half of the report. */
  datatype Summary = Summary(min: real, p50: real, p95: real)

  /** `sort` then the three values printed for one array. */
  function Summarise(data: seq<real>): (r: Summary)
    requires |data| == DATAPOINTS
    ensures r.min <= r.p50 <= r.p95
    ensures forall k :: 0 <= k < |data| ==> r.min <= data[k]
    ensures r.min in data && r.p50 in data && r.p95 in data
  {
    var sorted := Stats.SortAscending(data);
    Stats.AscendingMeansLeq(sorted);
    assert FixedIndex(50) == 50 && FixedIndex(95) == 95;
    forall k | 0 <= k < |data| ensures sorted[0] <= data[k] {
      assert data[k] in multiset(sorted);
    }
    assert sorted[0] in multiset(data) && sorted[50] in multiset(data) && sorted[95] in multiset(data);
    Summary(sorted[0], sorted[FixedIndex(50)], sorted[FixedIndex(95)])
  }

  /**
   * The printed values are elements 0, 50 and 95 of any ascending arrangement of the
   * rounds: whatever order `qsort` leaves equal values in, the same triple is printed.
   */
  lemma SummaryIndices(data: seq<real>, s: seq<real>)
    requires |data| == DATAPOINTS
    requires Stats.Ascending(s) && multiset(s) == multiset(data)
    ensures |s| == DATAPOINTS && Summarise(data) == Summary(s[0], s[50], s[95])
  {
    assert |s| == |multiset(s)| == |multiset(data)| == |data|;
    Stats.AscendingPermutationUnique(Stats.SortAscending(data), s);
    assert FixedIndex(50) == 50 && FixedIndex(95) == 95;
  }

  /** Sorting first makes the summary independent of the order the rounds came in. */
  lemma SummaryIgnoresOrder(a: seq<real>, b: seq<real>)
    requires |a| == DATAPOINTS && multiset(a) == multiset(b)
    ensures Summarise(a) == Summarise(b)
  {
    assert |b| == |multiset(b)| == |multiset(a)| == |a|;
    Stats.AscendingPermutationUnique(Stats.SortAscending(a), Stats.SortAscending(b));
  }

  // ---------------------------------------------------------------------------
  // Threads
  // ---------------------------------------------------------------------------

  /**
   * `get_pid`: count the `getpid` calls that returned non-zero until the stop flag is
   * seen; `pids` are the values returned in that time. The result is NULL when the
   * `malloc` for it fails.
   */
  method GetPid(pids: seq<int>, allocOk: bool) returns (r: Option<nat>)
    ensures r.Some? <==> allocOk
    ensures r.Some? ==> r.value + multiset(pids)[0] == |pids|
  {
    var count := 0;
    var i := 0;
    while i < |pids|
      invariant 0 <= i <= |pids|
      invariant count + multiset(pids[..i])[0] == i
    {
      assert pids[..i + 1] == pids[..i] + [pids[i]];
      if pids[i] != 0 {
        count := count + 1;
      }
      i := i + 1;
    }
    assert pids[..|pids|] == pids;
    if !allocOk {
      return None;
    }
    return Some(count);
  }

  /** The total, in millions, of the counts of the threads that returned one. */
  function SumMillions(counts: seq<Option<nat>>): real {
    if |counts| == 0 then 0.0 else SumMillions(counts[..|counts| - 1]) + Millions(counts[|counts| - 1])
  }

  /** `*counts[i] / (1000.0 * 1000.0)`, or nothing for a NULL result. */
  function Millions(count: Option<nat>): real {
    match count
    case None => 0.0
    case Some(c) => c as real / 1_000_000.0
  }

  function Present(count: Option<nat>): nat {
    match count
    case None => 0
    case Some(c) => c
  }

  /** The sum of the counts that are present. */
  function SumPresent(counts: seq<Option<nat>>): nat {
    if |counts| == 0 then 0 else SumPresent(counts[..|counts| - 1]) + Present(counts[|counts| - 1])
  }

  /** Adding the per-thread millions is taking the total in millions. */
  lemma {:induction false} SumMillionsIsTotal(counts: seq<Option<nat>>)
    ensures SumMillions(counts) * 1_000_000.0 == SumPresent(counts) as real
    decreases |counts|
  {
    if |counts| > 0 {
      SumMillionsIsTotal(counts[..|counts| - 1]);
    }
  }

  /**
   * `create_threads`: -1 as soon as a `pthread_create` fails, otherwise the sum over
   * threads of their counts in millions, skipping threads that returned NULL.
   */
  method CreateThreads(threadCount: int, created: seq<bool>, counts: seq<Option<nat>>) returns (calls: real)
    requires threadCount <= 0 ==> |created| == |counts| == 0
    requires threadCount > 0 ==> |created| == |counts| == threadCount
    ensures false in created ==> calls == -1.0
    ensures false !in created ==> calls * 1_000_000.0 == SumPresent(counts) as real
    ensures false !in created ==> calls >= 0.0
  {
    var i := 0;
    while i < |created|
      invariant 0 <= i <= |created|
      invariant false !in created[..i]
    {
      if !created[i] {
        return -1.0;
      }
      assert created[..i + 1] == created[..i] + [created[i]];
      i := i + 1;
    }
    assert created[..|created|] == created;
    calls := 0.0;
    i := 0;
    while i < |counts|
      invariant 0 <= i <= |counts|
      invariant calls == SumMillions(counts[..i])
    {
      assert counts[..i + 1][..i] == counts[..i];
      calls := calls + Millions(counts[i]);
      i := i + 1;
    }
    assert counts[..|counts|] == counts;
    SumMillionsIsTotal(counts);
  }

  // ---------------------------------------------------------------------------
  // run_for_secs
  // ---------------------------------------------------------------------------

  /**
   * `1000*secs / DATAPOINTS` in C `int` arithmetic: `None` where `1000*secs` overflows,
   * otherwise the quotient truncated toward zero.
   */
  function TimesliceMs(secs: int): (r: Option<int>)
    ensures r.Some? <==> InI32(1000 * secs)
    ensures r.Some? ==> r.value == 10 * secs
  {
    if InI32(1000 * secs) then Some(TruncDiv(1000 * secs, DATAPOINTS)) else None
  }

  /** `1000 * (calls / (thread_count * timeslice_ms))`: calls per second per thread, in millions. */
  function Throughput(calls: real, threadCount: int, timesliceMs: int): (r: Option<real>)
    ensures r.Some? <==> threadCount * timesliceMs != 0
    ensures r.Some? ==> r.value * (threadCount * timesliceMs) as real == 1000.0 * calls
  {
    if threadCount * timesliceMs == 0 then None
    else Some(1000.0 * (calls / (threadCount * timesliceMs) as real))
  }

  /** `1000/throughput_s`: nanoseconds per call. */
  function Latency(throughput: real): (r: Option<real>)
    ensures r.Some? <==> throughput != 0.0
    ensures r.Some? ==> r.value * throughput == 1000.0
  {
    if throughput == 0.0 then None else Some(1000.0 / throughput)
  }

  /** The two summaries of one run, or what the C code computes on an infinity or NaN. */
  datatype RoundsReport = RoundsReport(throughput: Summary, latency: Summary)

  /** Every slot holds a finite value. */
  predicate AllFinite(s: seq<Option<real>>) {
    forall k :: 0 <= k < |s| ==> s[k].Some?
  }

  function Values(s: seq<Option<real>>): (r: seq<real>)
    requires AllFinite(s)
    ensures |r| == |s| && forall k :: 0 <= k < |s| ==> r[k] == s[k].value
  {
    seq(|s|, k requires 0 <= k < |s| => s[k].value)
  }

  /**
   * `run_for_secs`: DATAPOINTS rounds, round `i` handed `roundCalls[i]` by
   * `create_threads` and writing slot `i` of both arrays, then the report on the sorted
   * arrays. `report` is `None` when some slot is not finite.
   */
  method RunForSecs(threadCount: int, secs: int, roundCalls: seq<real>)
    returns (timeslice: Option<int>, throughput: seq<Option<real>>, latency: seq<Option<real>>,
             report: Option<RoundsReport>)
    requires |roundCalls| == DATAPOINTS
    ensures timeslice == TimesliceMs(secs)
    ensures timeslice.None? ==> throughput == [] && latency == [] && report.None?
    ensures timeslice.Some? ==> |throughput| == |latency| == DATAPOINTS
    ensures timeslice.Some? ==> forall i :: 0 <= i < DATAPOINTS ==>
      && throughput[i] == Throughput(roundCalls[i], threadCount, timeslice.value)
      && latency[i] == (if throughput[i].Some? then Latency(throughput[i].value) else None)
    ensures report.Some? <==> timeslice.Some? && AllFinite(throughput) && AllFinite(latency)
    ensures report.Some? ==> report.value == RoundsReport(Summarise(Values(throughput)), Summarise(Values(latency)))
  {
    timeslice := TimesliceMs(secs);
    throughput, latency := [], [];
    if timeslice.None? {
      return timeslice, [], [], None;
    }
    var ts := timeslice.value;
    var i := 0;
    while i < DATAPOINTS
      invariant 0 <= i <= DATAPOINTS
      invariant |throughput| == |latency| == i
      invariant forall j :: 0 <= j < i ==>
        && throughput[j] == Throughput(roundCalls[j], threadCount, ts)
        && latency[j] == (if throughput[j].Some? then Latency(throughput[j].value) else None)
    {
      var t := Throughput(roundCalls[i], threadCount, ts);
      var l := if t.Some? then Latency(t.value) else None;
      throughput := throughput + [t];
      latency := latency + [l];
      i := i + 1;
    }
    if AllFinite(throughput) && AllFinite(latency) {
      report := Some(RoundsReport(Summarise(Values(throughput)), Summarise(Values(latency))));
    } else {
      report := None;
    }
  }

  /** With work done in every round, every slot is finite and each latency is the inverse of its throughput. */
  lemma RoundsFinite(threadCount: int, secs: int, calls: real)
    requires 0 < threadCount && 0 < secs && InI32(1000 * secs) && calls != 0.0
    ensures Throughput(calls, threadCount, TimesliceMs(secs).value).Some?
    ensures Latency(Throughput(calls, threadCount, TimesliceMs(secs).value).value).Some?
    ensures Throughput(calls, threadCount, TimesliceMs(secs).value).value
      * Latency(Throughput(calls, threadCount, TimesliceMs(secs).value).value).value == 1000.0
  {
    var ts := TimesliceMs(secs).value;
    assert ts == 10 * secs > 0;
    assert threadCount * ts > 0;
    var t := Throughput(calls, threadCount, ts).value;
    assert t * (threadCount * ts) as real == 1000.0 * calls;
    assert t != 0.0;
  }

  // ---------------------------------------------------------------------------
  // main
  // ---------------------------------------------------------------------------

  /** The settings `main` collects from the command line. */
  datatype Config = Config(threads: int, timeout: int, verbose: bool, raw: bool)

  /** The value `-c` sets: `atoi` of its last argument, or the default 1 of both settings. */
  function Setting(opts: seq<(char, string)>, c: char): int {
    match LastArg(opts, c)
    case None => 1
    case Some(a) => Text.Atoi(a)
  }

  /**
   * The `getopt` loop over "ht:p:vr". `opts` are the (option, argument) pairs `getopt`
   * returns, unknown options as '?'. `-h` prints help and makes `main` return 0 at once
   * (`None`); `-t` and `-p` take `atoi` of their argument, the last one winning; `-v`
   * and `-r` set flags; anything else is ignored.
   */
  method ParseOptions(opts: seq<(char, string)>) returns (r: Option<Config>)
    ensures r.None? <==> HasOpt(opts, 'h')
    ensures r.Some? ==> r.value.threads == Setting(opts, 'p') && r.value.timeout == Setting(opts, 't')
    ensures r.Some? ==> r.value.verbose == HasOpt(opts, 'v') && r.value.raw == HasOpt(opts, 'r')
  {
    var cfg := Config(1, 1, false, false);
    var i := 0;
    while i < |opts|
      invariant 0 <= i <= |opts|
      invariant !HasOpt(opts[..i], 'h')
      invariant cfg.threads == Setting(opts[..i], 'p') && cfg.timeout == Setting(opts[..i], 't')
      invariant cfg.verbose == HasOpt(opts[..i], 'v') && cfg.raw == HasOpt(opts[..i], 'r')
    {
      var c := opts[i].0;
      var a := opts[i].1;
      ScanStep(opts, i, 'h');
      ScanStep(opts, i, 't');
      ScanStep(opts, i, 'p');
      ScanStep(opts, i, 'v');
      ScanStep(opts, i, 'r');
      if c == 'h' {
        assert HasOpt(opts, 'h') by {
          assert opts[i].0 == 'h';
        }
        return None;
      } else if c == 't' {
        cfg := cfg.(timeout := Text.Atoi(a));
      } else if c == 'p' {
        cfg := cfg.(threads := Text.Atoi(a));
      } else if c == 'v' {
        cfg := cfg.(verbose := true);
      } else if c == 'r' {
        cfg := cfg.(raw := true);
      }
      i := i + 1;
    }
    assert opts[..|opts|] == opts;
    return Some(cfg);
  }
}

=== FILE: seqs.dfy ===
/**
 * Regrouping facts about sequence concatenation, stated once for any element type so
 * that proofs about text can cite them instead of unfolding the strings involved.
 */
module Seqs {

  lemma Regroup<T>(a: seq<T>, b: seq<T>, c: seq<T>, d: seq<T>)
    ensures a + b + c + d == a + (b + (c + d))
  {
  }

  lemma Regroup3<T>(a: seq<T>, b: seq<T>, c: seq<T>, d: seq<T>)
    ensures a + b + c + d == a + b + (c + d)
  {
  }

  /** A two-part middle regrouped: its second part moves to the end's side. */
  lemma MiddleRegroup<T>(a: seq<T>, b: seq<T>, c: seq<T>, d: seq<T>)
    ensures a + (b + c) + d == a + b + (c + d)
  {
  }

  /** `a + b + c + d + e` with the last three grouped. */
  lemma RegroupTail<T>(a: seq<T>, b: seq<T>, c: seq<T>, d: seq<T>, e: seq<T>)
    ensures a + b + c + d + e == a + b + (c + d + e)
  {
  }

  /** A non-empty sequence is its first element in front of the rest. */
  lemma ConsAppend<T>(a: seq<T>, w: seq<T>)
    requires |a| > 0
    ensures [a[0]] + (a[1..] + w) == a + w
  {
    assert a == [a[0]] + a[1..];
  }

  /** Two elements appended: what comes before them is the original. */
  lemma PrefixOfAppend<T>(a: seq<T>, b: seq<T>)
    requires |b| == 2
    ensures (a + b)[..|a + b| - 2] == a && (a + b)[|a + b| - 2] == b[0]
  {
  }
}

=== FILE: smaps_blocks.dfy ===
/**
 * The first step of `parse_memory_map` in maps/sort_smaps.py: the stripped contents of
 * `/proc/<pid>/smaps` are cut into one block per mapping with
 * `re.split(r'\n(?=[\da-f]+-[\da-f]+)', text)`, i.e. at every newline that is followed by
 * an address range of lower-case hexadecimal digits. The newline is dropped, the range
 * stays with the block it opens.
 */
module SmapsBlocks {
  import opened Wrappers
  import opened Text

  /** `[\da-f]`. */
  predicate IsLowerHex(c: char) { IsDigit(c) || 'a' <= c <= 'f' }

  /** The lookahead `[\da-f]+-[\da-f]+` matches at the start of `t`. */
  predicate StartsRange(t: string) {
    var h := Span(t, IsLowerHex);
    h >= 1 && h < |t| && t[h] == '-' && Span(t[h + 1..], IsLowerHex) >= 1
  }

  /** Position `i` of `s` is a newline the pattern splits at. */
  predicate IsBoundary(s: string, i: int) {
    0 <= i < |s| && s[i] == '\n' && StartsRange(s[i + 1..])
  }

  ghost predicate HasBoundary(s: string) {
    exists i :: IsBoundary(s, i)
  }

  /** The first split position at or after `from`. */
  function FirstBoundary(s: string, from: nat): (r: Option<nat>)
    requires from <= |s|
    ensures r.Some? ==> from <= r.value && IsBoundary(s, r.value)
    ensures r.Some? ==> forall j :: from <= j < r.value ==> !IsBoundary(s, j)
    ensures r.None? ==> forall j :: from <= j ==> !IsBoundary(s, j)
    decreases |s| - from
  {
    if from == |s| then None
    else if IsBoundary(s, from) then Some(from)
    else FirstBoundary(s, from + 1)
  }

  /** `re.split(r'\n(?=[\da-f]+-[\da-f]+)', s)`. */
  function SplitBlocks(s: string): (r: seq<string>)
    ensures |r| >= 1
    decreases |s|
  {
    match FirstBoundary(s, 0)
    case None => [s]
    case Some(i) => [s[..i]] + SplitBlocks(s[i + 1..])
  }

  // ---------------------------------------------------------------------------
  // The lookahead only sees up to the next newline
  // ---------------------------------------------------------------------------

  /** A span that stops inside `a` is not affected by what follows `a`. */
  lemma {:induction false} SpanStops(a: string, b: string, p: char -> bool)
    requires Span(a, p) < |a|
    ensures Span(a + b, p) == Span(a, p)
    decreases |a|
  {
    if p(a[0]) {
      assert (a + b)[1..] == a[1..] + b;
      SpanStops(a[1..], b, p);
    }
  }

  /** Whether a range starts at `a` does not depend on anything after a newline that follows `a`. */
  lemma StartsRangeLocal(a: string, b: string)
    ensures StartsRange(a + ['\n'] + b) == StartsRange(a)
  {
    var t := a + ['\n'] + b;
    var ha := Span(a, IsLowerHex);
    if ha < |a| {
      SpanStops(a, ['\n'] + b, IsLowerHex);
      assert t == a + (['\n'] + b);
      assert Span(t, IsLowerHex) == ha;
      assert t[ha] == a[ha];
      if a[ha] == '-' {
        var a' := a[ha + 1..];
        assert t[ha + 1..] == a' + ['\n'] + b;
        if |a'| == 0 {
          assert t[ha + 1..][0] == '\n';
        } else {
          assert t[ha + 1..][0] == a'[0];
        }
      }
    } else {
      SpanAppend(a, ['\n'] + b, IsLowerHex);
      assert t == a + (['\n'] + b);
      assert (['\n'] + b)[0] == '\n';
      assert Span(t, IsLowerHex) == |a|;
      assert t[|a|] == '\n';
    }
  }

  /** Inside the first piece of `a + "\n" + b`, the split positions are those of `a` alone. */
  lemma BoundaryLocal(a: string, b: string, j: int)
    requires 0 <= j < |a|
    ensures IsBoundary(a + ['\n'] + b, j) == IsBoundary(a, j)
  {
    var s := a + ['\n'] + b;
    assert s[j] == a[j];
    assert s[j + 1..] == a[j + 1..] + ['\n'] + b;
    StartsRangeLocal(a[j + 1..], b);
  }

  // ---------------------------------------------------------------------------
  // What the split produces, and that it is the only such cut
  // ---------------------------------------------------------------------------

  /** A well-cut block list: no block holds a split position, every block but the first opens with a range. */
  ghost predicate WellCut(blocks: seq<string>) {
    && (forall k :: 0 <= k < |blocks| ==> !HasBoundary(blocks[k]))
    && (forall k :: 1 <= k < |blocks| ==> StartsRange(blocks[k]))
  }

  /** The newline-joined list is its first block, a newline and the joined rest. */
  lemma JoinFirst(blocks: seq<string>)
    requires |blocks| >= 2
    ensures Join(blocks, "\n") == blocks[0] + ['\n'] + Join(blocks[1..], "\n")
  {
  }

  /** A range opens the joined list exactly when it opens the first block. */
  lemma StartsRangeOfJoin(blocks: seq<string>)
    requires |blocks| >= 1
    ensures StartsRange(Join(blocks, "\n")) == StartsRange(blocks[0])
  {
    if |blocks| >= 2 {
      JoinFirst(blocks);
      StartsRangeLocal(blocks[0], Join(blocks[1..], "\n"));
    }
  }

  /** The first split position is the one with none before it. */
  lemma FirstBoundaryIs(s: string, i: nat)
    requires IsBoundary(s, i)
    requires forall j :: 0 <= j < i ==> !IsBoundary(s, j)
    ensures FirstBoundary(s, 0) == Some(i)
  {
    var r := FirstBoundary(s, 0);
    assert r.Some? && r.value <= i;
  }

  /** The split falls on the newline after a first block that holds no split position. */
  lemma FirstBoundaryAfter(head: string, tail: string)
    requires !HasBoundary(head) && StartsRange(tail)
    ensures FirstBoundary(head + ['\n'] + tail, 0) == Some(|head|)
  {
    var s := head + ['\n'] + tail;
    forall j | 0 <= j < |head| ensures !IsBoundary(s, j) {
      BoundaryLocal(head, tail, j);
    }
    assert s[|head| + 1..] == tail;
    assert s[|head|] == '\n';
    FirstBoundaryIs(s, |head|);
  }

  /** A first block cut off before the first split position holds none itself. */
  lemma HeadHasNoBoundary(s: string, i: nat)
    requires i < |s| && s[i] == '\n'
    requires forall j :: 0 <= j < i ==> !IsBoundary(s, j)
    ensures !HasBoundary(s[..i])
  {
    assert s == s[..i] + ['\n'] + s[i + 1..];
    forall j | 0 <= j < i ensures !IsBoundary(s[..i], j) {
      BoundaryLocal(s[..i], s[i + 1..], j);
    }
  }

  /** Prepending a block that holds no split position to a well-cut list the range opens. */
  lemma WellCutCons(head: string, rest: seq<string>)
    requires !HasBoundary(head) && WellCut(rest)
    requires |rest| >= 1 ==> StartsRange(rest[0])
    ensures WellCut([head] + rest)
  {
    var r := [head] + rest;
    assert forall k :: 1 <= k < |r| ==> r[k] == rest[k - 1];
  }

  /** The blocks after the first of a well-cut list are well cut. */
  lemma WellCutTail(blocks: seq<string>)
    requires |blocks| >= 1 && WellCut(blocks)
    ensures WellCut(blocks[1..])
  {
    var rest := blocks[1..];
    assert forall k :: 0 <= k < |rest| ==> rest[k] == blocks[k + 1];
  }

  /** Joined back with newlines the blocks are the text. */
  lemma {:induction false} SplitBlocksJoin(s: string)
    ensures Join(SplitBlocks(s), "\n") == s
    decreases |s|
  {
    match FirstBoundary(s, 0)
    case None =>
    case Some(i) =>
      var tail := s[i + 1..];
      SplitBlocksJoin(tail);
      var r := [s[..i]] + SplitBlocks(tail);
      assert r[1..] == SplitBlocks(tail);
      JoinFirst(r);
      assert s == s[..i] + ['\n'] + tail;
  }

  /** The blocks of any text are well cut. */
  lemma {:induction false} SplitBlocksCut(s: string)
    ensures WellCut(SplitBlocks(s))
    decreases |s|
  {
    match FirstBoundary(s, 0)
    case None =>
      assert !HasBoundary(s);
    case Some(i) =>
      var tail := s[i + 1..];
      SplitBlocksCut(tail);
      SplitBlocksJoin(tail);
      HeadHasNoBoundary(s, i);
      StartsRangeOfJoin(SplitBlocks(tail));
      WellCutCons(s[..i], SplitBlocks(tail));
  }

  /** Text without a split position is one block. */
  lemma SplitBlocksWhole(s: string)
    requires !HasBoundary(s)
    ensures SplitBlocks(s) == [s]
  {
    assert FirstBoundary(s, 0).None?;
  }

  /** Text split after a first block that holds no split position, before a range. */
  lemma SplitBlocksCons(head: string, tail: string)
    requires !HasBoundary(head) && StartsRange(tail)
    ensures SplitBlocks(head + ['\n'] + tail) == [head] + SplitBlocks(tail)
  {
    var s := head + ['\n'] + tail;
    FirstBoundaryAfter(head, tail);
    assert s[..|head|] == head && s[|head| + 1..] == tail;
  }

  /** Cutting the newline-joined blocks of a well-cut list gives the list back. */
  lemma {:induction false} SplitBlocksOfJoin(blocks: seq<string>)
    requires |blocks| >= 1 && WellCut(blocks)
    ensures SplitBlocks(Join(blocks, "\n")) == blocks
    decreases |blocks|
  {
    if |blocks| == 1 {
      SplitBlocksWhole(blocks[0]);
    } else {
      var head, rest := blocks[0], blocks[1..];
      JoinFirst(blocks);
      StartsRangeOfJoin(rest);
      SplitBlocksCons(head, Join(rest, "\n"));
      WellCutTail(blocks);
      SplitBlocksOfJoin(rest);
      assert blocks == [head] + rest;
    }
  }
}

=== FILE: smaps_entries.dfy ===
/**
 * The smaps reader shared by maps/anonymous_vs_file.py and maps/memory_type.py: the file
 * is read as lines (each keeping its newline), every entry is assumed to have as many
 * lines as the first one (up to and including its "VmFlags:" line), the lines are cut
 * into entries of that size, and each entry becomes a dict holding the mapping's name and
 * one number per field (sizes in bytes), with the flags kept as text.
 *
 * The two scripts differ only in the name an entry without a path gets, which is a
 * parameter here.
 */
module SmapsEntries {
  import opened Wrappers
  import opened Text
  import opened Dict
  import opened Bits
  import opened Seqs

  /** How reading the entries fails. */
  datatype EntryError =
    | NoVmFlags                              // `find_entry_size` raises
    | Misaligned(lines: nat, entrySize: nat) // the line count is no multiple: `sys.exit(-1)`
    | BadLine(line: string)                  // a field line `process_entry` cannot unpack or convert

  /** The default name in anonymous_vs_file.py. */
  const ANONYMOUS: string := "Anonymous"

  /** The default name in memory_type.py. */
  const ANONYMOUS_UNSURE: string := "Anonymous?"

  /** The first line at or after `from` that holds "VmFlags:". */
  function FirstFlagsLine(lines: seq<string>, from: nat): (r: Option<nat>)
    requires from <= |lines|
    ensures r.Some? ==> from <= r.value < |lines| && Contains(lines[r.value], "VmFlags:")
    ensures r.Some? ==> forall i :: from <= i < r.value ==> !Contains(lines[i], "VmFlags:")
    ensures r.None? ==> forall i :: from <= i < |lines| ==> !Contains(lines[i], "VmFlags:")
    decreases |lines| - from
  {
    if from == |lines| then None
    else if Contains(lines[from], "VmFlags:") then Some(from)
    else FirstFlagsLine(lines, from + 1)
  }

  /** `find_entry_size`: the number of lines up to and including the first "VmFlags:" line. */
  function FindEntrySize(lines: seq<string>): (r: Option<nat>)
    ensures r.Some? ==> 1 <= r.value <= |lines| && Contains(lines[r.value - 1], "VmFlags:")
    ensures r.Some? ==> forall i :: 0 <= i < r.value - 1 ==> !Contains(lines[i], "VmFlags:")
    ensures r.None? <==> forall i :: 0 <= i < |lines| ==> !Contains(lines[i], "VmFlags:")
  {
    match FirstFlagsLine(lines, 0)
    case None => None
    case Some(i) => Some(i + 1)
  }

  /** The concatenation of the chunks. */
  function Concat(chunks: seq<seq<string>>): seq<string> {
    if |chunks| == 0 then [] else chunks[0] + Concat(chunks[1..])
  }

  /** The slices `lines[i : i + n]` for `i` in `range(0, len(lines), n)`; the last may be short. */
  function Chunks(lines: seq<string>, n: nat): (r: seq<seq<string>>)
    requires n > 0
    ensures forall k :: 0 <= k < |r| ==> 0 < |r[k]| <= n
    decreases |lines|
  {
    if |lines| == 0 then []
    else if |lines| <= n then [lines]
    else [lines[..n]] + Chunks(lines[n..], n)
  }

  /** The chunks put back together are the lines. */
  lemma {:induction false} ConcatChunks(lines: seq<string>, n: nat)
    requires n > 0
    ensures Concat(Chunks(lines, n)) == lines
    decreases |lines|
  {
    if |lines| > n {
      ConcatChunks(lines[n..], n);
      assert Chunks(lines, n)[1..] == Chunks(lines[n..], n);
      assert lines == lines[..n] + lines[n..];
    } else if |lines| > 0 {
      assert Concat([lines]) == lines + Concat([]);
    }
  }

  /** `m` chunks' worth of lines is cut into `m` full chunks. */
  lemma {:induction false} ChunksOfMultiple(lines: seq<string>, n: nat, m: nat)
    requires n > 0 && |lines| == m * n
    ensures |Chunks(lines, n)| == m
    ensures forall k :: 0 <= k < m ==> |Chunks(lines, n)[k]| == n
    decreases m
  {
    if m > 1 {
      assert |lines[n..]| == (m - 1) * n;
      ChunksOfMultiple(lines[n..], n, m - 1);
      assert Chunks(lines, n)[1..] == Chunks(lines[n..], n);
    } else if m == 1 {
      assert |lines| == n;
    }
  }

  /** A length with no remainder is a whole number of chunk sizes. */
  lemma WholeChunks(len: nat, n: nat)
    requires n > 0 && len % n == 0
    ensures len == (len / n) * n
  {
  }

  /** Chunks of equal size, concatenated, are cut back into the same chunks. */
  lemma {:induction false} ChunksOfConcat(chunks: seq<seq<string>>, n: nat)
    requires n > 0 && forall k :: 0 <= k < |chunks| ==> |chunks[k]| == n
    ensures Chunks(Concat(chunks), n) == chunks
    decreases |chunks|
  {
    if |chunks| > 0 {
      var tail := Concat(chunks[1..]);
      ChunksOfConcat(chunks[1..], n);
      var lines := Concat(chunks);
      assert lines == chunks[0] + tail;
      assert lines[..n] == chunks[0] && lines[n..] == tail;
      if |chunks| == 1 {
        assert tail == [];
        assert Chunks(lines, n) == [lines];
        assert lines == chunks[0];
      } else {
        assert tail == chunks[1] + Concat(chunks[2..]);
        assert Chunks(lines, n) == [lines[..n]] + Chunks(tail, n);
        assert Chunks(tail, n) == chunks[1..];
        assert chunks == [chunks[0]] + chunks[1..];
      }
    }
  }

  /** A whole number of chunk sizes leaves no remainder. */
  lemma MultipleMod(m: nat, n: nat)
    requires n > 0
    ensures (m * n) % n == 0
  {
    var q, r := (m * n) / n, (m * n) % n;
    assert (m - q) * n == r;
    if m - q >= 1 {
      AtLeastOnce(m - q, n);
    } else if m - q <= -1 {
      AtLeastOnce(q - m, n);
    }
  }

  /** Equal chunks concatenate to their count times their size. */
  lemma {:induction false} ConcatLength(chunks: seq<seq<string>>, n: nat)
    requires forall k :: 0 <= k < |chunks| ==> |chunks[k]| == n
    ensures |Concat(chunks)| == |chunks| * n
    decreases |chunks|
  {
    if |chunks| > 0 {
      ConcatLength(chunks[1..], n);
    }
  }

  // ---------------------------------------------------------------------------
  // process_entry
  // ---------------------------------------------------------------------------

  /**
   * One field line: `key, value = line.split(":")` (exactly one colon), the value
   * stripped; the flags line is kept as text, a value holding "kB" must be two words and
   * its number is multiplied by 1024, any other value goes through `int()`.
   */
  function FieldLine(line: string): (r: Result<(string, Value), EntryError>)
    ensures r.Failure? ==> r.error == BadLine(line)
    ensures r.Success? ==> |Split(line, ':')| == 2 && r.value.0 == Strip(Split(line, ':')[0])
    ensures r.Success? && r.value.1.Str? ==> Split(line, ':')[0] == "VmFlags"
  {
    var pieces := Split(line, ':');
    if |pieces| != 2 then Failure(BadLine(line))
    else
      var key, value := pieces[0], Strip(pieces[1]);
      if key == "VmFlags" then Success((Strip(key), Str(value)))
      else if Contains(value, "kB") then
        var ws := Words(value);
        if |ws| != 2 then Failure(BadLine(line))
        else
          match ParseInt(ws[0])
          case None => Failure(BadLine(line))
          case Some(n) => Success((Strip(key), Int(n * 1024)))
      else
        match ParseInt(value)
        case None => Failure(BadLine(line))
        case Some(n) => Success((Strip(key), Int(n)))
  }

  /** The loop over the field lines, each stored with `d[key] = value`. */
  function StoreFields(d: Dict<Value>, lines: seq<string>): (r: Result<Dict<Value>, EntryError>)
    ensures r.Failure? ==> r.error.BadLine?
    decreases |lines|
  {
    if |lines| == 0 then Success(d)
    else
      match FieldLine(lines[0])
      case Failure(e) => Failure(e)
      case Success(kv) => StoreFields(Put(d, kv.0, kv.1), lines[1..])
  }

  /** The name of an entry: the sixth field of its header line, else the default. */
  function EntryName(header: string, defaultName: string): (r: string)
    ensures |Words(header)| > 5 ==> r == Words(header)[5]
    ensures |Words(header)| <= 5 ==> r == defaultName
  {
    var ws := Words(header);
    if |ws| > 5 then ws[5] else defaultName
  }

  /** `process_entry(chunk)`. */
  function ProcessEntry(chunk: seq<string>, defaultName: string): Result<Dict<Value>, EntryError>
    requires |chunk| > 0
  {
    StoreFields([("name", Str(EntryName(chunk[0], defaultName)))], chunk[1..])
  }

  /** `process_entry` for every chunk, the first failure ending the loop. */
  function ProcessAll(chunks: seq<seq<string>>, defaultName: string): (r: Result<seq<Dict<Value>>, EntryError>)
    requires forall k :: 0 <= k < |chunks| ==> |chunks[k]| > 0
    ensures r.Failure? ==> r.error.BadLine?
    ensures r.Success? ==> |r.value| == |chunks|
    ensures r.Success? ==> forall k :: 0 <= k < |chunks| ==>
      ProcessEntry(chunks[k], defaultName).Success? && r.value[k] == ProcessEntry(chunks[k], defaultName).value
  {
    if |chunks| == 0 then Success([])
    else
      var first := ProcessEntry(chunks[0], defaultName);
      var rest := ProcessAll(chunks[1..], defaultName);
      assert forall k :: 1 <= k < |chunks| ==> chunks[k] == chunks[1..][k - 1];
      if first.Failure? then Failure(first.error)
      else if rest.Failure? then rest
      else Success([first.value] + rest.value)
  }

  /** `read_proc_smaps` on the file's lines. */
  function ReadEntries(lines: seq<string>, defaultName: string): (r: Result<seq<Dict<Value>>, EntryError>)
    ensures FindEntrySize(lines).None? <==> r == Failure(NoVmFlags)
    ensures r.Success? ==> |lines| % FindEntrySize(lines).value == 0
    ensures r.Success? ==> |r.value| == |lines| / FindEntrySize(lines).value
  {
    match FindEntrySize(lines)
    case None => Failure(NoVmFlags)
    case Some(n) =>
      if |lines| % n > 0 then Failure(Misaligned(|lines|, n))
      else
        WholeChunks(|lines|, n);
        ChunksOfMultiple(lines, n, |lines| / n);
        ProcessAll(Chunks(lines, n), defaultName)
  }

  /** Every entry read carries the key "name", and no key twice. */
  lemma EntriesNamed(lines: seq<string>, defaultName: string)
    requires ReadEntries(lines, defaultName).Success?
    ensures forall k :: 0 <= k < |ReadEntries(lines, defaultName).value| ==>
      HasKey(ReadEntries(lines, defaultName).value[k], "name") && UniqueKeys(ReadEntries(lines, defaultName).value[k])
  {
    var n := FindEntrySize(lines).value;
    var chunks := Chunks(lines, n);
    var es := ReadEntries(lines, defaultName).value;
    forall k | 0 <= k < |es| ensures HasKey(es[k], "name") && UniqueKeys(es[k]) {
      NameKept(chunks[k], defaultName);
      StoredUnique([("name", Str(EntryName(chunks[k][0], defaultName)))], chunks[k][1..]);
    }
  }

  /** Storing fields keeps keys unique. */
  lemma {:induction false} StoredUnique(d: Dict<Value>, lines: seq<string>)
    requires UniqueKeys(d) && StoreFields(d, lines).Success?
    ensures UniqueKeys(StoreFields(d, lines).value)
    decreases |lines|
  {
    if |lines| > 0 {
      var kv := FieldLine(lines[0]).value;
      PutShape(d, kv.0, kv.1);
      StoredUnique(Put(d, kv.0, kv.1), lines[1..]);
    }
  }

  /** Every entry keeps its name under the key "name" unless a field line is also called that. */
  lemma NameKept(chunk: seq<string>, defaultName: string)
    requires |chunk| > 0 && ProcessEntry(chunk, defaultName).Success?
    ensures HasKey(ProcessEntry(chunk, defaultName).value, "name")
  {
    var d := [("name", Str(EntryName(chunk[0], defaultName)))];
    assert d[0].0 == "name";
    StoredKeysKept(d, chunk[1..], "name");
  }

  /** Storing fields never drops a key. */
  lemma {:induction false} StoredKeysKept(d: Dict<Value>, lines: seq<string>, k: string)
    requires HasKey(d, k) && StoreFields(d, lines).Success?
    ensures HasKey(StoreFields(d, lines).value, k)
    decreases |lines|
  {
    if |lines| > 0 {
      var kv := FieldLine(lines[0]).value;
      GetPut(d, kv.0, kv.1, k);
      StoredKeysKept(Put(d, kv.0, kv.1), lines[1..], k);
    }
  }

  /** `entry[key]` used as a number: a missing key or a text value raises. */
  function IntField(entry: Dict<Value>, key: string): (r: Result<int, string>)
    ensures r.Success? <==> Get(entry, key).Some? && Get(entry, key).value.Int?
    ensures r.Success? ==> r.value == Get(entry, key).value.i
  {
    match Get(entry, key)
    case None => Failure("KeyError: " + key)
    case Some(v) => if v.Int? then Success(v.i) else Failure("TypeError: " + key)
  }

  // ---------------------------------------------------------------------------
  // The lines the kernel writes
  // ---------------------------------------------------------------------------

  /** A field line `key:<pad><value><eol>` is cut into the key and the stripped value. */
  lemma CutField(line: string, key: string, pad: string, value: string, eol: string)
    requires line == key + ":" + pad + value + eol
    requires ':' !in key && ':' !in value && AllSpace(pad) && AllSpace(eol) && Trimmed(value)
    ensures |Split(line, ':')| == 2
    ensures Split(line, ':')[0] == key && Strip(Split(line, ':')[1]) == value
  {
    var rest := pad + value + eol;
    NoColonAround(pad, value, eol);
    CutAtColon(key, rest);
    RegroupTail(key, ":", pad, value, eol);
    StripSurrounded(pad, value, eol);
  }

  /** Text with exactly one colon splits at it into two pieces. */
  lemma CutAtColon(key: string, rest: string)
    requires ':' !in key && ':' !in rest
    ensures Split(key + ":" + rest, ':') == [key, rest]
  {
    assert key + ":" + rest == key + [':'] + rest;
    SplitAtFirst(key, ':', rest);
    SplitNoSeparator(rest, ':');
  }

  /** Whitespace around a colon-free value holds no colon. */
  lemma NoColonAround(pad: string, value: string, eol: string)
    requires ':' !in value && AllSpace(pad) && AllSpace(eol)
    ensures ':' !in pad + value + eol
  {
    assert !IsSpace(':');
    assert ':' !in pad && ':' !in eol;
  }

  /** `n kB` as two words. */
  lemma KbWords(n: nat)
    ensures var v := NatToDec(n) + " kB";
      Trimmed(v) && ':' !in v && Contains(v, "kB") && Words(v) == [NatToDec(n), "kB"]
  {
    var d := NatToDec(n);
    var v := d + " kB";
    assert v[0] == d[0];
    assert OccursAt(v, "kB", |d| + 1);
    assert ':' !in v by {
      forall i | 0 <= i < |v| ensures v[i] != ':' {
        if i < |d| {
          assert v[i] == d[i];
        }
      }
    }
    assert v == Join([d, "kB"], " ");
    WordsOfJoin([d, "kB"], " ");
  }

  /** `Size:   <n> kB` reads back as n·1024 bytes under its key. */
  lemma KbFieldLine(key: string, pad: string, n: nat, eol: string)
    requires ':' !in key && key != "VmFlags" && (|key| == 0 || Trimmed(key))
    requires AllSpace(pad) && AllSpace(eol)
    ensures FieldLine(key + ":" + pad + (NatToDec(n) + " kB") + eol) == Success((key, Int(n * 1024)))
  {
    var v := NatToDec(n) + " kB";
    KbWords(n);
    CutField(key + ":" + pad + v + eol, key, pad, v, eol);
    StripTrimmed(key);
    ParseIntUnsigned(NatToDec(n));
  }

  /** The flags line reads back as its stripped text under "VmFlags". */
  lemma FlagsFieldLine(pad: string, flags: string, eol: string)
    requires ':' !in flags && Trimmed(flags) && AllSpace(pad) && AllSpace(eol)
    ensures FieldLine("VmFlags" + ":" + pad + flags + eol) == Success(("VmFlags", Str(flags)))
  {
    CutField("VmFlags" + ":" + pad + flags + eol, "VmFlags", pad, flags, eol);
    StripTrimmed("VmFlags");
  }

  /**
   * A file of equally long entries whose first "VmFlags:" line ends the first entry is
   * cut into exactly those entries.
   */
  lemma UniformEntries(chunks: seq<seq<string>>, n: nat, defaultName: string)
    requires |chunks| > 0 && n > 0
    requires forall k :: 0 <= k < |chunks| ==> |chunks[k]| == n
    requires Contains(chunks[0][n - 1], "VmFlags:")
    requires forall i :: 0 <= i < n - 1 ==> !Contains(chunks[0][i], "VmFlags:")
    ensures FindEntrySize(Concat(chunks)) == Some(n)
    ensures ReadEntries(Concat(chunks), defaultName) == ProcessAll(chunks, defaultName)
  {
    var lines := Concat(chunks);
    ChunksOfConcat(chunks, n);
    ConcatLength(chunks, n);
    assert lines[..n] == chunks[0] by {
      assert lines == chunks[0] + Concat(chunks[1..]);
    }
    assert forall i :: 0 <= i < n ==> lines[i] == chunks[0][i];
    MultipleMod(|chunks|, n);
  }
}

=== FILE: smaps_parse.dfy ===
/**
 * `parse_memory_map` of maps/sort_smaps.py after the block split: the header line of
 * each block is matched against
 * `([\da-f]+)-([\da-f]+)\s+(\S+)\s+(\S+)\s+(\S+):(\S+)\s+(\d+)\s+(.+)?` and every
 * further line is cut at its first ':' into a key and a value, where a value ending in
 * " kB" or made only of digits becomes a number.
 *
 * The regular expression is resolved by hand: every `\S+` and `\s+` of the pattern is
 * followed by a class it cannot overlap, so backtracking never changes where a token
 * ends and each group is a maximal run of its class. The two groups around the device
 * colon are rejoined by the script, so only whether they can be formed matters.
 */
module SmapsParse {
  import opened Wrappers
  import opened Text
  import opened Dict
  import opened Collect
  import SmapsBlocks

  type Block = Dict<Value>

  /** The seven fields the header match stores. */
  datatype Header = Header(
    start: string, end: string, perms: string, offset: string,
    device: string, inode: string, pathname: string)

  predicate AllLowerHex(s: string) { forall k :: 0 <= k < |s| ==> SmapsBlocks.IsLowerHex(s[k]) }

  /** `(\S+)\s+`: a non-empty run of non-whitespace, then whitespace that is skipped. */
  function Field(t: string): (r: Option<(string, string)>)
    ensures r.Some? ==> |r.value.0| > 0 && NoSpace(r.value.0)
    ensures r.Some? ==> |r.value.1| == 0 || !IsSpace(r.value.1[0])
  {
    var n := Span(t, IsNonSpace);
    if n == 0 then None
    else
      var u := t[n..];
      var w := Span(u, IsSpace);
      if w == 0 then None else Some((t[..n], u[w..]))
  }

  /** `n` fields in a row: their tokens and the text after the last one. */
  function Fields(t: string, n: nat): (r: Option<(seq<string>, string)>)
    ensures r.Some? ==> |r.value.0| == n
    ensures r.Some? ==> forall k :: 0 <= k < n ==> |r.value.0[k]| > 0 && NoSpace(r.value.0[k])
    ensures r.Some? && n > 0 ==> |r.value.1| == 0 || !IsSpace(r.value.1[0])
  {
    if n == 0 then Some(([], t))
    else
      match Field(t)
      case None => None
      case Some(f) =>
        match Fields(f.1, n - 1)
        case None => None
        case Some(more) => Some(([f.0] + more.0, more.1))
  }

  /** `([\da-f]+)-([\da-f]+)` filling a whole token. */
  function ParseAddr(tok: string): (r: Option<(string, string)>)
    ensures r.Some? ==> |r.value.0| > 0 && AllLowerHex(r.value.0) && |r.value.1| > 0 && AllLowerHex(r.value.1)
  {
    var i := Span(tok, SmapsBlocks.IsLowerHex);
    if i == 0 || i == |tok| || tok[i] != '-' then None
    else
      var b := tok[i + 1..];
      if |b| > 0 && AllLowerHex(b) then Some((tok[..i], b)) else None
  }

  /** `(\S+):(\S+)` filling a whole token: some ':' with a character on each side. */
  predicate DeviceMatches(dev: string) {
    exists p | 1 <= p <= |dev| - 2 :: dev[p] == ':'
  }

  /** What a matched header promises about its fields. */
  predicate WellFormed(h: Header) {
    && |h.start| > 0 && AllLowerHex(h.start)
    && |h.end| > 0 && AllLowerHex(h.end)
    && |h.perms| > 0 && NoSpace(h.perms)
    && |h.offset| > 0 && NoSpace(h.offset)
    && |h.device| > 0 && NoSpace(h.device) && DeviceMatches(h.device)
    && |h.inode| > 0 && AllDigits(h.inode)
    && '\n' !in h.pathname && (|h.pathname| == 0 || !IsSpace(h.pathname[0]))
  }

  /** `re.match(HEADER, line)` and the groups it yields; group 8 defaults to ''. */
  function MatchHeader(line: string): (r: Option<Header>)
    ensures r.Some? ==> WellFormed(r.value)
  {
    match Fields(line, 5)
    case None => None
    case Some(fs) =>
      var toks, rest := fs.0, fs.1;
      match ParseAddr(toks[0])
      case None => None
      case Some(addr) =>
        if !DeviceMatches(toks[3]) || !AllDigits(toks[4]) then None
        else Some(Header(addr.0, addr.1, toks[1], toks[2], toks[3], toks[4], rest[..Span(rest, NotNewline)]))
  }

  /** The keys the script stores from a matched header, in its order. */
  function HeaderFields(h: Header): (r: Block)
    ensures UniqueKeys(r)
  {
    [("start_address", Str(h.start)), ("end_address", Str(h.end)), ("permissions", Str(h.perms)),
     ("offset", Str(h.offset)), ("device", Str(h.device)), ("inode", Str(h.inode)),
     ("pathname", Str(h.pathname))]
  }

  /** Tokens laid out with the given whitespace after each, then `rest`. */
  function Lay(toks: seq<string>, gaps: seq<string>, rest: string): string
    requires |gaps| == |toks|
  {
    if |toks| == 0 then rest else toks[0] + gaps[0] + Lay(toks[1..], gaps[1..], rest)
  }

  /** The header line the kernel prints: single spaces between fields, `pad` before the pathname. */
  function KernelHeader(h: Header, pad: string): string {
    Lay([h.start + "-" + h.end, h.perms, h.offset, h.device, h.inode], [" ", " ", " ", " ", pad], h.pathname)
  }

  // ---------------------------------------------------------------------------
  // Reading a kernel header back
  // ---------------------------------------------------------------------------

  /** A token, whitespace, then text that does not open with whitespace: the field is that token. */
  lemma FieldOf(tok: string, gap: string, rest: string)
    requires |tok| > 0 && NoSpace(tok)
    requires |gap| > 0 && AllSpace(gap)
    requires |rest| == 0 || !IsSpace(rest[0])
    ensures Field(tok + gap + rest) == Some((tok, rest))
  {
    var t := tok + gap + rest;
    assert t == tok + (gap + rest);
    SpanAppend(tok, gap + rest, IsNonSpace);
    assert Span(gap + rest, IsNonSpace) == 0 by {
      assert (gap + rest)[0] == gap[0];
    }
    assert t[..|tok|] == tok;
    var u := t[|tok|..];
    assert u == gap + rest;
    SpanAppend(gap, rest, IsSpace);
    assert u[|gap|..] == rest;
  }

  /** An address range of two hexadecimal runs is read back as its two ends. */
  lemma ParseAddrOf(a: string, b: string)
    requires |a| > 0 && AllLowerHex(a) && |b| > 0 && AllLowerHex(b)
    ensures ParseAddr(a + "-" + b) == Some((a, b))
  {
    var tok := a + "-" + b;
    assert tok == a + ("-" + b);
    SpanAppend(a, "-" + b, SmapsBlocks.IsLowerHex);
    assert Span("-" + b, SmapsBlocks.IsLowerHex) == 0 by {
      assert ("-" + b)[0] == '-';
    }
    assert tok[|a|] == '-';
    assert tok[..|a|] == a && tok[|a| + 1..] == b;
  }

  /** A range token holds no whitespace. */
  lemma RangeToken(h: Header)
    requires WellFormed(h)
    ensures |h.start + "-" + h.end| > 0 && NoSpace(h.start + "-" + h.end)
  {
    var tok := h.start + "-" + h.end;
    forall k | 0 <= k < |tok| ensures !IsSpace(tok[k]) {
      if k < |h.start| {
        assert tok[k] == h.start[k];
      } else if k > |h.start| {
        assert tok[k] == h.end[k - |h.start| - 1];
      }
    }
  }

  /** Laid-out tokens open with the first token, or are `rest` when there are none. */
  lemma LayOpens(toks: seq<string>, gaps: seq<string>, rest: string)
    requires |gaps| == |toks|
    requires forall k :: 0 <= k < |toks| ==> |toks[k]| > 0 && NoSpace(toks[k])
    requires |rest| == 0 || !IsSpace(rest[0])
    ensures var t := Lay(toks, gaps, rest); |t| == 0 || !IsSpace(t[0])
  {
    if |toks| > 0 {
      assert Lay(toks, gaps, rest)[0] == toks[0][0];
    }
  }

  /** One more field in front of text that reads as `n` fields. */
  lemma FieldsCons(tok: string, gap: string, t: string, n: nat)
    requires |tok| > 0 && NoSpace(tok)
    requires |gap| > 0 && AllSpace(gap)
    requires |t| == 0 || !IsSpace(t[0])
    requires Fields(t, n).Some?
    ensures Fields(tok + gap + t, n + 1) == Some(([tok] + Fields(t, n).value.0, Fields(t, n).value.1))
  {
    FieldOf(tok, gap, t);
  }

  /** Tokens laid out with whitespace are read back by as many fields. */
  lemma {:induction false} FieldsOfLay(toks: seq<string>, gaps: seq<string>, rest: string)
    requires |gaps| == |toks|
    requires forall k :: 0 <= k < |toks| ==> |toks[k]| > 0 && NoSpace(toks[k])
    requires forall k :: 0 <= k < |gaps| ==> |gaps[k]| > 0 && AllSpace(gaps[k])
    requires |rest| == 0 || !IsSpace(rest[0])
    ensures Fields(Lay(toks, gaps, rest), |toks|) == Some((toks, rest))
    decreases |toks|
  {
    if |toks| > 0 {
      var tail := Lay(toks[1..], gaps[1..], rest);
      LayOpens(toks[1..], gaps[1..], rest);
      FieldsOfLay(toks[1..], gaps[1..], rest);
      FieldsCons(toks[0], gaps[0], tail, |toks| - 1);
      assert toks == [toks[0]] + toks[1..];
    }
  }

  /** A line whose five fields have the header's shapes matches with those groups. */
  lemma MatchOfFields(line: string, toks: seq<string>, rest: string, h: Header)
    requires Fields(line, 5) == Some((toks, rest))
    requires ParseAddr(toks[0]) == Some((h.start, h.end))
    requires toks[1..] == [h.perms, h.offset, h.device, h.inode]
    requires DeviceMatches(h.device) && AllDigits(h.inode)
    requires rest == h.pathname && '\n' !in rest
    ensures MatchHeader(line) == Some(h)
  {
    WholeRestKept(rest);
    TailTokens(toks, h);
    MatchOfTokens(line, toks, rest, h);
  }

  /** A pathname without a newline is kept whole. */
  lemma WholeRestKept(rest: string)
    requires '\n' !in rest
    ensures rest[..Span(rest, NotNewline)] == rest
  {
    assert Span(rest, NotNewline) == |rest| by {
      SpanOfConcat(rest, [], NotNewline);
      assert rest + [] == rest;
    }
    assert rest[..|rest|] == rest;
  }

  /** The four tokens after the address, one by one. */
  lemma TailTokens(toks: seq<string>, h: Header)
    requires |toks| == 5
    requires toks[1..] == [h.perms, h.offset, h.device, h.inode]
    ensures toks[1] == h.perms && toks[2] == h.offset && toks[3] == h.device && toks[4] == h.inode
  {
    assert toks[1..][0] == h.perms && toks[1..][1] == h.offset;
    assert toks[1..][2] == h.device && toks[1..][3] == h.inode;
  }

  /** `MatchOfFields` once every group is known token by token. */
  lemma MatchOfTokens(line: string, toks: seq<string>, rest: string, h: Header)
    requires Fields(line, 5) == Some((toks, rest))
    requires ParseAddr(toks[0]) == Some((h.start, h.end))
    requires toks[1] == h.perms && toks[2] == h.offset && toks[3] == h.device && toks[4] == h.inode
    requires DeviceMatches(h.device) && AllDigits(h.inode)
    requires rest[..Span(rest, NotNewline)] == h.pathname
    ensures MatchHeader(line) == Some(h)
  {
  }

  /** The header line of a well-formed mapping is matched, and every group reads back. */
  lemma MatchKernelHeader(h: Header, pad: string)
    requires WellFormed(h)
    requires |pad| > 0 && AllSpace(pad)
    ensures MatchHeader(KernelHeader(h, pad)) == Some(h)
  {
    var toks := [h.start + "-" + h.end, h.perms, h.offset, h.device, h.inode];
    var gaps := [" ", " ", " ", " ", pad];
    RangeToken(h);
    assert forall k :: 0 <= k < |gaps| ==> |gaps[k]| > 0 && AllSpace(gaps[k]);
    FieldsOfLay(toks, gaps, h.pathname);
    ParseAddrOf(h.start, h.end);
    MatchOfFields(KernelHeader(h, pad), toks, h.pathname, h);
  }

  // ---------------------------------------------------------------------------
  // Body lines
  // ---------------------------------------------------------------------------

  /** `value.endswith(' kB')`. */
  predicate EndsWithKb(value: string) {
    |value| >= 3 && value[|value| - 3..] == " kB"
  }

  /** The conversion of a stripped value: " kB" values through `int()`, digit strings to numbers. */
  function ConvertValue(value: string): (r: Option<Value>)
    ensures r.None? ==> EndsWithKb(value)
    ensures r.Some? && r.value.Str? ==> r.value.s == value
  {
    if EndsWithKb(value) then
      match ParseInt(value[..|value| - 3])
      case None => None
      case Some(n) => Some(Int(n))
    else if |value| > 0 && AllDigits(value) then Some(Int(DecValue(value)))
    else Some(Str(value))
  }

  /** One body line: `key, value = line.split(':', 1)`, both stripped, the value converted. */
  function ParseBodyLine(line: string): (r: Result<(string, Value), string>)
    ensures r.Success? ==> ':' !in r.value.0
  {
    FindIffContains(line, ":");
    match Find(line, ":")
    case None => Failure(line)
    case Some(i) =>
      var key := Strip(line[..i]);
      assert ':' !in key by {
        forall j | 0 <= j < i ensures line[j] != ':' {
          assert !OccursAt(line, ":", j);
        }
      }
      match ConvertValue(Strip(line[i + 1..]))
      case None => Failure(line)
      case Some(v) => Success((key, v))
  }

  /** The line `key: <pad>rest` cut at its first colon. */
  lemma CutAtColon(line: string, key: string, pad: string, rest: string)
    requires line == key + ":" + pad + rest
    requires ':' !in key && AllSpace(pad)
    requires |key| == 0 || (!IsSpace(key[0]) && !IsSpace(key[|key| - 1]))
    requires |rest| > 0 && !IsSpace(rest[0]) && !IsSpace(rest[|rest| - 1])
    ensures Find(line, ":") == Some(|key|)
    ensures Strip(line[..|key|]) == key && Strip(line[|key| + 1..]) == rest
  {
    assert OccursAt(line, ":", |key|);
    forall j | 0 <= j < |key| ensures !OccursAt(line, ":", j) {
      assert line[j] == key[j];
    }
    assert line[..|key|] == key;
    StripTrimmed(key);
    assert line[|key| + 1..] == pad + rest;
    StripPadded(pad, rest);
  }

  /** A line `key: <pad>value` parses as the key with the converted value. */
  lemma BodyLineOf(line: string, key: string, pad: string, v: string)
    requires line == key + ":" + pad + v
    requires ':' !in key && AllSpace(pad)
    requires |key| == 0 || (!IsSpace(key[0]) && !IsSpace(key[|key| - 1]))
    requires |v| > 0 && !IsSpace(v[0]) && !IsSpace(v[|v| - 1])
    ensures ConvertValue(v).Some? ==> ParseBodyLine(line) == Success((key, ConvertValue(v).value))
  {
    CutAtColon(line, key, pad, v);
  }

  /** A size in kB converts to its number. */
  lemma ConvertKb(n: nat)
    ensures ConvertValue(NatToDec(n) + " kB") == Some(Int(n))
  {
    var v := NatToDec(n) + " kB";
    assert v[|v| - 3..] == " kB";
    assert v[..|v| - 3] == NatToDec(n);
    ParseIntUnsigned(NatToDec(n));
  }

  /** A digit string converts to its number. */
  lemma ConvertCount(n: nat)
    ensures ConvertValue(NatToDec(n)) == Some(Int(n))
  {
    var v := NatToDec(n);
    assert !EndsWithKb(v) by {
      if |v| >= 3 {
        assert v[|v| - 1] == v[|v| - 3..][2];
      }
    }
  }

  /** `Key:   <n> kB`, as the kernel prints sizes, reads back as the key and the number n. */
  lemma ParseKbLine(key: string, pad: string, n: nat)
    requires ':' !in key && AllSpace(pad)
    requires |key| == 0 || (!IsSpace(key[0]) && !IsSpace(key[|key| - 1]))
    ensures ParseBodyLine(key + ":" + pad + (NatToDec(n) + " kB")) == Success((key, Int(n)))
  {
    var v := NatToDec(n) + " kB";
    assert !IsSpace(v[0]) && !IsSpace(v[|v| - 1]) by {
      assert v[0] == NatToDec(n)[0];
    }
    ConvertKb(n);
    BodyLineOf(key + ":" + pad + v, key, pad, v);
  }

  /** `Key:   <n>` with a bare count reads back as the key and the number n. */
  lemma ParseCountLine(key: string, pad: string, n: nat)
    requires ':' !in key && AllSpace(pad)
    requires |key| == 0 || (!IsSpace(key[0]) && !IsSpace(key[|key| - 1]))
    ensures ParseBodyLine(key + ":" + pad + NatToDec(n)) == Success((key, Int(n)))
  {
    var v := NatToDec(n);
    assert !IsSpace(v[0]) && !IsSpace(v[|v| - 1]);
    ConvertCount(n);
    BodyLineOf(key + ":" + pad + v, key, pad, v);
  }

  /** A trimmed value that is neither a size nor a digit string is kept as text. */
  lemma ParseTextLine(key: string, pad: string, v: string)
    requires ':' !in key && AllSpace(pad)
    requires |key| == 0 || (!IsSpace(key[0]) && !IsSpace(key[|key| - 1]))
    requires |v| > 0 && !IsSpace(v[0]) && !IsSpace(v[|v| - 1])
    requires !EndsWithKb(v) && !AllDigits(v)
    ensures ParseBodyLine(key + ":" + pad + v) == Success((key, Str(v)))
  {
    BodyLineOf(key + ":" + pad + v, key, pad, v);
  }

  // ---------------------------------------------------------------------------
  // Blocks and the whole file
  // ---------------------------------------------------------------------------

  /** The dict the header line contributes: its seven fields, or nothing when it does not match. */
  function HeaderBlock(line: string): (r: Block)
    ensures UniqueKeys(r)
    ensures MatchHeader(line).None? <==> r == []
  {
    match MatchHeader(line)
    case None => []
    case Some(h) => HeaderFields(h)
  }

  /** The loop over the body lines: each stored with `d[key] = value`, the first bad line raising. */
  function ParseBody(d: Block, lines: seq<string>): Result<Block, string>
    decreases |lines|
  {
    if |lines| == 0 then Success(d)
    else
      match ParseBodyLine(lines[0])
      case Failure(e) => Failure(e)
      case Success(kv) => ParseBody(Put(d, kv.0, kv.1), lines[1..])
  }

  /** The loop stores exactly the parsed pairs, in order, or fails with the first bad line. */
  lemma {:induction false} ParseBodyStores(d: Block, lines: seq<string>)
    ensures ParseBody(d, lines) ==
      match MapAll(lines, ParseBodyLine)
      case Failure(e) => Failure(e)
      case Success(kvs) => Success(PutAll(d, kvs))
    decreases |lines|
  {
    if |lines| > 0 && ParseBodyLine(lines[0]).Success? {
      var kv := ParseBodyLine(lines[0]).value;
      ParseBodyStores(Put(d, kv.0, kv.1), lines[1..]);
      var rest := MapAll(lines[1..], ParseBodyLine);
      if rest.Success? {
        assert MapAll(lines, ParseBodyLine).value == [kv] + rest.value;
        assert ([kv] + rest.value)[1..] == rest.value;
      }
    }
  }

  /** A block's lines: the stripped text split at newlines; there is always a first one. */
  function BlockLines(block: string): (r: seq<string>)
    ensures |r| >= 1
  {
    Split(Strip(block), '\n')
  }

  /** One block: stripped, split at newlines, the first line as header, the rest stored in order. */
  function ParseBlock(block: string): Result<Block, string> {
    var lines := BlockLines(block);
    ParseBody(HeaderBlock(lines[0]), lines[1..])
  }

  /**
   * A parsed block has each key once; a key reads as its last body line, or as the header
   * gave it when no body line names it; the block fails exactly when a body line does.
   */
  lemma BlockContents(block: string, k: string)
    ensures ParseBlock(block).Success? <==>
      forall j :: 1 <= j < |BlockLines(block)| ==> ParseBodyLine(BlockLines(block)[j]).Success?
    ensures ParseBlock(block).Success? ==>
      var kvs := MapAll(BlockLines(block)[1..], ParseBodyLine).value;
      && UniqueKeys(ParseBlock(block).value)
      && Get(ParseBlock(block).value, k) ==
           if LastValue(kvs, k).Some? then LastValue(kvs, k) else Get(HeaderBlock(BlockLines(block)[0]), k)
  {
    var lines := BlockLines(block);
    BlockSucceeds(block);
    if ParseBlock(block).Success? {
      var kvs := MapAll(lines[1..], ParseBodyLine).value;
      GetPutAll(HeaderBlock(lines[0]), kvs, k);
      PutAllKeepsUnique(HeaderBlock(lines[0]), kvs);
    }
  }

  /** A block parses exactly when all its body lines do, and then holds them stored over the header's fields. */
  lemma BlockSucceeds(block: string)
    ensures ParseBlock(block).Success? <==> forall j :: 1 <= j < |BlockLines(block)| ==> ParseBodyLine(BlockLines(block)[j]).Success?
    ensures ParseBlock(block).Success? ==>
      ParseBlock(block).value == PutAll(HeaderBlock(BlockLines(block)[0]), MapAll(BlockLines(block)[1..], ParseBodyLine).value)
  {
    var lines := BlockLines(block);
    var header := HeaderBlock(lines[0]);
    assert ParseBlock(block) == ParseBody(header, lines[1..]);
    ParseBodyStores(header, lines[1..]);
    assert ParseBody(header, lines[1..]).Success? <==> MapAll(lines[1..], ParseBodyLine).Success?;
    MapAllAfterFirst(lines, ParseBodyLine);
  }

  /** The loop over the blocks: one dict each, in order, the first bad block raising. */
  function ParseBlocks(blocks: seq<string>): (r: Result<seq<Block>, string>)
    ensures r.Success? <==> forall k :: 0 <= k < |blocks| ==> ParseBlock(blocks[k]).Success?
    ensures r.Success? ==> |r.value| == |blocks| && forall k :: 0 <= k < |blocks| ==> r.value[k] == ParseBlock(blocks[k]).value
  {
    MapAll(blocks, ParseBlock)
  }

  /** `parse_memory_map(content)`: the blocks of the stripped text, each parsed. */
  function ParseMemoryMap(content: string): Result<seq<Block>, string> {
    ParseBlocks(SmapsBlocks.SplitBlocks(Strip(content)))
  }
}

=== FILE: sort_smaps.dfy ===
/**
 * The rest of maps/sort_smaps.py: `read_proc_smaps` sorts the parsed blocks by their
 * "Size" entry, largest first, and the main flow looks the process up, reads its smaps
 * file and prints every block. The `ps` output and the file contents are parameters.
 */
module SortSmaps {
  import opened Wrappers
  import opened Dict
  import opened SmapsParse
  import opened StableSort
  import Ps

  /** `x.get('Size', 0)` when it is a number: a missing entry counts as 0, text has no number. */
  function SizeKey(b: Block): (r: Option<int>)
    ensures !HasKey(b, "Size") ==> r == Some(0)
    ensures r.None? <==> Get(b, "Size").Some? && Get(b, "Size").value.Str?
  {
    match Get(b, "Size")
    case None => Some(0)
    case Some(v) => if v.Int? then Some(v.i) else None
  }

  /** The sort key once every size is known to be a number. */
  function SizeOf(b: Block): int {
    match SizeKey(b)
    case Some(n) => n
    case None => 0
  }

  /** Some block's size is text, so `sorted` would have to order text against numbers. */
  predicate HasTextSize(blocks: seq<Block>) {
    exists k | 0 <= k < |blocks| :: SizeKey(blocks[k]).None?
  }

  /**
   * `read_proc_smaps` on the file contents: parse, then
   * `sorted(blocks, key=lambda x: x.get('Size', 0), reverse=True)`.
   */
  function ReadProcSmaps(content: string): Result<seq<Block>, string> {
    match ParseMemoryMap(content)
    case Failure(e) => Failure(e)
    case Success(blocks) =>
      if |blocks| >= 2 && HasTextSize(blocks) then Failure("TypeError: '<' between 'str' and 'int'")
      else Success(SortDesc(blocks, SizeOf))
  }

  /**
   * A successful read holds the parsed blocks, largest size first, equal sizes in file
   * order; it fails exactly when parsing fails or a text size would be compared.
   */
  lemma SmapsSorted(content: string)
    ensures var parsed := ParseMemoryMap(content);
      var r := ReadProcSmaps(content);
      && (r.Success? <==> parsed.Success? && (|parsed.value| < 2 || !HasTextSize(parsed.value)))
      && (r.Success? ==>
          && Descending(r.value, SizeOf)
          && multiset(r.value) == multiset(parsed.value)
          && forall v :: WithKey(r.value, SizeOf, v) == WithKey(parsed.value, SizeOf, v))
  {
    var parsed := ParseMemoryMap(content);
    if parsed.Success? {
      SortDescCorrect(parsed.value, SizeOf);
      if ReadProcSmaps(content).Success? {
        assert ReadProcSmaps(content).value == SortDesc(parsed.value, SizeOf);
      }
    }
  }

  /** How the script ends. */
  datatype Outcome =
    | Exit(status: int)           // `sys.exit(-1)`
    | Crash(reason: string)       // an uncaught exception
    | Printed(blocks: seq<Block>) // every block dumped as JSON, in this order

  /** The main flow: a unique `ps` candidate, then its smaps file read and printed. */
  function Run(psLines: seq<string>, name: string, content: string): (r: Outcome)
    ensures r.Exit? <==> Ps.FindUniquePid(psLines, name).Ambiguous?
    ensures r.Exit? ==> r.status == -1
    ensures r.Printed? <==> Ps.FindUniquePid(psLines, name).Found? && ReadProcSmaps(content).Success?
    ensures r.Printed? ==> r.blocks == ReadProcSmaps(content).value
  {
    Ps.UniquePidNonEmpty(psLines, name);
    match Ps.FindUniquePid(psLines, name)
    case Ambiguous(_) => Exit(-1)
    case NoCandidate => Crash("IndexError: list index out of range")
    case ShortLine(_) => Crash("IndexError: list index out of range")
    case Found(pid) =>
      match ReadProcSmaps(content)
      case Failure(e) => Crash(e)
      case Success(blocks) => Printed(blocks)
  }
}

=== FILE: stable_sort.dfy ===
/**
 * Python's `sorted(xs, key=key, reverse=True)` on integer keys: largest key first, and
 * elements with equal keys kept in their input order (the sort is stable also when
 * reversed).
 */
module StableSort {

  /** Keys never increase along the sequence. */
  predicate Descending<T>(xs: seq<T>, key: T -> int) {
    forall i, j :: 0 <= i < j < |xs| ==> key(xs[i]) >= key(xs[j])
  }

  /** The elements whose key is `v`, in order. */
  function WithKey<T>(xs: seq<T>, key: T -> int, v: int): (r: seq<T>)
    ensures |r| <= |xs|
  {
    if |xs| == 0 then []
    else if key(xs[0]) == v then [xs[0]] + WithKey(xs[1..], key, v)
    else WithKey(xs[1..], key, v)
  }

  /** `x` placed in front of the first element whose key is not larger. */
  function Insert<T>(x: T, ys: seq<T>, key: T -> int): seq<T> {
    if |ys| == 0 || key(ys[0]) <= key(x) then [x] + ys
    else [ys[0]] + Insert(x, ys[1..], key)
  }

  /** `sorted(xs, key=key, reverse=True)`. */
  function SortDesc<T>(xs: seq<T>, key: T -> int): seq<T> {
    if |xs| == 0 then [] else Insert(xs[0], SortDesc(xs[1..], key), key)
  }

  /** Inserting keeps the multiset and adds `x`. */
  lemma {:induction false} InsertPerm<T>(x: T, ys: seq<T>, key: T -> int)
    ensures multiset(Insert(x, ys, key)) == multiset(ys) + multiset{x}
    decreases |ys|
  {
    if |ys| > 0 && key(ys[0]) > key(x) {
      InsertPerm(x, ys[1..], key);
      assert ys == [ys[0]] + ys[1..];
    }
  }

  /** Inserting into a descending sequence keeps it descending. */
  lemma {:induction false} InsertDescending<T>(x: T, ys: seq<T>, key: T -> int)
    requires Descending(ys, key)
    ensures Descending(Insert(x, ys, key), key)
    ensures |Insert(x, ys, key)| == |ys| + 1
    ensures Insert(x, ys, key)[0] == x || (|ys| > 0 && Insert(x, ys, key)[0] == ys[0])
    decreases |ys|
  {
    if |ys| > 0 && key(ys[0]) > key(x) {
      var rest := Insert(x, ys[1..], key);
      assert Descending(ys[1..], key) by {
        assert forall i :: 0 <= i < |ys| - 1 ==> ys[1..][i] == ys[i + 1];
      }
      InsertDescending(x, ys[1..], key);
      var r := [ys[0]] + rest;
      forall i, j | 0 <= i < j < |r| ensures key(r[i]) >= key(r[j]) {
        if i == 0 {
          assert r[j] == rest[j - 1];
          if j == 1 {
            if rest[0] != x {
              assert rest[0] == ys[1..][0] == ys[1];
            }
          } else {
            assert key(rest[0]) >= key(rest[j - 1]);
            if rest[0] != x {
              assert rest[0] == ys[1];
            }
          }
        } else {
          assert r[i] == rest[i - 1] && r[j] == rest[j - 1];
        }
      }
    } else {
      var r := [x] + ys;
      forall i, j | 0 <= i < j < |r| ensures key(r[i]) >= key(r[j]) {
        if i == 0 {
          assert r[j] == ys[j - 1];
          assert key(ys[0]) >= key(ys[j - 1]) || j == 1;
        } else {
          assert r[i] == ys[i - 1] && r[j] == ys[j - 1];
        }
      }
    }
  }

  /** Inserting `x` adds it in front of the other elements with its key and leaves other keys alone. */
  lemma {:induction false} InsertWithKey<T>(x: T, ys: seq<T>, key: T -> int, v: int)
    ensures WithKey(Insert(x, ys, key), key, v) ==
      if key(x) == v then [x] + WithKey(ys, key, v) else WithKey(ys, key, v)
    decreases |ys|
  {
    if |ys| > 0 && key(ys[0]) > key(x) {
      InsertWithKey(x, ys[1..], key, v);
      var r := [ys[0]] + Insert(x, ys[1..], key);
      assert r[1..] == Insert(x, ys[1..], key);
      if key(x) == v {
        assert key(ys[0]) != v;
      }
    } else {
      assert ([x] + ys)[1..] == ys;
    }
  }

  /** The result is descending. */
  lemma {:induction false} SortDescDescending<T>(xs: seq<T>, key: T -> int)
    ensures Descending(SortDesc(xs, key), key)
    ensures |SortDesc(xs, key)| == |xs|
    decreases |xs|
  {
    if |xs| > 0 {
      SortDescDescending(xs[1..], key);
      InsertDescending(xs[0], SortDesc(xs[1..], key), key);
    }
  }

  /** The result is a permutation of the input. */
  lemma {:induction false} SortDescPerm<T>(xs: seq<T>, key: T -> int)
    ensures multiset(SortDesc(xs, key)) == multiset(xs)
    decreases |xs|
  {
    if |xs| > 0 {
      SortDescPerm(xs[1..], key);
      InsertPerm(xs[0], SortDesc(xs[1..], key), key);
      assert xs == [xs[0]] + xs[1..];
    }
  }

  /** Elements with equal keys keep their input order. */
  lemma {:induction false} SortDescStable<T>(xs: seq<T>, key: T -> int, v: int)
    ensures WithKey(SortDesc(xs, key), key, v) == WithKey(xs, key, v)
    decreases |xs|
  {
    if |xs| > 0 {
      SortDescStable(xs[1..], key, v);
      InsertWithKey(xs[0], SortDesc(xs[1..], key), key, v);
    }
  }

  /** `sorted(xs, key=key, reverse=True)`: descending, the same elements, each key's elements in their old order. */
  lemma SortDescCorrect<T>(xs: seq<T>, key: T -> int)
    ensures Descending(SortDesc(xs, key), key)
    ensures multiset(SortDesc(xs, key)) == multiset(xs)
    ensures forall v :: WithKey(SortDesc(xs, key), key, v) == WithKey(xs, key, v)
  {
    SortDescDescending(xs, key);
    SortDescPerm(xs, key);
    forall v ensures WithKey(SortDesc(xs, key), key, v) == WithKey(xs, key, v) {
      SortDescStable(xs, key, v);
    }
  }
}

=== FILE: stats.dfy ===
/**
 * The latency statistics shared by the benchmarks: the three-way comparator handed to
 * `qsort`, the ascending order it produces, and nearest-rank percentile selection with
 * the truncating index of LSE/percpu_bench_lib.c and LSE/parallel_atomic_bench.c.
 * Latencies are `real`s: only their order matters here, and a real is never NaN.
 */
module Stats {
  import opened Wrappers

  const U64_MAX: nat := 0xFFFF_FFFF_FFFF_FFFF

  /** `compare_double`: -1, 0 or 1 as `a` is below, equal to or above `b`. */
  function Compare(a: real, b: real): (r: int)
    ensures r == -1 <==> a < b
    ensures r == 0 <==> a == b
    ensures r == 1 <==> a > b
  {
    if a < b then -1 else if a > b then 1 else 0
  }

  /** Swapping the operands negates the answer, and the order it induces is transitive. */
  lemma CompareIsOrder(a: real, b: real, c: real)
    ensures Compare(a, b) == -Compare(b, a)
    ensures Compare(a, a) == 0
    ensures Compare(a, b) <= 0 && Compare(b, c) <= 0 ==> Compare(a, c) <= 0
  {
  }

  /** No pair is out of order according to `Compare`: what `qsort` leaves behind. */
  predicate Ascending(s: seq<real>) {
    forall i, j :: 0 <= i < j < |s| ==> Compare(s[i], s[j]) <= 0
  }

  /** Ascending by the comparator is ascending by `<=`. */
  lemma AscendingMeansLeq(s: seq<real>)
    ensures Ascending(s) <==> forall i, j :: 0 <= i < j < |s| ==> s[i] <= s[j]
  {
  }

  /** Places `x` before the first element it does not compare above. */
  function Insert(x: real, s: seq<real>): (r: seq<real>)
    requires Ascending(s)
    ensures Ascending(r)
    ensures multiset(r) == multiset(s) + multiset{x}
    ensures |r| == |s| + 1
  {
    if |s| == 0 then [x]
    else if Compare(x, s[0]) <= 0 then [x] + s
    else
      var rest := Insert(x, s[1..]);
      InsertBehindHead(x, s, rest);
      [s[0]] + rest
  }

  /** The head of `s` stays in front of `x` inserted into the tail, as `x` compares above it. */
  lemma InsertBehindHead(x: real, s: seq<real>, rest: seq<real>)
    requires Ascending(s) && |s| > 0 && Compare(x, s[0]) > 0
    requires Ascending(rest) && multiset(rest) == multiset(s[1..]) + multiset{x}
    ensures Ascending([s[0]] + rest)
    ensures multiset([s[0]] + rest) == multiset(s) + multiset{x}
  {
    assert s == [s[0]] + s[1..];
    forall k | 0 <= k < |rest| ensures s[0] <= rest[k] {
      assert rest[k] in multiset(rest);
      assert rest[k] in s[1..] || rest[k] == x;
    }
    var r := [s[0]] + rest;
    forall i, j | 0 <= i < j < |r| ensures Compare(r[i], r[j]) <= 0 {
      assert r[j] == rest[j - 1];
      if i > 0 {
        assert r[i] == rest[i - 1];
      }
    }
  }

  /** `qsort(arr, n, sizeof(double), compare_double)`: the same values, ascending. */
  function SortAscending(s: seq<real>): (r: seq<real>)
    ensures Ascending(r)
    ensures multiset(r) == multiset(s)
    ensures |r| == |s|
  {
    if |s| == 0 then []
    else
      assert s == [s[0]] + s[1..];
      Insert(s[0], SortAscending(s[1..]))
  }

  /**
   * An ascending arrangement of given values is unique, so whatever order `qsort`
   * visits ties in, its output equals `SortAscending`.
   */
  lemma {:induction false} AscendingPermutationUnique(a: seq<real>, b: seq<real>)
    requires Ascending(a) && Ascending(b)
    requires multiset(a) == multiset(b)
    ensures a == b
    decreases |a|
  {
    if |a| == 0 {
      assert |multiset(b)| == 0;
    } else {
      assert |b| == |multiset(b)| == |multiset(a)| == |a|;
      assert a[0] in multiset(b);
      assert b[0] in multiset(a);
      assert a[0] == b[0] by {
        var i :| 0 <= i < |b| && b[i] == a[0];
        var j :| 0 <= j < |a| && a[j] == b[0];
        assert b[0] <= b[i] && a[0] <= a[j];
      }
      assert a == [a[0]] + a[1..];
      assert b == [b[0]] + b[1..];
      assert multiset(a[1..]) == multiset(a) - multiset{a[0]};
      assert multiset(b[1..]) == multiset(b) - multiset{b[0]};
      AscendingPermutationUnique(a[1..], b[1..]);
    }
  }

  // ---------------------------------------------------------------------------
  // Nearest-rank percentile, truncating index
  // ---------------------------------------------------------------------------

  /** `count - 1` on a `uint64_t`: zero wraps to the largest value. */
  function Pred64(count: nat): nat {
    if count == 0 then U64_MAX else count - 1
  }

  /**
   * `(uint64_t)((percentile / 100.0) * (count - 1))` with the product taken exactly:
   * the floor of p·(count−1)/100. With no samples `count - 1` has wrapped around.
   */
  function PercentileIndex(count: nat, p: nat): (r: nat)
    ensures count >= 1 ==> r * 100 <= p * (count - 1) < (r + 1) * 100
    ensures count >= 1 && p <= 100 ==> r < count
    ensures count == 0 ==> r * 100 <= p * U64_MAX < (r + 1) * 100
  {
    p * Pred64(count) / 100
  }

  /**
   * `calculate_percentile`: the element at the truncating index, or `None` where the C
   * code reads past the end of the array.
   */
  function Percentile(sorted: seq<real>, p: nat): (r: Option<real>)
    ensures r.Some? <==> PercentileIndex(|sorted|, p) < |sorted|
    ensures |sorted| >= 1 && p <= 100 ==> r.Some?
    ensures |sorted| == 0 ==> r.None?
    ensures r.Some? ==> r.value in sorted
  {
    var i := PercentileIndex(|sorted|, p);
    if i < |sorted| then Some(sorted[i]) else None
  }

  /** A larger percentile never selects an earlier index. */
  lemma PercentileIndexMonotone(count: nat, p: nat, q: nat)
    requires p <= q
    ensures PercentileIndex(count, p) <= PercentileIndex(count, q)
  {
    var c := Pred64(count);
    assert p * c <= q * c;
  }

  /** On an ascending array the selected value grows with the percentile. */
  lemma PercentileMonotone(sorted: seq<real>, p: nat, q: nat)
    requires Ascending(sorted) && |sorted| >= 1
    requires p <= q <= 100
    ensures Percentile(sorted, p).value <= Percentile(sorted, q).value
  {
    PercentileIndexMonotone(|sorted|, p, q);
  }

  /** p = 0 selects the minimum and p = 100 the maximum. */
  lemma PercentileExtremes(sorted: seq<real>)
    requires Ascending(sorted) && |sorted| >= 1
    ensures Percentile(sorted, 0) == Some(sorted[0])
    ensures Percentile(sorted, 100) == Some(sorted[|sorted| - 1])
    ensures forall k :: 0 <= k < |sorted| ==>
      Percentile(sorted, 0).value <= sorted[k] <= Percentile(sorted, 100).value
  {
    assert PercentileIndex(|sorted|, 100) == |sorted| - 1;
  }

  /** Without samples every percentile reads out of bounds. */
  lemma PercentileOfNothing(p: nat)
    ensures Percentile([], p) == None
    ensures PercentileIndex(0, p) == p * U64_MAX / 100
  {
  }

  /** p50, p95 and p99 of the benchmarks' 100 samples, and their order. */
  datatype Triple = Triple(p50: real, p95: real, p99: real)

  /** The three values the benchmarks print for one sorted latency array. */
  function ReportTriple(sorted: seq<real>): (t: Triple)
    requires |sorted| >= 1
  {
    Triple(Percentile(sorted, 50).value, Percentile(sorted, 95).value, Percentile(sorted, 99).value)
  }

  /** With 100 ascending samples the printed values are elements 49, 94 and 98, in order. */
  lemma ReportTripleOf100(sorted: seq<real>)
    requires |sorted| == 100 && Ascending(sorted)
    ensures ReportTriple(sorted) == Triple(sorted[49], sorted[94], sorted[98])
    ensures ReportTriple(sorted).p50 <= ReportTriple(sorted).p95 <= ReportTriple(sorted).p99
  {
    assert PercentileIndex(100, 50) == 49;
    assert PercentileIndex(100, 95) == 94;
    assert PercentileIndex(100, 99) == 98;
  }
}

=== FILE: sysbench_csv.dfy ===
/**
 * sysbench/to_csv/sysbench_to_csv.py: eleven figures are pulled out of the text a
 * `sysbench fileio` run prints, each with one `re.search`, and written as one CSV row.
 *
 * Every pattern the script uses has the shape `label\s*[inner\s*]([\d\.]+)suffix`. Since
 * a label is followed by whitespace and then by a character that is neither whitespace
 * nor a digit or dot, and a suffix never starts with a digit or dot, Python's
 * backtracking matcher has no choice to make once the start is fixed: `MatchAt` takes
 * every run as far as it goes. `SearchIsLeftmostLongest` shows this gives exactly what
 * the regular expression promises: the leftmost start, and there the longest capture.
 */
module SysbenchCsv {
  import opened Wrappers
  import opened Text

  /** `[\d\.]`: a decimal digit or a dot. */
  predicate IsNumChar(c: char) { IsDigit(c) || c == '.' }

  /** The two character classes the patterns repeat: `\s` and `[\d\.]`. */
  datatype CharClass = Space | Num

  predicate In(cls: CharClass, c: char) {
    match cls
    case Space => IsSpace(c)
    case Num => IsNumChar(c)
  }

  /** `s[a:b]` exists and every character of it is in `cls`. */
  predicate AllIn(s: string, a: nat, b: nat, cls: CharClass) {
    a <= b <= |s| && forall k :: a <= k < b ==> In(cls, s[k])
  }

  // ---------------------------------------------------------------------------
  // Maximal runs by position
  // ---------------------------------------------------------------------------

  /** Where the run of `cls`-characters starting at `i` ends. */
  function RunEnd(s: string, i: nat, cls: CharClass): (r: nat)
    requires i <= |s|
    ensures AllIn(s, i, r, cls)
    ensures r < |s| ==> !In(cls, s[r])
    decreases |s| - i
  {
    if i < |s| && In(cls, s[i]) then RunEnd(s, i + 1, cls) else i
  }

  /** A run of `cls`-characters reaching `b` makes the maximal run reach at least `b`. */
  lemma RunEndCovers(s: string, i: nat, b: nat, cls: CharClass)
    requires i <= |s| && AllIn(s, i, b, cls)
    ensures RunEnd(s, i, cls) >= b
  {
  }

  /** A run of `cls`-characters that stops at `b` is the maximal run. */
  lemma RunEndStops(s: string, i: nat, b: nat, cls: CharClass)
    requires i <= |s| && AllIn(s, i, b, cls)
    requires b < |s| && !In(cls, s[b])
    ensures RunEnd(s, i, cls) == b
  {
    RunEndCovers(s, i, b, cls);
  }

  // ---------------------------------------------------------------------------
  // The patterns
  // ---------------------------------------------------------------------------

  /** `label\s*([\d\.]+)suffix`, or `label\s*inner\s*([\d\.]+)suffix` when `inner` is given. */
  datatype Pattern = Pattern(lead: string, inner: Option<string>, suffix: string)

  /** A pattern on which greedy matching is forced: what follows each run cannot continue it. */
  predicate Forced(pat: Pattern) {
    && |pat.lead| > 0
    && (pat.inner.Some? ==> |pat.inner.value| > 0 && !IsSpace(pat.inner.value[0]))
    && (|pat.suffix| > 0 ==> !IsNumChar(pat.suffix[0]))
  }

  /**
   * One way the regular expression can match: the label at `start`, whitespace up to
   * `gap`, the inner text and more whitespace up to `group`, the captured digits and dots
   * up to `end`, then the suffix.
   */
  datatype Deriv = Deriv(start: nat, gap: nat, group: nat, end: nat)

  /** `d` is a match of `pat` in `s`. */
  predicate Derives(s: string, pat: Pattern, d: Deriv) {
    && OccursAt(s, pat.lead, d.start)
    && AllIn(s, d.start + |pat.lead|, d.gap, Space)
    && (match pat.inner
        case None => d.group == d.gap
        case Some(m) => OccursAt(s, m, d.gap) && AllIn(s, d.gap + |m|, d.group, Space))
    && d.group < d.end && AllIn(s, d.group, d.end, Num)
    && OccursAt(s, pat.suffix, d.end)
  }

  /** Where the capture starts: after the whitespace, or after the inner text and its whitespace. */
  function GroupStart(s: string, pat: Pattern, gap: nat): (r: Option<nat>)
    requires gap <= |s|
    ensures r.Some? ==> gap <= r.value <= |s|
  {
    match pat.inner
    case None => Some(gap)
    case Some(m) => if OccursAt(s, m, gap) then Some(RunEnd(s, gap + |m|, Space)) else None
  }

  /** The matcher at one start: every run taken as far as it goes. */
  function MatchAt(s: string, pat: Pattern, i: nat): Option<Deriv> {
    if !OccursAt(s, pat.lead, i) then None
    else MatchAfterGap(s, pat, i, RunEnd(s, i + |pat.lead|, Space))
  }

  /** The rest of the match once the first whitespace run ends at `gap`. */
  function MatchAfterGap(s: string, pat: Pattern, i: nat, gap: nat): Option<Deriv>
    requires gap <= |s|
  {
    match GroupStart(s, pat, gap)
    case None => None
    case Some(group) => MatchCapture(s, pat, i, gap, group, RunEnd(s, group, Num))
  }

  /** The capture runs from `group` to `end`; it must be non-empty and followed by the suffix. */
  function MatchCapture(s: string, pat: Pattern, i: nat, gap: nat, group: nat, end: nat): Option<Deriv> {
    if group < end && OccursAt(s, pat.suffix, end) then Some(Deriv(i, gap, group, end)) else None
  }

  /** What the matcher returns is a match starting where it was asked to. */
  lemma MatchAtSound(s: string, pat: Pattern, i: nat)
    requires MatchAt(s, pat, i).Some?
    ensures Derives(s, pat, MatchAt(s, pat, i).value) && MatchAt(s, pat, i).value.start == i
  {
  }

  /** Any match is found by the matcher at its start, with the same runs and a capture at least as long. */
  lemma MatchAtGreedy(s: string, pat: Pattern, d: Deriv)
    requires Forced(pat) && Derives(s, pat, d)
    ensures MatchAt(s, pat, d.start).Some?
    ensures var e := MatchAt(s, pat, d.start).value;
      e.gap == d.gap && e.group == d.group && d.end <= e.end
    ensures |pat.suffix| > 0 ==> MatchAt(s, pat, d.start).value.end == d.end
  {
    GapForced(s, pat, d);
    GroupForced(s, pat, d);
    MatchAtRuns(s, pat, d.start, d.gap, d.group);
    RunEndCovers(s, d.group, d.end, Num);
    if |pat.suffix| > 0 {
      assert s[d.end..d.end + |pat.suffix|][0] == s[d.end];
      RunEndStops(s, d.group, d.end, Num);
    }
  }

  /** Once the label and the runs before the capture are placed, the matcher only tries the capture. */
  lemma MatchAtRuns(s: string, pat: Pattern, i: nat, gap: nat, group: nat)
    requires OccursAt(s, pat.lead, i) && RunEnd(s, i + |pat.lead|, Space) == gap
    requires GroupStart(s, pat, gap) == Some(group)
    ensures MatchAt(s, pat, i) == MatchCapture(s, pat, i, gap, group, RunEnd(s, group, Num))
  {
    MatchAtLead(s, pat, i, gap);
    MatchAfterGroup(s, pat, i, gap, group);
  }

  lemma MatchAtLead(s: string, pat: Pattern, i: nat, gap: nat)
    requires OccursAt(s, pat.lead, i) && RunEnd(s, i + |pat.lead|, Space) == gap
    ensures MatchAt(s, pat, i) == MatchAfterGap(s, pat, i, gap)
  {
  }

  lemma MatchAfterGroup(s: string, pat: Pattern, i: nat, gap: nat, group: nat)
    requires gap <= |s| && GroupStart(s, pat, gap) == Some(group)
    ensures MatchAfterGap(s, pat, i, gap) == MatchCapture(s, pat, i, gap, group, RunEnd(s, group, Num))
  {
  }

  /** The first whitespace run of a match is the maximal one. */
  lemma GapForced(s: string, pat: Pattern, d: Deriv)
    requires Forced(pat) && Derives(s, pat, d)
    ensures RunEnd(s, d.start + |pat.lead|, Space) == d.gap
  {
    match pat.inner
    case None =>
      assert IsNumChar(s[d.group]);
      RunEndStops(s, d.start + |pat.lead|, d.gap, Space);
    case Some(m) =>
      assert s[d.gap..d.gap + |m|][0] == s[d.gap];
      RunEndStops(s, d.start + |pat.lead|, d.gap, Space);
  }

  /** The capture of a match starts where the matcher starts it. */
  lemma GroupForced(s: string, pat: Pattern, d: Deriv)
    requires Forced(pat) && Derives(s, pat, d)
    ensures GroupStart(s, pat, d.gap) == Some(d.group)
  {
    if pat.inner.Some? {
      var m := pat.inner.value;
      assert IsNumChar(s[d.group]);
      RunEndStops(s, d.gap + |m|, d.group, Space);
    }
  }

  /** `re.search`: the first start, from `i` on, at which the pattern matches. */
  function SearchFrom(s: string, pat: Pattern, i: nat): Option<Deriv>
    decreases |s| + 1 - i
  {
    if i > |s| then None
    else
      match MatchAt(s, pat, i)
      case Some(d) => Some(d)
      case None => SearchFrom(s, pat, i + 1)
  }

  function Search(s: string, pat: Pattern): Option<Deriv> {
    SearchFrom(s, pat, 0)
  }

  /** The search from `i` returns the leftmost match at or after `i`, with the longest capture there. */
  lemma {:induction false} SearchFromLeftmost(s: string, pat: Pattern, i: nat)
    requires Forced(pat)
    ensures SearchFrom(s, pat, i).Some? ==>
      Derives(s, pat, SearchFrom(s, pat, i).value) && SearchFrom(s, pat, i).value.start >= i
    ensures SearchFrom(s, pat, i).Some? ==> forall d :: Derives(s, pat, d) && d.start >= i ==>
      Earlier(SearchFrom(s, pat, i).value, d)
    ensures SearchFrom(s, pat, i).None? ==> forall d :: Derives(s, pat, d) ==> d.start < i
    decreases |s| + 1 - i
  {
    if i <= |s| {
      match MatchAt(s, pat, i)
      case Some(e) =>
        MatchAtSound(s, pat, i);
        forall d | Derives(s, pat, d) && d.start >= i ensures Earlier(e, d) {
          if d.start == i {
            MatchAtGreedy(s, pat, d);
          }
        }
      case None =>
        SearchFromLeftmost(s, pat, i + 1);
        forall d | Derives(s, pat, d) && d.start >= i ensures d.start >= i + 1 {
          if d.start == i {
            MatchAtGreedy(s, pat, d);
          }
        }
    }
  }

  /** `e` is preferred to `d`: it starts earlier, or at the same place with the same runs and a capture at least as long. */
  predicate Earlier(e: Deriv, d: Deriv) {
    e.start < d.start || (e.start == d.start && e.gap == d.gap && e.group == d.group && d.end <= e.end)
  }

  /** `d` is a match, and the one the regular expression prefers over every other. */
  ghost predicate Preferred(s: string, pat: Pattern, d: Deriv) {
    Derives(s, pat, d) && forall d' :: Derives(s, pat, d') ==> Earlier(d, d')
  }

  /**
   * `re.search(pattern, content)`: a result is a match, every other match starts later or
   * captures no more at the same start, and there is no result exactly when nothing matches.
   */
  lemma SearchIsLeftmostLongest(s: string, pat: Pattern)
    requires Forced(pat)
    ensures Search(s, pat).Some? ==> Preferred(s, pat, Search(s, pat).value)
    ensures Search(s, pat).None? <==> forall d :: !Derives(s, pat, d)
  {
    SearchFromLeftmost(s, pat, 0);
  }

  /** `m.group(1)` when the search matched, else the default ''. */
  function Capture(s: string, pat: Pattern): (r: string)
    ensures r == "" || (|r| > 0 && forall k :: 0 <= k < |r| ==> IsNumChar(r[k]))
  {
    match Search(s, pat)
    case None => ""
    case Some(d) =>
      if Derives(s, pat, d) then
        assert forall k :: 0 <= k < d.end - d.group ==> s[d.group..d.end][k] == s[d.group + k];
        s[d.group..d.end]
      else ""
  }

  /** The capture is the text of the leftmost-longest match, and '' exactly when nothing matches. */
  lemma CaptureIsMatch(s: string, pat: Pattern)
    requires Forced(pat)
    ensures Capture(s, pat) == "" <==> forall d :: !Derives(s, pat, d)
    ensures Capture(s, pat) != "" ==> Search(s, pat).Some? && Preferred(s, pat, Search(s, pat).value)
    ensures Capture(s, pat) != "" ==> Capture(s, pat) == s[Search(s, pat).value.group..Search(s, pat).value.end]
  {
    SearchIsLeftmostLongest(s, pat);
    if Search(s, pat).Some? {
      var d := Search(s, pat).value;
      assert |s[d.group..d.end]| > 0;
    }
  }

  // ---------------------------------------------------------------------------
  // parse_sysbench_fileio and main
  // ---------------------------------------------------------------------------

  /** `r'reads/s:\s*([\d\.]+)'` and the others with a plain label. */
  function Plain(lead: string): Pattern { Pattern(lead, None, "") }

  /** `r'Latency \(ms\):\s*min:\s*([\d\.]+)'`. */
  const LATENCY_MIN: Pattern := Pattern("Latency (ms):", Some("min:"), "")

  /** `r'total time:\s*([\d\.]+)s'`. */
  const TOTAL_TIME: Pattern := Pattern("total time:", None, "s")

  /** The keys of `data` with their patterns, in the order of the dict and of `header`. */
  const FIELDS: seq<(string, Pattern)> := [
    ("reads_per_s", Plain("reads/s:")),
    ("writes_per_s", Plain("writes/s:")),
    ("fsyncs_per_s", Plain("fsyncs/s:")),
    ("read_MBps", Plain("read, MiB/s:")),
    ("written_MBps", Plain("written, MiB/s:")),
    ("latency_min_ms", LATENCY_MIN),
    ("latency_avg_ms", Plain("avg:")),
    ("latency_max_ms", Plain("max:")),
    ("latency_95pct_ms", Plain("95th percentile:")),
    ("total_time_s", TOTAL_TIME),
    ("total_events", Plain("total number of events:"))]

  /** `header` in `main`. */
  const HEADER: seq<string> := [
    "reads_per_s", "writes_per_s", "fsyncs_per_s",
    "read_MBps", "written_MBps",
    "latency_min_ms", "latency_avg_ms", "latency_max_ms", "latency_95pct_ms",
    "total_time_s", "total_events"]

  /** Every pattern of the script is one on which greedy matching is forced. */
  lemma FieldsForced()
    ensures forall k :: 0 <= k < |FIELDS| ==> Forced(FIELDS[k].1)
  {
  }

  /** The header lists the dict's keys in the dict's order, each once. */
  lemma HeaderIsKeys()
    ensures |HEADER| == |FIELDS| == 11
    ensures forall k :: 0 <= k < |FIELDS| ==> HEADER[k] == FIELDS[k].0
    ensures forall i, j :: 0 <= i < j < |HEADER| ==> HEADER[i] != HEADER[j]
  {
  }

  /** `parse_sysbench_fileio(content)`: every key of `data`, with its capture or ''. */
  function ParseFileio(content: string): (data: seq<(string, string)>)
    ensures |data| == |FIELDS|
    ensures forall k :: 0 <= k < |data| ==> data[k].0 == FIELDS[k].0
  {
    seq(|FIELDS|, k requires 0 <= k < |FIELDS| => (FIELDS[k].0, Capture(content, FIELDS[k].1)))
  }

  /**
   * A field is '' exactly when its pattern matches nowhere, and otherwise it is the
   * capture of the leftmost match.
   */
  lemma FieldValues(content: string, k: nat)
    requires k < |FIELDS|
    ensures ParseFileio(content)[k].1 == "" <==> forall d :: !Derives(content, FIELDS[k].1, d)
    ensures ParseFileio(content)[k].1 != "" ==> Search(content, FIELDS[k].1).Some?
    ensures ParseFileio(content)[k].1 != "" ==> var d := Search(content, FIELDS[k].1).value;
      Preferred(content, FIELDS[k].1, d) && ParseFileio(content)[k].1 == content[d.group..d.end]
  {
    FieldsForced();
    CaptureIsMatch(content, FIELDS[k].1);
  }

  /** `writer.writerow(data)`: the values in header order, comma-separated, ended by "\r\n". */
  function Row(content: string): (line: string)
    ensures |line| >= 2 && line[|line| - 2..] == "\r\n"
  {
    var data := ParseFileio(content);
    Join(seq(|HEADER|, k requires 0 <= k < |HEADER| => data[k].1), ",") + "\r\n"
  }

  /** The values of a row, as a CSV reader splits it back; none needs quoting. */
  lemma RowReadsBack(content: string)
    ensures var line := Row(content);
      Split(line[..|line| - 2], ',') == seq(|FIELDS|, k requires 0 <= k < |FIELDS| => ParseFileio(content)[k].1)
  {
    var data := ParseFileio(content);
    var values := seq(|HEADER|, k requires 0 <= k < |HEADER| => data[k].1);
    forall k | 0 <= k < |values| ensures ',' !in values[k] {
      assert !IsNumChar(',');
    }
    SplitJoin(values, ',');
    var line := Row(content);
    assert line[..|line| - 2] == Join(values, ",");
  }
}

=== FILE: text.dfy ===
/**
 * Text primitives the Python scripts rely on, each given the meaning Python gives it:
 * substring search (`sub in s`, `str.find`), `str.split(sep)` on one character,
 * `str.split()` on runs of whitespace, `str.strip()`, `"".join`, and `int(s)` /
 * `int(s, 16)` together with the decimal and hexadecimal renderings they invert.
 */
module Text {
  import opened Wrappers

  /** The characters Python's `str.split()` and `str.strip()` treat as whitespace (ASCII only). */
  predicate IsSpace(c: char) {
    c == ' ' || c == '\t' || c == '\n' || c == '\r' || c == '\U{0B}' || c == '\U{0C}'
  }

  predicate IsNonSpace(c: char) { !IsSpace(c) }

  predicate IsDigit(c: char) { '0' <= c <= '9' }

  predicate IsHexDigit(c: char) { IsDigit(c) || 'a' <= c <= 'f' || 'A' <= c <= 'F' }

  predicate AllDigits(s: string) { forall k :: 0 <= k < |s| ==> IsDigit(s[k]) }

  predicate AllHexDigits(s: string) { forall k :: 0 <= k < |s| ==> IsHexDigit(s[k]) }

  predicate NoSpace(s: string) { forall k :: 0 <= k < |s| ==> !IsSpace(s[k]) }

  predicate AllSpace(s: string) { forall k :: 0 <= k < |s| ==> IsSpace(s[k]) }

  /** Non-empty text that neither starts nor ends with whitespace. */
  predicate Trimmed(s: string) { |s| > 0 && !IsSpace(s[0]) && !IsSpace(s[|s| - 1]) }

  // ---------------------------------------------------------------------------
  // Substring search
  // ---------------------------------------------------------------------------

  /** `sub` occurs in `s` starting at index `i`. */
  predicate OccursAt(s: string, sub: string, i: nat) {
    i + |sub| <= |s| && s[i..i + |sub|] == sub
  }

  /** Python's `sub in s`. */
  predicate Contains(s: string, sub: string) {
    exists i | 0 <= i <= |s| :: OccursAt(s, sub, i)
  }

  /** The leftmost occurrence of `sub` in `s` at or after `from`. */
  function FindFrom(s: string, sub: string, from: nat): (r: Option<nat>)
    ensures r.Some? ==> from <= r.value && OccursAt(s, sub, r.value)
    ensures r.Some? ==> forall j :: from <= j < r.value ==> !OccursAt(s, sub, j)
    ensures r.None? ==> forall j: nat :: from <= j ==> !OccursAt(s, sub, j)
    decreases |s| - from
  {
    if from + |sub| > |s| then None
    else if s[from..from + |sub|] == sub then Some(from)
    else FindFrom(s, sub, from + 1)
  }

  /** Python's `s.find(sub)`, as an option instead of -1. */
  function Find(s: string, sub: string): Option<nat> {
    FindFrom(s, sub, 0)
  }

  lemma FindIffContains(s: string, sub: string)
    ensures Find(s, sub).Some? <==> Contains(s, sub)
  {
    if Find(s, sub).None? {
      forall i | 0 <= i <= |s| ensures !OccursAt(s, sub, i) {
      }
    }
  }

  /** Whether any of `subs` is a substring of `s`. */
  predicate ContainsAny(s: string, subs: seq<string>) {
    exists k | 0 <= k < |subs| :: Contains(s, subs[k])
  }

  // ---------------------------------------------------------------------------
  // Splitting on one character and joining back
  // ---------------------------------------------------------------------------

  /** `sep.join(parts)`. */
  function Join(parts: seq<string>, sep: string): string {
    if |parts| == 0 then []
    else if |parts| == 1 then parts[0]
    else parts[0] + sep + Join(parts[1..], sep)
  }

  /** Python's `s.split(c)` for a one-character separator: never an empty list. */
  function Split(s: string, c: char): (r: seq<string>)
    ensures |r| >= 1
    decreases |s|
  {
    if |s| == 0 then [[]]
    else
      var rest := Split(s[1..], c);
      if s[0] == c then [[]] + rest else [[s[0]] + rest[0]] + rest[1..]
  }

  /** No piece holds the separator. */
  lemma {:induction false} SplitPieces(s: string, c: char)
    ensures forall k :: 0 <= k < |Split(s, c)| ==> c !in Split(s, c)[k]
    decreases |s|
  {
    if |s| > 0 {
      SplitPieces(s[1..], c);
      var rest := Split(s[1..], c);
      if s[0] != c {
        assert c !in [s[0]] + rest[0];
      }
    }
  }

  /** Joining the pieces with the separator gives the text back. */
  lemma {:induction false} JoinSplit(s: string, c: char)
    ensures Join(Split(s, c), [c]) == s
    decreases |s|
  {
    if |s| > 0 {
      var rest := Split(s[1..], c);
      JoinSplit(s[1..], c);
      assert s == [s[0]] + s[1..];
      if s[0] != c && |rest| > 1 {
        assert Join(rest, [c]) == rest[0] + [c] + Join(rest[1..], [c]);
      }
    }
  }

  /** Text without the separator is a single piece. */
  lemma {:induction false} SplitNoSeparator(a: string, c: char)
    requires c !in a
    ensures Split(a, c) == [a]
    decreases |a|
  {
    if |a| > 0 {
      assert c !in a[1..] by {
        assert forall k :: 0 <= k < |a[1..]| ==> a[1..][k] == a[k + 1];
      }
      SplitNoSeparator(a[1..], c);
      assert a == [a[0]] + a[1..];
    }
  }

  /** The first piece of a split is everything before the first separator. */
  lemma {:induction false} SplitAtFirst(a: string, c: char, b: string)
    requires c !in a
    ensures Split(a + [c] + b, c) == [a] + Split(b, c)
    decreases |a|
  {
    var s := a + [c] + b;
    if |a| == 0 {
      assert s == [c] + b;
      assert s[1..] == b;
    } else {
      assert s[1..] == a[1..] + [c] + b;
      assert c !in a[1..] by {
        assert forall k :: 0 <= k < |a[1..]| ==> a[1..][k] == a[k + 1];
      }
      SplitAtFirst(a[1..], c, b);
      assert a == [a[0]] + a[1..];
    }
  }

  /** Splitting what `Join` produced gives the parts back, when no part holds the separator. */
  lemma {:induction false} SplitJoin(parts: seq<string>, c: char)
    requires |parts| >= 1
    requires forall k :: 0 <= k < |parts| ==> c !in parts[k]
    ensures Split(Join(parts, [c]), c) == parts
    decreases |parts|
  {
    if |parts| == 1 {
      assert Join(parts, [c]) == parts[0];
      SplitNoSeparator(parts[0], c);
    } else {
      var tail := Join(parts[1..], [c]);
      assert Join(parts, [c]) == parts[0] + [c] + tail;
      SplitAtFirst(parts[0], c, tail);
      SplitJoin(parts[1..], c);
      assert parts == [parts[0]] + parts[1..];
    }
  }

  /** A join cut before part `i`: the parts in front, the separator, and the parts from `i` on. */
  lemma {:induction false} JoinAt(parts: seq<string>, sep: string, i: nat)
    requires 0 < i < |parts|
    ensures Join(parts, sep) == Join(parts[..i], sep) + sep + Join(parts[i..], sep)
    decreases i
  {
    if i > 1 {
      JoinAt(parts[1..], sep, i - 1);
      assert parts[1..][..i - 1] == parts[..i][1..];
      assert parts[1..][i - 1..] == parts[i..];
    } else {
      assert parts[..1] == [parts[0]];
    }
  }

  /** A character in neither the parts nor the separator is not in their join. */
  lemma {:induction false} NotInJoin(parts: seq<string>, sep: string, c: char)
    requires c !in sep && forall k :: 0 <= k < |parts| ==> c !in parts[k]
    ensures c !in Join(parts, sep)
    decreases |parts|
  {
    if |parts| > 1 {
      assert forall k :: 1 <= k < |parts| ==> parts[k] == parts[1..][k - 1];
      NotInJoin(parts[1..], sep, c);
    }
  }

  // ---------------------------------------------------------------------------
  // Maximal runs, whitespace words and stripping
  // ---------------------------------------------------------------------------

  /** The length of the longest prefix of `s` whose characters all satisfy `p`. */
  function Span(s: string, p: char -> bool): (n: nat)
    ensures n <= |s|
    ensures forall k :: 0 <= k < n ==> p(s[k])
    ensures n < |s| ==> !p(s[n])
  {
    if |s| == 0 || !p(s[0]) then 0 else 1 + Span(s[1..], p)
  }

  /** A prefix made of `p`-characters and followed by a non-`p` character (or nothing) is the whole span. */
  lemma SpanOfConcat(a: string, b: string, p: char -> bool)
    requires forall k :: 0 <= k < |a| ==> p(a[k])
    requires |b| == 0 || !p(b[0])
    ensures Span(a + b, p) == |a|
  {
    SpanAppend(a, b, p);
  }

  /** Python's `s.split()`: the maximal runs of non-whitespace, in order. */
  function Words(s: string): (r: seq<string>)
    ensures forall k :: 0 <= k < |r| ==> |r[k]| > 0 && NoSpace(r[k])
    decreases |s|
  {
    var t := s[Span(s, IsSpace)..];
    if |t| == 0 then []
    else
      assert IsNonSpace(t[0]);
      var n := Span(t, IsNonSpace);
      var w := t[..n];
      assert |w| > 0 && forall k :: 0 <= k < |w| ==> IsNonSpace(w[k]);
      [w] + Words(t[n..])
  }

  /** A prefix of `p`-characters adds its length to the span of what follows. */
  lemma {:induction false} SpanAppend(a: string, b: string, p: char -> bool)
    requires forall k :: 0 <= k < |a| ==> p(a[k])
    ensures Span(a + b, p) == |a| + Span(b, p)
    decreases |a|
  {
    if |a| > 0 {
      assert (a + b)[1..] == a[1..] + b;
      SpanAppend(a[1..], b, p);
    } else {
      assert a + b == b;
    }
  }

  /** Leading whitespace never changes the words of a string. */
  lemma WordsSkipSpace(gap: string, s: string)
    requires forall k :: 0 <= k < |gap| ==> IsSpace(gap[k])
    ensures Words(gap + s) == Words(s)
  {
    SpanAppend(gap, s, IsSpace);
    assert (gap + s)[Span(gap + s, IsSpace)..] == s[Span(s, IsSpace)..];
  }

  /** A word followed by whitespace (or nothing) is the first word. */
  lemma WordsOfWord(w: string, rest: string)
    requires 0 < |w| && NoSpace(w)
    requires |rest| == 0 || IsSpace(rest[0])
    ensures Words(w + rest) == [w] + Words(rest)
  {
    var s := w + rest;
    assert s[0] == w[0];
    SpanOfConcat([], s, IsSpace);
    assert s[0..] == s;
    SpanOfConcat(w, rest, IsNonSpace);
    assert s[..|w|] == w && s[|w|..] == rest;
  }

  /** Whitespace, a word, then whitespace (or nothing): the word comes first. */
  lemma WordsOfSpacedWord(gap: string, w: string, rest: string)
    requires AllSpace(gap)
    requires 0 < |w| && NoSpace(w)
    requires |rest| == 0 || IsSpace(rest[0])
    ensures Words(gap + w + rest) == [w] + Words(rest)
  {
    assert gap + w + rest == gap + (w + rest);
    WordsSkipSpace(gap, w + rest);
    WordsOfWord(w, rest);
  }

  /** Words separated by runs of whitespace are read back one for one. */
  lemma {:induction false} WordsOfJoin(ws: seq<string>, gap: string)
    requires forall k :: 0 <= k < |ws| ==> |ws[k]| > 0 && NoSpace(ws[k])
    requires |gap| > 0 && forall k :: 0 <= k < |gap| ==> IsSpace(gap[k])
    ensures Words(Join(ws, gap)) == ws
    decreases |ws|
  {
    if |ws| > 0 {
      var s := Join(ws, gap);
      var rest := if |ws| == 1 then [] else gap + Join(ws[1..], gap);
      assert s == ws[0] + rest;
      SpanOfConcat([], s, IsSpace);
      assert s[0..] == s;
      SpanOfConcat(ws[0], rest, IsNonSpace);
      assert s[..|ws[0]|] == ws[0];
      assert s[|ws[0]|..] == rest;
      if |ws| > 1 {
        WordsSkipSpace(gap, Join(ws[1..], gap));
        WordsOfJoin(ws[1..], gap);
      }
      assert ws == [ws[0]] + ws[1..];
    }
  }

  /** Python's `s.lstrip()`. */
  function LStrip(s: string): string {
    s[Span(s, IsSpace)..]
  }

  /** Python's `s.rstrip()`. */
  function RStrip(s: string): (r: string)
    ensures |r| <= |s| && r == s[..|r|]
    ensures |r| == 0 || !IsSpace(r[|r| - 1])
    ensures forall k :: |r| <= k < |s| ==> IsSpace(s[k])
  {
    if |s| == 0 || !IsSpace(s[|s| - 1]) then s else RStrip(s[..|s| - 1])
  }

  /** Python's `s.strip()`: a contiguous slice of `s`, whitespace removed from both ends only. */
  function Strip(s: string): (r: string)
    ensures |r| <= |s|
    ensures |r| == 0 || (!IsSpace(r[0]) && !IsSpace(r[|r| - 1]))
  {
    RStrip(LStrip(s))
  }

  /** Text without whitespace at either end is left alone by `Strip`. */
  lemma StripTrimmed(s: string)
    requires |s| == 0 || (!IsSpace(s[0]) && !IsSpace(s[|s| - 1]))
    ensures Strip(s) == s
  {
    assert Span(s, IsSpace) == 0;
    assert s[0..] == s;
  }

  /** Trailing whitespace after text that ends in a non-space is what `RStrip` removes. */
  lemma {:induction false} RStripSpaces(t: string, post: string)
    requires |t| > 0 && !IsSpace(t[|t| - 1]) && AllSpace(post)
    ensures RStrip(t + post) == t
    decreases |post|
  {
    if |post| == 0 {
      assert t + post == t;
    } else {
      var s := t + post;
      assert s[|s| - 1] == post[|post| - 1];
      assert s[..|s| - 1] == t + post[..|post| - 1];
      RStripSpaces(t, post[..|post| - 1]);
    }
  }

  /** Whitespace on both sides of trimmed text is what `Strip` removes. */
  lemma StripSurrounded(pre: string, t: string, post: string)
    requires AllSpace(pre) && AllSpace(post) && Trimmed(t)
    ensures Strip(pre + t + post) == t
  {
    var s := pre + t + post;
    assert s == pre + (t + post);
    SpanAppend(pre, t + post, IsSpace);
    assert (t + post)[0] == t[0];
    assert s[|pre|..] == t + post;
    RStripSpaces(t, post);
  }

  /** Leading whitespace before trimmed text is what `Strip` removes. */
  lemma StripPadded(pre: string, t: string)
    requires AllSpace(pre) && Trimmed(t)
    ensures Strip(pre + t) == t
  {
    StripSurrounded(pre, t, []);
    assert pre + t + [] == pre + t;
  }

  /** `s` with every character of `drop` removed (chained `str.replace(c, "")`). */
  function RemoveChars(s: string, drop: set<char>): (r: string)
    ensures forall k :: 0 <= k < |r| ==> r[k] !in drop
    ensures |r| <= |s|
  {
    if |s| == 0 then []
    else if s[0] in drop then RemoveChars(s[1..], drop)
    else [s[0]] + RemoveChars(s[1..], drop)
  }

  /** Removing characters works piece by piece. */
  lemma {:induction false} RemoveCharsAppend(a: string, b: string, drop: set<char>)
    ensures RemoveChars(a + b, drop) == RemoveChars(a, drop) + RemoveChars(b, drop)
    decreases |a|
  {
    if |a| > 0 {
      assert (a + b)[1..] == a[1..] + b;
      assert (a + b)[0] == a[0];
      RemoveCharsAppend(a[1..], b, drop);
    } else {
      assert a + b == b;
    }
  }

  /** Text without any of the characters is left as it is. */
  lemma {:induction false} RemoveCharsNone(s: string, drop: set<char>)
    requires forall k :: 0 <= k < |s| ==> s[k] !in drop
    ensures RemoveChars(s, drop) == s
    decreases |s|
  {
    if |s| > 0 {
      RemoveCharsNone(s[1..], drop);
    }
  }

  /** Two removals in a row are one removal of both sets. */
  lemma {:induction false} RemoveCharsTwice(s: string, a: set<char>, b: set<char>)
    ensures RemoveChars(RemoveChars(s, a), b) == RemoveChars(s, a + b)
    decreases |s|
  {
    if |s| > 0 {
      RemoveCharsTwice(s[1..], a, b);
    }
  }

  /** `c * n` in Python: `n` copies of `c`, empty for a negative count. */
  function Repeat(c: char, n: int): (r: string)
    ensures |r| == if n < 0 then 0 else n
    ensures forall k :: 0 <= k < |r| ==> r[k] == c
    decreases if n < 0 then 0 else n
  {
    if n <= 0 then [] else [c] + Repeat(c, n - 1)
  }

  // ---------------------------------------------------------------------------
  // Decimal numbers
  // ---------------------------------------------------------------------------

  function DigitValue(c: char): nat
    requires IsDigit(c)
  {
    c as int - '0' as int
  }

  function DigitChar(d: nat): (c: char)
    requires d < 10
    ensures IsDigit(c) && DigitValue(c) == d
  {
    ('0' as int + d) as char
  }

  /** The value of a string of decimal digits, most significant first. */
  function DecValue(s: string): nat
    requires AllDigits(s)
  {
    if |s| == 0 then 0 else 10 * DecValue(s[..|s| - 1]) + DigitValue(s[|s| - 1])
  }

  /** `str(n)` for a natural number. */
  function NatToDec(n: nat): (r: string)
    ensures |r| >= 1 && AllDigits(r)
    ensures DecValue(r) == n
    ensures r[0] == '0' ==> n == 0
  {
    if n < 10 then [DigitChar(n)]
    else
      var r := NatToDec(n / 10) + [DigitChar(n % 10)];
      assert r[..|r| - 1] == NatToDec(n / 10);
      r
  }

  /** `str(i)` for any integer. */
  function IntToDec(i: int): (r: string)
    ensures |r| >= 1
  {
    if i < 0 then "-" + NatToDec(-i) else NatToDec(i)
  }

  /** A non-empty run of decimal digits read as a number; anything else fails like `int()`. */
  function ParseNat(s: string): (r: Option<nat>)
    ensures r.Some? <==> |s| > 0 && AllDigits(s)
  {
    if |s| > 0 && AllDigits(s) then Some(DecValue(s)) else None
  }

  lemma ParseNatToDec(n: nat)
    ensures ParseNat(NatToDec(n)) == Some(n)
  {
  }

  /** Python's `int(s)` in base 10: surrounding whitespace, an optional sign, then digits. */
  function ParseInt(s: string): (r: Option<int>)
    ensures r.Some? ==> |Strip(s)| > 0
  {
    SignedDecimal(Strip(s))
  }

  /** An optional sign, then at least one decimal digit and nothing else. */
  function SignedDecimal(t: string): (r: Option<int>)
    ensures r.Some? ==> |t| > 0
  {
    var signed := |t| > 0 && (t[0] == '-' || t[0] == '+');
    match ParseNat(if signed then t[1..] else t)
    case None => None
    case Some(n) =>
      var v: int := if signed && t[0] == '-' then -(n as int) else n;
      Some(v)
  }

  /** `int(str(i)) == i`. */
  lemma ParseIntToDec(i: int)
    ensures ParseInt(IntToDec(i)) == Some(i)
  {
    if i < 0 {
      ParseIntNegative(NatToDec(-i));
    } else {
      ParseIntUnsigned(NatToDec(i));
    }
  }

  lemma ParseIntNegative(d: string)
    requires |d| >= 1 && AllDigits(d)
    ensures ParseInt("-" + d) == Some(-(DecValue(d) as int))
  {
    NegativeTrimmed(d);
    NegativeDecimal(d);
  }

  lemma NegativeTrimmed(d: string)
    requires |d| >= 1 && AllDigits(d)
    ensures Strip("-" + d) == "-" + d
  {
    var s := "-" + d;
    assert s[|s| - 1] == d[|d| - 1];
    assert IsDigit(d[|d| - 1]);
    StripTrimmed(s);
  }

  lemma NegativeDecimal(d: string)
    requires |d| >= 1 && AllDigits(d)
    ensures SignedDecimal("-" + d) == Some(-(DecValue(d) as int))
  {
    var s := "-" + d;
    assert s[0] == '-' && s[1..] == d;
  }

  lemma ParseIntUnsigned(d: string)
    requires |d| >= 1 && AllDigits(d)
    ensures ParseInt(d) == Some(DecValue(d) as int)
  {
    assert Strip(d) == d by {
      assert IsDigit(d[0]) && IsDigit(d[|d| - 1]);
      StripTrimmed(d);
    }
    UnsignedDecimal(d);
  }

  /** Digits without a sign read as their decimal value. */
  lemma UnsignedDecimal(d: string)
    requires |d| >= 1 && AllDigits(d)
    ensures SignedDecimal(d) == Some(DecValue(d) as int)
  {
    assert IsDigit(d[0]);
    assert ParseNat(d) == Some(DecValue(d));
  }

  // ---------------------------------------------------------------------------
  // Hexadecimal numbers
  // ---------------------------------------------------------------------------

  function HexDigitValue(c: char): (v: nat)
    requires IsHexDigit(c)
    ensures v < 16
  {
    if IsDigit(c) then c as int - '0' as int
    else if 'a' <= c <= 'f' then c as int - 'a' as int + 10
    else c as int - 'A' as int + 10
  }

  /** The lower-case hexadecimal digit for `d`. */
  function HexDigitChar(d: nat): (c: char)
    requires d < 16
    ensures IsHexDigit(c) && HexDigitValue(c) == d
    ensures IsDigit(c) || 'a' <= c <= 'f'
  {
    if d < 10 then ('0' as int + d) as char else ('a' as int + d - 10) as char
  }

  function HexValue(s: string): nat
    requires AllHexDigits(s)
  {
    if |s| == 0 then 0 else 16 * HexValue(s[..|s| - 1]) + HexDigitValue(s[|s| - 1])
  }

  /** Lower-case hexadecimal rendering without prefix (the `%lx` of a kernel address). */
  function NatToHex(n: nat): (r: string)
    ensures |r| >= 1 && AllHexDigits(r)
    ensures forall k :: 0 <= k < |r| ==> IsDigit(r[k]) || 'a' <= r[k] <= 'f'
    ensures HexValue(r) == n
  {
    if n < 16 then [HexDigitChar(n)]
    else
      var r := NatToHex(n / 16) + [HexDigitChar(n % 16)];
      assert r[..|r| - 1] == NatToHex(n / 16);
      r
  }

  /**
   * Python's `int(s, 16)` for non-negative input: surrounding whitespace, an optional
   * `0x`/`0X` prefix, then at least one hexadecimal digit of either case.
   */
  function ParseHex(s: string): (r: Option<nat>)
    ensures r.Some? ==> |Strip(s)| > 0
  {
    HexBody(Strip(s))
  }

  /** An optional `0x`/`0X` prefix, then at least one hexadecimal digit and nothing else. */
  function HexBody(t: string): (r: Option<nat>)
    ensures r.Some? ==> |t| > 0
  {
    var digits := if |t| >= 2 && t[0] == '0' && (t[1] == 'x' || t[1] == 'X') then t[2..] else t;
    if |digits| > 0 && AllHexDigits(digits) then Some(HexValue(digits)) else None
  }

  /** Python's `int(s, 16)`: as `ParseHex`, with an optional sign before the prefix. */
  function ParseHexInt(s: string): (r: Option<int>)
    ensures ParseHex(s).Some? ==> r == Some(ParseHex(s).value as int)
  {
    var t := Strip(s);
    var signed := |t| > 0 && (t[0] == '-' || t[0] == '+');
    match HexBody(if signed then t[1..] else t)
    case None => None
    case Some(n) =>
      var v: int := if signed && t[0] == '-' then -(n as int) else n;
      Some(v)
  }

  /** `int("0x" + h, 16)` and `int(h, 16)` both read back what `NatToHex` wrote. */
  lemma ParseHexToHex(n: nat)
    ensures ParseHex(NatToHex(n)) == Some(n)
    ensures ParseHex("0x" + NatToHex(n)) == Some(n)
  {
    var h := NatToHex(n);
    HexTrimmed(h);
    ParseHexDigits(h);
    var p := "0x" + h;
    assert p[2..] == h;
    assert p[|p| - 1] == h[|h| - 1];
    ParseHexPrefixed(p);
  }

  lemma HexTrimmed(h: string)
    requires |h| >= 1 && AllHexDigits(h)
    ensures !IsSpace(h[0]) && !IsSpace(h[|h| - 1])
  {
    assert IsHexDigit(h[0]) && IsHexDigit(h[|h| - 1]);
  }

  lemma ParseHexDigits(h: string)
    requires |h| >= 1 && AllHexDigits(h)
    requires forall k :: 0 <= k < |h| ==> h[k] != 'x' && h[k] != 'X'
    ensures ParseHex(h) == Some(HexValue(h))
  {
    HexTrimmed(h);
    StripTrimmed(h);
    HexBodyPlain(h);
  }

  lemma HexBodyPlain(h: string)
    requires |h| >= 1 && AllHexDigits(h)
    requires forall k :: 0 <= k < |h| ==> h[k] != 'x' && h[k] != 'X'
    ensures HexBody(h) == Some(HexValue(h))
  {
    if |h| >= 2 {
      assert h[1] != 'x' && h[1] != 'X';
    }
  }

  lemma ParseHexPrefixed(p: string)
    requires |p| >= 3 && p[0] == '0' && p[1] == 'x' && AllHexDigits(p[2..])
    requires !IsSpace(p[|p| - 1])
    ensures ParseHex(p) == Some(HexValue(p[2..]))
  {
    StripTrimmed(p);
  }

  // ---------------------------------------------------------------------------
  // C's atoi
  // ---------------------------------------------------------------------------

  /**
   * C's `atoi`: leading whitespace, an optional sign, then the longest run of decimal
   * digits; no digits read as 0 and anything after the run is ignored. The value is
   * unbounded here (out-of-range input is undefined behaviour in C).
   */
  function Atoi(s: string): int {
    var t := LStrip(s);
    var signed := |t| > 0 && (t[0] == '-' || t[0] == '+');
    var v: int := LeadingDecimal(if signed then t[1..] else t);
    if signed && t[0] == '-' then -v else v
  }

  /** The value of the longest run of decimal digits that starts `s` (0 for none). */
  function LeadingDecimal(s: string): (v: nat)
    ensures Span(s, IsDigit) == 0 ==> v == 0
  {
    var n := Span(s, IsDigit);
    DecValue(s[..n])
  }

  /** `atoi` reads back any integer written in decimal, with or without trailing text. */
  lemma AtoiOfDec(i: int, rest: string)
    requires |rest| == 0 || !IsDigit(rest[0])
    ensures Atoi(IntToDec(i) + rest) == i
  {
    if i < 0 {
      var d := NatToDec(-i);
      assert IntToDec(i) + rest == "-" + (d + rest);
      AtoiNegative(d, rest);
    } else {
      AtoiPositive(NatToDec(i), rest);
    }
  }

  lemma AtoiNegative(d: string, rest: string)
    requires |d| > 0 && AllDigits(d)
    requires |rest| == 0 || !IsDigit(rest[0])
    ensures Atoi("-" + (d + rest)) == -(DecValue(d) as int)
  {
    AtoiUnsigned(d, rest);
    var s := "-" + (d + rest);
    var t := LStrip(s);
    assert t == s;
    assert t[0] == '-';
    assert t[1..] == d + rest;
    assert LeadingDecimal(d + rest) == DecValue(d);
  }

  lemma AtoiPositive(d: string, rest: string)
    requires |d| > 0 && AllDigits(d)
    requires |rest| == 0 || !IsDigit(rest[0])
    ensures Atoi(d + rest) == DecValue(d)
  {
    var t := d + rest;
    assert LStrip(t) == t && LeadingDecimal(t) == DecValue(d) by {
      AtoiUnsigned(d, rest);
    }
    assert t[0] != '-' && t[0] != '+' by {
      assert t[0] == d[0] && IsDigit(d[0]);
    }
  }

  /** The digit-run step of `AtoiOfDec`. */
  lemma AtoiUnsigned(d: string, rest: string)
    requires |d| > 0 && AllDigits(d)
    requires |rest| == 0 || !IsDigit(rest[0])
    ensures Span(d + rest, IsDigit) == |d| && (d + rest)[..|d|] == d
    ensures LStrip(d + rest) == d + rest
    ensures LStrip("-" + (d + rest)) == "-" + (d + rest)
  {
    SpanOfConcat(d, rest, IsDigit);
    assert IsDigit((d + rest)[0]);
    assert (d + rest)[0..] == d + rest;
    assert ("-" + (d + rest))[0..] == "-" + (d + rest);
  }

  // ---------------------------------------------------------------------------
  // Reading a text as lines
  // ---------------------------------------------------------------------------

  predicate NotNewline(c: char) { c != '\n' }

  /** `f.readlines()`: the text cut after every newline, each line keeping its newline. */
  function ReadLines(s: string): (r: seq<string>)
    ensures forall k :: 0 <= k < |r| ==> |r[k]| > 0
    ensures forall k :: 0 <= k < |r| - 1 ==> r[k][|r[k]| - 1] == '\n'
    decreases |s|
  {
    if |s| == 0 then []
    else
      var n := Span(s, NotNewline);
      if n == |s| then [s] else [s[..n + 1]] + ReadLines(s[n + 1..])
  }

  /** A newline inside a line is always its last character. */
  predicate NewlinesEndLines(lines: seq<string>) {
    forall k, i :: 0 <= k < |lines| && 0 <= i < |lines[k]| - 1 ==> lines[k][i] != '\n'
  }

  /** The lines put back together are the text; a newline only ever ends a line. */
  lemma {:induction false} ReadLinesJoin(s: string)
    ensures Join(ReadLines(s), "") == s
    ensures NewlinesEndLines(ReadLines(s))
    decreases |s|, 1
  {
    if |s| > 0 {
      var n := Span(s, NotNewline);
      if n == |s| {
        ReadLinesLast(s);
      } else {
        ReadLinesCons(s, n);
      }
    }
  }

  /** Text without a newline is one line. */
  lemma ReadLinesLast(s: string)
    requires |s| > 0 && Span(s, NotNewline) == |s|
    ensures Join(ReadLines(s), "") == s
    ensures NewlinesEndLines(ReadLines(s))
  {
    assert ReadLines(s) == [s];
  }

  /** Text with a newline is its first line followed by the lines of the rest. */
  lemma {:induction false} ReadLinesCons(s: string, n: nat)
    requires n == Span(s, NotNewline) < |s|
    ensures Join(ReadLines(s), "") == s
    ensures NewlinesEndLines(ReadLines(s))
    decreases |s|, 0
  {
    var first, tail := s[..n + 1], s[n + 1..];
    ReadLinesJoin(tail);
    assert ReadLines(s) == [first] + ReadLines(tail);
    JoinLinesCons(first, ReadLines(tail));
    assert s == first + tail;
    assert forall i :: 0 <= i < |first| - 1 ==> first[i] != '\n';
    NewlinesEndCons(first, ReadLines(tail));
  }

  /** Joining with no separator puts the first line in front of the rest. */
  lemma JoinLinesCons(first: string, rest: seq<string>)
    ensures Join([first] + rest, "") == first + Join(rest, "")
  {
    if |rest| > 0 {
      assert ([first] + rest)[1..] == rest;
    } else {
      assert [first] + rest == [first];
    }
  }

  /** A first line whose only newline is its last character keeps the property. */
  lemma NewlinesEndCons(first: string, rest: seq<string>)
    requires forall i :: 0 <= i < |first| - 1 ==> first[i] != '\n'
    requires NewlinesEndLines(rest)
    ensures NewlinesEndLines([first] + rest)
  {
    var lines := [first] + rest;
    forall k, i | 0 <= k < |lines| && 0 <= i < |lines[k]| - 1 ensures lines[k][i] != '\n' {
      if k > 0 {
        assert lines[k] == rest[k - 1];
      }
    }
  }
}

=== FILE: vdso_parser.dfy ===
/**
 * vdso_bench/parser.py: gathers the result files of vdso_bench into one table. Every line
 * of every file that mentions one of eight clock names is cut at single spaces; its fifth
 * field names a row and its seventh is the value stored in the file's column. The table
 * prints one header line of column labels and one line per row, in first-seen order.
 *
 * The directory listing is a parameter: the files in `os.listdir` order, each with its
 * name and contents. The printed text is returned as one string, or the exception that
 * stops the script.
 */
module VdsoParser {
  import opened Wrappers
  import opened Text
  import opened Dict
  import opened Seqs

  /** The clock names a line is searched for (vdso_bench/parser.py:7). */
  const TIMERS: seq<string> := [
    "CLOCK_REALTIME", "CLOCK_MONOTONIC", "CLOCK_PROCESS_CPUTIME_ID", "CLOCK_THREAD_CPUTIME_ID",
    "CLOCK_MONOTONIC_RAW", "CLOCK_REALTIME_COARSE", "CLOCK_MONOTONIC_COARSE", "CLOCK_BOOTTIME"
  ]

  /** One entry of the results directory. */
  datatype ResultFile = ResultFile(name: string, content: string)

  /** `d`: row name to (file name to value), both insertion-ordered. */
  type Table = Dict<Dict<string>>

  const INDEX_ERROR: string := "IndexError: list index out of range"

  // ---------------------------------------------------------------------------
  // The line vdso_bench prints
  // ---------------------------------------------------------------------------

  /** The ten words of vdso_bench.c's `"Number of calls to %s : %.2f M/s per thread\n"`. */
  function ReportWords(name: string, rate: string): seq<string> {
    ["Number", "of", "calls", "to", name, ":", rate, "M/s", "per", "thread\n"]
  }

  /** The line vdso_bench prints for one clock, with the rate already formatted: its words joined by single spaces. */
  function ReportLine(name: string, rate: string): string {
    Join(ReportWords(name, rate), " ")
  }

  /** `line.split(' ')[n]`, or None where Python raises IndexError. */
  function Field(line: string, n: nat): (r: Option<string>)
    ensures r.Some? <==> n < |Split(line, ' ')|
    ensures r.Some? ==> ' ' !in r.value
  {
    SplitPieces(line, ' ');
    var pieces := Split(line, ' ');
    if n < |pieces| then Some(pieces[n]) else None
  }

  /** The value the table holds for row `k` and column `f`. */
  function Cell(d: Table, k: string, f: string): Option<string> {
    match Get(d, k)
    case None => None
    case Some(row) => Get(row, f)
  }

  /** The row `k` as it stands, or a new empty one. */
  function RowOf(d: Table, k: string): Dict<string> {
    match Get(d, k)
    case None => []
    case Some(row) => row
  }

  /** `if timer not in d: d[timer] = {}` followed by `d[timer][filename] = value`. */
  function Store(d: Table, k: string, f: string, v: string): (r: Table)
    ensures HasKey(r, k)
    ensures forall k' :: HasKey(r, k') <==> HasKey(d, k') || k' == k
  {
    var r := Put(d, k, Put(RowOf(d, k), f, v));
    forall k' ensures HasKey(r, k') <==> HasKey(d, k') || k' == k {
      GetPut(d, k, Put(RowOf(d, k), f, v), k');
    }
    r
  }

  /** A store writes exactly one cell. */
  lemma StoreCell(d: Table, k: string, f: string, v: string, k': string, f': string)
    ensures Cell(Store(d, k, f, v), k', f') == if k' == k && f' == f then Some(v) else Cell(d, k', f')
  {
    GetPut(d, k, Put(RowOf(d, k), f, v), k');
    GetPut(RowOf(d, k), f, v, f');
  }

  /** Storing the same cell twice is storing it once. */
  lemma StoreTwice(d: Table, k: string, f: string, v: string)
    ensures Store(Store(d, k, f, v), k, f, v) == Store(d, k, f, v)
  {
    var row := Put(RowOf(d, k), f, v);
    GetPut(d, k, row, k);
    assert RowOf(Store(d, k, f, v), k) == row;
    PutPut(RowOf(d, k), f, v, v);
    PutPut(d, k, row, row);
  }

  // ---------------------------------------------------------------------------
  // Scanning the files
  // ---------------------------------------------------------------------------

  /** `for timer in TIMERS: if timer in line: ...`, from the given timer on. */
  function ScanTimers(d: Table, f: string, line: string, timers: seq<string>): Result<Table, string>
    decreases |timers|
  {
    if |timers| == 0 then Success(d)
    else if !Contains(line, timers[0]) then ScanTimers(d, f, line, timers[1..])
    else
      match (Field(line, 4), Field(line, 6))
      case (Some(k), Some(v)) => ScanTimers(Store(d, k, f, v), f, line, timers[1..])
      case _ => Failure(INDEX_ERROR)
  }

  /** The body of the `while line := file.readline()` loop. */
  function ScanLine(d: Table, f: string, line: string): Result<Table, string> {
    ScanTimers(d, f, line, TIMERS)
  }

  /** A matching line with at least seven fields; the other matching lines raise. */
  predicate Matches(line: string) {
    ContainsAny(line, TIMERS)
  }

  /**
   * A line that mentions no timer leaves the table alone; one that does stores its fifth
   * field's row and seventh field's value once, however many timer names it holds, and
   * raises IndexError when it has fewer than seven fields.
   */
  lemma ScanLineEffect(d: Table, f: string, line: string)
    ensures !Matches(line) ==> ScanLine(d, f, line) == Success(d)
    ensures Matches(line) ==> (ScanLine(d, f, line).Success? <==> |Split(line, ' ')| >= 7)
    ensures Matches(line) && |Split(line, ' ')| >= 7 ==>
      ScanLine(d, f, line) == Success(Store(d, Split(line, ' ')[4], f, Split(line, ' ')[6]))
  {
    ScanTimersEffect(d, f, line, TIMERS);
  }

  lemma {:induction false} ScanTimersEffect(d: Table, f: string, line: string, timers: seq<string>)
    ensures !ContainsAny(line, timers) ==> ScanTimers(d, f, line, timers) == Success(d)
    ensures ContainsAny(line, timers) ==> (ScanTimers(d, f, line, timers).Success? <==> |Split(line, ' ')| >= 7)
    ensures ContainsAny(line, timers) && |Split(line, ' ')| >= 7 ==>
      ScanTimers(d, f, line, timers) == Success(Store(d, Split(line, ' ')[4], f, Split(line, ' ')[6]))
    decreases |timers|
  {
    if |timers| > 0 {
      var rest := timers[1..];
      assert ContainsAny(line, timers) <==> Contains(line, timers[0]) || ContainsAny(line, rest) by {
        if ContainsAny(line, rest) {
          var k :| 0 <= k < |rest| && Contains(line, rest[k]);
          assert timers[k + 1] == rest[k];
        }
        if ContainsAny(line, timers) && !Contains(line, timers[0]) {
          var k :| 0 <= k < |timers| && Contains(line, timers[k]);
          assert rest[k - 1] == timers[k];
        }
      }
      if !Contains(line, timers[0]) {
        ScanTimersEffect(d, f, line, rest);
      } else if |Split(line, ' ')| >= 7 {
        var pieces := Split(line, ' ');
        var d' := Store(d, pieces[4], f, pieces[6]);
        ScanTimersEffect(d', f, line, rest);
        StoreTwice(d, pieces[4], f, pieces[6]);
      }
    }
  }

  /** The scan of one file's lines, stopping at the first exception. */
  function ScanLines(d: Table, f: string, lines: seq<string>): Result<Table, string>
    decreases |lines|
  {
    if |lines| == 0 then Success(d)
    else
      match ScanLine(d, f, lines[0])
      case Failure(e) => Failure(e)
      case Success(d') => ScanLines(d', f, lines[1..])
  }

  /** Every matching line has the seven fields the scan reads. */
  predicate WellFormed(lines: seq<string>) {
    forall i :: 0 <= i < |lines| && Matches(lines[i]) ==> |Split(lines[i], ' ')| >= 7
  }

  /** The (row, value) pairs the matching lines contribute, in file order. */
  function Entries(lines: seq<string>): (r: seq<(string, string)>)
    requires WellFormed(lines)
    decreases |lines|
  {
    if |lines| == 0 then []
    else
      var rest := Entries(lines[1..]);
      if Matches(lines[0]) then [(Split(lines[0], ' ')[4], Split(lines[0], ' ')[6])] + rest else rest
  }

  /** Each entry in turn stored into column `f`. */
  function StoreAll(d: Table, f: string, kvs: seq<(string, string)>): Table
    decreases |kvs|
  {
    if |kvs| == 0 then d else StoreAll(Store(d, kvs[0].0, f, kvs[0].1), f, kvs[1..])
  }

  /** A file scans without an exception exactly when its matching lines are well formed, and then stores its entries. */
  lemma {:induction false} ScanLinesStores(d: Table, f: string, lines: seq<string>)
    ensures ScanLines(d, f, lines).Success? <==> WellFormed(lines)
    ensures WellFormed(lines) ==> ScanLines(d, f, lines) == Success(StoreAll(d, f, Entries(lines)))
    decreases |lines|
  {
    if |lines| > 0 {
      ScanLineEffect(d, f, lines[0]);
      assert forall i :: 1 <= i < |lines| ==> lines[i] == lines[1..][i - 1];
      if ScanLine(d, f, lines[0]).Success? {
        ScanLinesStores(ScanLine(d, f, lines[0]).value, f, lines[1..]);
      }
    }
  }

  /**
   * Column `f` of row `k` holds the value of the last entry for `k`; every other cell is
   * as before.
   */
  lemma {:induction false} StoreAllCell(d: Table, f: string, kvs: seq<(string, string)>, k: string, g: string)
    ensures Cell(StoreAll(d, f, kvs), k, g)
         == if g == f && LastValue(kvs, k).Some? then LastValue(kvs, k) else Cell(d, k, g)
    decreases |kvs|
  {
    if |kvs| > 0 {
      var d' := Store(d, kvs[0].0, f, kvs[0].1);
      StoreAllCell(d', f, kvs[1..], k, g);
      StoreCell(d, kvs[0].0, f, kvs[0].1, k, g);
      LastValueCons(kvs[0], kvs[1..], k);
      assert kvs == [kvs[0]] + kvs[1..];
    }
  }

  /** For a given row and file, the last matching line wins. */
  lemma LastLineWins(d: Table, f: string, lines: seq<string>, k: string)
    requires WellFormed(lines)
    ensures ScanLines(d, f, lines).Success?
    ensures Cell(ScanLines(d, f, lines).value, k, f)
         == if LastValue(Entries(lines), k).Some? then LastValue(Entries(lines), k) else Cell(d, k, f)
  {
    ScanLinesStores(d, f, lines);
    StoreAllCell(d, f, Entries(lines), k, f);
  }

  /** Scanning one file never changes another file's column. */
  lemma OtherColumnsKept(d: Table, f: string, lines: seq<string>, k: string, g: string)
    requires WellFormed(lines) && g != f
    ensures ScanLines(d, f, lines).Success?
    ensures Cell(ScanLines(d, f, lines).value, k, g) == Cell(d, k, g)
  {
    ScanLinesStores(d, f, lines);
    StoreAllCell(d, f, Entries(lines), k, g);
  }

  /** The outer loop: every file in listing order. */
  function ScanFiles(d: Table, files: seq<ResultFile>): Result<Table, string>
    decreases |files|
  {
    if |files| == 0 then Success(d)
    else
      match ScanLines(d, files[0].name, ReadLines(files[0].content))
      case Failure(e) => Failure(e)
      case Success(d') => ScanFiles(d', files[1..])
  }

  /** File names in a directory listing are distinct. */
  predicate DistinctNames(files: seq<ResultFile>) {
    forall i, j :: 0 <= i < j < |files| ==> files[i].name != files[j].name
  }

  /** The entries of one file's contents. */
  function FileEntries(file: ResultFile): seq<(string, string)>
    requires WellFormed(ReadLines(file.content))
  {
    Entries(ReadLines(file.content))
  }

  /**
   * After the whole scan, each file's column holds, for each row, the value of that file's
   * last line for the row.
   */
  lemma {:induction false} ScanFilesCell(d: Table, files: seq<ResultFile>, j: nat, k: string)
    requires DistinctNames(files) && j < |files|
    requires ScanFiles(d, files).Success?
    ensures WellFormed(ReadLines(files[j].content))
    ensures Cell(ScanFiles(d, files).value, k, files[j].name)
         == var e := FileEntries(files[j]);
            if LastValue(e, k).Some? then LastValue(e, k) else Cell(d, k, files[j].name)
    decreases |files|
  {
    var lines := ReadLines(files[0].content);
    ScanLinesStores(d, files[0].name, lines);
    var d' := ScanLines(d, files[0].name, lines).value;
    assert forall i :: 1 <= i < |files| ==> files[i] == files[1..][i - 1];
    if j == 0 {
      ScanFilesOther(d', files[1..], k, files[0].name);
      LastLineWins(d, files[0].name, lines, k);
    } else {
      ScanFilesCell(d', files[1..], j - 1, k);
      OtherColumnsKept(d, files[0].name, lines, k, files[j].name);
    }
  }

  /** Files not named `g` never touch column `g`. */
  lemma {:induction false} ScanFilesOther(d: Table, files: seq<ResultFile>, k: string, g: string)
    requires forall i :: 0 <= i < |files| ==> files[i].name != g
    requires ScanFiles(d, files).Success?
    ensures Cell(ScanFiles(d, files).value, k, g) == Cell(d, k, g)
    decreases |files|
  {
    if |files| > 0 {
      var lines := ReadLines(files[0].content);
      ScanLinesStores(d, files[0].name, lines);
      OtherColumnsKept(d, files[0].name, lines, k, g);
      assert forall i :: 1 <= i < |files| ==> files[i] == files[1..][i - 1];
      ScanFilesOther(ScanLines(d, files[0].name, lines).value, files[1..], k, g);
    }
  }

  // ---------------------------------------------------------------------------
  // What the scan makes of vdso_bench's own lines
  // ---------------------------------------------------------------------------

  /** The fields of a report line: the clock name is the fifth and the rate the seventh. */
  lemma ReportLineFields(name: string, rate: string)
    requires ' ' !in name && ' ' !in rate
    ensures Split(ReportLine(name, rate), ' ') == ReportWords(name, rate)
  {
    SplitJoin(ReportWords(name, rate), ' ');
  }

  /** A substring of the middle part is a substring of the whole. */
  lemma ContainsInMiddle(a: string, b: string, c: string, sub: string)
    requires Contains(b, sub)
    ensures Contains(a + b + c, sub)
  {
    var i :| 0 <= i <= |b| && OccursAt(b, sub, i);
    assert (a + b + c)[|a| + i..|a| + i + |sub|] == b[i..i + |sub|];
    assert OccursAt(a + b + c, sub, |a| + i);
  }

  /**
   * A report line whose clock name holds one of the timer names stores the rate under
   * the clock name: a clock outside the list, such as CLOCK_REALTIME_ALARM, becomes a row
   * too, because matching is by substring.
   */
  lemma ReportLineStored(d: Table, f: string, name: string, rate: string)
    requires ' ' !in name && ' ' !in rate && ContainsAny(name, TIMERS)
    ensures ScanLine(d, f, ReportLine(name, rate)) == Success(Store(d, name, f, rate))
  {
    var line := ReportLine(name, rate);
    ReportLineFields(name, rate);
    var k :| 0 <= k < |TIMERS| && Contains(name, TIMERS[k]);
    NameInReportLine(name, rate, TIMERS[k]);
    ScanLineEffect(d, f, line);
  }

  /** Whatever the clock name contains, the report line contains. */
  lemma NameInReportLine(name: string, rate: string, sub: string)
    requires Contains(name, sub)
    ensures Contains(ReportLine(name, rate), sub)
  {
    var words := ReportWords(name, rate);
    var front, back := Join(words[..4], " ") + " ", " " + Join(words[5..], " ");
    assert ReportLine(name, rate) == front + name + back by {
      JoinAt(words, " ", 4);
      assert Join(words[4..], " ") == name + " " + Join(words[5..], " ") by {
        assert words[4..][1..] == words[5..];
      }
    }
    ContainsInMiddle(front, name, back, sub);
  }

  /** CLOCK_REALTIME_ALARM, which is not in the list, still contains CLOCK_REALTIME. */
  lemma AlarmClockMatches()
    ensures ContainsAny("CLOCK_REALTIME_ALARM", TIMERS)
    ensures "CLOCK_REALTIME_ALARM" !in TIMERS
  {
    assert OccursAt("CLOCK_REALTIME_ALARM", TIMERS[0], 0);
  }

  /** Every timer name starts with a capital C, so a line that mentions one holds a C. */
  lemma MatchHasCapitalC(line: string)
    ensures Matches(line) ==> 'C' in line
  {
    if Matches(line) {
      var k :| 0 <= k < |TIMERS| && Contains(line, TIMERS[k]);
      var i :| 0 <= i <= |line| && OccursAt(line, TIMERS[k], i);
      assert TIMERS[k][0] == 'C';
      assert line[i] == line[i..i + |TIMERS[k]|][0];
    }
  }

  /** A line without a capital C mentions no timer, so the scan skips it. */
  lemma NoCapitalCSkipped(d: Table, f: string, line: string)
    requires 'C' !in line
    ensures ScanLine(d, f, line) == Success(d)
  {
    MatchHasCapitalC(line);
    ScanLineEffect(d, f, line);
  }

  /** The eleventh clock's line, "rmikey code (aarch64 specific code)", never reaches the table. */
  lemma AarchLineSkipped(d: Table, f: string, rate: string)
    requires 'C' !in rate
    ensures ScanLine(d, f, ReportLine("rmikey code (aarch64 specific code)", rate)) == Success(d)
  {
    var line := ReportLine("rmikey code (aarch64 specific code)", rate);
    NotInJoin(ReportWords("rmikey code (aarch64 specific code)", rate), " ", 'C');
    NoCapitalCSkipped(d, f, line);
  }

  // ---------------------------------------------------------------------------
  // Printing the table
  // ---------------------------------------------------------------------------

  /** `col.split('_')[1]`, or None where Python raises IndexError. */
  function ColumnLabel(col: string): (r: Option<string>)
    ensures r.Some? <==> |Split(col, '_')| >= 2
  {
    var pieces := Split(col, '_');
    if |pieces| >= 2 then Some(pieces[1]) else None
  }

  /** A file named `<a>_<b>` or `<a>_<b>_<more>` is labelled `<b>`. */
  lemma ColumnLabelOf(a: string, b: string, more: string)
    requires '_' !in a && '_' !in b
    ensures ColumnLabel(a + "_" + b) == Some(b)
    ensures ColumnLabel(a + "_" + b + "_" + more) == Some(b)
  {
    SplitAtFirst(a, '_', b);
    SplitNoSeparator(b, '_');
    assert a + "_" + b + "_" + more == a + "_" + (b + "_" + more);
    SplitAtFirst(a, '_', b + "_" + more);
    SplitAtFirst(b, '_', more);
  }

  /** The cells of one printed line: each text followed by ", ". */
  function CellText(cells: seq<string>): string
    decreases |cells|
  {
    if |cells| == 0 then "" else cells[0] + ", " + CellText(cells[1..])
  }

  /**
   * Cutting the printed cells at commas gives the cells back: the first as printed, each
   * later one behind the space that follows a comma, and the single space after the last.
   */
  lemma {:induction false} CellTextSplit(cells: seq<string>)
    requires forall i :: 0 <= i < |cells| ==> ',' !in cells[i]
    ensures |Split(CellText(cells), ',')| == |cells| + 1
    ensures |cells| > 0 ==> Split(CellText(cells), ',')[0] == cells[0]
    ensures forall i :: 1 <= i < |cells| ==> Split(CellText(cells), ',')[i] == " " + cells[i]
    ensures Split(CellText(cells), ',')[|cells|] == if |cells| > 0 then " " else ""
    decreases |cells|
  {
    if |cells| > 0 {
      var rest := cells[1..];
      assert forall i :: 1 <= i < |cells| ==> cells[i] == rest[i - 1];
      CellTextSplit(rest);
      CellTextCons(cells);
      var pieces, tail := Split(CellText(cells), ','), Split(CellText(rest), ',');
      forall i | 1 <= i < |cells| ensures pieces[i] == " " + cells[i] {
        if i > 1 {
          assert pieces[i] == tail[i - 1];
        }
      }
    }
  }

  /** The first cell, then the rest's pieces with a space in front of the first of them. */
  lemma CellTextCons(cells: seq<string>)
    requires |cells| > 0 && ',' !in cells[0]
    ensures var tail := Split(CellText(cells[1..]), ',');
      Split(CellText(cells), ',') == [cells[0]] + [" " + tail[0]] + tail[1..]
  {
    CellTextShape(cells);
    SplitCommaSpace(cells[0], CellText(cells[1..]));
  }

  /** The first cell, its comma, and the rest behind a space. */
  lemma CellTextShape(cells: seq<string>)
    requires |cells| > 0
    ensures CellText(cells) == cells[0] + [','] + (" " + CellText(cells[1..]))
  {
    var x, t := cells[0], CellText(cells[1..]);
    var comma: string, space: string := [','], " ";
    assert ", " == comma + space;
    assert CellText(cells) == x + (comma + space) + t;
    MiddleRegroup(x, comma, space, t);
  }

  /** Cutting `x, t` at commas: `x`, then the pieces of `t` with the space joining the first. */
  lemma SplitCommaSpace(x: string, t: string)
    requires ',' !in x
    ensures Split(x + [','] + (" " + t), ',') == [x] + [" " + Split(t, ',')[0]] + Split(t, ',')[1..]
  {
    SplitAtFirst(x, ',', " " + t);
    SpaceInFront(t);
  }

  /** A leading space joins the first piece of a comma split. */
  lemma SpaceInFront(t: string)
    ensures Split(" " + t, ',') == [" " + Split(t, ',')[0]] + Split(t, ',')[1..]
  {
    assert (" " + t)[1..] == t;
  }

  /** The labels of all columns, or the IndexError of the first file name without '_'. */
  function Labels(columns: seq<string>): (r: Result<seq<string>, string>)
    ensures r.Success? <==> forall i :: 0 <= i < |columns| ==> ColumnLabel(columns[i]).Some?
    ensures r.Success? ==> |r.value| == |columns|
    ensures r.Success? ==> forall i :: 0 <= i < |columns| ==> r.value[i] == ColumnLabel(columns[i]).value
    decreases |columns|
  {
    if |columns| == 0 then Success([])
    else
      assert forall i :: 1 <= i < |columns| ==> columns[i] == columns[1..][i - 1];
      match (ColumnLabel(columns[0]), Labels(columns[1..]))
      case (None, _) => Failure(INDEX_ERROR)
      case (_, Failure(e)) => Failure(e)
      case (Some(l), Success(ls)) => Success([l] + ls)
  }

  /** The values of one row in column order, or the KeyError of the first missing file. */
  function RowValues(row: Dict<string>, columns: seq<string>): (r: Result<seq<string>, string>)
    ensures r.Success? <==> forall i :: 0 <= i < |columns| ==> HasKey(row, columns[i])
    ensures r.Success? ==> |r.value| == |columns|
    ensures r.Success? ==> forall i :: 0 <= i < |columns| ==> Get(row, columns[i]) == Some(r.value[i])
    decreases |columns|
  {
    if |columns| == 0 then Success([])
    else
      assert forall i :: 1 <= i < |columns| ==> columns[i] == columns[1..][i - 1];
      match (Get(row, columns[0]), RowValues(row, columns[1..]))
      case (None, _) => Failure("KeyError: " + columns[0])
      case (_, Failure(e)) => Failure(e)
      case (Some(v), Success(vs)) => Success([v] + vs)
  }

  /** Every row has a value for every column. */
  predicate Complete(d: Table, columns: seq<string>) {
    forall r, i :: 0 <= r < |d| && 0 <= i < |columns| ==> HasKey(d[r].1, columns[i])
  }

  /** The row lines, in the table's order. */
  function RowLines(d: Table, columns: seq<string>): (r: Result<string, string>)
    ensures r.Success? <==> Complete(d, columns)
    decreases |d|
  {
    if |d| == 0 then Success("")
    else
      assert forall r :: 1 <= r < |d| ==> d[r] == d[1..][r - 1];
      match (RowValues(d[0].1, columns), RowLines(d[1..], columns))
      case (Failure(e), _) => Failure(e)
      case (_, Failure(e)) => Failure(e)
      case (Success(vs), Success(more)) => Success(d[0].0 + " " + CellText(vs) + "\n" + more)
  }

  /** What the script prints, or the exception that stops it. */
  function Report(files: seq<ResultFile>): (r: Result<string, string>)
    ensures r.Success? <==>
      && ScanFiles([], files).Success?
      && (forall i :: 0 <= i < |files| ==> ColumnLabel(files[i].name).Some?)
      && Complete(ScanFiles([], files).value, Names(files))
  {
    var columns := Names(files);
    match ScanFiles([], files)
    case Failure(e) => Failure(e)
    case Success(d) =>
      match (Labels(columns), RowLines(d, columns))
      case (Failure(e), _) => Failure(e)
      case (_, Failure(e)) => Failure(e)
      case (Success(labels), Success(rows)) => Success("name, " + CellText(labels) + "\n" + rows)
  }

  /** `columns`: the file names in listing order. */
  function Names(files: seq<ResultFile>): (r: seq<string>)
    ensures |r| == |files| && forall i :: 0 <= i < |files| ==> r[i] == files[i].name
  {
    seq(|files|, i requires 0 <= i < |files| => files[i].name)
  }

  /**
   * One printed row, cut at commas, lists the row's value for each file in header column
   * order.
   */
  lemma RowReadsBack(row: Dict<string>, columns: seq<string>, i: nat)
    requires RowValues(row, columns).Success? && 0 < i < |columns|
    requires forall j :: 0 <= j < |columns| ==> ',' !in Get(row, columns[j]).value
    ensures var cells := Split(CellText(RowValues(row, columns).value), ',');
      |cells| == |columns| + 1 && cells[0] == Get(row, columns[0]).value && cells[i] == " " + Get(row, columns[i]).value
  {
    CellTextSplit(RowValues(row, columns).value);
  }
}

=== FILE: vm_flags.dfy ===
/**
 * page_Fault/decode.py: read a `vm_flags` word in hexadecimal and print the name of
 * every VM_* flag of its table that the word has set, clearing each flag as it is
 * printed; whatever is left afterwards is reported as not decoded.
 */
module VmFlags {
  import opened Wrappers
  import opened Text
  import opened Bits

  /** The flag table, in the order the script lists it. */
  const FLAGS: seq<(string, nat)> := [
    ("VM_NONE", 0), ("VM_READ", 0x0000_0001),
    ("VM_WRITE", 0x0000_0002), ("VM_EXEC", 0x0000_0004),
    ("VM_SHARED", 0x0000_0008), ("VM_MAYREAD", 0x0000_0010),
    ("VM_MAYWRITE", 0x0000_0020), ("VM_MAYEXEC", 0x0000_0040),
    ("VM_MAYSHARE", 0x0000_0080), ("VM_ACCOUNT", 0x0010_0000),
    ("VM_NORESERVE", 0x0020_0000), ("VM_HUGETLB", 0x0040_0000)]

  /** The bit each mask of the table holds, and -1 for the empty mask of VM_NONE. */
  const FLAG_BITS: seq<int> := [-1, 0, 1, 2, 3, 4, 5, 6, 7, 20, 21, 22]

  /**
   * A table whose every mask is empty (listed bit `-1`) or the single bit listed for it,
   * no bit being listed twice.
   */
  predicate SingleBits(table: seq<(string, nat)>, bits: seq<int>) {
    && |bits| == |table|
    && (forall i :: 0 <= i < |table| ==> table[i].1 == if bits[i] < 0 then 0 else Pow2(bits[i]))
    && (forall i, k :: 0 <= i < k < |table| ==> bits[i] != bits[k])
  }

  /** The script's table has that shape. */
  lemma TableShape()
    ensures SingleBits(FLAGS, FLAG_BITS)
  {
    TableMasks();
    IncreasingDistinct(FLAG_BITS);
  }

  /** Each mask of the table is the power of two of its listed bit. */
  lemma TableMasks()
    ensures |FLAG_BITS| == |FLAGS|
    ensures forall i :: 0 <= i < |FLAGS| ==> FLAGS[i].1 == if FLAG_BITS[i] < 0 then 0 else Pow2(FLAG_BITS[i])
  {
    assert Pow2(7) == 0x80;
    assert Pow2(20) == 0x10_0000 && Pow2(21) == 0x20_0000 && Pow2(22) == 0x40_0000;
  }

  /** Strictly increasing numbers are pairwise distinct. */
  lemma {:induction false} IncreasingDistinct(bits: seq<int>)
    requires forall i :: 0 <= i < |bits| - 1 ==> bits[i] < bits[i + 1]
    ensures forall i, k :: 0 <= i < k < |bits| ==> bits[i] != bits[k]
    decreases |bits|
  {
    if |bits| > 1 {
      var tail := bits[1..];
      IncreasingDistinct(tail);
      IncreasingBelow(bits);
      forall i, k | 0 <= i < k < |bits| ensures bits[i] != bits[k] {
        if i > 0 {
          assert bits[i] == tail[i - 1] && bits[k] == tail[k - 1];
        }
      }
    }
  }

  /** The first of strictly increasing numbers is below all the others. */
  lemma {:induction false} IncreasingBelow(bits: seq<int>)
    requires forall i :: 0 <= i < |bits| - 1 ==> bits[i] < bits[i + 1]
    ensures forall k :: 0 < k < |bits| ==> bits[0] < bits[k]
    decreases |bits|
  {
    if |bits| > 2 {
      IncreasingBelow(bits[1..]);
      forall k | 1 < k < |bits| ensures bits[0] < bits[k] {
        assert bits[k] == bits[1..][k - 1];
      }
    }
  }

  /** What the loop leaves: the names printed, in order, and the word with their bits cleared. */
  datatype Decoded = Decoded(names: seq<string>, residual: int)

  /**
   * The loop from table entry `i` on: a flag whose mask meets the word is printed and
   * cleared with `x = ~v & x`, which is `x - (v & x)`.
   */
  function DecodeFrom(table: seq<(string, nat)>, x: int, i: nat): Decoded
    requires i <= |table|
    decreases |table| - i
  {
    if i == |table| then Decoded([], x)
    else
      var m := MaskOf(table[i].1, x);
      if m != 0 then
        var rest := DecodeFrom(table, x - m, i + 1);
        Decoded([table[i].0] + rest.names, rest.residual)
      else DecodeFrom(table, x, i + 1)
  }

  function Decode(input: int): Decoded {
    DecodeFrom(FLAGS, input, 0)
  }

  /** The bit listed for table entry `i` is set in `x`. */
  predicate HasFlag(bits: seq<int>, x: int, i: nat)
    requires i < |bits|
  {
    bits[i] >= 0 && Bit(x, bits[i] as nat)
  }

  /** The names of the table entries from `i` on whose bit is set in the input. */
  function Expected(table: seq<(string, nat)>, bits: seq<int>, input: int, i: nat): seq<string>
    requires |bits| == |table| && i <= |table|
    decreases |table| - i
  {
    if i == |table| then []
    else if HasFlag(bits, input, i) then [table[i].0] + Expected(table, bits, input, i + 1)
    else Expected(table, bits, input, i + 1)
  }

  /** Some table entry from `i` on holds bit `j`. */
  predicate InTable(bits: seq<int>, j: nat, i: nat) {
    exists k :: i <= k < |bits| && bits[k] == j as int
  }

  /** One pass of the loop: entry `i` prints exactly when its bit is set, and clearing it touches no other bit. */
  lemma Pass(table: seq<(string, nat)>, bits: seq<int>, x: int, i: nat, j: nat)
    requires SingleBits(table, bits) && i < |table|
    ensures MaskOf(table[i].1, x) != 0 <==> HasFlag(bits, x, i)
    ensures Bit(x - MaskOf(table[i].1, x), j) <==> Bit(x, j) && j as int != bits[i]
  {
    MaskPass(x, table[i].1, bits[i], j);
  }

  /** The pass for a mask that is empty (`c < 0`) or `1 << c`. */
  lemma MaskPass(x: int, v: nat, c: int, j: nat)
    requires v == if c < 0 then 0 else Pow2(c)
    ensures MaskOf(v, x) != 0 <==> c >= 0 && Bit(x, c as nat)
    ensures Bit(x - MaskOf(v, x), j) <==> Bit(x, j) && j as int != c
  {
    if c >= 0 {
      SingleBitPass(x, c as nat, j);
    }
  }

  /** The pass for a mask `1 << b`. */
  lemma SingleBitPass(x: int, b: nat, j: nat)
    ensures MaskOf(Pow2(b), x) != 0 <==> Bit(x, b)
    ensures Bit(x - MaskOf(Pow2(b), x), j) <==> Bit(x, j) && j != b
  {
    MaskOfPow2(b, x);
    if Bit(x, b) {
      ClearSetBit(x, b, j);
    }
  }

  /**
   * While the word still agrees with the input on every bit the rest of the table names,
   * the loop prints exactly the entries whose bit the input has.
   */
  lemma {:induction false} DecodeFromNames(table: seq<(string, nat)>, bits: seq<int>, input: int, x: int, i: nat)
    requires SingleBits(table, bits) && i <= |table|
    requires forall k :: i <= k < |table| ==> (HasFlag(bits, x, k) <==> HasFlag(bits, input, k))
    ensures DecodeFrom(table, x, i).names == Expected(table, bits, input, i)
    decreases |table| - i
  {
    if i < |table| {
      var x' := x - MaskOf(table[i].1, x);
      PassKeepsLater(table, bits, input, x, i);
      Pass(table, bits, x, i, 0);
      DecodeFromNames(table, bits, input, x', i + 1);
      if MaskOf(table[i].1, x) == 0 {
        assert x' == x;
      }
    }
  }

  /** Clearing entry `i` keeps the word agreeing with the input on the later entries. */
  lemma PassKeepsLater(table: seq<(string, nat)>, bits: seq<int>, input: int, x: int, i: nat)
    requires SingleBits(table, bits) && i < |table|
    requires forall k :: i <= k < |table| ==> (HasFlag(bits, x, k) <==> HasFlag(bits, input, k))
    ensures forall k :: i + 1 <= k < |table| ==>
      (HasFlag(bits, x - MaskOf(table[i].1, x), k) <==> HasFlag(bits, input, k))
  {
    forall k | i + 1 <= k < |table|
      ensures HasFlag(bits, x - MaskOf(table[i].1, x), k) <==> HasFlag(bits, input, k)
    {
      if bits[k] >= 0 {
        Pass(table, bits, x, i, bits[k] as nat);
        assert bits[i] != bits[k];
      }
    }
  }

  /** What the loop leaves has exactly the bits of the word that the rest of the table does not name. */
  lemma {:induction false} DecodeFromResidual(table: seq<(string, nat)>, bits: seq<int>, x: int, i: nat, j: nat)
    requires SingleBits(table, bits) && i <= |table|
    ensures Bit(DecodeFrom(table, x, i).residual, j) <==> Bit(x, j) && !InTable(bits, j, i)
    decreases |table| - i
  {
    if i < |table| {
      var x' := x - MaskOf(table[i].1, x);
      Pass(table, bits, x, i, j);
      DecodeFromResidual(table, bits, x', i + 1, j);
      if MaskOf(table[i].1, x) == 0 {
        assert x' == x;
        DecodeFromResidual(table, bits, x, i + 1, j);
      }
      if InTable(bits, j, i) && !InTable(bits, j, i + 1) {
        assert bits[i] == j as int;
      }
      if InTable(bits, j, i + 1) {
        var k :| i + 1 <= k < |bits| && bits[k] == j as int;
        assert InTable(bits, j, i);
      }
    }
  }

  /** Every name listed belongs to a table entry from `i` on whose bit the input has. */
  lemma {:induction false} ExpectedListsSetFlags(table: seq<(string, nat)>, bits: seq<int>, input: int, i: nat, name: string)
    requires |bits| == |table| && i <= |table|
    requires name in Expected(table, bits, input, i)
    ensures exists k :: i <= k < |table| && table[k].0 == name && HasFlag(bits, input, k)
    decreases |table| - i
  {
    if i < |table| && !(HasFlag(bits, input, i) && table[i].0 == name) {
      ExpectedListsSetFlags(table, bits, input, i + 1, name);
    }
  }

  /** The only VM_NONE entry of the script's table is the first, which has no bit. */
  lemma NoneHasNoBit(k: nat)
    requires k < |FLAGS| && FLAGS[k].0 == "VM_NONE"
    ensures FLAG_BITS[k] < 0
  {
    assert forall i :: 1 <= i < |FLAGS| ==> |FLAGS[i].0| != 7 || FLAGS[i].0[3] != 'N';
  }

  /**
   * The decoder prints, in table order, exactly the flags whose bit the input has (VM_NONE
   * never), and leaves exactly the input's bits that no flag names.
   */
  lemma DecodeCorrect(input: int, j: nat)
    ensures Decode(input).names == Expected(FLAGS, FLAG_BITS, input, 0)
    ensures Bit(Decode(input).residual, j) <==> Bit(input, j) && !InTable(FLAG_BITS, j, 0)
    ensures "VM_NONE" !in Expected(FLAGS, FLAG_BITS, input, 0)
  {
    TableShape();
    DecodeFromNames(FLAGS, FLAG_BITS, input, input, 0);
    DecodeFromResidual(FLAGS, FLAG_BITS, input, 0, j);
    if "VM_NONE" in Expected(FLAGS, FLAG_BITS, input, 0) {
      ExpectedListsSetFlags(FLAGS, FLAG_BITS, input, 0, "VM_NONE");
      var k :| 0 <= k < |FLAGS| && FLAGS[k].0 == "VM_NONE" && HasFlag(FLAG_BITS, input, k);
      NoneHasNoBit(k);
      assert false;
    }
  }

  /** A non-zero integer has a set bit (a negative one has infinitely many). */
  lemma {:induction false} NonZeroHasBit(x: int) returns (j: nat)
    requires x != 0
    ensures Bit(x, j)
    decreases if x < 0 then -x else x
  {
    if x % 2 == 1 {
      j := 0;
    } else {
      var h := NonZeroHasBit(x / 2);
      j := h + 1;
    }
  }

  /** How the script ends. */
  datatype Outcome =
    | Usage                                     // no argument: usage line, `exit(1)`
    | BadNumber(arg: string)                    // `int(arg, base=16)` raises
    | Printed(names: seq<string>, undecoded: Option<int>) // the names, then the residual when it is non-zero

  /** The script on its argument vector (program name first). */
  function Run(argv: seq<string>): (r: Outcome)
    ensures |argv| < 2 <==> r == Usage
    ensures r.Printed? <==> |argv| >= 2 && ParseHexInt(argv[1]).Some?
    ensures r.Printed? ==> r.names == Expected(FLAGS, FLAG_BITS, ParseHexInt(argv[1]).value, 0)
    ensures r.Printed? ==> (r.undecoded.Some? <==>
      exists j: nat :: Bit(ParseHexInt(argv[1]).value, j) && !InTable(FLAG_BITS, j, 0))
  {
    if |argv| < 2 then Usage
    else
      match ParseHexInt(argv[1])
      case None => BadNumber(argv[1])
      case Some(input) =>
        var d := Decode(input);
        DecodeCorrect(input, 0);
        WarnIffUndecoded(input);
        Printed(d.names, if d.residual != 0 then Some(d.residual) else None)
  }

  /** "Not all bits decoded" appears exactly when the input has a bit no flag names. */
  lemma WarnIffUndecoded(input: int)
    ensures Decode(input).residual != 0 <==> exists j: nat :: Bit(input, j) && !InTable(FLAG_BITS, j, 0)
  {
    var r := Decode(input).residual;
    if r != 0 {
      var j := NonZeroHasBit(r);
      DecodeCorrect(input, j);
    } else {
      forall j: nat | Bit(input, j) ensures InTable(FLAG_BITS, j, 0) {
        DecodeCorrect(input, j);
        ZeroHasNoBit(j);
      }
    }
  }
}

=== FILE: wrappers.dfy ===
/** Failure-carrying result types shared by every module of the model. */
module Wrappers {

  /** A value that may be absent: a NULL pointer, a regex that did not match, a key that is missing. */
  datatype Option<+T> = None | Some(value: T)

  /** Either a value or the reason the source would have stopped (an exception, an exit code). */
  datatype Result<+T, +E> = Success(value: T) | Failure(error: E)
}

=== FILE: x2apic.dfy ===
/**
 * examples/x2apic/read_msr.py: the IA32_APIC_BASE register (MSR 0x1b), as `rdmsr 0x1b`
 * prints it, is read as a hexadecimal number, and its two enable bits select one of the
 * four rows of Table 2-1 of Intel's x2APIC specification: bit 11 is the xAPIC global
 * enable (EN) and bit 10 the x2APIC enable (EXTD).
 *
 * What `rdmsr` writes to its output and error streams is a parameter; the error stream is
 * taken as the number of bytes it held and the output as already decoded text.
 */
module X2Apic {
  import opened Wrappers
  import opened Text
  import opened Bits

  /** IA32_APIC_BASE bit 10, EXTD: `1 << 10`. */
  const EXTD_BIT: nat := 10

  /** IA32_APIC_BASE bit 11, EN: `1 << 11`. */
  const EN_BIT: nat := 11

  const MSG_X2APIC: string := "local APIC is enabled in x2APIC mode"
  const MSG_XAPIC: string := "local APIC is enabled in xAPIC mode"
  const MSG_INVALID: string := "Invalid"
  const MSG_DISABLED: string := "local APIC is disabled"

  /** The hint printed after the error stream; the misspelling is the script's. */
  const MSG_NOT_ROOT: string := "Not able to execure rdmsr. Are you root?"

  /** The four states of the local APIC in Table 2-1 of Intel's x2APIC specification. */
  datatype ApicMode = Disabled | InvalidMode | XApicMode | X2ApicMode

  /** Table 2-1: the state the EN and EXTD bits select. */
  function TableMode(en: bool, extd: bool): ApicMode {
    if !en && !extd then Disabled
    else if !en && extd then InvalidMode
    else if en && !extd then XApicMode
    else X2ApicMode
  }

  /** The text the script prints for each state. */
  function Message(m: ApicMode): string {
    match m
    case Disabled => MSG_DISABLED
    case InvalidMode => MSG_INVALID
    case XApicMode => MSG_XAPIC
    case X2ApicMode => MSG_X2APIC
  }

  /** The four messages differ, so the printed line names the state. */
  lemma MessageNamesMode(a: ApicMode, b: ApicMode)
    ensures Message(a) == Message(b) <==> a == b
  {
    if a != b {
      assert |Message(a)| != |Message(b)|;
    }
  }

  /**
   * `x2apic = bool(val & (1 << 10))`, `xapic = bool(val & (1 << 11))` and the `if` chain
   * choosing the message.
   */
  function Classify(val: int): string {
    var x2apic := MaskOf(Pow2(EXTD_BIT), val) != 0;
    var xapic := MaskOf(Pow2(EN_BIT), val) != 0;
    if xapic && x2apic then MSG_X2APIC
    else if xapic && !x2apic then MSG_XAPIC
    else if !xapic && x2apic then MSG_INVALID
    else MSG_DISABLED
  }

  /** The message is the Table 2-1 row of the register's EN and EXTD bits, for any register value. */
  lemma ClassifyFollowsTable(val: int)
    ensures Classify(val) == Message(TableMode(Bit(val, EN_BIT), Bit(val, EXTD_BIT)))
  {
    MaskOfPow2(EXTD_BIT, val);
    MaskOfPow2(EN_BIT, val);
  }

  /** Bits other than EN and EXTD never change the message. */
  lemma OtherBitsIgnored(a: int, b: int)
    requires Bit(a, EN_BIT) == Bit(b, EN_BIT) && Bit(a, EXTD_BIT) == Bit(b, EXTD_BIT)
    ensures Classify(a) == Classify(b)
  {
    ClassifyFollowsTable(a);
    ClassifyFollowsTable(b);
  }

  /** How the script ends. */
  datatype Outcome =
    | NotRoot(errorBytes: nat)  // the error stream and MSG_NOT_ROOT printed, exit status 1
    | Crash(reason: string)     // `int(..., 16)` raised
    | Printed(msg: string)      // one message printed, exit status 0

  /** The whole script on what `rdmsr 0x1b` wrote. */
  function Run(stdout: string, errorBytes: nat): (r: Outcome)
    ensures r.NotRoot? <==> errorBytes > 0
    ensures r.Crash? <==> errorBytes == 0 && ParseHexInt(stdout).None?
    ensures r.Printed? ==> errorBytes == 0 && ParseHexInt(stdout).Some?
    ensures r.Printed? ==> var v := ParseHexInt(stdout).value;
      r.msg == Message(TableMode(Bit(v, EN_BIT), Bit(v, EXTD_BIT)))
  {
    if errorBytes > 0 then NotRoot(errorBytes)
    else
      match ParseHexInt(stdout)
      case None => Crash("ValueError")
      case Some(v) =>
        ClassifyFollowsTable(v);
        Printed(Classify(v))
  }

  /** `rdmsr` prints the register in lower-case hexadecimal on one line; that line is classified. */
  lemma RdmsrLine(n: nat)
    ensures Run(NatToHex(n) + "\n", 0) == Printed(Message(TableMode(Bit(n, EN_BIT), Bit(n, EXTD_BIT))))
  {
    HexLine(n);
  }

  /** `int(line.strip(), 16)` on a hexadecimal line with its newline. */
  lemma HexLine(n: nat)
    ensures ParseHexInt(NatToHex(n) + "\n") == Some(n as int)
  {
    var h := NatToHex(n);
    StripNewline(h);
    ParseHexToHex(n);
    StripTrimmed(h);
    assert ParseHex(h + "\n") == HexBody(h);
  }

  /** A line of hexadecimal digits loses only its newline to `strip()`. */
  lemma StripNewline(h: string)
    requires |h| >= 1 && AllHexDigits(h)
    ensures Strip(h + "\n") == h
  {
    HexTrimmed(h);
    assert AllSpace("") && AllSpace("\n");
    StripSurrounded("", h, "\n");
    assert "" + h + "\n" == h + "\n";
  }
}
